=== FILE: README.md ===
# Spatial disambiguation and geometry core of embodied_reasoner, in Dafny

embodied_reasoner drives an agent through AI2-THOR scenes on natural-language instructions such as
"pick up the book on the left". When an instruction names an object type with several instances in
the scene, a disambiguation layer picks one instance. This project models that layer, and the
geometry and perception code beneath it, as pure Dafny functions over immutable records. It proves
what each operation computes and how the operations relate.

The model is organised into modules that follow the Python files:

- **Disambiguation pipeline.**
  - `SpatialCalculator` (`SpatialRelationCalculator`): ground distance, bearing and direction
    sectors, landmark and container relations, bilingual keyword constraints, match scores and the
    best-match choice.
  - `HeuristicDetector` (`HeuristicAmbiguityDetector`): the keyword-family gate, the
    confidence-band decision, the ordered fallback chain and the clarification questions.
  - `NumberedPattern` and `VlmResponseParser`: the `<type><digit>` reference patterns, the
    canonical (x, z) sort and the keyword-chosen fallback sort.
  - `EnhancedAgent`: candidate collection, the selection logic of the enhanced `navigate`, its
    counters and the mapping restore.
  - `RocAgent`: the pure decisions of the base agent, namely duplicate-object indexing, the
    navigation lookup, confidence parsing and ranking, the user-reply parser, the auto-select gap,
    the navigability rule and the `exec` action dispatch.
- **Observation geometry.** `GeometricAnalyzer` covers shape classification, strategy choice,
  distance, viewpoints, angles and the ranking of approach positions.
- **Geometric data model.**
  - `SpatialData` (`data_structures.py`): affordance points, region and spatial signatures, their
    validation, queries, transforms and merging.
  - `BasicSignature`: the light signature with a rotation about y.
  - `RegionUtils`: the `slice_aabb` region tables.
- **Sensor to pose.**
  - `PointCloud`: depth preprocessing, back-projection, re-projection, colours and instance masks.
  - `PoseEstimation`: centre methods, axis alignment, scale, confidence and the object-type
    dispatch.
- **Scene index.** `EventIndex` (`eventObject.py`) holds the id, type and name maps, flag filters,
  lookups, `extract_item` and `match_object`.

Shared modules:

- `Scene`: the AI2-THOR object record. A missing key reads as `None`.
- `Dict`: Python's insertion-ordered dictionaries.
- `Ordering`: Python's stable `sorted`.
- `Text`: ASCII lower-casing, stripping, substring tests and integer parsing.
- `LinAlg`, `PointSets` and `Arrays`: vectors and 3 x 3 matrices, column reductions, and NumPy
  arrays of shape (3,), (3, 3) and (N, 3).
- `Wrappers`: `Option` and `Result`. An exception the source raises is an `Err` carrying the
  exception's name.

Floats are modelled as reals. The library routines the code calls are parameters, each constrained
only by the laws the proofs use:

- `RealMath.MathLib`: square root, atan2 in degrees, sine, cosine and tangent in degrees, and
  `round(x, 4)`.
- The PCA and median blur fields of `PoseEstimation.PoseLib` and `PointCloud.Sensors`.
- The orthogonalising function passed to `SpatialData.Construct`.

## Model

| member | source | states |
|---|---|---|
| SpatialCalculator.GroundDistance | evaluate/ai2thor_engine/spatial_enhancement/spatial_calculator.py:107-112 | the distance is non-negative and its square is the sum of the squared x and z differences, a missing coordinate reading as 0 |
| SpatialCalculator.GroundDistanceSymmetric | evaluate/ai2thor_engine/spatial_enhancement/spatial_calculator.py:107-112 | the distance is symmetric and does not depend on the height |
| SpatialCalculator.AngleTo | evaluate/ai2thor_engine/spatial_enhancement/spatial_calculator.py:138-151 | the bearing is atan2(dx, dz) in degrees, shifted by 360 when negative, so it lies in [0, 360) |
| SpatialCalculator.Sector | evaluate/ai2thor_engine/spatial_enhancement/spatial_calculator.py:128-136 | the direction word is the quarter turn the bearing falls into, quarters centred on 0, 90, 180 and 270 degrees |
| SpatialCalculator.RelativeDirection | evaluate/ai2thor_engine/spatial_enhancement/spatial_calculator.py:114-136 | the direction is the sector of the bearing of the object |
| SpatialCalculator.DirectionFollowsDominantAxis | evaluate/ai2thor_engine/spatial_enhancement/spatial_calculator.py:114-136 | an object strictly farther along +z, +x, -z or -x than along the other ground axis is front, right, back or left |
| SpatialCalculator.ProximityOf | evaluate/ai2thor_engine/spatial_enhancement/spatial_calculator.py:167-172 | near exactly below 1.5, far exactly above 3.0, medium otherwise |
| SpatialCalculator.LandmarkRelations | evaluate/ai2thor_engine/spatial_enhancement/spatial_calculator.py:153-174 | the keys are exactly the lower-cased types of the Window, Door, DoorFrame and Wall objects, and each records the proximity of the last landmark of that type |
| SpatialCalculator.ContainmentOf | evaluate/ai2thor_engine/spatial_enhancement/spatial_calculator.py:185 | "in" exactly when the receptacle id contains Cabinet or Drawer |
| SpatialCalculator.ContainerRelations | evaluate/ai2thor_engine/spatial_enhancement/spatial_calculator.py:176-187 | the keys are exactly the lower-cased type prefixes of the receptacle ids holding a bar, and each records the containment of the last such receptacle |
| SpatialCalculator.Relation | evaluate/ai2thor_engine/spatial_enhancement/spatial_calculator.py:70-94 | a relation carries the object id (objectId, else name, else unknown), the ground distance, the bearing to the agent (AngleTo) in [0, 360) with its sector, visibility defaulting to true, the landmark relations to all other candidates and the container relations of the parent receptacles |
| SpatialCalculator.RelativePositions | evaluate/ai2thor_engine/spatial_enhancement/spatial_calculator.py:51-98 | the dictionary keys are the candidate ids without repeats in first-appearance order; the value under each id is the relation of the last candidate with that id, as dict assignment overwrites; a non-empty candidate list gives a non-empty dictionary |
| SpatialCalculator.LastCandidateWins | evaluate/ai2thor_engine/spatial_enhancement/spatial_calculator.py:51-98 | a candidate with no later candidate of the same id has its own relation stored under its id |
| SpatialCalculator.NoRepeatsKeepsPairs | evaluate/ai2thor_engine/spatial_enhancement/spatial_calculator.py:51-98 | a dictionary with as many entries as candidates holds each candidate's id and relation at that candidate's position |
| SpatialCalculator.RelationIdsAreCandidateIds | evaluate/ai2thor_engine/spatial_enhancement/spatial_calculator.py:68-98 | every key of the relations dictionary is the id of some candidate |
| SpatialCalculator.MatchedKeywords | evaluate/ai2thor_engine/spatial_enhancement/spatial_calculator.py:202 | a word is matched exactly when it is a keyword occurring in the text; no occurring keyword gives no match |
| SpatialCalculator.ExtractConstraints | evaluate/ai2thor_engine/spatial_enhancement/spatial_calculator.py:189-206 | a kind is present exactly when one of its keywords occurs in the lower-cased instruction, its matched list is those keywords, and the kinds keep the table order |
| SpatialCalculator.ConstraintsOfKinds | evaluate/ai2thor_engine/spatial_enhancement/spatial_calculator.py:201-204 | the constraint filter keeps exactly the kinds with at least one matched keyword |
| SpatialCalculator.ConstraintsOfOrdered | evaluate/ai2thor_engine/spatial_enhancement/spatial_calculator.py:201-204 | the constraint filter keeps the table order of the kinds |
| SpatialCalculator.NoConstraints | evaluate/ai2thor_engine/spatial_enhancement/spatial_calculator.py:189-206 | an instruction holding none of the keywords carries no constraint |
| SpatialCalculator.BesideHoldsNoKeyword | evaluate/ai2thor_engine/spatial_enhancement/spatial_calculator.py:40-49 | the word "beside" holds none of the keywords, so it carries no constraint |
| SpatialCalculator.KindScore | evaluate/ai2thor_engine/spatial_enhancement/spatial_calculator.py:229-251 | a direction scores 1 exactly when it matches and 0 otherwise; near scores 1 exactly below 1.5 and 0 exactly from 3.0 on; far scores 1 exactly above 3.0 and 0 exactly up to 1.5 |
| SpatialCalculator.DistanceScoresMonotone | evaluate/ai2thor_engine/spatial_enhancement/spatial_calculator.py:235-251 | being closer never lowers the near score and never raises the far score |
| SpatialCalculator.SumScores | evaluate/ai2thor_engine/spatial_enhancement/spatial_calculator.py:222-251 | the summed score lies between 0 and the number of constraints |
| SpatialCalculator.ScoreMatch | evaluate/ai2thor_engine/spatial_enhancement/spatial_calculator.py:208-261 | the score lies in [0, 1] and is 0.5 without constraints |
| SpatialCalculator.ScoreFullMatch | evaluate/ai2thor_engine/spatial_enhancement/spatial_calculator.py:253-259 | a candidate meeting every constraint fully scores exactly 1.0, visible or not |
| SpatialCalculator.ScoreMonotone | evaluate/ai2thor_engine/spatial_enhancement/spatial_calculator.py:222-259 | meeting each constraint at least as well, with the same visibility, never scores lower |
| SpatialCalculator.VisibilityCountedTwice | evaluate/ai2thor_engine/spatial_enhancement/spatial_calculator.py:253-259 | a visible candidate meeting none of n constraints scores 0.1/n and reports confidence 0.1/n + 0.1 (0.2 for a single constraint), since the bonus is added again at line 311 |
| SpatialCalculator.BestScored | evaluate/ai2thor_engine/spatial_enhancement/spatial_calculator.py:296-313 | the pick is the first of the highest-scoring relations and its confidence is its score plus 0.1 for a visible one, capped at 1 |
| SpatialCalculator.SortedScoresHead | evaluate/ai2thor_engine/spatial_enhancement/spatial_calculator.py:302-306 | the head of the list sorted by score, highest first, is the first of the highest scores |
| SpatialCalculator.Closest | evaluate/ai2thor_engine/spatial_enhancement/spatial_calculator.py:286 | the picked relation is no farther than any other and strictly closer than every earlier one |
| SpatialCalculator.VisibleEntries | evaluate/ai2thor_engine/spatial_enhancement/spatial_calculator.py:283 | an entry is kept exactly when it is in the relations and visible; never more entries than relations |
| SpatialCalculator.VisibleEntriesAppend | evaluate/ai2thor_engine/spatial_enhancement/spatial_calculator.py:283 | the visibility filter of a concatenation is the filters of the parts in order, so input order is kept |
| SpatialCalculator.VisiblePos | evaluate/ai2thor_engine/spatial_enhancement/spatial_calculator.py:283 | each kept entry sits at a position of the input, and every visible input entry before it was kept before it |
| SpatialCalculator.ClosestPick | evaluate/ai2thor_engine/spatial_enhancement/spatial_calculator.py:280-291 | the confidence is 0.6 exactly when some relation is visible and 0.3 otherwise; the id is that of the first relation (visible ones only, at 0.6) whose distance is least, so of equally near relations the earliest wins as with min |
| SpatialCalculator.FindBestSpatialMatch | evaluate/ai2thor_engine/spatial_enhancement/spatial_calculator.py:263-315 | no id exactly when there is no candidate, with 0.0; the id is some candidate's; the confidence lies in [0, 1]; without constraints it is the closest pick, with constraints the first best score with its confidence |
| SpatialCalculator.PickFrom | evaluate/ai2thor_engine/spatial_enhancement/spatial_calculator.py:280-313 | the id is a key of the relations and the confidence lies in [0, 1]; the closest pick without constraints, the first best score with them |
| HeuristicDetector.SpatialFamilies | evaluate/ai2thor_engine/spatial_enhancement/heuristic_detector.py:134-156 | a family is reported exactly when one of its patterns matches the lower-cased instruction |
| HeuristicDetector.LandmarkStopsAtNewline | evaluate/ai2thor_engine/spatial_enhancement/heuristic_detector.py:43-47 | "window near" hits the landmark family, while "window" and "near" on two lines do not match the window pattern, whose gap holds no line break |
| HeuristicDetector.BesideEvadesScorer | evaluate/ai2thor_engine/spatial_enhancement/heuristic_detector.py:37-42 | "beside" is in the proximity family of the detector but carries no constraint for the calculator |
| HeuristicDetector.SpatialQuestion | evaluate/ai2thor_engine/spatial_enhancement/heuristic_detector.py:230-254 | the question is "I found <count> <type>s. Could you " followed by the sentence of the first family present, in the order directional, proximity, landmark, container, and the generic "help me identify which one you want?" when none is present; each family's sentence is stated exactly |
| HeuristicDetector.Locations | evaluate/ai2thor_engine/spatial_enhancement/heuristic_detector.py:271-277 | one location phrase per relation, in order |
| HeuristicDetector.SimpleQuestion | evaluate/ai2thor_engine/spatial_enhancement/heuristic_detector.py:256-284 | with a calculator, at most three candidates and one relation each, the question is "I see <count> <type>s: " with the locations joined by " and " and "Which one would you like?", and it contains every location; otherwise it is exactly the "I found <count> <type>s in the scene." question asking for more details |
| HeuristicDetector.ListingQuestion | evaluate/ai2thor_engine/spatial_enhancement/heuristic_detector.py:279-281 | the listing question starts with its head and contains every location joined into it |
| HeuristicDetector.SimpleQuestionNamesEachCandidate | evaluate/ai2thor_engine/spatial_enhancement/heuristic_detector.py:269-281 | when the question lists locations, it contains each candidate's own location: nearby or farther away and the direction of that candidate's relation |
| HeuristicDetector.BestMatch | evaluate/ai2thor_engine/spatial_enhancement/heuristic_detector.py:89-91 | the calculator's confidence lies in [0, 1], its id is a candidate's, and there is an id whenever there is a candidate |
| HeuristicDetector.DetectAmbiguity | evaluate/ai2thor_engine/spatial_enhancement/heuristic_detector.py:67-132 | at most one candidate is never ambiguous; otherwise ambiguity holds exactly when the gate finds no family, there is no calculator, or the best confidence is at most 0.7; an id is selected exactly when the confidence exceeds 0.4, and it is the calculator's best match; every ambiguity comes with a non-empty question |
| HeuristicDetector.AmongSeveral | evaluate/ai2thor_engine/spatial_enhancement/heuristic_detector.py:83-132 | with two or more candidates, ambiguity holds exactly when the spatial gate, the calculator and a best confidence above 0.7 do not all hold; an id, the calculator's best match with its confidence, is selected exactly when the gate passes with a calculator and a confidence above 0.4; a resolved result carries no question and an ambiguous one always carries a non-empty one |
| HeuristicDetector.SpatialOutcome | evaluate/ai2thor_engine/spatial_enhancement/heuristic_detector.py:86-125 | once spatial keywords were found: no calculator asks the spatial question; a confidence above 0.7 selects the best match with no question; above 0.4 selects it and still asks; otherwise asks with no selection and confidence 0.0 |
| HeuristicDetector.VisibleCandidates | evaluate/ai2thor_engine/spatial_enhancement/heuristic_detector.py:184 | a candidate is kept exactly when its visible flag is true or missing |
| HeuristicDetector.ClosestId | evaluate/ai2thor_engine/spatial_enhancement/heuristic_detector.py:209-211 | the id is that of the first relation of the candidates at least distance: no relation is nearer and every earlier one is strictly farther |
| HeuristicDetector.HeuristicSelection | evaluate/ai2thor_engine/spatial_enhancement/heuristic_detector.py:158-228 | no candidate selects nothing, one is selected at 1.0, a single visible one at 0.8, a spatial match above 0.5 at its confidence; otherwise the result is ambiguous with the closest at 0.4 or, without a calculator, the first at 0.3, and a non-empty question |
| HeuristicDetector.LaterTiers | evaluate/ai2thor_engine/spatial_enhancement/heuristic_detector.py:193-228 | with two or more candidates past the visibility rule, the result is resolved exactly when the gate passes with a calculator and a best confidence above 0.5, and then it is the best match at its confidence; otherwise it selects the closest candidate at 0.4, or without a calculator the first at 0.3, and asks the simple question |
| HeuristicDetector.GateWiderThanScorer | evaluate/ai2thor_engine/spatial_enhancement/heuristic_detector.py:84-132 | an instruction the gate accepts but that holds no calculator keyword, with all candidates visible, is reported ambiguous at 0.6 by detection yet resolved at 0.6 by the heuristic selection |
| HeuristicDetector.UnconstrainedScoresClosest | evaluate/ai2thor_engine/spatial_enhancement/heuristic_detector.py:89-91 | without constraints and with all candidates visible the calculator's confidence is 0.6 |
| GeometricAnalyzer.GeometryOf | evaluate/ai2thor_engine/spatial_enhancement/geometric_analyzer.py:28-38 | each side is the box size component, 1.0 when missing, and a missing size is a unit cube |
| GeometricAnalyzer.AspectRatio | evaluate/ai2thor_engine/spatial_enhancement/geometric_analyzer.py:44-46 | the ratio is at least 1; with a positive shortest side it times that side is the longest side, and otherwise it is 1.0 |
| GeometricAnalyzer.ShapeOf | evaluate/ai2thor_engine/spatial_enhancement/geometric_analyzer.py:51-58 | compact exactly up to ratio 1.5, linear exactly above 3.0, elongated in between |
| GeometricAnalyzer.OptimalDistance | evaluate/ai2thor_engine/spatial_enhancement/geometric_analyzer.py:171-190 | the distance lies in [0.5, 3.0]; it is the unclamped value when that lies strictly inside, 0.5 when that is at most 0.5 and 3.0 when that is at least 3.0 |
| GeometricAnalyzer.OptimalDistanceMonotone | evaluate/ai2thor_engine/spatial_enhancement/geometric_analyzer.py:173-190 | with the same height and shape class, a larger horizontal side never gets a smaller distance, before or after clamping |
| GeometricAnalyzer.RequiredViewpoints | evaluate/ai2thor_engine/spatial_enhancement/geometric_analyzer.py:192-213 | the count is 2 plus the volume, shape and height bands, capped at 6; hence between 2 and 6, at least 4 for a volume above 2.0 or a ratio above 4.0, at least 3 above height 2.0, exactly 2 for a small, compact, low box |
| GeometricAnalyzer.VolumeBand | evaluate/ai2thor_engine/spatial_enhancement/geometric_analyzer.py:198-201 | 2 exactly above volume 2.0, 1 exactly in (1.0, 2.0], 0 exactly at or below 1.0 |
| GeometricAnalyzer.ShapeBand | evaluate/ai2thor_engine/spatial_enhancement/geometric_analyzer.py:204-207 | 2 exactly above ratio 4.0, 1 exactly in (2.5, 4.0], 0 exactly at or below 2.5 |
| GeometricAnalyzer.HeightBand | evaluate/ai2thor_engine/spatial_enhancement/geometric_analyzer.py:210-211 | 1 exactly above height 2.0, else 0 |
| GeometricAnalyzer.RequiredViewpointsMonotone | evaluate/ai2thor_engine/spatial_enhancement/geometric_analyzer.py:192-213 | a box no larger in volume, ratio and height than another never needs more viewpoints |
| GeometricAnalyzer.MiddleBandsAddOne | evaluate/ai2thor_engine/spatial_enhancement/geometric_analyzer.py:192-213 | the middle volume and ratio bands add one viewpoint each: 3 for either alone, 4 for both, 5 with a tall box |
| GeometricAnalyzer.EvenAngles | evaluate/ai2thor_engine/spatial_enhancement/geometric_analyzer.py:230-232 | count angles, the i-th being i/count of a full turn, starting at 0 and strictly increasing within [0, 360) |
| GeometricAnalyzer.ViewingAngles | evaluate/ai2thor_engine/spatial_enhancement/geometric_analyzer.py:215-232 | the angles start at 0, increase strictly and lie in [0, 360); one viewpoint gives [0]; a linear box gets [0, 90, 180, 270] for four or more viewpoints, [0, 90, 270] for three and [0, 180] for two; other boxes get even steps; never more angles than viewpoints |
| GeometricAnalyzer.AnalyzeObservationRequirements | evaluate/ai2thor_engine/spatial_enhancement/geometric_analyzer.py:81-169 | single view exactly for small boxes, multi-view exactly for large or stretched ones that are not small, adaptive otherwise; approach distance max(0.8 d, 0.5) for single view, max(1.2 d, 1.0) for multi-view and 0.9 d for adaptive; adaptive angles [0, 90, 270] when the aspect ratio exceeds 2, else [0, 180]; with each strategy's viewpoints and coverage |
| GeometricAnalyzer.ShouldUseMultiview | evaluate/ai2thor_engine/spatial_enhancement/geometric_analyzer.py:303-306 | true exactly when the box is not small |
| GeometricAnalyzer.RodIsSingleView | evaluate/ai2thor_engine/spatial_enhancement/geometric_analyzer.py:93-110 | a 2.1 x 0.01 x 0.01 rod, longer than 2 and more stretched than 3, is observed from a single view because the small test comes first |
| GeometricAnalyzer.CupIsSingleView | evaluate/ai2thor_engine/spatial_enhancement/geometric_analyzer.py:112-124 | a 0.08 x 0.12 x 0.08 cup is observed once, head on, from 0.5 |
| GeometricAnalyzer.SofaHasFewerAnglesThanViewpoints | evaluate/ai2thor_engine/spatial_enhancement/geometric_analyzer.py:126-146 | a 2.5 x 0.8 x 1.2 sofa is given five viewpoints but only the four cardinal angles |
| GeometricAnalyzer.DistanceScore | evaluate/ai2thor_engine/spatial_enhancement/geometric_analyzer.py:287-301 | the score lies in [0, 1], is 1 exactly at the ideal distance, 0 at or below zero and from twice the ideal on, the ratio to the ideal when nearer, and 2 minus that ratio between the ideal and twice it |
| GeometricAnalyzer.BandScoresAtLeastHalf | evaluate/ai2thor_engine/spatial_enhancement/geometric_analyzer.py:259-301 | a distance within [0.8, 1.5] of the ideal scores at least 0.5 |
| GeometricAnalyzer.RankOne | evaluate/ai2thor_engine/spatial_enhancement/geometric_analyzer.py:253-266 | the ranked position keeps the position, its distance is the ground distance to the object, and its score is the distance score |
| GeometricAnalyzer.InBandOnly | evaluate/ai2thor_engine/spatial_enhancement/geometric_analyzer.py:259-262 | a ranked position is kept exactly when its distance lies within [0.8, 1.5] of the approach distance |
| GeometricAnalyzer.PositioningStrategy | evaluate/ai2thor_engine/spatial_enhancement/geometric_analyzer.py:234-285 | a missing x or z is a KeyError; otherwise the in-band positions, or all when none is in band, sorted by score highest first as a stable permutation; in-band results all score at least 0.5 |
| GeometricAnalyzer.RankPositions | evaluate/ai2thor_engine/spatial_enhancement/geometric_analyzer.py:250-285 | for a positive approach distance: the positions within [0.8, 1.5] of it, or all of them when none is, sorted by score highest first as a stable permutation; when some position is in band, every result is in band and scores at least 0.5 |
| NumberedPattern.WordDigitAt | spatial_enhancement/vlm_response_parser.py:13 | an anchored match of (\w+)(\d+) takes group 1 as the word characters up to the last digit of the word run and group 2 as that single digit |
| NumberedPattern.WordDigitAtGreedy | spatial_enhancement/vlm_response_parser.py:13 | whenever some split of the text fits the pattern, the anchored match exists and its group 2 starts no earlier than that split's |
| NumberedPattern.SearchNumber | spatial_enhancement/vlm_response_parser.py:13 | the search reports the leftmost position where the pattern matches, with its groups, and reports nothing exactly when no position matches |
| NumberedPattern.SearchAction | spatial_enhancement/vlm_response_parser.py:15 | the prefixed search reports the leftmost position where the optional verb phrase, blanks and the groups match |
| NumberedPattern.ActionMatchesIffNumberMatches | spatial_enhancement/vlm_response_parser.py:13-15 | the action pattern finds a match exactly when the bare pattern does, the verb phrase being optional |
| NumberedPattern.TwoDigitNumberSplits | spatial_enhancement/vlm_response_parser.py:13 | "vase12" reads as type "vase1" numbered 2, since group 2 is one digit |
| VlmResponseParser.SortConsistently | spatial_enhancement/vlm_response_parser.py:48-63 | the result is sorted by (x, z), is a permutation of the input, and keeps the input order among equal keys |
| VlmResponseParser.SameType | spatial_enhancement/vlm_response_parser.py:38-39 | a candidate is kept exactly when its lower-cased type contains the captured name, in candidate order |
| VlmResponseParser.PickNumbered | spatial_enhancement/vlm_response_parser.py:37-44 | too few objects of the type exactly when fewer than the number; number 0 on no object is an IndexError; number n >= 1 picks the n-th in canonical order, and 0 picks the last one |
| VlmResponseParser.ParseNumbered | spatial_enhancement/vlm_response_parser.py:17-46 | no match gives nothing; an action-pattern pick wins and its IndexError is raised; when the action pattern fails or finds too few objects, the bare pattern's pick, IndexError or too-few decides (object, error, nothing); an error happens exactly in those two IndexError cases, so only for number 0 |
| VlmResponseParser.ExtractObjectInfo | spatial_enhancement/vlm_response_parser.py:76-88 | a result exactly when the lower-cased reply holds a numbered reference; the result is the type and digit of the leftmost match, no earlier position matching; the type is a non-empty word and the number a single digit |
| VlmResponseParser.OptimalSortingStrategy | spatial_enhancement/vlm_response_parser.py:152-170 | left-to-right exactly when a side word occurs, otherwise distance exactly when a near word occurs, otherwise visibility exactly when a seeing word occurs, otherwise default |
| VlmResponseParser.SortLeftToRight | spatial_enhancement/vlm_response_parser.py:103-121 | a stable permutation sorted by the sideways offset from the agent, or by world x without an agent |
| VlmResponseParser.FacingNorthIsWorldOrder | spatial_enhancement/vlm_response_parser.py:172-200 | an agent with heading 0 sorts objects exactly as world x does, wherever it stands |
| VlmResponseParser.SortByDistance | spatial_enhancement/vlm_response_parser.py:123-136 | a stable permutation with ground distances to the agent non-decreasing |
| VlmResponseParser.SortByVisibility | spatial_enhancement/vlm_response_parser.py:138-150 | a stable permutation with visible objects first, a missing flag counting as not visible, each group by ascending x |
| VlmResponseParser.FallbackToSpatial | spatial_enhancement/vlm_response_parser.py:261-302 | no candidate fails with confidence 0.0; otherwise the head of the strategy's sort at 0.6, tagged with the strategy name |
| VlmResponseParser.DistanceTagWithoutAgent | spatial_enhancement/vlm_response_parser.py:283-291 | without an agent a distance instruction sorts by world x yet is tagged distance_based |
| VlmResponseParser.VisibilityFallbackPicksVisible | spatial_enhancement/vlm_response_parser.py:288-294 | under the visibility strategy a visible candidate is picked whenever there is one |
| VlmResponseParser.ResolveObjectReference | spatial_enhancement/vlm_response_parser.py:229-259 | an error exactly when a numbered reference is parsed with number 0 and fails; confidence 0.8 exactly when the parse picks a candidate; otherwise the spatial fallback |
| VlmResponseParser.FallbackIgnoresHeadinglessPose | spatial_enhancement/vlm_response_parser.py:283-291 | unless distance decides, an agent pose without heading picks what no agent picks |
| EnhancedAgent.NewAgent | spatial_enhancement/enhanced_agent.py:59-83 | the counters start at zero, and enhancements are available and switched on exactly when they are asked for and the modules load |
| EnhancedAgent.Looked | spatial_enhancement/enhanced_agent.py:156-163 | an object is gathered exactly when the lookup finds it for one of the target ids |
| EnhancedAgent.UniqueById | spatial_enhancement/enhanced_agent.py:169-178 | every kept object has a truthy id not seen before, and no two kept objects share an id |
| EnhancedAgent.UniqueCovers | spatial_enhancement/enhanced_agent.py:169-178 | every object with a truthy id not seen before has its id kept |
| EnhancedAgent.UniqueKeepsFirst | spatial_enhancement/enhanced_agent.py:169-178 | each kept object is the first with its id |
| EnhancedAgent.UniqueAppend | spatial_enhancement/enhanced_agent.py:169-178 | deduplicating a concatenation keeps the first part's survivors, then the second part's with the first part's ids already seen |
| EnhancedAgent.CandidateObjects | spatial_enhancement/enhanced_agent.py:144-178 | the candidates are the gathered objects with truthy ids, each id once and carried by its first object; they are the deduplicated target objects followed by the deduplicated objects of the type with the targets' ids already seen |
| EnhancedAgent.FirstWithObjectId | spatial_enhancement/enhanced_agent.py:115-118 | the first candidate with the id, and none exactly when no candidate has it |
| EnhancedAgent.FacingAngle | spatial_enhancement/enhanced_agent.py:252-259 | the heading is atan2(dx, dz) in degrees, shifted by 360 when negative, so it lies in [0, 360) |
| EnhancedAgent.FacingAheadIsNearZero | spatial_enhancement/enhanced_agent.py:252-259 | an object more ahead than aside is faced within 45 degrees of 0 |
| EnhancedAgent.FacingSideIsNearNinety | spatial_enhancement/enhanced_agent.py:252-259 | an object more to the +x side than ahead is faced between 45 and 135 degrees |
| EnhancedAgent.ToSpecificObject | spatial_enhancement/enhanced_agent.py:180-236 | the agent teleports exactly when the ranking of the interactable poses succeeds and is non-empty, to the best-scored pose and facing the object; otherwise it falls back to the original navigation of that object |
| EnhancedAgent.Navigate | spatial_enhancement/enhanced_agent.py:85-142 | the base navigation runs, with nothing counted, when enhancements are off or at most one candidate exists; otherwise one resolution is counted, an accepted detector pick is navigated to, a rejected one counts a fallback and goes to the closest candidate when a question was asked |
| EnhancedAgent.Steer | spatial_enhancement/enhanced_agent.py:105-137 | the ambiguous branch counts one resolution, follows an accepted pick, and otherwise counts a fallback and goes to the closest candidate when a question was asked |
| EnhancedAgent.ClosestIsCandidate | spatial_enhancement/enhanced_agent.py:127-133 | the closest relation's id is always a candidate's id, so the closest-candidate lookup never comes back empty |
| EnhancedAgent.EnhancedNavigationPicksObject | spatial_enhancement/enhanced_agent.py:114-137 | with enhancements on and several candidates, the final base navigation at line 137 is never reached |
| EnhancedAgent.SteerLeavesBase | spatial_enhancement/enhanced_agent.py:114-137 | a detector result that resolves to a candidate with confidence above 0.5, or that asks a non-empty question, never leads to the base navigation at line 137 |
| EnhancedAgent.NavigatePreservesConsistency | spatial_enhancement/enhanced_agent.py:85-142 | navigation keeps the switch consistent with availability |
| EnhancedAgent.OriginalNavigationMappings | spatial_enhancement/enhanced_agent.py:296-319 | during the base navigation the type maps to just the object; afterwards the mapping is restored exactly, except that an originally empty list is deleted |
| EnhancedAgent.ToggleEnhancements | spatial_enhancement/enhanced_agent.py:333-344 | switching on fails exactly when the modules are unavailable, leaving the agent unchanged; otherwise the switch is set |
| EnhancedAgent.ResetStats | spatial_enhancement/enhanced_agent.py:346-353 | the counters are zero and nothing else changes |
| EnhancedAgent.EnhancementStats | spatial_enhancement/enhanced_agent.py:321-331 | the report copies the switch, the availability and the counters |
| EnhancedAgent.ReportAfterOneNavigation | spatial_enhancement/enhanced_agent.py:85-142 | after a reset and one navigation every counter is at most 1, spatial calculations stay 0, and one resolution is counted exactly when the enhancement path ran |
| EnhancedAgent.ResolveVlmResponse | spatial_enhancement/enhanced_agent.py:355-391 | nothing with enhancements off; otherwise the resolver's selected object, which is a candidate, exactly when its id is truthy |
| EnhancedAgent.ReplyIgnoresAgentPosition | spatial_enhancement/enhanced_agent.py:370-381 | unless the instruction asks for distance, where the agent stands does not change the result |
| RocAgent.IndexedNameInjective | evaluate/ai2thor_engine/RocAgent.py:1080 | an indexed name determines its type and its number |
| RocAgent.IndexedNamesDiffer | evaluate/ai2thor_engine/RocAgent.py:1080 | different types never share an indexed name |
| RocAgent.TypeEntries | evaluate/ai2thor_engine/RocAgent.py:1076-1081 | a type with at most one object gets no name; otherwise its k-th object in (x, z) order is named Type_k (a missing x or z is the KeyError of InitObjectIndexing) |
| RocAgent.EntryKeysDistinct | evaluate/ai2thor_engine/RocAgent.py:1075-1081 | distinct types give distinct names, so no name is assigned twice |
| RocAgent.ObjectIndex | evaluate/ai2thor_engine/RocAgent.py:1071-1082 | Type_k looks up the k-th object in (x, z) order of every type with more than one object, and every name looked up is such a name |
| RocAgent.InitObjectIndexing | evaluate/ai2thor_engine/RocAgent.py:1071-1082 | the indexing raises KeyError exactly when an object of a type with more than one object lacks its x or z position; otherwise Type_k looks up the k-th object in (x, z) order |
| RocAgent.SingletonsNeverRaise | evaluate/ai2thor_engine/RocAgent.py:1076-1081 | when every type has at most one object, no position is read, the indexing succeeds and names nothing |
| RocAgent.SingletonsUnnamed | evaluate/ai2thor_engine/RocAgent.py:1076 | a type with at most one object has no indexed name |
| RocAgent.NavigationLookup | evaluate/ai2thor_engine/RocAgent.py:241-271 | an indexed name wins; then the objects of the type (the dialogue among several when enabled, the first otherwise, an IndexError for none); then the target ids: the first, or the second in the special tasks, and an IndexError when that one is missing; otherwise not found |
| RocAgent.FindFrom | evaluate/ai2thor_engine/RocAgent.py:1173 | the first occurrence of the separator at or after the position, or none when it does not occur |
| RocAgent.LastPiece | evaluate/ai2thor_engine/RocAgent.py:1173 | the last piece of a split is a suffix of the text |
| RocAgent.LastPieceAfterMarker | evaluate/ai2thor_engine/RocAgent.py:1173 | after the last marker, text without a capital C is the last piece |
| RocAgent.FirstWord | evaluate/ai2thor_engine/RocAgent.py:1174 | the first word is non-empty and holds no whitespace (the ten ASCII whitespace characters of `str.split()`, U+001C to U+001F included), and there is none exactly when the text is all whitespace |
| RocAgent.ConfidenceOf | evaluate/ai2thor_engine/RocAgent.py:1169-1176 | the default 25 without the marker; otherwise the integer that starts the stripped last piece, or 25 when it does not parse; stripping and splitting skip U+001C to U+001F as Python does |
| RocAgent.ConfidenceSkipsSeparator | evaluate/ai2thor_engine/RocAgent.py:1169-1176 | a reply ending in the marker, any one whitespace character (a separator U+001C to U+001F included) and a number is read as that number |
| RocAgent.ConfidenceOfSpacedPiece | evaluate/ai2thor_engine/RocAgent.py:1173-1174 | a last piece of one whitespace character and a numeral is read as that number |
| RocAgent.SeparatedConfidence | evaluate/ai2thor_engine/RocAgent.py:1169-1176 | "Confidence for task:" followed by U+001C and "80" reads as 80 |
| RocAgent.ConfidenceReadsStatedNumber | evaluate/ai2thor_engine/RocAgent.py:1169-1176 | a reply ending in the marker, a blank and a number is read as that number |
| RocAgent.ConfidenceOfLastPiece | evaluate/ai2thor_engine/RocAgent.py:1169-1176 | a reply whose last piece after the marker is a blank and a numeral is read as that number |
| RocAgent.Observed | evaluate/ai2thor_engine/RocAgent.py:1152-1184 | exactly the candidates the agent could reach are analysed, each with its 1-based index and the confidence read from its reply |
| RocAgent.AnalyzeCandidates | evaluate/ai2thor_engine/RocAgent.py:1148-1189 | the analyses sorted by confidence, highest first, as a stable permutation |
| RocAgent.ParseUserResponse | evaluate/ai2thor_engine/RocAgent.py:1263-1283 | a request for the recommendation, or a reply that is no number of a candidate, gives the top analysis; a number n of a candidate gives candidate n |
| RocAgent.NumeralReply | evaluate/ai2thor_engine/RocAgent.py:1265-1273 | a numeral is no request for the recommendation and parses back to its number |
| RocAgent.TypedNumberPicks | evaluate/ai2thor_engine/RocAgent.py:1272-1277 | typing the number of a candidate picks that candidate |
| RocAgent.RequestUserDisambiguation | evaluate/ai2thor_engine/RocAgent.py:1285-1305 | an error exactly when no candidate was analysed; the top analysis when it leads the second by more than 30; otherwise the parsed reply |
| RocAgent.IsNavigable | evaluate/ai2thor_engine/RocAgent.py:893-929 | navigable exactly when visible and either of volume at least 0.01 with volume over distance above 0.02, or close enough for its largest face or volume |
| RocAgent.NavigableWhenCloser | evaluate/ai2thor_engine/RocAgent.py:893-929 | coming closer never makes an object of non-negative volume unreachable |
| RocAgent.LargestFace | evaluate/ai2thor_engine/RocAgent.py:875-884 | the largest face is at least each of the three faces and equal to one of them |
| RocAgent.ObjectNavigability | evaluate/ai2thor_engine/RocAgent.py:858-940 | errors in the order the loop meets them: a KeyError for a missing id or type; no entry for the floor; a KeyError for a missing size or centre key, then for a missing agent coordinate; a ZeroDivisionError exactly when the box centre is at the agent on the ground plane; only then a KeyError for a missing visibility; otherwise the navigability at that distance |
| RocAgent.Scan | evaluate/ai2thor_engine/RocAgent.py:1033-1064 | the first action name from the position on that decides, and none exactly when no later name decides |
| RocAgent.Exec | evaluate/ai2thor_engine/RocAgent.py:1021-1067 | the step is counted; nothing runs exactly when no action name decides; a navigation needs a navigable item, an interaction a legal item, and each runs an action whose name the text contains |
| RocAgent.PutInCaughtByPut | evaluate/ai2thor_engine/RocAgent.py:1033-1064 | "put in" with a legal item runs "put", which comes first in the action space |
| RocAgent.EndNeverRuns | evaluate/ai2thor_engine/RocAgent.py:1033-1067 | "end" never runs: without an item it fails for the missing item, and with one no action name decides |
| PointCloud.DefaultIntrinsics | spatial_perception/point_cloud.py:60-83 | the default camera has square pixels whose focal length times tan(fov/2) is half the width, the principal point at the image centre, and focal length width/2 at the 90-degree field of view |
| PointCloud.MarkInvalid | spatial_perception/point_cloud.py:97-101 | the marked image keeps the raw image's shape and each pixel is invalid exactly when its depth is at or below 0 or above 20 |
| PointCloud.Preprocess | spatial_perception/point_cloud.py:85-108 | preprocessing keeps the image's shape, and with no valid depth left the marked image is returned without the blur |
| PointCloud.RowPixelsFacts | spatial_perception/point_cloud.py:136-141 | the pixels listed for a row are valid, in the row, and in increasing column order |
| PointCloud.RowPixelsComplete | spatial_perception/point_cloud.py:136-141 | every valid pixel of the row from the starting column on is listed |
| PointCloud.PixelsFromFacts | spatial_perception/point_cloud.py:136-141 | the pixels listed from a row on are valid, in the image, and in row-major order |
| PointCloud.PixelsFromComplete | spatial_perception/point_cloud.py:136-141 | every valid pixel from the starting row on is listed |
| PointCloud.ValidPixelsExact | spatial_perception/point_cloud.py:127-141 | a pixel is listed if and only if it lies in the image with a depth that is present and positive, and the list is in row-major order |
| PointCloud.ChosenUsable | spatial_perception/point_cloud.py:123-125 | when an image has a valid pixel, the intrinsics used (given or default) have non-zero focal lengths |
| PointCloud.DepthToPoints | spatial_perception/point_cloud.py:110-159 | the cloud has one point per valid pixel, in row-major order, each the pixel back-projected with x=(u-cx)z/fx, y flipped, z the depth; no valid pixel gives an empty cloud |
| PointCloud.Trunc | spatial_perception/point_cloud.py:188-189 | the conversion to int truncates toward zero: the result is within one of the real, on the side of zero |
| PointCloud.PixelCoordBack | spatial_perception/point_cloud.py:186-189 | projecting a coordinate scaled by depth over focal length back through the same focal length and depth recovers it |
| PointCloud.ReprojectBackProject | spatial_perception/point_cloud.py:151-157 | re-projecting the back-projection of a pixel with positive depth gives exactly that pixel again |
| PointCloud.ReprojectWhole | spatial_perception/point_cloud.py:186-189 | a point whose projected coordinates are whole numbers falls on that pixel |
| PointCloud.PointsReproject | spatial_perception/point_cloud.py:110-159 | each point of the cloud has its pixel's depth, which is positive, and re-projects onto its own pixel |
| PointCloud.AttachColors | spatial_perception/point_cloud.py:161-205 | the coloured cloud keeps every point in place and gives each the colour at the pixel it re-projects to, black when that pixel is off the colour image |
| PointCloud.KeepTarget | spatial_perception/point_cloud.py:252-253 | the filter never adds points |
| PointCloud.KeepTargetExact | spatial_perception/point_cloud.py:244-253 | a point is kept if and only if it is one of the input points whose re-projected pixel holds the target instance |
| PointCloud.KeepTargetAppend | spatial_perception/point_cloud.py:252-253 | filtering a concatenation is the concatenation of the filtered parts, so kept points keep their order |
| PointCloud.ApplyMask | spatial_perception/point_cloud.py:207-255 | the masked cloud is the input's target points in their input order (the same filter as the reconstruction uses), no longer than the input, and a point is in it if and only if it is an input point whose re-projected pixel holds the target, pixels off the mask reading as 0 |
| PointCloud.NewReconstructor | spatial_perception/point_cloud.py:50-58 | the reconstructor keeps the intrinsics it was given and a depth scale of 1000 |
| PointCloud.Reconstruct | spatial_perception/point_cloud.py:257-295 | without mask or target the result is the coloured cloud, one point per valid pixel of the preprocessed image; with both it is the coloured cloud filtered, in order, to the points whose pixel holds the target |
| PointCloud.ColourOfPixel | spatial_perception/point_cloud.py:186-200 | a pixel's back-projected point takes the colour of that same pixel from a colour image of the depth image's shape |
| PointCloud.CloudColours | spatial_perception/point_cloud.py:161-205 | colouring the cloud of an image gives each valid pixel, in row-major order, its back-projected point and its own colour |
| PointCloud.ReconstructColours | spatial_perception/point_cloud.py:257-295 | without a mask, the reconstruction is the valid pixels of the preprocessed image in row-major order, each back-projected and carrying its own colour |
| PointCloud.NoValidDepthEmpty | spatial_perception/point_cloud.py:143-145 | a depth image with no depth in (0, 20] reconstructs to an empty cloud whatever the mask |
| PointCloud.NoneValidNoPixels | spatial_perception/point_cloud.py:138-145 | an image with no depth left has no valid pixel |
| PoseEstimation.MedianBounds | spatial_perception/pose_estimation.py:61-62 | the median of a column lies between its least and its greatest entry |
| PoseEstimation.InverseDistances | spatial_perception/pose_estimation.py:89-95 | every Weiszfeld weight, one over the distance floored at 1e-8, is positive |
| PoseEstimation.NormalizedWeights | spatial_perception/pose_estimation.py:95-96 | positive weights divided by their sum are non-negative and sum to one |
| PoseEstimation.Weiszfeld | spatial_perception/pose_estimation.py:87-107 | the iteration stops within the budget of steps, and stopping early means the next update would move the estimate by less than the 1e-6 tolerance |
| PoseEstimation.GeometricMedian | spatial_perception/pose_estimation.py:69-107 | a single point is its own geometric median |
| PoseEstimation.ComputeCenter | spatial_perception/pose_estimation.py:46-67 | no points give the origin; a method other than mean, median or geometric_median raises ValueError exactly when there are points |
| PoseEstimation.MeanInBox | spatial_perception/pose_estimation.py:59-60 | the mean of points in a box lies in the box |
| PoseEstimation.AverageInBox | spatial_perception/pose_estimation.py:99 | points averaged with non-negative weights summing to one stay in any box holding them |
| PoseEstimation.StepInBox | spatial_perception/pose_estimation.py:87-100 | a Weiszfeld update stays in any box that holds all the points |
| PoseEstimation.WeiszfeldInBox | spatial_perception/pose_estimation.py:84-107 | every estimate the iteration reaches stays in any box holding the points and the starting estimate |
| PoseEstimation.MedianInBox | spatial_perception/pose_estimation.py:61-62 | the per-axis median lies in the points' bounding box |
| PoseEstimation.GeometricMedianInBox | spatial_perception/pose_estimation.py:69-107 | the geometric median lies in any box holding the points |
| PoseEstimation.CenterInBox | spatial_perception/pose_estimation.py:46-67 | each of the three centre methods gives a point inside the points' bounding box |
| PoseEstimation.ComputePca | spatial_perception/pose_estimation.py:109-132 | fewer than three points give identity axes, unit variances and ratios of 1/3 each; three or more are handed to the PCA unchanged; the ratios are always shares of the variance |
| PoseEstimation.FlipBringsAhead | spatial_perception/pose_estimation.py:155-160 | reversing an axis the points lie behind on average puts them ahead of it |
| PoseEstimation.FixHandedness | spatial_perception/pose_estimation.py:147-149 | the handedness fix leaves a non-negative determinant, changing at most the sign of the third axis |
| PoseEstimation.AlignRowFacts | spatial_perception/pose_estimation.py:152-160 | one pass leaves its axis kept or reversed with the points not behind it on average, leaves the other axes alone, and at most reverses the determinant's sign |
| PoseEstimation.AlignedAxes | spatial_perception/pose_estimation.py:134-162 | after alignment every axis is the original or its reverse, the points are not behind any of them on average, and the determinant is that of the handedness-fixed matrix up to sign |
| PoseEstimation.AlignCanBeLeftHanded | spatial_perception/pose_estimation.py:147-160 | the sign flips run after the handedness fix, so a right-handed basis can come out left-handed |
| PoseEstimation.BehindFlipped | spatial_perception/pose_estimation.py:158-160 | an axis a single point is behind is reversed |
| PoseEstimation.AheadKept | spatial_perception/pose_estimation.py:158-160 | an axis a single point is not behind is kept |
| PoseEstimation.SingleBehind | spatial_perception/pose_estimation.py:156-159 | a single point is behind an axis on average exactly when its projection on the axis is negative |
| PoseEstimation.EstimateScale | spatial_perception/pose_estimation.py:164-189 | no points give unit scale, and every scale is at least the 1e-6 floor |
| PoseEstimation.ScaleSpansProjections | spatial_perception/pose_estimation.py:178-187 | each scale bounds every difference of projections on its axis, and is either the floor or attained by two points |
| PoseEstimation.ScaleShiftInvariant | spatial_perception/pose_estimation.py:164-189 | moving every point by the same vector leaves the scales unchanged, so centring does not change them |
| PoseEstimation.SumSquaresZero | spatial_perception/pose_estimation.py:219-221 | a sum of squares vanishes exactly when every term does |
| PoseEstimation.FrobeniusNorm | spatial_perception/pose_estimation.py:219-221 | the matrix norm is non-negative and zero exactly for the zero matrix |
| PoseEstimation.Deviation | spatial_perception/pose_estimation.py:219-221 | the distance of a product from the identity is non-negative and zero exactly when it is the identity |
| PoseEstimation.OrthogonalityError | spatial_perception/pose_estimation.py:219-221 | the orthogonality error is non-negative and zero for an orthonormal orientation |
| PoseEstimation.PointSufficiency | spatial_perception/pose_estimation.py:211 | the point score lies in [0, 1] and is 1 exactly from 100 points on |
| PoseEstimation.PointSufficiencyMonotone | spatial_perception/pose_estimation.py:211 | more points never score lower |
| PoseEstimation.Orthogonality | spatial_perception/pose_estimation.py:222 | the orthogonality score lies in [0, 1] and is 1 for an orthonormal orientation |
| PoseEstimation.DirectionClarity | spatial_perception/pose_estimation.py:226-227 | the clarity score is at most 1, and is 1 when the first ratio is at least three times the second plus 1e-8 |
| PoseEstimation.Stability | spatial_perception/pose_estimation.py:230-231 | the stability score is 1 or 0.5, and 1 exactly when the position is within 100 of the origin |
| PoseEstimation.ValidatePose | spatial_perception/pose_estimation.py:191-245 | the confidence is the 0.2/0.3/0.2/0.2/0.1-weighted sum of the sub-scores clamped to [0, 1]: equal to the sum when it lies in [0, 1], 1 exactly when it reaches 1 and 0 exactly when it is at most 0 |
| PoseEstimation.FullConfidence | spatial_perception/pose_estimation.py:208-245 | 100 points, full orthogonality, the first two ratios summing to 1 with a clear first axis, and a position within 100 give confidence 1 |
| PoseEstimation.RotationFullConfidence | spatial_perception/pose_estimation.py:208-245 | an orthonormal orientation under the same conditions gives confidence 1 |
| PoseEstimation.FullScores | spatial_perception/pose_estimation.py:208-231 | under those conditions every sub-score is 1 |
| PoseEstimation.MorePointsNoLessConfident | spatial_perception/pose_estimation.py:191-245 | more points never lower the confidence |
| PoseEstimation.Degenerate | spatial_perception/pose_estimation.py:280-282 | the fallback result reports failure, the error and the point count |
| PoseEstimation.Analyse | spatial_perception/pose_estimation.py:284-316 | a successful analysis keeps the centre as position, takes the orientation as the transposed aligned axes, floors every scale, has confidence in [0, 1] and records valid variance ratios |
| PoseEstimation.EstimateFromPoints | spatial_perception/pose_estimation.py:264-320 | the estimate succeeds exactly when there are at least min_points points and the centre method is known (or there are no points); otherwise it is the fallback with the too-few-points or unsupported-method error |
| PoseEstimation.SuccessfulPose | spatial_perception/pose_estimation.py:284-316 | a successful estimate's position is the chosen centre, inside the bounding box, its axes are the PCA axes of the centred points up to sign with the points not behind them, and its scale is their extent along those axes |
| PoseEstimation.LeadingColumns | spatial_perception/pose_estimation.py:274-275 | the leading three columns of an n-row table give n points, row by row |
| PoseEstimation.Estimate6dPose | spatial_perception/pose_estimation.py:247-320 | a zero-dimensional array raises TypeError; otherwise the estimate reports the row count and succeeds exactly when there are at least three columns, enough points and a known method; a one-dimensional array or too few columns give the fallback with that error |
| PoseEstimation.PointArrayEstimate | spatial_perception/pose_estimation.py:272-316 | an N x 3 array built from points is estimated from exactly those points |
| PoseEstimation.AdaptedMethod | spatial_perception/pose_estimation.py:339-347 | sofas and couches use the geometric median, chairs, stools, tables, desks and dining tables the mean, compared in lower case, and other types keep the configured method |
| PoseEstimation.EstimatePoseForObjectType | spatial_perception/pose_estimation.py:322-361 | the estimate for a type is the plain estimate with the adapted centre method, tagged with the type and the method |
| PoseEstimation.ObjectTypeDispatch | spatial_perception/pose_estimation.py:339-347 | Sofa and COUCH use the geometric median, DiningTable the mean, and Bed the configured method |
| PoseEstimation.KnownTypeSucceeds | spatial_perception/pose_estimation.py:322-361 | a known type with enough points always succeeds, whatever centre method was configured |
| SpatialData.Norm | spatial_perception/data_structures.py:43-44 | the length is non-negative, squares to the vector's dot product with itself, and is zero exactly for the zero vector |
| SpatialData.Normalize | spatial_perception/data_structures.py:43-44 | the result is the vector divided by its length, and the zero vector is kept as it is |
| SpatialData.UnitNorm | spatial_perception/data_structures.py:43-44 | a unit vector has length one |
| SpatialData.NormalizeIdempotent | spatial_perception/data_structures.py:43-44 | normalising twice is normalising once |
| SpatialData.MakeAffordance | spatial_perception/data_structures.py:35-51 | an affordance is built exactly when position, normal and approach have shape (3,), the confidence is in [0, 1] and the type is one of the seven interaction types; the checks fail in the source's order with an assertion error; a built one holds the position, the normalised directions, the type and the confidence |
| SpatialData.AffordanceRebuild | spatial_perception/data_structures.py:35-51 | building an affordance again from the arrays of a valid one gives it back unchanged |
| SpatialData.AffordanceEdgeCases | spatial_perception/data_structures.py:47-51 | a confidence of 1.5 and the type "invalid_type" are each refused with their own assertion |
| SpatialData.MakeRegion | spatial_perception/data_structures.py:84-116 | a region is built exactly when centre, normal and extent have shape (3,) and the three scores lie in [0, 1], checked in the order accessibility, stability, surface quality; a built region keeps its fields, the normal normalised and no bounding box |
| SpatialData.RegionNameOnlyWarns | spatial_perception/data_structures.py:101-116 | a name outside the standard list is accepted exactly as a standard name would be |
| SpatialData.OfType | spatial_perception/data_structures.py:122 | the filter keeps exactly the affordances of the type, and never adds any |
| SpatialData.GetInteractionPoints | spatial_perception/data_structures.py:118-122 | with no type every affordance is returned; with a type exactly the affordances of that type |
| SpatialData.AddAffordance | spatial_perception/data_structures.py:124-126 | the new affordance goes last, the earlier ones stay in order, and nothing else of the region changes |
| SpatialData.OfTypeAppend | spatial_perception/data_structures.py:122-126 | filtering a list with one more affordance adds that affordance at the end when it has the type |
| SpatialData.QueryAfterAdd | spatial_perception/data_structures.py:118-126 | after adding an affordance, the query for its type returns the earlier answer followed by it, and queries for other types are unchanged |
| SpatialData.Gather | spatial_perception/data_structures.py:133 | gathering rows by index gives one row per index, negative indices counting from the end |
| SpatialData.ComputeBoundingBox | spatial_perception/data_structures.py:128-138 | no indices give the zero box and leave the region alone; an index out of range raises IndexError; otherwise the box is the per-axis minimum and maximum of the indexed points, encloses each of them and is stored in the region |
| SpatialData.PerPointRows | spatial_perception/data_structures.py:188-195 | an optional per-point array of shape (n, 3) gives n rows exactly when present |
| SpatialData.Construct | spatial_perception/data_structures.py:182-209 | a signature is built exactly when the constructor's checks pass; a cloud not of shape (N, 3) raises ValueError, the other checks an assertion error; it keeps every given array and field, and replaces a non-orthogonal orientation by its orthogonalised form |
| SpatialData.OrthonormalPasses | spatial_perception/data_structures.py:204 | an exact rotation passes the orthogonality check |
| SpatialData.ConstructedOrientation | spatial_perception/data_structures.py:204-219 | a constructed signature's orientation always passes the orthogonality check |
| SpatialData.SimpleAccepted | spatial_perception/data_structures.py:318-343 | the simple constructor never refuses, and gives the points, the position, identity axes, unit scale, no regions or affordances and confidence 1 |
| SpatialData.ConstructDefaults | spatial_perception/data_structures.py:182-209 | arrays that read as the defaults build the signature with identity axes, unit scale and confidence 1 |
| SpatialData.SimpleRawReads | spatial_perception/data_structures.py:335-341 | the simple constructor's arrays read back as its points, its position, unit scale and identity matrices |
| SpatialData.IdentityPasses | spatial_perception/data_structures.py:204 | the identity passes the orthogonality check |
| SpatialData.AddSemanticRegion | spatial_perception/data_structures.py:221-224 | the region is stored under its own name, replacing any region of that name, and every other name and field is unchanged |
| SpatialData.RegionAffordancesTyped | spatial_perception/data_structures.py:234-235 | with a type, every affordance the regions offer has that type |
| SpatialData.GetAllAffordances | spatial_perception/data_structures.py:230-237 | the signature's own affordances come first; the rest are region affordances, only of the requested type, and every region affordance of that type (of any type when none is asked) is among them |
| SpatialData.RegionAffordancesSound | spatial_perception/data_structures.py:233-234 | every affordance the regions offer belongs to one of them |
| SpatialData.RegionAffordancesComplete | spatial_perception/data_structures.py:233-234 | every affordance of a region with the asked type, or of any type when none is asked, is offered |
| SpatialData.SurfaceArea | spatial_perception/data_structures.py:239-253 | zero for an empty cloud, else 2 (w h + w d + h d) for the sides w, h, d of the bounding box |
| SpatialData.Volume | spatial_perception/data_structures.py:255-265 | zero for an empty cloud, else w h d for the sides of the bounding box |
| SpatialData.AreaVolumeShiftInvariant | spatial_perception/data_structures.py:239-265 | moving the whole cloud changes neither the surface nor the volume estimate |
| SpatialData.UnitCubeEstimates | spatial_perception/data_structures.py:239-265 | two opposite corners of the unit cube give surface 6 and volume 1 |
| SpatialData.TransformRoundTrip | spatial_perception/data_structures.py:267-291 | with an orthonormal orientation and no zero scale, the world-to-local and local-to-world transforms undo each other in both orders |
| SpatialData.AllPoints | spatial_perception/data_structures.py:363 | the stacked cloud holds every point of every signature and nothing else |
| SpatialData.AllAffordances | spatial_perception/data_structures.py:388-389 | the merged affordances are exactly those of the signatures |
| SpatialData.Merge | spatial_perception/data_structures.py:346-391 | merging nothing raises ValueError, one signature is returned as it is, and several merge into a Composite holding exactly their points, centred on their mean, with exactly their affordances |
| SpatialData.MergeUnfolds | spatial_perception/data_structures.py:363-389 | a merge of several signatures has the first one's id, "_" and the rest's merged id, and the first one's points and affordances before the rest's, so all ids are joined in order |
| SpatialData.MergeIsConstructed | spatial_perception/data_structures.py:372-378 | the merged signature is the one the constructor builds from the merged points and centre, before regions and affordances are added |
| SpatialData.MergeTwoIds | spatial_perception/data_structures.py:369 | two signatures merge under both ids joined by "_" |
| SpatialData.PrefixRegionsKeys | spatial_perception/data_structures.py:381-385 | prefixing keeps the names already stored and adds each region under "<object_id>_<name>" |
| SpatialData.MergedRegionsKeys | spatial_perception/data_structures.py:381-385 | every region of every signature is stored under its prefixed name, and no stored name is lost |
| SpatialData.MergeRegionKeys | spatial_perception/data_structures.py:381-385 | every region of every merged signature is found under its prefixed name |
| SpatialData.MergePrefixCollision | spatial_perception/data_structures.py:381-385 | signature "a" with region "b_c" and signature "a_b" with region "c" collide on "a_b_c", and the later region wins |
| SpatialData.MergedTwo | spatial_perception/data_structures.py:381-385 | the regions of two merged signatures are the first's prefixed regions followed by the second's |
| BasicSignature.RotationY | spatial_perception/basic_signature.py:18-29 | the heading matrix leaves the y axis fixed: its middle row and middle column are the unit y vector |
| BasicSignature.RotationYOrthonormal | spatial_perception/basic_signature.py:18-29 | every heading gives a matrix whose rows and columns are orthonormal |
| BasicSignature.YawOrthonormal | spatial_perception/basic_signature.py:22-29 | a yaw matrix built from a cosine and sine whose squares sum to one is orthonormal |
| BasicSignature.RotationZeroIsIdentity | spatial_perception/basic_signature.py:18-29 | a heading of zero gives the identity |
| BasicSignature.DefaultHeading | spatial_perception/basic_signature.py:85-86 | a missing heading reads as zero and gives the identity |
| BasicSignature.HalfSize | spatial_perception/basic_signature.py:60-62 | twice the half size is the size |
| BasicSignature.FromMetadata | spatial_perception/basic_signature.py:66-98 | the signature carries what the metadata holds; its rotation is the y-rotation by the heading, the identity when no heading is given |
| BasicSignature.FromMetadataRotates | spatial_perception/basic_signature.py:66-110 | the rotation read from metadata is orthonormal, so converting a world point to local and back returns it |
| BasicSignature.Unrotated | spatial_perception/basic_signature.py:69-97 | each centre and size coordinate is the metadata's value or 0.0 when missing, a missing id or type reads "unknown", distance and visibility are kept as found |
| BasicSignature.LocalWorldRoundTrip | spatial_perception/basic_signature.py:101-110 | with an orthonormal rotation, world-to-local and local-to-world undo each other in both orders |
| BasicSignature.RegionCenter | spatial_perception/basic_signature.py:113-123 | an offset not of shape (3,) raises AssertionError; otherwise the result, read back in the box's axes, is the offset scaled by the size |
| BasicSignature.RegionPointLocal | spatial_perception/basic_signature.py:113-123 | a region point read back in the box's axes is the scaled offset |
| BasicSignature.ZeroOffsetIsCenter | spatial_perception/basic_signature.py:113-123 | the zero offset is the box's centre |
| BasicSignature.RegionPointMidpoint | spatial_perception/basic_signature.py:113-123 | the midpoint of two region points is the region point of the midpoint of their offsets |
| RegionUtils.ParseSchema | spatial_perception/region_utils.py:61-64 | a schema value is taken as it is; a string names a schema exactly when its lower-case form is sofa, table or cabinet, and otherwise raises ValueError |
| RegionUtils.Centers | spatial_perception/region_utils.py:31 | the region points are keyed as the offset table is, each the box point at its offset |
| RegionUtils.SliceAabb | spatial_perception/region_utils.py:61-67 | slicing succeeds exactly when the schema parses, and then maps every region name of the schema to the box point at its offset |
| RegionUtils.DistinctKeysLookup | spatial_perception/region_utils.py:31 | in a table with distinct keys each key looks up its own entry |
| RegionUtils.SchemaKeys | spatial_perception/region_utils.py:18-51 | the sofa has seat, left_arm, right_arm and back; the table top_center and four edges; the cabinet three shelves, in that order |
| RegionUtils.CentredRegions | spatial_perception/region_utils.py:25-48 | the sofa seat and the middle shelf sit at the box centre |
| RegionUtils.MirrorSymmetric | spatial_perception/region_utils.py:25-41 | a region and its mirror offset lie symmetrically about the point with the x offset removed |
| RegionUtils.MirroredRegions | spatial_perception/region_utils.py:25-41 | the right arm mirrors the left arm, the right edge mirrors the left edge, and the table's side edges are symmetric about its top centre |
| RegionUtils.UpperCaseSchema | spatial_perception/region_utils.py:61-67 | "Sofa" is accepted as the sofa schema and "chair" raises ValueError |
| EventIndex.OfTypeExact | data_engine/eventObject.py:30-32 | the objects listed for a type are exactly the scene's objects of that type |
| EventIndex.TypeLists | data_engine/eventObject.py:25-32 | a type has a list exactly when some object has that type, and the list is that type's objects in scene order |
| EventIndex.TypeListsStep | data_engine/eventObject.py:30-32 | appending an object to its type's list extends exactly that type's list |
| EventIndex.New | data_engine/eventObject.py:7-47 | the index is built exactly when every object carries objectId, objectType and name, else KeyError; it keeps the objects and colour maps, and its id and name maps have distinct keys |
| EventIndex.NewBuilt | data_engine/eventObject.py:7-47 | a built index holds the id, type and name maps the construction loops produce |
| EventIndex.LastValueIsLast | data_engine/eventObject.py:27-39 | the value a key ends with comes from the last pair carrying that key |
| EventIndex.LastValueAbsent | data_engine/eventObject.py:27-39 | a key no object carries is not in the map |
| EventIndex.ObjectById | data_engine/eventObject.py:160-162 | the lookup answers None exactly when the id is not a key of the id map |
| EventIndex.ObjectByIdLast | data_engine/eventObject.py:160-162 | an id is found exactly when some object has it, and then the answer is the last object with that id |
| EventIndex.LastPairFound | data_engine/eventObject.py:27-39 | a key some pair carries ends up in the map |
| EventIndex.ObjectsByType | data_engine/eventObject.py:164-166 | the objects returned for a type are exactly the scene's objects of that type, in scene order, and none for an unknown type |
| EventIndex.TypesPartition | data_engine/eventObject.py:25-32 | every object appears in the list of its own type |
| EventIndex.TypeListsHoldTheirType | data_engine/eventObject.py:25-32 | every object in a type's list is a scene object of that type |
| EventIndex.MatchingIds | data_engine/eventObject.py:170-174 | an id is returned exactly when its object's name contains the pattern, ignoring case; never more ids than pairs |
| EventIndex.MatchingAppend | data_engine/eventObject.py:170-174 | matching a concatenation gives the first part's ids followed by the second part's, so the id map's order is kept |
| EventIndex.FindObjectIdByName | data_engine/eventObject.py:168-174 | the ids found are exactly those whose object's name contains the pattern, ignoring case, in the order of the id map: for every split of the map, the ids from the front part come before those from the rest |
| EventIndex.FindByNameExact | data_engine/eventObject.py:168-174 | with distinct ids, an id is found exactly when the object stored under it matches the pattern |
| EventIndex.FindIgnoresCase | data_engine/eventObject.py:172 | the pattern's case does not change the answer |
| EventIndex.MatchingSamePattern | data_engine/eventObject.py:172 | two patterns equal in lower case find the same ids |
| EventIndex.Having | data_engine/eventObject.py:58-128 | a flag filter keeps exactly the objects with the flag set, never adding any |
| EventIndex.HavingAppend | data_engine/eventObject.py:58-128 | filtering a concatenation filters each part in turn, so input order is kept |
| EventIndex.HavingAll | data_engine/eventObject.py:58-128 | a filter returns everything exactly when every object has the flag |
| EventIndex.VisibleOnly | data_engine/eventObject.py:56 | the visible objects are exactly those whose visible flag is true |
| EventIndex.VisibleObjects | data_engine/eventObject.py:55-56 | KeyError is raised exactly when some object lacks visible, or is visible without a name; otherwise the names and objects returned are the visible objects, each name that of its object |
| EventIndex.Item | data_engine/eventObject.py:136-158 | a name is found exactly when it is a key of the name map, else KeyError |
| EventIndex.ItemMass | data_engine/eventObject.py:136-137 | the mass is found exactly when the item exists and carries a mass, and is that mass |
| EventIndex.ItemPosition | data_engine/eventObject.py:154-155 | the position is found exactly when the item exists, and is its position |
| EventIndex.ItemOrientation | data_engine/eventObject.py:157-158 | the orientation is found exactly when the item exists, and is its rotation |
| EventIndex.ItemSize | data_engine/eventObject.py:140 | the size is found exactly when the item exists with all three box sides, and is those sides |
| EventIndex.ItemVolume | data_engine/eventObject.py:139-142 | the volume is found exactly when the size is, and lies within half of the fourth decimal of the product of the sides |
| EventIndex.LargestFace | data_engine/eventObject.py:150 | the largest face is one of the three face areas and at least each of them |
| EventIndex.ItemSurfaceArea | data_engine/eventObject.py:145-152 | the surface is found exactly when the size is, and lies within half of the fourth decimal of the largest face area |
| EventIndex.UnitCubeOneFace | data_engine/eventObject.py:145-152 | a unit cube reports a surface of about one, a single face and not the whole surface |
| EventIndex.AllItemPositions | data_engine/eventObject.py:49-53 | each name maps to the position of the last object with that name |
| EventIndex.PositionPairs | data_engine/eventObject.py:51-52 | one name and position pair per object, in scene order |
| EventIndex.PositionsAgreeWithNames | data_engine/eventObject.py:49-53 | a name has a position exactly when the item lookup finds it, and the position is that item's |
| EventIndex.LastValueMap | data_engine/eventObject.py:36-52 | the last name pair and the last position pair for a name come from the same object |
| EventIndex.ObjectColor | data_engine/eventObject.py:130-131 | the colour is found exactly when the id is a key of the colour map, else KeyError |
| EventIndex.ColorObject | data_engine/eventObject.py:133-134 | the object id is found exactly when the colour is a key of the map, else KeyError |
| EventIndex.CloseAt | data_engine/eventObject.py:180 | the item closes at the first ]] with no line break before it |
| EventIndex.Matches | data_engine/eventObject.py:180 | no match spans a line break |
| EventIndex.ExtractItem | data_engine/eventObject.py:177-185 | with no bracketed item the function fails with UnboundLocalError; otherwise it gives the last match |
| EventIndex.CloseAfterPlain | data_engine/eventObject.py:180 | a plain item closes at the ]] right after it |
| EventIndex.MatchesWrapped | data_engine/eventObject.py:180 | a bracketed plain item at the front is the first match, followed by the matches of the rest |
| EventIndex.PlainNoMatches | data_engine/eventObject.py:180 | plain text yields no match |
| EventIndex.ExtractLastOfTwo | data_engine/eventObject.py:177-185 | of two bracketed items in plain text the second is extracted |
| EventIndex.PlainWrapped | data_engine/eventObject.py:180 | plain text then a bracketed plain item gives that item as the first match |
| EventIndex.PlainPrefix | data_engine/eventObject.py:180 | plain text in front of [[ adds no match |
| EventIndex.NoItemRaises | data_engine/eventObject.py:181-185 | text without a bracketed item raises UnboundLocalError |
| EventIndex.FirstLightSwitch | data_engine/eventObject.py:218-220 | the first entry whose name contains LightSwitch is found, and none exists when nothing is found |
| EventIndex.MatchObject | data_engine/eventObject.py:187-222 | the fixed light-switch id is returned when the id map holds it; otherwise the answer is None exactly when no name contains LightSwitch |
| EventIndex.MatchFirstByName | data_engine/eventObject.py:213-220 | without the fixed id the answer is the first light switch in name order |
| EventIndex.MatchIgnoresInstruction | data_engine/eventObject.py:187-222 | the instruction makes no difference to the answer |
| Text.Lower | spatial_enhancement/vlm_response_parser.py:28 | lower-casing keeps the length and maps each letter to its lower-case form, leaving digits, spaces and word characters as they were |
| Text.JoinContains | evaluate/ai2thor_engine/spatial_enhancement/heuristic_detector.py:280 | every part of a `str.join` occurs in the joined text |
| Text.Strip | spatial_enhancement/vlm_response_parser.py:28 | stripping removes exactly the leading and trailing white space and nothing inside; white space is the ten ASCII characters `str.isspace()` accepts, U+001C to U+001F included |
| Text.StripAfterSpace | spatial_enhancement/vlm_response_parser.py:28 | one leading whitespace character of any of the ten kinds is stripped from an unpadded string |
| Text.SeparatorStripped | evaluate/ai2thor_engine/RocAgent.py:1173 | `strip()` turns U+001C followed by "80" into "80" |
| Text.SeparatorParsed | evaluate/ai2thor_engine/RocAgent.py:1173-1174 | `int()` reads U+001C followed by "80" as 80 |
| Text.ParseIntOfNatToString | spatial_enhancement/vlm_response_parser.py:35 | the decimal numeral of a natural number parses back to it |
| Text.DigitsValueOfNatToString | spatial_enhancement/vlm_response_parser.py:35 | the digits of a natural number's numeral have that number as their value |
| Dict.Put | spatial_perception/data_structures.py:223 | storing under a key makes it look up the new value, leaves every other key alone, and keeps insertion order, adding a new key last |
| Dict.Remove | spatial_enhancement/enhanced_agent.py:318-319 | removing a key leaves it absent and every other key unchanged |
| Dict.PutRestores | spatial_enhancement/enhanced_agent.py:308-319 | storing a key's old value back restores the dictionary |
| Dict.RemoveAfterPut | spatial_enhancement/enhanced_agent.py:308-319 | removing a key just stored is removing it from the original |
| Dict.FromPairs | data_engine/eventObject.py:22-39 | a dictionary built by assigning pairs in order maps each key to its last value and lists the keys in first-seen order |
| Dict.FromDistinctPairs | data_engine/eventObject.py:22-39 | pairs without repeated keys build a dictionary that is exactly those pairs, in order |
| Dict.DedupKeepsAll | data_engine/eventObject.py:22-39 | keys that lose nothing to duplicate removal have no repeats |
| Ordering.SortBy | spatial_enhancement/vlm_response_parser.py:63 | the sort orders by key, is a permutation of its input, and keeps the input order among equal keys |
| Ordering.SortHeadIsFirstLeast | spatial_enhancement/vlm_response_parser.py:63 | the first element after sorting is the first element of least key |
| Ordering.SortByCongruent | spatial_enhancement/vlm_response_parser.py:116-121 | two keys that order elements alike give the same sorted order |
| PointSets.BoxMin | spatial_perception/data_structures.py:134 | the least corner is at or below every point on each axis and is attained on each axis |
| PointSets.BoxMax | spatial_perception/data_structures.py:135 | the greatest corner is at or above every point on each axis and is attained on each axis |
| PointSets.Extent | spatial_perception/data_structures.py:245-247 | the box's size is the per-axis maximum minus minimum, non-negative on every axis |
| PointSets.Mean | spatial_perception/pose_estimation.py:59-60 | the mean times the number of points is their sum |
| PointSets.ExtentShiftInvariant | spatial_perception/data_structures.py:245-247 | moving every point by the same vector leaves the box's size unchanged |
| PointSets.BoxBounds | spatial_perception/data_structures.py:128-138 | every point lies between the two corners of the box |
| Arrays.RowsRoundTrip | spatial_perception/data_structures.py:185-188 | an N x 3 array built from points reads back as exactly those points |

## Left out

- Simulator plumbing: teleports and their retry loops, `compute_position_8`, `adjust_view`/`adjust_height`, `save_frame`, the image stitching in `observe`, the retry cascade of `move_forward`, `init_agent_corner`, `get_all_item_image`, `get_navigate_path` and `test_visibility` in evaluate/ai2thor_engine/RocAgent.py. They drive the simulator and hold no decision of their own.
- `_compute_enhanced_position` and the teleport side of `_execute_navigation_to_position` in spatial_enhancement/enhanced_agent.py: the model records only which position the agent heads for (`EnhancedAgent.ToSpecificObject`), because the rest is simulator calls.
- Interactive and external I/O: `get_user_input` (a stdin read with a timeout) becomes the reply text passed to `RocAgent.RequestUserDisambiguation`, `vlm_call` becomes the reply texts passed to `RocAgent.AnalyzeCandidates`, and reading agent_positions.json is left out.
- `get_object_pointcloud_from_ai2thor_event` and `save_pointcloud_to_ply`: they read simulator events and write files. The depth image, colour image and mask they would pass on are parameters of `PointCloud.Reconstruct`.
- Printing, logging, warnings and timestamps: they carry no behaviour. The unknown-region warning of `RegionSignature` is kept only as "accepted" (`SpatialData.RegionNameOnlyWarns`).
- Presentation text: `generate_disambiguation_message`, `visualize_pose_estimation`, `compare_pose_estimates`, `visualize_pointcloud_stats`, `summary` and `__str__` only format text.
- Free-text `reasoning` strings in the resolver's result dictionaries are not modelled; the method tag, the object and the confidence are.
- Floating point: every float is a `real`. NaN, infinities and rounding are not modelled. `round(x, 4)` is a library routine known only to lie within 5e-5 of its argument, and `astype(int)` is exact truncation toward zero.
- Foreign numerics: square root, `atan2`, sine, cosine, tangent, sklearn PCA, the SVD orthogonalisation and `cv2.medianBlur` are parameters (`RealMath.MathLib`, `PoseEstimation.PoseLib`, `PointCloud.Sensors`, the orthogonalising function of `SpatialData.Construct`). Each carries only the laws the proofs use, so a property that depends on their exact values is not stated.
- Text handling: lower-casing and the regex classes `\w`, `\d` and `\s` cover ASCII only. Whitespace (`Text.IsSpace`, used by `strip`, `split`, `int` and `\s`) is the ten ASCII characters `str.isspace()` accepts, U+001C to U+001F included; non-ASCII spaces such as U+00A0 and U+0085 are not whitespace in the model, and `int()` reads only ASCII digits. The Chinese keywords of the constraint table are kept as literal strings.
- Scene: a present but empty coordinate dictionary reads as absent (`NoPoint`), so `GeometricAnalyzer.ItemXZ` ranks from the origin where geometric_analyzer.py raises `KeyError` on `{'position': {}}`. Scene records always carry their coordinates.
- `SmartObjectSorting.calculate_relative_x_position` is modelled for any yaw. The agent passes a position with no `rotation` key, so in the agent's use the heading is always 0 (`VlmResponseParser.FacingNorthIsWorldOrder`).
- `AmbiguityResult.alternative_objects`, the `object_synonyms` table, and the optional material, texture, stability and accessibility fields of the geometric data structures: nothing reads them.
- The `spatialCalculations` counter is reset but never incremented by the source, and the model keeps it that way. Exceptions that `navigate` catches inside the simulator calls are not modelled.
- Scripts, mock servers, test scripts and the `__init__` files: they are wrappers, tests or network stubs with no logic of their own.
- PoseEstimation.GeometricMedian: states the one-point case, the bound of 100 Weiszfeld steps and that the result stays in the points' bounding box. It does not state convergence, which depends on floating-point iteration.
- PoseEstimation.ComputePca: the PCA itself (scikit-learn's `PCA`) is a parameter, so for three or more points the contract says only that its result is passed on unchanged.
- PoseEstimation.Estimate6dPose: takes arrays of at most two dimensions. What NumPy does with a 3-D array here is incidental and is not modelled.
- PointCloud.Preprocess: states the invalid-depth marking and the shape of the result. The values after the median blur come from the blur parameter.
- PointCloud.Reproject: a point with depth 0 re-projects to no pixel, where NumPy would divide by zero and cast an infinity or NaN. Intrinsics with a zero focal length are excluded (`PointCloud.Usable`).
- EventIndex.ItemVolume and EventIndex.ItemSurfaceArea: state the rounded product or face only within the rounding bound of 5e-5, not its exact digits.
- RocAgent.ObjectIndex and RocAgent.TypeEntries: read a missing x or z as 0.0. The `KeyError` the sort raises in that case is stated by `RocAgent.InitObjectIndexing`, which hands on the index only when every sorted object has both keys.
- EventIndex.Having: an object's flags are the set of its truthy flags, so the `KeyError` that a record missing the flag key would raise in the `get_*_objects` filters is not modelled. A missing flag reads as not set.
- SpatialData.Normalize: keeps the zero vector, where NumPy would produce NaN.
- SpatialData.Merge: merging signatures whose clouds are all empty gives the origin as position, where NumPy's mean of no points is NaN.
- SpatialData.ConstructedOrientation: relies on the law that the orthogonalising function returns an orthonormal matrix. The SVD behind it is not modelled.

=== FILE: arrays.dfy ===
/** NumPy arrays as the perception code receives them: a shape and the entries in row-major
    order. Validation reads vectors of shape (3,), matrices of shape (3, 3) and point tables of
    shape (N, 3) out of them and refuses every other shape. */
module Arrays {
  import opened Wrappers
  import opened LinAlg

  datatype NdArray = NdArray(shape: seq<nat>, data: seq<real>)

  /** The number of entries a shape holds. */
  function Size(shape: seq<nat>): nat {
    if shape == [] then 1 else shape[0] * Size(shape[1..])
  }

  lemma SizeOfPair(n: nat, k: nat)
    ensures Size([n, k]) == n * k
  {
    assert [n, k][1..] == [k];
    assert [k][1..] == [];
    assert Size([k]) == k * Size([]);
    assert Size([n, k]) == n * Size([k]);
  }

  /** The rows of a table of `n` rows and three columns lie inside its entries. */
  lemma RowInside(n: nat, i: nat)
    requires i < n
    ensures 3 * i + 3 <= n * 3
  {
  }

  /** Every NumPy array holds exactly as many entries as its shape says. */
  predicate WellFormed(a: NdArray) { |a.data| == Size(a.shape) }

  function VecArray(v: Vec3): (r: NdArray)
    ensures WellFormed(r)
  {
    assert [3][1..] == [];
    NdArray([3], [v.x, v.y, v.z])
  }

  function MatArray(m: Mat3): (r: NdArray)
    ensures WellFormed(r)
  {
    assert [3, 3][1..] == [3] && [3][1..] == [];
    NdArray([3, 3], [m.r0.x, m.r0.y, m.r0.z, m.r1.x, m.r1.y, m.r1.z, m.r2.x, m.r2.y, m.r2.z])
  }

  /** The entries of the rows, row after row. */
  function Flatten(ps: seq<Vec3>): (r: seq<real>)
    ensures |r| == 3 * |ps|
  {
    if ps == [] then [] else [ps[0].x, ps[0].y, ps[0].z] + Flatten(ps[1..])
  }

  function RowsArray(ps: seq<Vec3>): (r: NdArray)
    ensures WellFormed(r) && r.shape == [|ps|, 3]
  {
    assert [|ps|, 3][1..] == [3] && [3][1..] == [];
    NdArray([|ps|, 3], Flatten(ps))
  }

  /** A shape-(3,) array as a vector; any other shape is refused. */
  function AsVec3(a: NdArray): (r: Option<Vec3>)
    requires WellFormed(a)
    ensures r.Some? <==> a.shape == [3]
  {
    if a.shape == [3] then
      assert Size(a.shape) == 3 by { assert a.shape[1..] == []; }
      Some(Vec3(a.data[0], a.data[1], a.data[2])) else None
  }

  /** A shape-(3, 3) array as a matrix stored by rows; any other shape is refused. */
  function AsMat3(a: NdArray): (r: Option<Mat3>)
    requires WellFormed(a)
    ensures r.Some? <==> a.shape == [3, 3]
  {
    if a.shape == [3, 3] then
      SizeOfPair(3, 3);
      assert a.shape == [3, 3];
      Some(Mat3(Vec3(a.data[0], a.data[1], a.data[2]), Vec3(a.data[3], a.data[4], a.data[5]),
                Vec3(a.data[6], a.data[7], a.data[8])))
    else None
  }

  /** Row `i` of an array of three columns. */
  function RowAt(data: seq<real>, i: nat): Vec3
    requires 3 * i + 3 <= |data|
  {
    Vec3(data[3 * i], data[3 * i + 1], data[3 * i + 2])
  }

  /** The `n` rows of the entries of a table of three columns. */
  function Rows(data: seq<real>, n: nat): (r: seq<Vec3>)
    requires |data| == n * 3
    ensures |r| == n && forall i :: 0 <= i < n ==> r[i] == RowAt(data, i)
  {
    seq(n, i requires 0 <= i < n => RowInside(n, i); RowAt(data, i))
  }

  /** A shape-(N, 3) array as its rows; any other shape is refused. */
  function AsRows3(a: NdArray): (r: Option<seq<Vec3>>)
    requires WellFormed(a)
    ensures r.Some? <==> |a.shape| == 2 && a.shape[1] == 3
    ensures r.Some? ==> |r.value| == a.shape[0]
  {
    if |a.shape| == 2 && a.shape[1] == 3 then
      SizeOfPair(a.shape[0], 3);
      assert a.shape == [a.shape[0], 3];
      Some(Rows(a.data, a.shape[0]))
    else None
  }

  lemma {:induction false} FlattenRow(ps: seq<Vec3>, i: nat)
    requires i < |ps|
    ensures RowAt(Flatten(ps), i) == ps[i]
  {
    if i > 0 {
      FlattenRow(ps[1..], i - 1);
      assert Flatten(ps)[3..] == Flatten(ps[1..]);
    }
  }

  /** Reading back the rows an array was built from gives them again. */
  lemma RowsRoundTrip(ps: seq<Vec3>)
    ensures AsRows3(RowsArray(ps)) == Some(ps)
  {
    var r := AsRows3(RowsArray(ps)).value;
    forall i | 0 <= i < |ps| ensures r[i] == ps[i] {
      FlattenRow(ps, i);
    }
    assert r == ps;
  }

  lemma VecRoundTrip(v: Vec3)
    ensures AsVec3(VecArray(v)) == Some(v)
  {
  }

  lemma MatRoundTrip(m: Mat3)
    ensures AsMat3(MatArray(m)) == Some(m)
  {
  }
}

=== FILE: basic_signature.dfy ===
/** The lightweight spatial signature built from simulator metadata alone: the axis-aligned
    box's centre and size and a rotation about the vertical axis
    (`spatial_perception/basic_signature.py`). Arrays of points are transformed row by row, so
    the model transforms one point. */
module BasicSignature {
  import opened Wrappers
  import opened RealMath
  import opened LinAlg
  import opened Scene
  import opened Arrays

  /** The rotation matrix for a heading, as its three rows. */
  function YawRows(c: real, s: real): Mat3 {
    Mat3(Vec3(c, 0.0, s), Vec3(0.0, 1.0, 0.0), Vec3(-s, 0.0, c))
  }

  /** `rotation_matrix_y`: a rotation about y by an angle in degrees. */
  function RotationY(m: MathLib, angle: real): (r: Mat3)
    ensures r.r1 == Vec3(0.0, 1.0, 0.0) && Col(r, 1) == Vec3(0.0, 1.0, 0.0)
  {
    YawRows(m.cosDeg(angle), m.sinDeg(angle))
  }

  /** Every heading gives a rotation. */
  lemma RotationYOrthonormal(m: MathLib, angle: real)
    requires Lawful(m)
    ensures Orthonormal(RotationY(m, angle))
  {
    YawOrthonormal(m.cosDeg(angle), m.sinDeg(angle));
  }

  /** The rows of a yaw matrix are unit vectors at right angles, and so are its columns. */
  lemma YawOrthonormal(c: real, s: real)
    requires s * s + c * c == 1.0
    ensures Orthonormal(YawRows(c, s))
  {
    var r := YawRows(c, s);
    assert Transpose(r) == YawRows(c, -s);
    assert c * s - s * c == 0.0;
    assert MatMul(r, Transpose(r)) == Identity;
    assert MatMul(Transpose(r), r) == Identity;
  }

  /** A heading of zero leaves every axis in place. */
  lemma RotationZeroIsIdentity(m: MathLib)
    requires Lawful(m)
    ensures RotationY(m, 0.0) == Identity
  {
  }

  /** A missing heading reads as zero and leaves the axes in place. */
  lemma DefaultHeading(m: MathLib, heading: Option<real>)
    requires Lawful(m)
    ensures heading.None? ==> RotationY(m, heading.GetOr(0.0)) == Identity
  {
    RotationZeroIsIdentity(m);
  }

  /** `SpatialSignature`; `meta` keeps only the distance and the visibility flag. */
  datatype Signature = Signature(objectId: string, objectType: string, center: Vec3, size: Vec3,
                                 rotation: Mat3, distance: Option<real>, visible: Option<bool>)

  /** `half_size`. */
  function HalfSize(sig: Signature): (r: Vec3)
    ensures Add(r, r) == sig.size
  {
    Scale(0.5, sig.size)
  }

  function BoxVector(p: Point): Vec3 { Vec3(X(p), Y(p), Z(p)) }

  /** `from_metadata`: a missing coordinate reads as 0.0, a missing heading as 0 degrees,
      a missing id or type as "unknown"; distance and visibility are kept as found. */
  function FromMetadata(m: MathLib, o: SceneObject): (r: Signature)
    requires Lawful(m)
    ensures o.rotation.y.None? ==> r.rotation == Identity
    ensures o.rotation.y.Some? ==> r.rotation == RotationY(m, o.rotation.y.value)
    ensures r == Unrotated(o).(rotation := r.rotation)
  {
    var rotation := RotationY(m, o.rotation.y.GetOr(0.0));
    DefaultHeading(m, o.rotation.y);
    Unrotated(o).(rotation := rotation)
  }

  /** The signature read from metadata always carries a rotation, so its conversions between
      world and box axes undo each other. */
  lemma FromMetadataRotates(m: MathLib, o: SceneObject, p: Vec3)
    requires Lawful(m)
    ensures Orthonormal(FromMetadata(m, o).rotation)
    ensures LocalToWorld(FromMetadata(m, o), WorldToLocal(FromMetadata(m, o), p)) == p
  {
    RotationYOrthonormal(m, o.rotation.y.GetOr(0.0));
    LocalWorldRoundTrip(FromMetadata(m, o), p);
  }

  /** Everything `from_metadata` reads except the heading. */
  function Unrotated(o: SceneObject): (r: Signature)
    ensures o.aabbCenter == NoPoint ==> r.center == Zero
    ensures o.aabbSize == NoPoint ==> r.size == Zero
    ensures r.center == Vec3(o.aabbCenter.x.GetOr(0.0), o.aabbCenter.y.GetOr(0.0), o.aabbCenter.z.GetOr(0.0))
    ensures r.size == Vec3(o.aabbSize.x.GetOr(0.0), o.aabbSize.y.GetOr(0.0), o.aabbSize.z.GetOr(0.0))
    ensures r.rotation == Identity
    ensures r.objectId == (if o.objectId.Some? then o.objectId.value else "unknown")
    ensures r.objectType == (if o.objectType.Some? then o.objectType.value else "unknown")
    ensures r.distance == o.distance && r.visible == o.visible
  {
    Signature(o.objectId.GetOr("unknown"), o.objectType.GetOr("unknown"),
              BoxVector(o.aabbCenter), BoxVector(o.aabbSize), Identity, o.distance, o.visible)
  }

  /** `world_to_local`: translate to the centre, then undo the rotation. */
  function WorldToLocal(sig: Signature, p: Vec3): Vec3 {
    VecMat(Sub(p, sig.center), Transpose(sig.rotation))
  }

  /** `local_to_world`: rotate, then translate by the centre. */
  function LocalToWorld(sig: Signature, q: Vec3): Vec3 {
    Add(VecMat(q, sig.rotation), sig.center)
  }

  /** With a rotation the two conversions undo each other, in both orders. */
  lemma LocalWorldRoundTrip(sig: Signature, p: Vec3)
    requires Orthonormal(sig.rotation)
    ensures LocalToWorld(sig, WorldToLocal(sig, p)) == p
    ensures WorldToLocal(sig, LocalToWorld(sig, p)) == p
  {
    var r := sig.rotation;
    VecMatAssoc(Sub(p, sig.center), Transpose(r), r);
    VecMatIdentity(Sub(p, sig.center));
    assert Sub(Add(VecMat(p, r), sig.center), sig.center) == VecMat(p, r);
    VecMatAssoc(p, r, Transpose(r));
    VecMatIdentity(p);
  }

  /** The world point at a fraction of the box's size away from its centre, in box axes. */
  function RegionPoint(sig: Signature, offset: Vec3): Vec3 {
    LocalToWorld(sig, Mul(offset, sig.size))
  }

  /** `region_center`: the offset must be an array of shape (3,), else an `AssertionError`;
      the result lies, in the box's own axes, at the offset scaled by the size. */
  function RegionCenter(sig: Signature, offset: NdArray): (r: Result<Vec3, string>)
    requires WellFormed(offset)
    ensures r.Ok? <==> offset.shape == [3]
    ensures r.Err? ==> r.error == "AssertionError"
    ensures r.Ok? && Orthonormal(sig.rotation) ==>
      WorldToLocal(sig, r.value) == Mul(AsVec3(offset).value, sig.size)
  {
    match AsVec3(offset)
    case None => Err("AssertionError")
    case Some(v) =>
      RegionPointLocal(sig, v);
      Ok(RegionPoint(sig, v))
  }

  /** A region point read back in the box's axes is the scaled offset. */
  lemma RegionPointLocal(sig: Signature, v: Vec3)
    ensures Orthonormal(sig.rotation) ==> WorldToLocal(sig, RegionPoint(sig, v)) == Mul(v, sig.size)
  {
    if Orthonormal(sig.rotation) {
      LocalWorldRoundTrip(sig, Mul(v, sig.size));
    }
  }

  /** The zero offset is the box's centre. */
  lemma ZeroOffsetIsCenter(sig: Signature)
    ensures RegionCenter(sig, VecArray(Zero)) == Ok(sig.center)
  {
    VecRoundTrip(Zero);
    assert Mul(Zero, sig.size) == Zero;
    assert VecMat(Zero, sig.rotation) == Zero;
  }

  /** Region points are affine in the offset: the midpoint of two region points is the region
      point of the midpoint of their offsets. */
  lemma RegionPointMidpoint(sig: Signature, a: Vec3, b: Vec3)
    ensures Scale(0.5, Add(RegionPoint(sig, a), RegionPoint(sig, b)))
         == RegionPoint(sig, Scale(0.5, Add(a, b)))
  {
    var r := sig.rotation;
    var sa := Mul(a, sig.size);
    var sb := Mul(b, sig.size);
    assert Mul(Scale(0.5, Add(a, b)), sig.size) == Scale(0.5, Add(sa, sb));
    VecMatLinear(sa, sb, 0.5, r);
    VecMatLinear(Add(sa, sb), sb, 0.5, r);
  }
}

=== FILE: data_structures.dfy ===
/** The geometric data model of the perception layer (`spatial_perception/data_structures.py`):
    interaction points, semantic regions and the full spatial signature of an object, with the
    checks their constructors make, their queries, their conversions between world and object
    coordinates, and the merge of several signatures into one composite object. */
module SpatialData {
  import opened Wrappers
  import opened RealMath
  import opened LinAlg
  import opened Arrays
  import opened PointSets
  import Dict
  import Text

  /** The exception a failed check raises, with the name of the field that failed it. */
  datatype Refusal = AssertionError(field: string) | ValueError(field: string) | IndexError

  const InteractionTypes: set<string> := {"pickup", "place", "press", "grasp", "open", "close", "toggle"}

  /** The region names the constructor knows; any other name is accepted with a warning. */
  const StandardRegions: set<string> :=
    {"seat", "back", "left_arm", "right_arm", "cushion", "top", "left_edge", "right_edge",
     "front_edge", "back_edge", "corner", "top_shelf", "middle_shelf", "bottom_shelf", "door",
     "handle", "left_armrest", "right_armrest", "legs", "surface", "edge", "side", "front", "bottom"}

  predicate UnitInterval(x: real) { 0.0 <= x <= 1.0 }

  // ----- Unit vectors -----

  lemma DotSelf(v: Vec3)
    ensures 0.0 <= Dot(v, v)
    ensures v != Zero ==> 0.0 < Dot(v, v)
  {
    assert 0.0 <= v.x * v.x && 0.0 <= v.y * v.y && 0.0 <= v.z * v.z;
    if v.x != 0.0 { SqPositive(v.x); }
    if v.y != 0.0 { SqPositive(v.y); }
    if v.z != 0.0 { SqPositive(v.z); }
  }

  /** `np.linalg.norm(v)`. */
  function Norm(m: MathLib, v: Vec3): (r: real)
    requires Lawful(m)
    ensures 0.0 <= r && r * r == Dot(v, v)
    ensures r == 0.0 <==> v == Zero
  {
    var d := Dot(v, v);
    DotSelf(v);
    var r := m.sqrt(d);
    RootZero(d, r);
    r
  }

  lemma RootZero(d: real, r: real)
    requires 0.0 <= r && r * r == d
    ensures r == 0.0 <==> d == 0.0
  {
    if 0.0 < r { SquareLess(0.0, r); }
  }

  /** `u` is `v` divided by its length. */
  ghost predicate NormalizedFrom(m: MathLib, u: Vec3, v: Vec3)
    requires Lawful(m)
  {
    Scale(Norm(m, v), u) == v && (v != Zero ==> Dot(u, u) == 1.0)
  }

  lemma UnitScale(v: Vec3, n: real)
    requires 0.0 < n && n * n == Dot(v, v)
    ensures Dot(Scale(1.0 / n, v), Scale(1.0 / n, v)) == 1.0
    ensures Scale(n, Scale(1.0 / n, v)) == v
  {
    var k := 1.0 / n;
    assert k * n == 1.0;
    var u := Scale(k, v);
    assert Dot(u, u) == (k * k) * Dot(v, v);
    assert (k * k) * (n * n) == (k * n) * (k * n);
  }

  /** `v / np.linalg.norm(v)`. NumPy turns the zero vector into NaNs; the model keeps it. */
  function Normalize(m: MathLib, v: Vec3): (r: Vec3)
    requires Lawful(m)
    ensures NormalizedFrom(m, r, v)
    ensures v == Zero ==> r == Zero
  {
    var n := Norm(m, v);
    if n == 0.0 then v
    else
      UnitScale(v, n);
      Scale(1.0 / n, v)
  }

  /** The length of a unit vector is one. */
  lemma UnitNorm(m: MathLib, u: Vec3)
    requires Lawful(m) && Dot(u, u) == 1.0
    ensures Norm(m, u) == 1.0
  {
    var n := Norm(m, u);
    if n < 1.0 { SquareLess(n, 1.0); }
    if n > 1.0 { SquareLess(1.0, n); }
  }

  /** Normalising twice is normalising once. */
  lemma NormalizeIdempotent(m: MathLib, v: Vec3)
    requires Lawful(m)
    ensures Normalize(m, Normalize(m, v)) == Normalize(m, v)
  {
    var u := Normalize(m, v);
    if v != Zero {
      UnitNorm(m, u);
      assert Norm(m, u) == 1.0;
      assert Scale(1.0 / 1.0, u) == u;
    }
  }

  // ----- AffordancePoint -----

  /** `AffordancePoint`, with normal and approach direction as stored after normalisation. The
      optional material, stability and accessibility fields carry no behaviour and are left out. */
  datatype Affordance = Affordance(position: Vec3, normal: Vec3, interactionType: string,
                                   confidence: real, approach: Vec3)

  /** The three arrays have the shape (3,). */
  predicate AffordanceShapes(position: NdArray, normal: NdArray, approach: NdArray) {
    position.shape == [3] && normal.shape == [3] && approach.shape == [3]
  }

  /** `AffordancePoint(...)`: the shape checks of position, normal and approach direction in that
      order, normalisation, then the confidence range and the interaction type. */
  function MakeAffordance(m: MathLib, position: NdArray, normal: NdArray, interactionType: string,
                          confidence: real, approach: NdArray): (r: Result<Affordance, Refusal>)
    requires Lawful(m)
    requires WellFormed(position) && WellFormed(normal) && WellFormed(approach)
    ensures r.Ok? <==> AffordanceShapes(position, normal, approach) && UnitInterval(confidence)
                       && interactionType in InteractionTypes
    ensures position.shape != [3] ==> r == Err(AssertionError("position"))
    ensures position.shape == [3] && normal.shape != [3] ==> r == Err(AssertionError("normal"))
    ensures AffordanceShapes(position, normal, approach) && !UnitInterval(confidence)
            ==> r == Err(AssertionError("confidence"))
    ensures r.Err? ==> r.error.AssertionError?
    ensures r.Ok? ==>
      && r.value.position == AsVec3(position).value
      && NormalizedFrom(m, r.value.normal, AsVec3(normal).value)
      && NormalizedFrom(m, r.value.approach, AsVec3(approach).value)
      && r.value.interactionType == interactionType && r.value.confidence == confidence
  {
    if position.shape != [3] then Err(AssertionError("position"))
    else if normal.shape != [3] then Err(AssertionError("normal"))
    else if approach.shape != [3] then Err(AssertionError("approach_direction"))
    else if !UnitInterval(confidence) then Err(AssertionError("confidence"))
    else if interactionType !in InteractionTypes then Err(AssertionError("interaction_type"))
    else Ok(Affordance(AsVec3(position).value, Normalize(m, AsVec3(normal).value), interactionType,
                       confidence, Normalize(m, AsVec3(approach).value)))
  }

  /** What a constructed affordance satisfies. */
  predicate ValidAffordance(a: Affordance) {
    UnitInterval(a.confidence) && a.interactionType in InteractionTypes
    && Dot(a.normal, a.normal) == 1.0 && Dot(a.approach, a.approach) == 1.0
  }

  /** Building an affordance again from the arrays of a valid one gives it back: its directions
      are already normalised. */
  lemma AffordanceRebuild(m: MathLib, a: Affordance)
    requires Lawful(m) && ValidAffordance(a)
    ensures MakeAffordance(m, VecArray(a.position), VecArray(a.normal), a.interactionType,
                           a.confidence, VecArray(a.approach)) == Ok(a)
  {
    VecRoundTrip(a.position);
    VecRoundTrip(a.normal);
    VecRoundTrip(a.approach);
    UnitNorm(m, a.normal);
    UnitNorm(m, a.approach);
    DotSelf(a.normal);
    DotSelf(a.approach);
    assert a.normal != Zero && a.approach != Zero;
    assert Scale(1.0 / 1.0, a.normal) == a.normal;
    assert Scale(1.0 / 1.0, a.approach) == a.approach;
  }

  /** The checks refuse what the source's edge cases refuse: a confidence of 1.5 and an unknown
      interaction type. */
  lemma AffordanceEdgeCases(m: MathLib)
    requires Lawful(m)
    ensures MakeAffordance(m, VecArray(Zero), VecArray(Vec3(0.0, 1.0, 0.0)), "place", 1.5,
                           VecArray(Vec3(0.0, -1.0, 0.0))) == Err(AssertionError("confidence"))
    ensures MakeAffordance(m, VecArray(Zero), VecArray(Vec3(0.0, 1.0, 0.0)), "invalid_type", 0.5,
                           VecArray(Vec3(0.0, -1.0, 0.0))) == Err(AssertionError("interaction_type"))
  {
  }

  // ----- RegionSignature -----

  /** `RegionSignature`. The bounding box is set by `compute_bounding_box`; the optional surface
      area, volume, material and texture fields carry no behaviour and are left out. */
  datatype Region = Region(name: string, indices: seq<int>, center: Vec3, normal: Vec3, extent: Vec3,
                           accessibility: real, stability: real, surfaceQuality: real,
                           boundingBox: Option<(Vec3, Vec3)>, affordances: seq<Affordance>)

  predicate RegionShapes(center: NdArray, normal: NdArray, extent: NdArray) {
    center.shape == [3] && normal.shape == [3] && extent.shape == [3]
  }

  predicate RegionScores(accessibility: real, stability: real, surfaceQuality: real) {
    UnitInterval(accessibility) && UnitInterval(stability) && UnitInterval(surfaceQuality)
  }

  /** `RegionSignature(...)`: the shapes of centre, normal and extent, normalisation of the
      normal, then the three scores in the order accessibility, stability, surface quality. A
      name outside the standard list only prints a warning. */
  function MakeRegion(m: MathLib, name: string, indices: seq<int>, center: NdArray, normal: NdArray,
                      extent: NdArray, accessibility: real, stability: real, surfaceQuality: real,
                      affordances: seq<Affordance>): (r: Result<Region, Refusal>)
    requires Lawful(m)
    requires WellFormed(center) && WellFormed(normal) && WellFormed(extent)
    ensures r.Ok? <==> RegionShapes(center, normal, extent)
                       && RegionScores(accessibility, stability, surfaceQuality)
    ensures r.Err? ==> r.error.AssertionError?
    ensures RegionShapes(center, normal, extent) && !UnitInterval(accessibility)
            ==> r == Err(AssertionError("accessibility"))
    ensures RegionShapes(center, normal, extent) && UnitInterval(accessibility) && !UnitInterval(stability)
            ==> r == Err(AssertionError("stability"))
    ensures r.Ok? ==>
      && r.value.name == name && r.value.indices == indices
      && r.value.center == AsVec3(center).value && r.value.extent == AsVec3(extent).value
      && NormalizedFrom(m, r.value.normal, AsVec3(normal).value)
      && r.value.boundingBox.None? && r.value.affordances == affordances
  {
    if center.shape != [3] then Err(AssertionError("center"))
    else if normal.shape != [3] then Err(AssertionError("normal"))
    else if extent.shape != [3] then Err(AssertionError("extent"))
    else if !UnitInterval(accessibility) then Err(AssertionError("accessibility"))
    else if !UnitInterval(stability) then Err(AssertionError("stability"))
    else if !UnitInterval(surfaceQuality) then Err(AssertionError("surface_quality"))
    else Ok(Region(name, indices, AsVec3(center).value, Normalize(m, AsVec3(normal).value),
                   AsVec3(extent).value, accessibility, stability, surfaceQuality, None, affordances))
  }

  /** A custom region name is accepted just as a standard one is. */
  lemma RegionNameOnlyWarns(m: MathLib, custom: string, name: string, indices: seq<int>,
                            center: NdArray, normal: NdArray, extent: NdArray,
                            accessibility: real, stability: real, surfaceQuality: real,
                            affordances: seq<Affordance>)
    requires Lawful(m)
    requires WellFormed(center) && WellFormed(normal) && WellFormed(extent)
    requires custom !in StandardRegions && name in StandardRegions
    ensures
      var a := MakeRegion(m, custom, indices, center, normal, extent, accessibility, stability,
                          surfaceQuality, affordances);
      var b := MakeRegion(m, name, indices, center, normal, extent, accessibility, stability,
                          surfaceQuality, affordances);
      (a.Ok? <==> b.Ok?) && (a.Ok? ==> a.value == b.value.(name := custom))
  {
  }

  /** The affordances of the given type, in order. */
  function OfType(affs: seq<Affordance>, t: string): (r: seq<Affordance>)
    ensures |r| <= |affs|
    ensures forall j :: 0 <= j < |r| ==> r[j].interactionType == t && r[j] in affs
    ensures forall a :: a in affs && a.interactionType == t ==> a in r
  {
    if affs == [] then []
    else (if affs[0].interactionType == t then [affs[0]] else []) + OfType(affs[1..], t)
  }

  /** `get_interaction_points`: every point without a type, else those of the type, in order. */
  function GetInteractionPoints(region: Region, t: Option<string>): (r: seq<Affordance>)
    ensures t.None? ==> r == region.affordances
    ensures t.Some? ==> forall j :: 0 <= j < |r| ==> r[j].interactionType == t.value && r[j] in region.affordances
    ensures t.Some? ==> forall a :: a in region.affordances && a.interactionType == t.value ==> a in r
  {
    match t
    case None => region.affordances
    case Some(ty) => OfType(region.affordances, ty)
  }

  /** `add_affordance_point`: the point goes last. */
  function AddAffordance(region: Region, a: Affordance): (r: Region)
    ensures |r.affordances| == |region.affordances| + 1 && r.affordances[|region.affordances|] == a
    ensures r.affordances[..|region.affordances|] == region.affordances
    ensures r.(affordances := region.affordances) == region
  {
    region.(affordances := region.affordances + [a])
  }

  /** Filtering a sequence with one more point at the end filters the sequence and keeps the
      point if it has the type. */
  lemma {:induction false} OfTypeAppend(affs: seq<Affordance>, a: Affordance, t: string)
    ensures OfType(affs + [a], t) == OfType(affs, t) + (if a.interactionType == t then [a] else [])
  {
    var b := affs + [a];
    if affs != [] {
      assert b[0] == affs[0] && b[1..] == affs[1..] + [a];
      OfTypeAppend(affs[1..], a, t);
      var h := if affs[0].interactionType == t then [affs[0]] else [];
      var k := if a.interactionType == t then [a] else [];
      assert OfType(b, t) == h + OfType(b[1..], t);
      assert OfType(b[1..], t) == OfType(affs[1..], t) + k;
      assert OfType(affs, t) == h + OfType(affs[1..], t);
      assert h + (OfType(affs[1..], t) + k) == (h + OfType(affs[1..], t)) + k;
    } else {
      assert b == [a] && b[1..] == [];
    }
  }

  /** A point added to a region is the last point its type query returns. */
  lemma QueryAfterAdd(region: Region, a: Affordance)
    ensures GetInteractionPoints(AddAffordance(region, a), Some(a.interactionType))
         == GetInteractionPoints(region, Some(a.interactionType)) + [a]
    ensures forall t :: t != a.interactionType ==>
      GetInteractionPoints(AddAffordance(region, a), Some(t)) == GetInteractionPoints(region, Some(t))
  {
    OfTypeAppend(region.affordances, a, a.interactionType);
    forall t | t != a.interactionType
      ensures GetInteractionPoints(AddAffordance(region, a), Some(t)) == GetInteractionPoints(region, Some(t))
    {
      OfTypeAppend(region.affordances, a, t);
    }
  }

  // ----- compute_bounding_box -----

  /** NumPy's reading of an index into `n` rows: negative indices count from the end. */
  function WrapIndex(i: int, n: nat): int { if i < 0 then i + n else i }

  /** Every index is accepted by NumPy for `n` rows. */
  predicate IndicesInRange(indices: seq<int>, n: nat) {
    forall j :: 0 <= j < |indices| ==> -(n as int) <= indices[j] < n
  }

  /** `point_cloud[indices]`. */
  function Gather(cloud: seq<Vec3>, indices: seq<int>): (r: seq<Vec3>)
    requires IndicesInRange(indices, |cloud|)
    ensures |r| == |indices|
    ensures forall j :: 0 <= j < |indices| ==> r[j] == cloud[WrapIndex(indices[j], |cloud|)]
  {
    seq(|indices|, j requires 0 <= j < |indices| => cloud[WrapIndex(indices[j], |cloud|)])
  }

  /** `compute_bounding_box`: no indices give the zero box, which is not stored; an index NumPy
      refuses raises `IndexError`; otherwise the per-axis minimum and maximum of the indexed
      points, which is stored in the region and returned. */
  function ComputeBoundingBox(region: Region, cloud: seq<Vec3>): (r: (Result<(Vec3, Vec3), Refusal>, Region))
    ensures region.indices == [] ==> r == (Ok((Zero, Zero)), region)
    ensures region.indices != [] && !IndicesInRange(region.indices, |cloud|) ==> r == (Err(IndexError), region)
    ensures r.0.Err? ==> r.1 == region
    ensures r.0.Ok? && region.indices != [] ==>
      r.0.value == (BoxMin(Gather(cloud, region.indices)), BoxMax(Gather(cloud, region.indices)))
    ensures r.0.Ok? && region.indices != [] ==>
      && IndicesInRange(region.indices, |cloud|)
      && r.1 == region.(boundingBox := Some(r.0.value))
      && forall j :: 0 <= j < |region.indices| ==>
           var p := cloud[WrapIndex(region.indices[j], |cloud|)];
           Below(r.0.value.0, p) && Below(p, r.0.value.1)
  {
    if |region.indices| == 0 then (Ok((Zero, Zero)), region)
    else if !IndicesInRange(region.indices, |cloud|) then (Err(IndexError), region)
    else
      var pts := Gather(cloud, region.indices);
      var box := (BoxMin(pts), BoxMax(pts));
      BoxBounds(pts);
      (Ok(box), region.(boundingBox := Some(box)))
  }


  // ----- SpatialSignature -----

  /** `SpatialSignature` after its checks. The raw bounding-box dictionary, the surface-normal
      field, the spatial relations, the timestamp and the version carry no behaviour and are left
      out. */
  datatype SpatialSignature = SpatialSignature(
    objectId: string, objectType: string, points: seq<Vec3>,
    colors: Option<seq<Vec3>>, normals: Option<seq<Vec3>>,
    position: Vec3, orientation: Mat3, principalAxes: Mat3, scale: Vec3,
    regions: Dict.Dict<string, Region>, affordances: seq<Affordance>, confidence: real)

  /** The arguments of the constructor, arrays as given. */
  datatype RawSignature = RawSignature(
    objectId: string, objectType: string, pointCloud: NdArray,
    pointColors: Option<NdArray>, pointNormals: Option<NdArray>,
    position: NdArray, orientation: NdArray, principalAxes: NdArray, scale: NdArray,
    regions: Dict.Dict<string, Region>, affordances: seq<Affordance>, confidence: real)

  predicate RawWellFormed(raw: RawSignature) {
    && WellFormed(raw.pointCloud) && WellFormed(raw.position) && WellFormed(raw.orientation)
    && WellFormed(raw.principalAxes) && WellFormed(raw.scale)
    && (raw.pointColors.Some? ==> WellFormed(raw.pointColors.value))
    && (raw.pointNormals.Some? ==> WellFormed(raw.pointNormals.value))
  }

  /** An optional per-point array is absent or has shape (n, 3). */
  predicate PerPoint(a: Option<NdArray>, n: nat) {
    a.Some? ==> a.value.shape == [n, 3]
  }

  /** `np.allclose(g, np.eye(3), atol=1e-6)` with NumPy's default relative tolerance of 1e-5:
      each entry within 1e-6 + 1e-5 * |the identity's entry| of it. */
  predicate NearIdentity(g: Mat3) {
    && -0.000011 <= g.r0.x - 1.0 <= 0.000011 && -0.000011 <= g.r1.y - 1.0 <= 0.000011
    && -0.000011 <= g.r2.z - 1.0 <= 0.000011
    && -0.000001 <= g.r0.y <= 0.000001 && -0.000001 <= g.r0.z <= 0.000001
    && -0.000001 <= g.r1.x <= 0.000001 && -0.000001 <= g.r1.z <= 0.000001
    && -0.000001 <= g.r2.x <= 0.000001 && -0.000001 <= g.r2.y <= 0.000001
  }

  /** The orientation check: `orientation @ orientation.T` is close to the identity. */
  predicate NearlyOrthogonal(o: Mat3) { NearIdentity(MatMul(o, Transpose(o))) }

  /** `_orthogonalize_matrix` (`U @ Vt` of an SVD) is foreign numerics; all the model asks of it
      is that its result is a rotation or reflection. */
  ghost predicate Orthogonalizes(ortho: Mat3 -> Mat3) {
    forall a :: Orthonormal(ortho(a))
  }

  /** Everything the constructor checks, in the terms of its inputs. */
  predicate Accepted(raw: RawSignature)
    requires RawWellFormed(raw)
  {
    && AsRows3(raw.pointCloud).Some?
    && PerPoint(raw.pointColors, raw.pointCloud.shape[0])
    && PerPoint(raw.pointNormals, raw.pointCloud.shape[0])
    && raw.position.shape == [3] && raw.orientation.shape == [3, 3]
    && raw.principalAxes.shape == [3, 3] && raw.scale.shape == [3]
    && UnitInterval(raw.confidence)
  }

  /** The rows of an optional per-point array that passed its check. */
  function PerPointRows(a: Option<NdArray>, n: nat): (r: Option<seq<Vec3>>)
    requires a.Some? ==> WellFormed(a.value)
    requires PerPoint(a, n)
    ensures r.Some? <==> a.Some?
    ensures r.Some? ==> |r.value| == n && AsRows3(a.value) == r
  {
    match a
    case None => None
    case Some(arr) => Some(AsRows3(arr).value)
  }

  /** `SpatialSignature(...)`: a point cloud that is not a table of three columns raises
      `ValueError`; the colour and normal tables must have one row per point, position and scale
      shape (3,), orientation and principal axes shape (3, 3), and the confidence must lie in
      [0, 1], each refused with an `AssertionError`. An orientation that fails the orthogonality
      check is replaced by its orthogonalisation. */
  function Construct(ortho: Mat3 -> Mat3, raw: RawSignature): (r: Result<SpatialSignature, Refusal>)
    requires RawWellFormed(raw)
    ensures r.Ok? <==> Accepted(raw)
    ensures AsRows3(raw.pointCloud).None? ==> r == Err(ValueError("point_cloud"))
    ensures r.Err? && AsRows3(raw.pointCloud).Some? ==> r.error.AssertionError?
    ensures r.Ok? ==>
      && AsRows3(raw.pointCloud) == Some(r.value.points)
      && (r.value.colors.Some? <==> raw.pointColors.Some?)
      && (r.value.colors.Some? ==> AsRows3(raw.pointColors.value) == r.value.colors)
      && (r.value.normals.Some? <==> raw.pointNormals.Some?)
      && (r.value.normals.Some? ==> AsRows3(raw.pointNormals.value) == r.value.normals)
      && Some(r.value.position) == AsVec3(raw.position)
      && Some(r.value.scale) == AsVec3(raw.scale)
      && Some(r.value.principalAxes) == AsMat3(raw.principalAxes)
      && r.value.objectId == raw.objectId && r.value.objectType == raw.objectType
      && r.value.regions == raw.regions && r.value.affordances == raw.affordances
      && r.value.confidence == raw.confidence
    ensures r.Ok? && NearlyOrthogonal(AsMat3(raw.orientation).value) ==>
      r.value.orientation == AsMat3(raw.orientation).value
    ensures r.Ok? && !NearlyOrthogonal(AsMat3(raw.orientation).value) ==>
      r.value.orientation == ortho(AsMat3(raw.orientation).value)
  {
    match AsRows3(raw.pointCloud)
    case None => Err(ValueError("point_cloud"))
    case Some(points) =>
      var n := raw.pointCloud.shape[0];
      if !PerPoint(raw.pointColors, n) then Err(AssertionError("point_colors"))
      else if !PerPoint(raw.pointNormals, n) then Err(AssertionError("point_normals"))
      else if raw.position.shape != [3] then Err(AssertionError("position"))
      else if raw.orientation.shape != [3, 3] then Err(AssertionError("orientation"))
      else if raw.principalAxes.shape != [3, 3] then Err(AssertionError("principal_axes"))
      else if raw.scale.shape != [3] then Err(AssertionError("scale"))
      else if !UnitInterval(raw.confidence) then Err(AssertionError("confidence"))
      else
        var given := AsMat3(raw.orientation).value;
        var orientation := if NearlyOrthogonal(given) then given else ortho(given);
        Ok(SpatialSignature(raw.objectId, raw.objectType, points,
                            PerPointRows(raw.pointColors, n), PerPointRows(raw.pointNormals, n),
                            AsVec3(raw.position).value, orientation, AsMat3(raw.principalAxes).value,
                            AsVec3(raw.scale).value, raw.regions, raw.affordances, raw.confidence))
  }

  /** An exact rotation passes the orthogonality check. */
  lemma OrthonormalPasses(o: Mat3)
    requires Orthonormal(o)
    ensures NearlyOrthogonal(o)
  {
    assert MatMul(o, Transpose(o)) == Identity;
  }

  /** Whatever orientation was given, the stored one passes the orthogonality check, provided
      the orthogonalisation returns a rotation. */
  lemma ConstructedOrientation(ortho: Mat3 -> Mat3, raw: RawSignature)
    requires RawWellFormed(raw) && Orthogonalizes(ortho)
    ensures Construct(ortho, raw).Ok? ==> NearlyOrthogonal(Construct(ortho, raw).value.orientation)
  {
    var r := Construct(ortho, raw);
    if r.Ok? && r.value.orientation != AsMat3(raw.orientation).value {
      OrthonormalPasses(r.value.orientation);
    }
  }

  /** The constructor with only the required arguments, as `create_simple_spatial_signature`
      and the merge call it: identity orientation and axes, unit scale, confidence 1.0. */
  function SimpleRaw(objectId: string, objectType: string, points: seq<Vec3>, position: Vec3): (r: RawSignature)
    ensures RawWellFormed(r)
  {
    RawSignature(objectId, objectType, RowsArray(points), None, None, VecArray(position),
                 MatArray(Identity), MatArray(Identity), VecArray(Ones), [], [], 1.0)
  }

  /** The simple constructor never refuses, and keeps what it was given. */
  lemma SimpleAccepted(ortho: Mat3 -> Mat3, objectId: string, objectType: string, points: seq<Vec3>, position: Vec3)
    ensures Construct(ortho, SimpleRaw(objectId, objectType, points, position))
         == Ok(SpatialSignature(objectId, objectType, points, None, None, position, Identity, Identity,
                                Ones, [], [], 1.0))
  {
    SimpleRawReads(objectId, objectType, points, position);
    ConstructDefaults(ortho, SimpleRaw(objectId, objectType, points, position), points, position);
  }

  /** The arrays read as the constructor's defaults. */
  predicate ReadsAsDefaults(raw: RawSignature, points: seq<Vec3>, position: Vec3)
    requires RawWellFormed(raw)
  {
    && AsRows3(raw.pointCloud) == Some(points) && raw.pointCloud.shape == [|points|, 3]
    && AsVec3(raw.position) == Some(position) && AsVec3(raw.scale) == Some(Ones)
    && AsMat3(raw.orientation) == Some(Identity) && AsMat3(raw.principalAxes) == Some(Identity)
    && raw.pointColors.None? && raw.pointNormals.None? && raw.confidence == 1.0
  }

  /** The constructor on arrays that read as the defaults. */
  lemma ConstructDefaults(ortho: Mat3 -> Mat3, raw: RawSignature, points: seq<Vec3>, position: Vec3)
    requires RawWellFormed(raw) && ReadsAsDefaults(raw, points, position)
    ensures Construct(ortho, raw)
         == Ok(SpatialSignature(raw.objectId, raw.objectType, points, None, None, position, Identity,
                                Identity, Ones, raw.regions, raw.affordances, 1.0))
  {
    DefaultsAccepted(ortho, raw, points, position);
    DefaultsOrientation(ortho, raw, points, position);
  }

  lemma DefaultsAccepted(ortho: Mat3 -> Mat3, raw: RawSignature, points: seq<Vec3>, position: Vec3)
    requires RawWellFormed(raw) && ReadsAsDefaults(raw, points, position)
    ensures Construct(ortho, raw).Ok?
  {
    assert Accepted(raw);
  }

  lemma DefaultsOrientation(ortho: Mat3 -> Mat3, raw: RawSignature, points: seq<Vec3>, position: Vec3)
    requires RawWellFormed(raw) && ReadsAsDefaults(raw, points, position)
    requires Construct(ortho, raw).Ok?
    ensures Construct(ortho, raw).value.orientation == Identity
  {
    IdentityPasses();
  }

  lemma SimpleRawReads(objectId: string, objectType: string, points: seq<Vec3>, position: Vec3)
    ensures var raw := SimpleRaw(objectId, objectType, points, position);
      && AsRows3(raw.pointCloud) == Some(points) && raw.pointCloud.shape == [|points|, 3]
      && AsVec3(raw.position) == Some(position) && AsVec3(raw.scale) == Some(Ones)
      && AsMat3(raw.orientation) == Some(Identity) && AsMat3(raw.principalAxes) == Some(Identity)
      && raw.pointColors.None? && raw.pointNormals.None? && raw.confidence == 1.0
  {
    RowsRoundTrip(points);
    VecRoundTrip(position);
    VecRoundTrip(Ones);
    MatRoundTrip(Identity);
  }

  lemma IdentityPasses()
    ensures NearlyOrthogonal(Identity)
  {
    IdentityOrthonormal();
    OrthonormalPasses(Identity);
  }

  /** `get_region`. */
  function GetRegion(sig: SpatialSignature, name: string): Option<Region> {
    Dict.Get(sig.regions, name)
  }

  /** `add_semantic_region`: stored under the region's own name, replacing any region of that name. */
  function AddSemanticRegion(sig: SpatialSignature, region: Region): (r: SpatialSignature)
    ensures GetRegion(r, region.name) == Some(region)
    ensures forall n :: n != region.name ==> GetRegion(r, n) == GetRegion(sig, n)
    ensures r.(regions := sig.regions) == sig
  {
    sig.(regions := Dict.Put(sig.regions, region.name, region))
  }

  /** The points the regions offer for a type, region after region in the dictionary's order. */
  function RegionAffordances(regions: Dict.Dict<string, Region>, t: Option<string>): (r: seq<Affordance>)
  {
    if regions == [] then [] else GetInteractionPoints(regions[0].1, t) + RegionAffordances(regions[1..], t)
  }

  /** With a type, every point the regions offer has that type. */
  lemma {:induction false} RegionAffordancesTyped(regions: Dict.Dict<string, Region>, t: Option<string>)
    ensures t.Some? ==> forall j :: 0 <= j < |RegionAffordances(regions, t)| ==>
      RegionAffordances(regions, t)[j].interactionType == t.value
  {
    if regions != [] {
      RegionAffordancesTyped(regions[1..], t);
    }
  }

  /** `get_all_affordances`: the global points, unfiltered even when a type is given, followed
      by each region's points of that type. */
  function GetAllAffordances(sig: SpatialSignature, t: Option<string>): (r: seq<Affordance>)
    ensures |sig.affordances| <= |r| && r[..|sig.affordances|] == sig.affordances
    ensures t.Some? ==> forall j :: |sig.affordances| <= j < |r| ==> r[j].interactionType == t.value
    ensures forall a :: a in r[|sig.affordances|..] ==>
              exists k :: 0 <= k < |sig.regions| && a in sig.regions[k].1.affordances
    ensures forall k, a ::
              (0 <= k < |sig.regions| && a in sig.regions[k].1.affordances && (t.None? || a.interactionType == t.value))
              ==> a in r[|sig.affordances|..]
  {
    var tail := RegionAffordances(sig.regions, t);
    RegionAffordancesTyped(sig.regions, t);
    forall a | a in tail ensures exists k :: 0 <= k < |sig.regions| && a in sig.regions[k].1.affordances {
      var k := RegionAffordancesSound(sig.regions, t, a);
    }
    forall k, a | 0 <= k < |sig.regions| && a in sig.regions[k].1.affordances && (t.None? || a.interactionType == t.value)
      ensures a in tail
    {
      RegionAffordancesComplete(sig.regions, t, k, a);
    }
    assert (sig.affordances + tail)[|sig.affordances|..] == tail;
    sig.affordances + tail
  }

  /** Each point the regions offer comes from one of them. */
  lemma {:induction false} RegionAffordancesSound(regions: Dict.Dict<string, Region>, t: Option<string>, a: Affordance) returns (k: nat)
    requires a in RegionAffordances(regions, t)
    ensures k < |regions| && a in regions[k].1.affordances
  {
    if a in GetInteractionPoints(regions[0].1, t) {
      k := 0;
    } else {
      var k' := RegionAffordancesSound(regions[1..], t, a);
      k := k' + 1;
    }
  }

  /** Every point of a region that has the asked type, or any point when no type is asked, is
      offered. */
  lemma {:induction false} RegionAffordancesComplete(regions: Dict.Dict<string, Region>, t: Option<string>, k: nat, a: Affordance)
    requires k < |regions| && a in regions[k].1.affordances && (t.None? || a.interactionType == t.value)
    ensures a in RegionAffordances(regions, t)
  {
    if k == 0 {
      assert a in GetInteractionPoints(regions[0].1, t);
    } else {
      RegionAffordancesComplete(regions[1..], t, k - 1, a);
    }
  }

  // ----- Surface area and volume -----

  /** The surface of a box with these side lengths. */
  function BoxSurface(e: Vec3): (r: real)
    requires 0.0 <= e.x && 0.0 <= e.y && 0.0 <= e.z
    ensures 0.0 <= r
  {
    assert 0.0 <= e.x * e.y && 0.0 <= e.x * e.z && 0.0 <= e.y * e.z;
    2.0 * (e.x * e.y + e.x * e.z + e.y * e.z)
  }

  /** The volume of a box with these side lengths. */
  function BoxVolume(e: Vec3): (r: real)
    requires 0.0 <= e.x && 0.0 <= e.y && 0.0 <= e.z
    ensures 0.0 <= r
  {
    assert 0.0 <= e.x * e.y;
    e.x * e.y * e.z
  }

  /** `get_surface_area`: zero for an empty cloud, else the surface of the bounding box. */
  function SurfaceArea(sig: SpatialSignature): (r: real)
    ensures 0.0 <= r
    ensures sig.points == [] ==> r == 0.0
    ensures sig.points != [] ==>
      var e := Extent(sig.points);
      r == 2.0 * (e.x * e.y + e.x * e.z + e.y * e.z)
  {
    if |sig.points| == 0 then 0.0
    else
      BoxSurface(Extent(sig.points))
  }

  /** `get_volume`: zero for an empty cloud, else the volume of the bounding box. */
  function Volume(sig: SpatialSignature): (r: real)
    ensures 0.0 <= r
    ensures sig.points == [] ==> r == 0.0
    ensures sig.points != [] ==>
      var e := Extent(sig.points);
      r == e.x * e.y * e.z
  {
    if |sig.points| == 0 then 0.0
    else
      BoxVolume(Extent(sig.points))
  }

  /** Moving the whole cloud changes neither estimate. */
  lemma AreaVolumeShiftInvariant(sig: SpatialSignature, t: Vec3)
    ensures SurfaceArea(sig.(points := Shift(sig.points, t))) == SurfaceArea(sig)
    ensures Volume(sig.(points := Shift(sig.points, t))) == Volume(sig)
  {
    var q := sig.(points := Shift(sig.points, t));
    if |sig.points| > 0 {
      ExtentShiftInvariant(sig.points, t);
      assert Extent(q.points) == Extent(sig.points);
    } else {
      assert q.points == [];
    }
  }

  /** Two opposite corners of the unit cube span a box of surface 6 and volume 1. */
  lemma UnitCubeEstimates(sig: SpatialSignature)
    requires sig.points == [Zero, Ones]
    ensures SurfaceArea(sig) == 6.0 && Volume(sig) == 1.0
  {
    UnitCubeExtent(sig.points);
  }

  lemma UnitCubeExtent(ps: seq<Vec3>)
    requires ps == [Zero, Ones]
    ensures Extent(ps) == Ones
  {
    var col := [0.0, 1.0];
    assert col[1..] == [1.0];
    assert MinOf(col) == 0.0 && MaxOf(col) == 1.0;
    assert Column(ps, 0) == col;
    assert Column(ps, 1) == col;
    assert Column(ps, 2) == col;
    assert BoxMin(ps) == Zero && BoxMax(ps) == Ones;
  }

  // ----- Coordinate transforms -----

  /** No axis of the scale is zero. */
  predicate NoZeroScale(s: Vec3) { s.x != 0.0 && s.y != 0.0 && s.z != 0.0 }

  /** Element-wise division (`a / b` on arrays). */
  function Div(a: Vec3, b: Vec3): Vec3
    requires NoZeroScale(b)
  {
    Vec3(a.x / b.x, a.y / b.y, a.z / b.z)
  }

  /** `transform_to_local_coordinates` for one point: translate, rotate into the object's axes,
      divide by the scale. */
  function ToLocal(sig: SpatialSignature, p: Vec3): Vec3
    requires NoZeroScale(sig.scale)
  {
    Div(VecMat(Sub(p, sig.position), Transpose(sig.orientation)), sig.scale)
  }

  /** `transform_to_world_coordinates` for one point: multiply by the scale, rotate back,
      translate. */
  function ToWorld(sig: SpatialSignature, q: Vec3): Vec3 {
    Add(VecMat(Mul(q, sig.scale), sig.orientation), sig.position)
  }

  lemma DivMul(a: Vec3, s: Vec3)
    requires NoZeroScale(s)
    ensures Mul(Div(a, s), s) == a && Div(Mul(a, s), s) == a
  {
  }

  /** With a rotation and no zero scale, the two transforms undo each other in both orders. */
  lemma TransformRoundTrip(sig: SpatialSignature, p: Vec3)
    requires Orthonormal(sig.orientation) && NoZeroScale(sig.scale)
    ensures ToWorld(sig, ToLocal(sig, p)) == p
    ensures ToLocal(sig, ToWorld(sig, p)) == p
  {
    var o := sig.orientation;
    var c := Sub(p, sig.position);
    DivMul(VecMat(c, Transpose(o)), sig.scale);
    VecMatAssoc(c, Transpose(o), o);
    VecMatIdentity(c);
    var w := VecMat(Mul(p, sig.scale), o);
    assert Sub(Add(w, sig.position), sig.position) == w;
    VecMatAssoc(Mul(p, sig.scale), o, Transpose(o));
    VecMatIdentity(Mul(p, sig.scale));
    DivMul(p, sig.scale);
  }

  // ----- merge_spatial_signatures -----

  /** `np.vstack` of the clouds. */
  function AllPoints(sigs: seq<SpatialSignature>): (r: seq<Vec3>)
    ensures forall i, p :: 0 <= i < |sigs| && p in sigs[i].points ==> p in r
    ensures forall p :: p in r ==> exists i :: 0 <= i < |sigs| && p in sigs[i].points
  {
    if sigs == [] then [] else sigs[0].points + AllPoints(sigs[1..])
  }

  /** The global affordances of every signature, in order. */
  function AllAffordances(sigs: seq<SpatialSignature>): (r: seq<Affordance>)
    ensures forall i, a :: 0 <= i < |sigs| && a in sigs[i].affordances ==> a in r
    ensures forall a :: a in r ==> exists i :: 0 <= i < |sigs| && a in sigs[i].affordances
  {
    if sigs == [] then [] else sigs[0].affordances + AllAffordances(sigs[1..])
  }

  function Ids(sigs: seq<SpatialSignature>): (r: seq<string>)
    ensures |r| == |sigs| && forall i :: 0 <= i < |sigs| ==> r[i] == sigs[i].objectId
  {
    seq(|sigs|, i requires 0 <= i < |sigs| => sigs[i].objectId)
  }

  /** The regions of one signature stored under "<object_id>_<name>". */
  function PrefixRegions(d: Dict.Dict<string, Region>, id: string, regions: Dict.Dict<string, Region>): Dict.Dict<string, Region>
    decreases |regions|
  {
    if regions == [] then d
    else PrefixRegions(Dict.Put(d, id + "_" + regions[0].0, regions[0].1), id, regions[1..])
  }

  /** The regions of every signature, signature after signature. */
  function MergedRegions(d: Dict.Dict<string, Region>, sigs: seq<SpatialSignature>): Dict.Dict<string, Region>
    decreases |sigs|
  {
    if sigs == [] then d else MergedRegions(PrefixRegions(d, sigs[0].objectId, sigs[0].regions), sigs[1..])
  }

  /** `merge_spatial_signatures`: no signature raises `ValueError`; one is returned as it is;
      several make a composite whose cloud is all their points, positioned at the mean point,
      named by their ids joined with "_", with their regions under prefixed names and their
      global affordances in order. Colours and normals are dropped. An all-empty merge has no
      mean point; NumPy gives NaN there, the model the origin. */
  function Merge(sigs: seq<SpatialSignature>): (r: Result<SpatialSignature, Refusal>)
    ensures r.Err? <==> sigs == []
    ensures r.Err? ==> r.error == ValueError("signatures")
    ensures |sigs| == 1 ==> r == Ok(sigs[0])
    ensures |sigs| > 1 ==>
      && r.value.objectType == "Composite"
      && r.value.colors.None? && r.value.normals.None?
      && (forall i, p :: 0 <= i < |sigs| && p in sigs[i].points ==> p in r.value.points)
      && (forall p :: p in r.value.points ==> exists i :: 0 <= i < |sigs| && p in sigs[i].points)
      && (forall i, a :: 0 <= i < |sigs| && a in sigs[i].affordances ==> a in r.value.affordances)
      && (forall a :: a in r.value.affordances ==> exists i :: 0 <= i < |sigs| && a in sigs[i].affordances)
      && (r.value.points != [] ==> Scale(|r.value.points| as real, r.value.position) == Sum(r.value.points))
  {
    if sigs == [] then Err(ValueError("signatures"))
    else if |sigs| == 1 then Ok(sigs[0])
    else
      var points := AllPoints(sigs);
      var center := if points == [] then Zero else Mean(points);
      Ok(SpatialSignature(Text.Join(Ids(sigs), "_"), "Composite", points, None, None, center,
                          Identity, Identity, Ones, MergedRegions([], sigs), AllAffordances(sigs), 1.0))
  }

  /** The composite is what the constructor builds from the joined id, the points and their
      mean, with the regions and affordances added afterwards. */
  lemma MergeIsConstructed(ortho: Mat3 -> Mat3, sigs: seq<SpatialSignature>)
    requires |sigs| > 1
    ensures var m := Merge(sigs).value;
      Construct(ortho, SimpleRaw(m.objectId, m.objectType, m.points, m.position))
        == Ok(m.(regions := [], affordances := []))
  {
    var m := Merge(sigs).value;
    var points := AllPoints(sigs);
    var center := if points == [] then Zero else Mean(points);
    assert m == SpatialSignature(Text.Join(Ids(sigs), "_"), "Composite", points, None, None, center,
                                 Identity, Identity, Ones, MergedRegions([], sigs), AllAffordances(sigs), 1.0);
    SimpleAccepted(ortho, m.objectId, m.objectType, m.points, m.position);
  }

  /** Two signatures merge under both ids joined by "_". */
  lemma MergeTwoIds(a: SpatialSignature, b: SpatialSignature)
    ensures Merge([a, b]).value.objectId == a.objectId + "_" + b.objectId
  {
    assert Ids([a, b]) == [a.objectId, b.objectId];
    assert [a.objectId, b.objectId][1..] == [b.objectId];
    assert Text.Join([b.objectId], "_") == b.objectId;
  }

  /** A merge of several signatures is the first one's id, "_" and the id of the merge of the
      rest; likewise its points and global affordances are the first one's followed by the
      rest's. So the composite id joins all ids in order, and points and affordances keep their
      order. */
  lemma MergeUnfolds(sigs: seq<SpatialSignature>)
    requires |sigs| > 1
    ensures Merge(sigs).value.objectId == sigs[0].objectId + "_" + Merge(sigs[1..]).value.objectId
    ensures Merge(sigs).value.points == sigs[0].points + Merge(sigs[1..]).value.points
    ensures Merge(sigs).value.affordances == sigs[0].affordances + Merge(sigs[1..]).value.affordances
  {
    var rest := sigs[1..];
    var m := Merge(sigs).value;
    assert m.objectId == Text.Join(Ids(sigs), "_");
    assert m.points == AllPoints(sigs) == sigs[0].points + AllPoints(rest);
    assert m.affordances == AllAffordances(sigs) == sigs[0].affordances + AllAffordances(rest);
    assert Ids(sigs) == [sigs[0].objectId] + Ids(rest);
    if |rest| == 1 {
      assert Ids(rest) == [rest[0].objectId];
      assert Merge(rest).value == rest[0];
      assert rest[1..] == [];
      assert AllPoints(rest) == rest[0].points + AllPoints([]);
      assert AllAffordances(rest) == rest[0].affordances + AllAffordances([]);
    } else {
      var mr := Merge(rest).value;
      assert mr.objectId == Text.Join(Ids(rest), "_");
      assert mr.points == AllPoints(rest);
      assert mr.affordances == AllAffordances(rest);
    }
  }

  /** Prefixing keeps the keys already present and adds one per region. */
  lemma {:induction false} PrefixRegionsKeys(d: Dict.Dict<string, Region>, id: string, regions: Dict.Dict<string, Region>)
    decreases |regions|
    ensures forall k :: k in Dict.Keys(d) ==> k in Dict.Keys(PrefixRegions(d, id, regions))
    ensures forall k :: k in Dict.Keys(regions) ==> id + "_" + k in Dict.Keys(PrefixRegions(d, id, regions))
  {
    if regions != [] {
      var d' := Dict.Put(d, id + "_" + regions[0].0, regions[0].1);
      PrefixRegionsKeys(d', id, regions[1..]);
      Dict.Uncons(regions);
    }
  }

  lemma {:induction false} MergedRegionsKeys(d: Dict.Dict<string, Region>, sigs: seq<SpatialSignature>)
    decreases |sigs|
    ensures forall k :: k in Dict.Keys(d) ==> k in Dict.Keys(MergedRegions(d, sigs))
    ensures forall i, k :: 0 <= i < |sigs| && k in Dict.Keys(sigs[i].regions) ==>
      sigs[i].objectId + "_" + k in Dict.Keys(MergedRegions(d, sigs))
  {
    if sigs != [] {
      var d' := PrefixRegions(d, sigs[0].objectId, sigs[0].regions);
      PrefixRegionsKeys(d, sigs[0].objectId, sigs[0].regions);
      MergedRegionsKeys(d', sigs[1..]);
      assert forall i :: 1 <= i < |sigs| ==> sigs[i] == sigs[1..][i - 1];
    }
  }

  /** Every region of every merged signature is found under its prefixed name. */
  lemma MergeRegionKeys(sigs: seq<SpatialSignature>)
    requires |sigs| > 1
    ensures forall i, k :: 0 <= i < |sigs| && k in Dict.Keys(sigs[i].regions) ==>
      sigs[i].objectId + "_" + k in Dict.Keys(Merge(sigs).value.regions)
  {
    MergedRegionsKeys([], sigs);
  }

  /** The prefix does not keep regions apart: a signature "a" with region "b_c" and a signature
      "a_b" with region "c" both land on "a_b_c", and the later one wins. */
  lemma MergePrefixCollision(s1: SpatialSignature, s2: SpatialSignature, r1: Region, r2: Region)
    requires s1.objectId == "a" && s1.regions == [("b_c", r1)]
    requires s2.objectId == "a_b" && s2.regions == [("c", r2)]
    ensures Merge([s1, s2]).value.regions == [("a_b_c", r2)]
  {
    var k := "a_b_c";
    assert "a" + "_" + "b_c" == k;
    assert "a_b" + "_" + "c" == k;
    MergedTwo(s1, s2);
    PrefixOne([], "a", "b_c", r1);
    var d1: Dict.Dict<string, Region> := [(k, r1)];
    assert Dict.Put([], k, r1) == d1;
    PrefixOne(d1, "a_b", "c", r2);
    assert Dict.Put(d1, k, r2) == [(k, r2)];
  }

  lemma PrefixOne(d: Dict.Dict<string, Region>, id: string, name: string, v: Region)
    ensures PrefixRegions(d, id, [(name, v)]) == Dict.Put(d, id + "_" + name, v)
  {
    assert [(name, v)][1..] == [];
  }

  lemma MergedTwo(s1: SpatialSignature, s2: SpatialSignature)
    ensures Merge([s1, s2]).value.regions
         == PrefixRegions(PrefixRegions([], s1.objectId, s1.regions), s2.objectId, s2.regions)
  {
    var p1 := PrefixRegions([], s1.objectId, s1.regions);
    var p2 := PrefixRegions(p1, s2.objectId, s2.regions);
    assert [s1, s2][1..] == [s2];
    assert [s2][1..] == [];
    assert MergedRegions([], [s1, s2]) == MergedRegions(p1, [s2]);
    assert MergedRegions(p1, [s2]) == MergedRegions(p2, []);
  }
}

=== FILE: dict.dfy ===
/** Python dictionaries whose iteration order matters, as association lists in insertion order.
    Assigning to a key already present replaces its value but keeps its position, as CPython does. */
module Dict {
  import opened Wrappers

  type Dict<K, V> = seq<(K, V)>

  function Keys<K, V>(d: Dict<K, V>): (ks: seq<K>)
    ensures |ks| == |d|
    ensures forall i :: 0 <= i < |d| ==> ks[i] == d[i].0
  {
    seq(|d|, i requires 0 <= i < |d| => d[i].0)
  }

  predicate Distinct<K(==)>(ks: seq<K>) {
    forall i, j :: 0 <= i < j < |ks| ==> ks[i] != ks[j]
  }

  /** `d.get(k)`: the value stored under `k`, if any. */
  function Get<K(==), V>(d: Dict<K, V>, k: K): (r: Option<V>)
    ensures r.None? <==> k !in Keys(d)
  {
    if |d| == 0 then None
    else if d[0].0 == k then Some(d[0].1)
    else
      assert Keys(d[1..]) == Keys(d)[1..];
      Get(d[1..], k)
  }

  /** The keys and lookups of a dictionary with one more pair in front. */
  lemma ConsFacts<K(!new), V>(x: (K, V), d: Dict<K, V>)
    ensures Keys([x] + d) == [x.0] + Keys(d)
    ensures ([x] + d)[1..] == d
    ensures forall k :: Get([x] + d, k) == if x.0 == k then Some(x.1) else Get(d, k)
  {
    ConsTail(x, d);
    ConsKeys(x, d);
    ConsGet(x, d);
  }

  lemma ConsTail<K, V>(x: (K, V), d: Dict<K, V>)
    ensures ([x] + d)[1..] == d
  {
    assert ([x] + d)[1..] == d;
  }

  lemma ConsKeys<K, V>(x: (K, V), d: Dict<K, V>)
    ensures Keys([x] + d) == [x.0] + Keys(d)
  {
    var a, b := Keys([x] + d), [x.0] + Keys(d);
    forall i | 0 <= i < |a| ensures a[i] == b[i] {
      if i > 0 {
        assert ([x] + d)[i] == d[i - 1];
      }
    }
    assert a == b;
  }

  lemma ConsGet<K(!new), V>(x: (K, V), d: Dict<K, V>)
    ensures forall k :: Get([x] + d, k) == if x.0 == k then Some(x.1) else Get(d, k)
  {
    ConsTail(x, d);
  }

  /** A non-empty dictionary is its first pair in front of the rest. */
  lemma Uncons<K(!new), V>(d: Dict<K, V>)
    requires |d| > 0
    ensures d == [d[0]] + d[1..]
    ensures Keys(d) == [d[0].0] + Keys(d[1..])
    ensures forall k :: Get(d, k) == if d[0].0 == k then Some(d[0].1) else Get(d[1..], k)
  {
    ConsFacts(d[0], d[1..]);
    assert d == [d[0]] + d[1..];
  }

  /** `d[k] = v`. */
  function Put<K(==, !new), V>(d: Dict<K, V>, k: K, v: V): (r: Dict<K, V>)
    ensures Get(r, k) == Some(v)
    ensures forall k' :: k' != k ==> Get(r, k') == Get(d, k')
    ensures Keys(r) == if k in Keys(d) then Keys(d) else Keys(d) + [k]
  {
    if |d| == 0 then [(k, v)]
    else if d[0].0 == k then
      Uncons(d);
      ConsFacts((k, v), d[1..]);
      [(k, v)] + d[1..]
    else
      var rest := Put(d[1..], k, v);
      PutBehind(d, k, v, rest);
      [d[0]] + rest
  }

  /** The step of `Put` that passes the first pair by. */
  lemma PutBehind<K(!new), V>(d: Dict<K, V>, k: K, v: V, rest: Dict<K, V>)
    requires |d| > 0 && d[0].0 != k
    requires Get(rest, k) == Some(v)
    requires forall k' :: k' != k ==> Get(rest, k') == Get(d[1..], k')
    requires Keys(rest) == if k in Keys(d[1..]) then Keys(d[1..]) else Keys(d[1..]) + [k]
    ensures Get([d[0]] + rest, k) == Some(v)
    ensures forall k' :: k' != k ==> Get([d[0]] + rest, k') == Get(d, k')
    ensures Keys([d[0]] + rest) == if k in Keys(d) then Keys(d) else Keys(d) + [k]
  {
    Uncons(d);
    ConsFacts(d[0], rest);
    assert k in Keys(d) <==> k in Keys(d[1..]);
    if k !in Keys(d[1..]) {
      assert [d[0].0] + (Keys(d[1..]) + [k]) == ([d[0].0] + Keys(d[1..])) + [k];
    }
  }

  /** `del d[k]`: every pair for `k` goes, the others keep their order. */
  function Remove<K(==, !new), V>(d: Dict<K, V>, k: K): (r: Dict<K, V>)
    ensures Get(r, k).None?
    ensures forall k' :: k' != k ==> Get(r, k') == Get(d, k')
    ensures forall k' :: k' in Keys(r) <==> k' in Keys(d) && k' != k
    ensures k !in Keys(d) ==> r == d
  {
    if |d| == 0 then []
    else
      Uncons(d);
      var rest := Remove(d[1..], k);
      if d[0].0 == k then rest
      else
        ConsFacts(d[0], rest);
        [d[0]] + rest
  }

  /** Putting back the value a key had undoes an assignment to it, position included. */
  lemma {:induction false} PutRestores<K(!new), V>(d: Dict<K, V>, k: K, v: V, w: V)
    requires Get(d, k) == Some(v)
    ensures Put(Put(d, k, w), k, v) == d
  {
    if d[0].0 != k {
      PutRestores(d[1..], k, v, w);
      assert Put(d, k, w)[1..] == Put(d[1..], k, w);
    }
  }

  /** Assigning to a new key appends it. */
  lemma {:induction false} PutNew<K(!new), V>(d: Dict<K, V>, k: K, v: V)
    requires k !in Keys(d)
    ensures Put(d, k, v) == d + [(k, v)]
  {
    if |d| > 0 {
      Uncons(d);
      PutNew(d[1..], k, v);
      assert d + [(k, v)] == [d[0]] + (d[1..] + [(k, v)]);
    }
  }

  /** Deleting a key forgets any assignment made to it before. */
  lemma {:induction false} RemoveAfterPut<K(!new), V>(d: Dict<K, V>, k: K, w: V)
    ensures Remove(Put(d, k, w), k) == Remove(d, k)
  {
    if |d| > 0 && d[0].0 != k {
      RemoveAfterPut(d[1..], k, w);
      assert Put(d, k, w)[1..] == Put(d[1..], k, w);
    }
  }

  /** The keys of `ks` without repeats, each where it first occurs. */
  function Dedup<K(==, !new)>(ks: seq<K>): (r: seq<K>)
    ensures Distinct(r)
    ensures forall k :: k in r <==> k in ks
    ensures |r| <= |ks|
  {
    if |ks| == 0 then []
    else
      var p := Dedup(ks[..|ks| - 1]);
      assert ks == ks[..|ks| - 1] + [ks[|ks| - 1]];
      if ks[|ks| - 1] in p then p else p + [ks[|ks| - 1]]
  }

  /** A sequence that loses nothing to `Dedup` has no repeats. */
  lemma {:induction false} DedupKeepsAll<K(!new)>(ks: seq<K>)
    requires |Dedup(ks)| == |ks|
    ensures Distinct(ks)
  {
    if |ks| > 0 {
      var n := |ks| - 1;
      var init := ks[..n];
      assert ks == init + [ks[n]];
      assert ks[n] !in Dedup(init);
      DedupKeepsAll(init);
      forall i, j | 0 <= i < j < |ks| ensures ks[i] != ks[j] {
        if j < n {
          assert ks[i] == init[i] && ks[j] == init[j];
        } else {
          assert ks[i] in init;
        }
      }
    }
  }

  /** The value the last pair for `k` carries. */
  function LastValue<K(==), V>(ps: seq<(K, V)>, k: K): Option<V> {
    if |ps| == 0 then None
    else if ps[|ps| - 1].0 == k then Some(ps[|ps| - 1].1)
    else LastValue(ps[..|ps| - 1], k)
  }

  /** The pair at `i` carries the last value of its key when no later pair has that key. */
  lemma {:induction false} LastValueAt<K, V>(ps: seq<(K, V)>, i: nat)
    requires i < |ps| && forall j :: i < j < |ps| ==> ps[j].0 != ps[i].0
    ensures LastValue(ps, ps[i].0) == Some(ps[i].1)
  {
    if i < |ps| - 1 {
      LastValueAt(ps[..|ps| - 1], i);
    }
  }

  /** `d = {}; for k, v in ps: d[k] = v`. */
  function FromPairs<K(==, !new), V>(ps: seq<(K, V)>): (d: Dict<K, V>)
    ensures forall k :: Get(d, k) == LastValue(ps, k)
    ensures Keys(d) == Dedup(Keys(ps))
  {
    if |ps| == 0 then []
    else
      var n := |ps| - 1;
      var init, k := ps[..n], ps[n].0;
      var prev := FromPairs(init);
      var d := Put(prev, k, ps[n].1);
      assert Keys(ps)[..n] == Keys(init);
      assert Keys(ps)[n] == k;
      assert Dedup(Keys(ps)) == if k in Dedup(Keys(init)) then Dedup(Keys(init)) else Dedup(Keys(init)) + [k];
      assert Keys(d) == Dedup(Keys(ps));
      d
  }

  /** Pairs without repeated keys make a dictionary that is exactly those pairs, in order. */
  lemma {:induction false} FromDistinctPairs<K(!new), V>(ps: seq<(K, V)>)
    requires Distinct(Keys(ps))
    ensures FromPairs(ps) == ps
  {
    if |ps| > 0 {
      var n := |ps| - 1;
      var init, last := ps[..n], ps[n];
      assert ps == init + [last];
      assert Keys(init) == Keys(ps)[..n];
      FromDistinctPairs(init);
      assert last.0 !in Keys(init) by {
        forall i | 0 <= i < n ensures Keys(init)[i] != last.0 {
          assert Keys(ps)[i] != Keys(ps)[n];
        }
      }
      PutNew(init, last.0, last.1);
      assert (last.0, last.1) == last;
    }
  }

  /** In a dictionary without repeated keys, the key at position `i` looks up position `i`. */
  lemma {:induction false} GetAt<K, V>(d: Dict<K, V>, i: int)
    requires 0 <= i < |d| && Distinct(Keys(d))
    ensures Get(d, d[i].0) == Some(d[i].1)
  {
    if i > 0 {
      assert Keys(d[1..]) == Keys(d)[1..];
      assert Keys(d)[0] != Keys(d)[i];
      GetAt(d[1..], i - 1);
    }
  }

  /** A key that some pair carries has a last value, carried by one of the pairs. */
  lemma {:induction false} LastValueWitness<K, V>(ps: seq<(K, V)>, k: K) returns (j: nat)
    requires k in Keys(ps)
    ensures LastValue(ps, k).Some?
    ensures j < |ps| && ps[j].0 == k && ps[j].1 == LastValue(ps, k).value
  {
    if ps[|ps| - 1].0 == k {
      j := |ps| - 1;
    } else {
      var init := ps[..|ps| - 1];
      assert Keys(ps) == Keys(init) + [ps[|ps| - 1].0];
      j := LastValueWitness(init, k);
    }
  }
}

=== FILE: enhanced_agent.dfy ===
/** The navigation agent extended with spatial disambiguation: it gathers the candidates of a
    type, asks the heuristic detector which one is meant, and goes to a single object through
    the geometric positioning strategy, counting what each step did. */
module EnhancedAgent {
  import opened Wrappers
  import opened RealMath
  import opened Scene
  import Dict
  import Ordering
  import SpatialCalculator
  import HeuristicDetector
  import GeometricAnalyzer
  import VlmResponseParser
  import Seqs

  /** The usage counters. `spatialCalculations` is reset but never incremented. */
  datatype Stats = Stats(ambiguityResolutions: nat, spatialCalculations: nat,
                         geometricOptimizations: nat, fallbackUses: nat)

  const ZeroStats: Stats := Stats(0, 0, 0, 0)

  /** The agent's enhancement state. The calculator holds the math routines and the agent
      position its scene collaborator reports. */
  datatype Agent = Agent(enableEnhancements: bool, enhancementsAvailable: bool, stats: Stats,
                         calculator: SpatialCalculator.Calculator)

  ghost predicate AgentValid(a: Agent) { SpatialCalculator.Valid(a.calculator) }

  /** Enhancements can only be switched on when the modules loaded. */
  predicate Consistent(a: Agent) { a.enableEnhancements ==> a.enhancementsAvailable }

  /** Navigation goes through the enhancement path. */
  predicate Enhanced(a: Agent) { a.enableEnhancements && a.enhancementsAvailable }

  /** The constructor: the modules are loaded only when enhancements are asked for, and loading
      succeeds or not (`loads`). A failed load switches enhancements off. */
  function NewAgent(c: SpatialCalculator.Calculator, enable: bool, loads: bool): (a: Agent)
    ensures Consistent(a) && a.stats == ZeroStats
    ensures a.enhancementsAvailable <==> enable && loads
    ensures a.enableEnhancements <==> enable && loads
  {
    if enable && loads then Agent(true, true, ZeroStats, c)
    else Agent(false, false, ZeroStats, c)
  }

  // ---------------------------------------------------------------------------------------------
  // Candidates

  /** What the agent knows about the scene: the target ids of each type, the objects of each
      type, the id lookup of the current event (`None` for a missing object or a failed lookup),
      and the interactable poses the simulator reports for an object. */
  datatype World = World(targetIds: Dict.Dict<string, seq<string>>,
                         typeObjects: Dict.Dict<string, seq<SceneObject>>,
                         lookup: string -> Option<SceneObject>,
                         poses: SceneObject -> seq<Point>)

  /** The objects the lookup finds for `ids`, in order. */
  function Looked(lookup: string -> Option<SceneObject>, ids: seq<string>): (r: seq<SceneObject>)
    ensures |r| <= |ids|
    ensures forall o :: o in r <==> exists i :: 0 <= i < |ids| && lookup(ids[i]) == Some(o)
  {
    if |ids| == 0 then []
    else
      var rest := Looked(lookup, ids[1..]);
      assert forall i :: 1 <= i < |ids| ==> ids[i] == ids[1..][i - 1];
      match lookup(ids[0])
      case Some(o) => [o] + rest
      case None => rest
  }

  /** The target objects of the type first, then the objects of the type. */
  function Gathered(w: World, itemtype: string): seq<SceneObject> {
    Looked(w.lookup, Dict.Get(w.targetIds, itemtype).GetOr([])) + Dict.Get(w.typeObjects, itemtype).GetOr([])
  }

  predicate DistinctIds(r: seq<SceneObject>) {
    forall i, j :: 0 <= i < j < |r| ==> r[i].objectId != r[j].objectId
  }

  /** `o` is the first object of `objs` carrying its id. */
  predicate FirstWithId(objs: seq<SceneObject>, o: SceneObject) {
    exists k :: 0 <= k < |objs| && objs[k] == o && forall k' :: 0 <= k' < k ==> objs[k'].objectId != o.objectId
  }

  /** The deduplication loop: keeps an object when its id is truthy and not yet seen. */
  function UniqueById(objs: seq<SceneObject>, seen: set<string>): (r: seq<SceneObject>)
    ensures forall o :: o in r ==> o in objs && Truthy(o.objectId) && o.objectId.value !in seen
    ensures DistinctIds(r)
  {
    if |objs| == 0 then []
    else
      var o := objs[0];
      assert forall x :: x in objs ==> x == o || x in objs[1..];
      if Truthy(o.objectId) && o.objectId.value !in seen then
        var rest := UniqueById(objs[1..], seen + {o.objectId.value});
        var r := [o] + rest;
        assert forall i :: 1 <= i < |r| ==> r[i] == rest[i - 1];
        r
      else
        UniqueById(objs[1..], seen)
  }

  /** One step of the deduplication loop. */
  lemma UniqueStep(objs: seq<SceneObject>, seen: set<string>)
    requires |objs| > 0
    ensures var o := objs[0];
            UniqueById(objs, seen)
              == if Truthy(o.objectId) && o.objectId.value !in seen
                 then [o] + UniqueById(objs[1..], seen + {o.objectId.value})
                 else UniqueById(objs[1..], seen)
  {
  }

  /** Every truthy id not seen before is kept, at some position. */
  lemma {:induction false} UniqueCovers(objs: seq<SceneObject>, seen: set<string>, o: SceneObject) returns (i: nat)
    requires o in objs && Truthy(o.objectId) && o.objectId.value !in seen
    ensures i < |UniqueById(objs, seen)| && UniqueById(objs, seen)[i].objectId == o.objectId
  {
    var h := objs[0];
    var keep := Truthy(h.objectId) && h.objectId.value !in seen;
    UniqueUncons(objs, seen);
    if keep && h.objectId == o.objectId {
      i := 0;
    } else {
      StillUnseen(objs, seen, o);
      var rest := UniqueById(objs[1..], SeenNext(h, seen));
      var j := UniqueCovers(objs[1..], SeenNext(h, seen), o);
      if keep {
        assert ([h] + rest)[j + 1] == rest[j];
        i := j + 1;
      } else {
        i := j;
      }
    }
  }

  /** The deduplication of a non-empty list: its head when kept, then the rest with the head's id seen. */
  lemma UniqueUncons(objs: seq<SceneObject>, seen: set<string>)
    requires |objs| > 0
    ensures Truthy(objs[0].objectId) && objs[0].objectId.value !in seen
            ==> UniqueById(objs, seen) == [objs[0]] + UniqueById(objs[1..], SeenNext(objs[0], seen))
    ensures !(Truthy(objs[0].objectId) && objs[0].objectId.value !in seen)
            ==> UniqueById(objs, seen) == UniqueById(objs[1..], SeenNext(objs[0], seen))
  {
    assert objs == [objs[0]] + objs[1..];
    UniqueCons(objs[0], objs[1..], seen);
    assert [] + UniqueById(objs[1..], SeenNext(objs[0], seen)) == UniqueById(objs[1..], SeenNext(objs[0], seen));
  }

  /** An object the head does not cover is still in the tail, with its id still unseen. */
  lemma StillUnseen(objs: seq<SceneObject>, seen: set<string>, o: SceneObject)
    requires o in objs && Truthy(o.objectId) && o.objectId.value !in seen
    requires !(Truthy(objs[0].objectId) && objs[0].objectId.value !in seen && objs[0].objectId == o.objectId)
    ensures o in objs[1..] && o.objectId.value !in SeenNext(objs[0], seen)
  {
    assert objs == [objs[0]] + objs[1..];
  }

  /** Each object the deduplication keeps is the first of its id. */
  lemma {:induction false} UniqueKeepsFirst(objs: seq<SceneObject>, seen: set<string>)
    ensures forall o :: o in UniqueById(objs, seen) ==> FirstWithId(objs, o)
  {
    if |objs| > 0 {
      var o := objs[0];
      var keep := Truthy(o.objectId) && o.objectId.value !in seen;
      var seen' := if keep then seen + {o.objectId.value} else seen;
      var rest := UniqueById(objs[1..], seen');
      UniqueKeepsFirst(objs[1..], seen');
      forall x | x in rest ensures FirstWithId(objs, x) {
        var k :| 0 <= k < |objs[1..]| && objs[1..][k] == x
                 && forall k' :: 0 <= k' < k ==> objs[1..][k'].objectId != x.objectId;
        assert o.objectId != x.objectId;
        assert objs[k + 1] == x;
      }
      if keep {
        assert FirstWithId(objs, o) by { assert objs[0] == o; }
        assert UniqueById(objs, seen) == [o] + rest;
      }
    }
  }

  /** The seen ids after the loop has looked at `o`: a truthy id is added, which changes nothing
      when it was already there. */
  function SeenNext(o: SceneObject, seen: set<string>): set<string> {
    if Truthy(o.objectId) then seen + {o.objectId.value} else seen
  }

  /** The ids marked seen once the deduplication loop has passed `objs`. */
  function SeenAfter(objs: seq<SceneObject>, seen: set<string>): (r: set<string>)
    ensures seen <= r
    ensures forall o :: o in objs && Truthy(o.objectId) ==> o.objectId.value in r
  {
    if |objs| == 0 then seen
    else
      var o := objs[0];
      assert forall x :: x in objs ==> x == o || x in objs[1..];
      SeenAfter(objs[1..], SeenNext(o, seen))
  }

  /** The loop over `[o] + rest`: `o` when it is kept, then the loop over `rest`. */
  lemma UniqueCons(o: SceneObject, rest: seq<SceneObject>, seen: set<string>)
    ensures UniqueById([o] + rest, seen)
              == (if Truthy(o.objectId) && o.objectId.value !in seen then [o] else []) + UniqueById(rest, SeenNext(o, seen))
  {
    UniqueStep([o] + rest, seen);
    assert ([o] + rest)[0] == o && ([o] + rest)[1..] == rest;
    if Truthy(o.objectId) && o.objectId.value in seen {
      assert seen + {o.objectId.value} == seen;
    }
  }

  lemma SeenAfterCons(o: SceneObject, rest: seq<SceneObject>, seen: set<string>)
    ensures SeenAfter([o] + rest, seen) == SeenAfter(rest, SeenNext(o, seen))
  {
    assert ([o] + rest)[0] == o && ([o] + rest)[1..] == rest;
  }

  /** The deduplication runs over a concatenation in order: the part kept from `a`, then the part
      kept from `b` with the ids of `a` already seen. */
  lemma {:induction false} UniqueAppend(a: seq<SceneObject>, b: seq<SceneObject>, seen: set<string>)
    ensures UniqueById(a + b, seen) == UniqueById(a, seen) + UniqueById(b, SeenAfter(a, seen))
  {
    if |a| == 0 {
      assert a + b == b;
    } else {
      var o, t := a[0], a[1..];
      var head := if Truthy(o.objectId) && o.objectId.value !in seen then [o] else [];
      assert a == [o] + t;
      assert a + b == [o] + (t + b);
      UniqueCons(o, t + b, seen);
      UniqueCons(o, t, seen);
      SeenAfterCons(o, t, seen);
      UniqueAppend(t, b, SeenNext(o, seen));
      Seqs.ConcatAssoc(head, UniqueById(t, SeenNext(o, seen)), UniqueById(b, SeenAfter(a, seen)));
    }
  }


  /** `_get_candidate_objects`: the gathered objects with a truthy id, each id once, as first
      gathered. */
  function CandidateObjects(w: World, itemtype: string): (r: seq<SceneObject>)
    ensures forall o :: o in r ==> o in Gathered(w, itemtype) && Truthy(o.objectId)
    ensures DistinctIds(r)
    ensures forall o :: o in Gathered(w, itemtype) && Truthy(o.objectId) ==>
              exists i :: 0 <= i < |r| && r[i].objectId == o.objectId
    ensures forall o :: o in r ==> FirstWithId(Gathered(w, itemtype), o)
    ensures var targets := Looked(w.lookup, Dict.Get(w.targetIds, itemtype).GetOr([]));
            r == UniqueById(targets, {}) + UniqueById(Dict.Get(w.typeObjects, itemtype).GetOr([]), SeenAfter(targets, {}))
  {
    UniqueAppend(Looked(w.lookup, Dict.Get(w.targetIds, itemtype).GetOr([])), Dict.Get(w.typeObjects, itemtype).GetOr([]), {});
    UniqueKeepsFirst(Gathered(w, itemtype), {});
    forall o | o in Gathered(w, itemtype) && Truthy(o.objectId)
      ensures exists i :: 0 <= i < |UniqueById(Gathered(w, itemtype), {})|
                && UniqueById(Gathered(w, itemtype), {})[i].objectId == o.objectId
    {
      var i := UniqueCovers(Gathered(w, itemtype), {}, o);
    }
    UniqueById(Gathered(w, itemtype), {})
  }

  // ---------------------------------------------------------------------------------------------
  // Navigation

  /** Where a navigation call ends: the base agent's navigation to the type, a teleport next to
      one object facing it, or the base navigation restricted to one object. */
  datatype Outcome =
    | BaseNavigate
    | Teleport(target: SceneObject, position: Point, facing: real)
    | OriginalNavigate(target: SceneObject)

  /** The instruction handed to the detector: the item name when given, the type otherwise. */
  function Instruction(itemtype: string, itemname: Option<string>): string {
    if Truthy(itemname) then itemname.value else "navigate to " + itemtype
  }

  /** The first candidate whose id is `id`. */
  function FirstWithObjectId(cands: seq<SceneObject>, id: string): (r: Option<SceneObject>)
    ensures r.Some? ==> r.value in cands && r.value.objectId == Some(id)
    ensures r.None? <==> forall o :: o in cands ==> o.objectId != Some(id)
  {
    if |cands| == 0 then None
    else if cands[0].objectId == Some(id) then Some(cands[0])
    else
      assert forall o :: o in cands ==> o == cands[0] || o in cands[1..];
      FirstWithObjectId(cands[1..], id)
  }

  /** The heading, in [0, 360), that faces `target` from `from`: `atan2(dx, dz)` in degrees. */
  function FacingAngle(m: MathLib, target: Point, from: Point): (a: real)
    requires Lawful(m)
    ensures 0.0 <= a < 360.0
    ensures a == m.atan2Deg(X(target) - X(from), Z(target) - Z(from))
         || a == m.atan2Deg(X(target) - X(from), Z(target) - Z(from)) + 360.0
  {
    NormalizeDegrees(m.atan2Deg(X(target) - X(from), Z(target) - Z(from)))
  }

  /** An object straight ahead along +z, more ahead than aside, is faced within 45 degrees of
      heading 0. */
  lemma FacingAheadIsNearZero(m: MathLib, target: Point, from: Point)
    requires Lawful(m)
    requires var dx := X(target) - X(from); var dz := Z(target) - Z(from); 0.0 < dz && -dz < dx < dz
    ensures var a := FacingAngle(m, target, from); a < 45.0 || a > 315.0
  {
  }

  /** An object to the +x side, more aside than ahead, is faced at a heading between 45 and 135. */
  lemma FacingSideIsNearNinety(m: MathLib, target: Point, from: Point)
    requires Lawful(m)
    requires var dx := X(target) - X(from); var dz := Z(target) - Z(from); 0.0 < dx && -dx < dz < dx
    ensures 45.0 < FacingAngle(m, target, from) < 135.0
  {
  }

  /** `_navigate_to_specific_object` with `_compute_enhanced_position`: no interactable pose, or
      a ranking that fails, falls back to the base navigation restricted to the object; otherwise
      the agent teleports to the best-ranked pose, facing the object. */
  function ToSpecificObject(m: MathLib, w: World, target: SceneObject): (r: Outcome)
    requires Lawful(m)
    ensures !r.BaseNavigate? && r.target == target
    ensures r.Teleport? <==>
      GeometricAnalyzer.PositioningStrategy(m, target, w.poses(target)).Ok?
      && GeometricAnalyzer.PositioningStrategy(m, target, w.poses(target)).value != []
    ensures r.Teleport? ==>
      var ranked := GeometricAnalyzer.PositioningStrategy(m, target, w.poses(target)).value;
      && r.position == ranked[0].position
      && (forall e :: e in ranked ==> ranked[0].score >= e.score)
      && 0.0 <= r.facing < 360.0
  {
    var ranked := GeometricAnalyzer.PositioningStrategy(m, target, w.poses(target));
    if ranked.Ok? && ranked.value != [] then
      var best := ranked.value[0];
      assert forall e :: e in ranked.value ==> best.score >= e.score by {
        forall e | e in ranked.value ensures best.score >= e.score {
          var j :| 0 <= j < |ranked.value| && ranked.value[j] == e;
          if j > 0 {
            assert Ordering.KeyLe(GeometricAnalyzer.ByScore(best), GeometricAnalyzer.ByScore(e));
          }
        }
      }
      Teleport(target, best.position, FacingAngle(m, target.position, best.position))
    else OriginalNavigate(target)
  }

  /** The detector's recommendation is followed: a truthy id, a confidence above 0.5 (strictly),
      and a candidate carrying that id. */
  predicate Accepts(res: HeuristicDetector.AmbiguityResult, cands: seq<SceneObject>) {
    Truthy(res.selectedObjectId) && res.confidence > 0.5
    && FirstWithObjectId(cands, res.selectedObjectId.value).Some?
  }

  function Detect(a: Agent, w: World, itemtype: string, itemname: Option<string>): HeuristicDetector.AmbiguityResult
    requires AgentValid(a)
  {
    HeuristicDetector.DetectAmbiguity(HeuristicDetector.Detector(Some(a.calculator)),
                                      Instruction(itemtype, itemname), CandidateObjects(w, itemtype))
  }

  /** `navigate`. The base navigation runs when enhancements are off or unavailable and when
      there is at most one candidate. Otherwise the detector's recommendation is followed when
      accepted; if not, a clarification question sends the agent to the candidate closest to
      it, and without one the base navigation runs. */
  function Navigate(a: Agent, w: World, itemtype: string, itemname: Option<string>): (r: (Outcome, Agent))
    requires AgentValid(a)
    ensures r.1 == r.1.(stats := r.1.stats) && r.1.(stats := a.stats) == a
    ensures r.1.stats.spatialCalculations == a.stats.spatialCalculations
    ensures !Enhanced(a) || |CandidateObjects(w, itemtype)| <= 1 ==> r == (BaseNavigate, a)
    ensures Enhanced(a) && |CandidateObjects(w, itemtype)| > 1 ==>
      var cands := CandidateObjects(w, itemtype);
      var res := Detect(a, w, itemtype, itemname);
      && r.1.stats.ambiguityResolutions == a.stats.ambiguityResolutions + 1
      && (r.0.BaseNavigate? ==> r.1.stats.geometricOptimizations == a.stats.geometricOptimizations)
      && (!r.0.BaseNavigate? ==>
            r.1.stats.geometricOptimizations == a.stats.geometricOptimizations + 1
            && r.0.target in cands && r.0 == ToSpecificObject(a.calculator.m, w, r.0.target))
      && (Accepts(res, cands) <==> r.1.stats.fallbackUses == a.stats.fallbackUses)
      && (!Accepts(res, cands) ==> r.1.stats.fallbackUses == a.stats.fallbackUses + 1)
      && (Accepts(res, cands) ==> !r.0.BaseNavigate? && r.0.target.objectId == res.selectedObjectId)
      && (!Accepts(res, cands) && Truthy(res.clarificationQuestion) ==>
            !r.0.BaseNavigate?
            && r.0.target.objectId == Some(HeuristicDetector.ClosestId(a.calculator, cands)))
      && (!Accepts(res, cands) && !Truthy(res.clarificationQuestion) ==> r.0.BaseNavigate?)
  {
    var cands := CandidateObjects(w, itemtype);
    if !Enhanced(a) || |cands| <= 1 then (BaseNavigate, a)
    else
      var s := Steer(a, w, cands, Detect(a, w, itemtype, itemname));
      (s.0, a.(stats := s.1))
  }

  /** The ambiguous branch of `navigate`: the outcome and the counters after it. */
  function Steer(a: Agent, w: World, cands: seq<SceneObject>, res: HeuristicDetector.AmbiguityResult)
    : (r: (Outcome, Stats))
    requires AgentValid(a) && |cands| > 1 && forall o :: o in cands ==> Truthy(o.objectId)
    ensures r.1.ambiguityResolutions == a.stats.ambiguityResolutions + 1
    ensures r.1.spatialCalculations == a.stats.spatialCalculations
    ensures r.0.BaseNavigate? ==> r.1.geometricOptimizations == a.stats.geometricOptimizations
    ensures !r.0.BaseNavigate? ==>
      r.1.geometricOptimizations == a.stats.geometricOptimizations + 1
      && r.0.target in cands && r.0 == ToSpecificObject(a.calculator.m, w, r.0.target)
    ensures Accepts(res, cands) <==> r.1.fallbackUses == a.stats.fallbackUses
    ensures !Accepts(res, cands) ==> r.1.fallbackUses == a.stats.fallbackUses + 1
    ensures Accepts(res, cands) ==> !r.0.BaseNavigate? && r.0.target.objectId == res.selectedObjectId
    ensures !Accepts(res, cands) && Truthy(res.clarificationQuestion) ==>
      !r.0.BaseNavigate? && r.0.target.objectId == Some(HeuristicDetector.ClosestId(a.calculator, cands))
    ensures !Accepts(res, cands) && !Truthy(res.clarificationQuestion) ==> r.0.BaseNavigate?
  {
    var st := a.stats;
    var counted := st.(ambiguityResolutions := st.ambiguityResolutions + 1);
    if Accepts(res, cands) then
      var o := FirstWithObjectId(cands, res.selectedObjectId.value).value;
      (ToSpecificObject(a.calculator.m, w, o),
       counted.(geometricOptimizations := counted.geometricOptimizations + 1))
    else
      var failed := counted.(fallbackUses := counted.fallbackUses + 1);
      if Truthy(res.clarificationQuestion) then
        var closest := HeuristicDetector.ClosestId(a.calculator, cands);
        ClosestIsCandidate(a.calculator, cands, closest);
        var o := FirstWithObjectId(cands, closest).value;
        (ToSpecificObject(a.calculator.m, w, o),
         failed.(geometricOptimizations := failed.geometricOptimizations + 1))
      else (BaseNavigate, failed)
  }

  /** The id of a relation computed for candidates with truthy ids is a candidate's object id. */
  lemma ClosestIsCandidate(c: SpatialCalculator.Calculator, cands: seq<SceneObject>, id: string)
    requires SpatialCalculator.Valid(c)
    requires forall o :: o in cands ==> Truthy(o.objectId)
    requires id in Dict.Keys(SpatialCalculator.RelativePositions(c, cands))
    ensures FirstWithObjectId(cands, id).Some?
  {
    SpatialCalculator.RelationIdsAreCandidateIds(c, cands, id);
    var j :| 0 <= j < |cands| && SpatialCalculator.RelationId(cands[j]) == id;
    assert cands[j] in cands;
  }

  /** With enhancements on and several candidates, the final base-navigation fallback is never
      reached: a resolved detector result is always accepted, and an ambiguous one always
      carries a non-empty question. */
  lemma EnhancedNavigationPicksObject(a: Agent, w: World, itemtype: string, itemname: Option<string>)
    requires AgentValid(a) && Enhanced(a) && |CandidateObjects(w, itemtype)| > 1
    ensures !Navigate(a, w, itemtype, itemname).0.BaseNavigate?
  {
    var cands := CandidateObjects(w, itemtype);
    SteerLeavesBase(a, w, cands, Detect(a, w, itemtype, itemname));
  }

  /** A detector result that either resolves to a candidate with confidence above 0.5 or asks a
      non-empty question steers away from the base navigation. */
  lemma SteerLeavesBase(a: Agent, w: World, cands: seq<SceneObject>, res: HeuristicDetector.AmbiguityResult)
    requires AgentValid(a) && |cands| > 1 && forall o :: o in cands ==> Truthy(o.objectId)
    requires !res.hasAmbiguity ==>
               res.selectedObjectId.Some? && res.confidence > 0.5
               && exists j :: 0 <= j < |cands| && SpatialCalculator.RelationId(cands[j]) == res.selectedObjectId.value
    requires res.hasAmbiguity ==> res.clarificationQuestion.Some? && |res.clarificationQuestion.value| > 0
    ensures !Steer(a, w, cands, res).0.BaseNavigate?
  {
    if !res.hasAmbiguity {
      var j :| 0 <= j < |cands| && SpatialCalculator.RelationId(cands[j]) == res.selectedObjectId.value;
      assert cands[j] in cands;
      assert Truthy(cands[j].objectId);
    }
  }

  /** Navigation keeps the switch consistent with availability. */
  lemma NavigatePreservesConsistency(a: Agent, w: World, itemtype: string, itemname: Option<string>)
    requires AgentValid(a) && Consistent(a)
    ensures Consistent(Navigate(a, w, itemtype, itemname).1)
  {
  }

  // ---------------------------------------------------------------------------------------------
  // Restricted base navigation

  /** `_execute_original_navigation`'s bookkeeping: the target ids of the type during the base
      navigation, and afterwards. A non-empty original list is put back; otherwise the key is
      deleted. */
  function OriginalNavigationMappings(d: Dict.Dict<string, seq<string>>, itemtype: string, id: string)
    : (r: (Dict.Dict<string, seq<string>>, Dict.Dict<string, seq<string>>))
    ensures Dict.Get(r.0, itemtype) == Some([id])
    ensures forall k :: k != itemtype ==> Dict.Get(r.0, k) == Dict.Get(d, k)
    ensures Dict.Get(d, itemtype) != Some([]) ==> r.1 == d
    ensures Dict.Get(d, itemtype) == Some([]) ==> r.1 == Dict.Remove(d, itemtype) && r.1 != d
  {
    var original := Dict.Get(d, itemtype).GetOr([]);
    var during := Dict.Put(d, itemtype, [id]);
    var after := if original != [] then Dict.Put(during, itemtype, original)
                 else if itemtype in Dict.Keys(during) then Dict.Remove(during, itemtype)
                 else during;
    RestoreFacts(d, itemtype, id);
    (during, after)
  }

  lemma RestoreFacts(d: Dict.Dict<string, seq<string>>, itemtype: string, id: string)
    ensures Dict.Get(d, itemtype).Some? && Dict.Get(d, itemtype) != Some([]) ==>
              Dict.Put(Dict.Put(d, itemtype, [id]), itemtype, Dict.Get(d, itemtype).value) == d
    ensures Dict.Get(d, itemtype).None? ==> Dict.Remove(Dict.Put(d, itemtype, [id]), itemtype) == d
    ensures Dict.Get(d, itemtype) == Some([]) ==>
              Dict.Remove(Dict.Put(d, itemtype, [id]), itemtype) == Dict.Remove(d, itemtype)
              && Dict.Remove(d, itemtype) != d
  {
    if Dict.Get(d, itemtype).Some? && Dict.Get(d, itemtype) != Some([]) {
      Dict.PutRestores(d, itemtype, Dict.Get(d, itemtype).value, [id]);
    } else {
      Dict.RemoveAfterPut(d, itemtype, [id]);
      if Dict.Get(d, itemtype).None? {
        Dict.PutNew(d, itemtype, [id]);
      } else {
        assert Dict.Get(Dict.Remove(d, itemtype), itemtype) != Dict.Get(d, itemtype);
      }
    }
  }

  // ---------------------------------------------------------------------------------------------
  // Switches and counters

  /** `toggle_enhancements`: switching on fails while the modules are unavailable; anything else
      sets the switch. */
  function ToggleEnhancements(a: Agent, enabled: bool): (r: (bool, Agent))
    ensures r.0 <==> !enabled || a.enhancementsAvailable
    ensures r.0 ==> r.1 == a.(enableEnhancements := enabled)
    ensures !r.0 ==> r.1 == a
    ensures Consistent(a) ==> Consistent(r.1)
  {
    if enabled && !a.enhancementsAvailable then (false, a)
    else (true, a.(enableEnhancements := enabled))
  }

  /** `reset_enhancement_stats`. */
  function ResetStats(a: Agent): (r: Agent)
    ensures r.stats == ZeroStats
    ensures r.(stats := a.stats) == a
  {
    a.(stats := ZeroStats)
  }

  /** The report of `get_enhancement_stats`: the switch, the availability and a copy of the
      counters. */
  datatype Report = Report(enabled: bool, available: bool, stats: Stats)

  function EnhancementStats(a: Agent): (r: Report)
    ensures r.enabled == a.enableEnhancements && r.available == a.enhancementsAvailable
    ensures r.stats == a.stats
  {
    Report(a.enableEnhancements, a.enhancementsAvailable, a.stats)
  }

  /** After a reset and one navigation, the report counts at most that navigation: one
      resolution, at most one optimization and one fallback, and nothing for the calculations
      counter. */
  lemma ReportAfterOneNavigation(a: Agent, w: World, itemtype: string, itemname: Option<string>)
    requires AgentValid(a)
    ensures var s := EnhancementStats(Navigate(ResetStats(a), w, itemtype, itemname).1).stats;
      && s.ambiguityResolutions <= 1 && s.geometricOptimizations <= 1 && s.fallbackUses <= 1
      && s.spatialCalculations == 0
      && (s.ambiguityResolutions == 1 <==> Enhanced(a) && |CandidateObjects(w, itemtype)| > 1)
  {
  }

  // ---------------------------------------------------------------------------------------------
  // VLM replies

  /** The pose handed to the resolver: the agent position of the event metadata, which is a
      position dictionary without any rotation; an empty or missing one is no pose. */
  function MetadataPose(position: Point): Option<VlmResponseParser.AgentPose> {
    if position == NoPoint then None else Some(VlmResponseParser.AgentPose(position, None))
  }

  /** `resolve_vlm_response`: nothing with enhancements off or unavailable, nothing when the
      resolver raises, and otherwise the selected object when the selected id is truthy. */
  function ResolveVlmResponse(a: Agent, reply: string, candidates: seq<SceneObject>, instruction: string,
                              agentPosition: Point): (r: Option<SceneObject>)
    requires AgentValid(a)
    ensures !Enhanced(a) ==> r.None?
    ensures r.Some? ==> r.value in candidates
    ensures r.Some? <==>
      var res := VlmResponseParser.ResolveObjectReference(a.calculator.m, instruction, candidates, reply,
                                                          MetadataPose(agentPosition));
      Enhanced(a) && res.Ok? && Truthy(res.value.selectedId) && res.value.selected.Some?
  {
    if !Enhanced(a) then None
    else
      match VlmResponseParser.ResolveObjectReference(a.calculator.m, instruction, candidates, reply,
                                                     MetadataPose(agentPosition))
      case Err(_) => None
      case Ok(res) => if Truthy(res.selectedId) then res.selected else None
  }

  /** The fallback sees the agent's position but never its heading, so unless the instruction
      asks for distance the outcome does not depend on where the agent stands. */
  lemma ReplyIgnoresAgentPosition(a: Agent, reply: string, candidates: seq<SceneObject>, instruction: string,
                                  p: Point)
    requires AgentValid(a)
    requires VlmResponseParser.OptimalSortingStrategy(instruction) != VlmResponseParser.DistanceBased
    ensures ResolveVlmResponse(a, reply, candidates, instruction, p)
         == ResolveVlmResponse(a, reply, candidates, instruction, NoPoint)
  {
    var m := a.calculator.m;
    if MetadataPose(p).Some? {
      VlmResponseParser.FallbackIgnoresHeadinglessPose(m, instruction, candidates, p);
      VlmResponseParser.ResolveSeesAgentThroughFallback(m, instruction, candidates, reply, MetadataPose(p), None);
    }
  }
}

=== FILE: event_object.dfy ===
/** The scene index over one simulator event (`data_engine/eventObject.py`): objects by id, by
    type and by name, flag filters, size queries and lookups, and the two free helpers that read
    an item out of a reply and pick the light switch. */
module EventIndex {
  import opened Wrappers
  import opened RealMath
  import opened Scene
  import Dict
  import Text
  import Seqs

  /** A segmentation colour. */
  type Colour = (int, int, int)

  /** What the index reads from an event: the objects' metadata and the two colour maps. */
  datatype Event = Event(objects: seq<SceneObject>, objectToColor: Dict.Dict<string, Colour>,
                         colorToObject: Dict.Dict<Colour, string>)

  /** `EventObject`: the event's objects and colour maps, and the three maps built from the
      objects. */
  datatype EventObject = EventObject(
    objects: seq<SceneObject>,
    objectToColor: Dict.Dict<string, Colour>,
    colorToObject: Dict.Dict<Colour, string>,
    byId: Dict.Dict<string, SceneObject>,
    byType: Dict.Dict<string, seq<SceneObject>>,
    byName: Dict.Dict<string, SceneObject>)

  /** The three keys the constructor reads of every object. */
  predicate Keyed(o: SceneObject) { o.objectId.Some? && o.objectType.Some? && o.name.Some? }

  predicate AllKeyed(objs: seq<SceneObject>) { forall i :: 0 <= i < |objs| ==> Keyed(objs[i]) }

  // ---------------------------------------------------------------------------------------------
  // Construction

  /** The `(objectId, object)` pairs in input order. */
  function IdPairs(objs: seq<SceneObject>): (r: seq<(string, SceneObject)>)
    requires AllKeyed(objs)
    ensures |r| == |objs| && forall i :: 0 <= i < |objs| ==> r[i] == (objs[i].objectId.value, objs[i])
  {
    seq(|objs|, i requires 0 <= i < |objs| => (objs[i].objectId.value, objs[i]))
  }

  /** The `(name, object)` pairs in input order. */
  function NamePairs(objs: seq<SceneObject>): (r: seq<(string, SceneObject)>)
    requires AllKeyed(objs)
    ensures |r| == |objs| && forall i :: 0 <= i < |objs| ==> r[i] == (objs[i].name.value, objs[i])
  {
    seq(|objs|, i requires 0 <= i < |objs| => (objs[i].name.value, objs[i]))
  }

  /** The objects of type `t`, in input order. */
  function OfType(objs: seq<SceneObject>, t: string): seq<SceneObject> {
    if objs == [] then []
    else OfType(objs[..|objs| - 1], t) + (if objs[|objs| - 1].objectType == Some(t) then [objs[|objs| - 1]] else [])
  }

  /** The objects of type `t` are exactly the input's objects of that type. */
  lemma {:induction false} OfTypeExact(objs: seq<SceneObject>, t: string)
    ensures forall o :: o in OfType(objs, t) <==> o in objs && o.objectType == Some(t)
  {
    if objs != [] {
      var init := objs[..|objs| - 1];
      OfTypeExact(init, t);
      assert objs == init + [objs[|objs| - 1]];
    }
  }

  /** What the type map lists under `t`: the objects of that type, or nothing when there are
      none. */
  function Listed(objs: seq<SceneObject>, t: string): Option<seq<SceneObject>> {
    if OfType(objs, t) == [] then None else Some(OfType(objs, t))
  }

  /** `type2objects`: a list per type, each object appended to its type's list as it comes; a
      type gets its list when its first object comes. */
  function TypeLists(objs: seq<SceneObject>): (r: Dict.Dict<string, seq<SceneObject>>)
    requires AllKeyed(objs)
    ensures forall t :: Dict.Get(r, t) == Listed(objs, t)
  {
    if objs == [] then []
    else
      var init := objs[..|objs| - 1];
      var o := objs[|objs| - 1];
      var d := TypeLists(init);
      var r := Dict.Put(d, o.objectType.value, Dict.Get(d, o.objectType.value).GetOr([]) + [o]);
      assert forall t :: Dict.Get(r, t) == Listed(objs, t) by {
        forall t ensures Dict.Get(r, t) == Listed(objs, t) {
          TypeListsStep(objs, d, r, t);
        }
      }
      r
  }

  /** Appending the last object to its type's list extends exactly that type's list. */
  lemma TypeListsStep(objs: seq<SceneObject>, d: Dict.Dict<string, seq<SceneObject>>,
                      r: Dict.Dict<string, seq<SceneObject>>, t: string)
    requires objs != [] && AllKeyed(objs)
    requires var ty := objs[|objs| - 1].objectType.value;
             Dict.Get(d, t) == Listed(objs[..|objs| - 1], t) && Dict.Get(d, ty) == Listed(objs[..|objs| - 1], ty)
    requires var o := objs[|objs| - 1];
             r == Dict.Put(d, o.objectType.value, Dict.Get(d, o.objectType.value).GetOr([]) + [o])
    ensures Dict.Get(r, t) == Listed(objs, t)
  {
    var o := objs[|objs| - 1];
    var init := objs[..|objs| - 1];
    assert OfType(objs, t) == OfType(init, t) + (if o.objectType == Some(t) then [o] else []);
    if t == o.objectType.value {
      assert Dict.Get(d, t).GetOr([]) == OfType(init, t);
      assert Dict.Get(r, t) == Some(OfType(init, t) + [o]);
      assert OfType(objs, t) == OfType(init, t) + [o];
      assert |OfType(objs, t)| > 0;
    } else {
      assert Dict.Get(r, t) == Dict.Get(d, t);
      assert OfType(objs, t) == OfType(init, t);
    }
  }

  /** `__init__` with `get_objects`: every object must carry an id, a type and a name, or the
      constructor raises `KeyError`. A later object replaces an earlier one under the same id
      or name. */
  function New(ev: Event): (r: Result<EventObject, string>)
    ensures r.Err? <==> !AllKeyed(ev.objects)
    ensures r.Err? ==> r.error == "KeyError"
    ensures r.Ok? ==>
      && r.value.objects == ev.objects && r.value.objectToColor == ev.objectToColor
      && r.value.colorToObject == ev.colorToObject
      && Dict.Distinct(Dict.Keys(r.value.byId)) && Dict.Distinct(Dict.Keys(r.value.byName))
  {
    if !AllKeyed(ev.objects) then Err("KeyError")
    else
      Ok(EventObject(ev.objects, ev.objectToColor, ev.colorToObject,
                     Dict.FromPairs(IdPairs(ev.objects)), TypeLists(ev.objects),
                     Dict.FromPairs(NamePairs(ev.objects))))
  }

  /** The id map as the constructor leaves it. */
  predicate IdsBuilt(e: EventObject) {
    AllKeyed(e.objects) && e.byId == Dict.FromPairs(IdPairs(e.objects))
  }

  /** The type map as the constructor leaves it. */
  predicate TypesBuilt(e: EventObject) {
    AllKeyed(e.objects) && e.byType == TypeLists(e.objects)
  }

  /** The name map as the constructor leaves it. */
  predicate NamesBuilt(e: EventObject) {
    AllKeyed(e.objects) && e.byName == Dict.FromPairs(NamePairs(e.objects))
  }

  /** An index as the constructor leaves it. */
  predicate Built(e: EventObject) { IdsBuilt(e) && TypesBuilt(e) && NamesBuilt(e) }

  lemma NewBuilt(ev: Event)
    requires New(ev).Ok?
    ensures Built(New(ev).value)
  {
  }

  /** The pair that gives a key its last value comes after every other pair for that key. */
  lemma {:induction false} LastValueIsLast<V>(ps: seq<(string, V)>, k: string) returns (j: nat)
    requires LastValue(ps, k).Some?
    ensures j < |ps| && ps[j] == (k, LastValue(ps, k).value)
    ensures forall i :: j < i < |ps| ==> ps[i].0 != k
  {
    if ps[|ps| - 1].0 == k {
      j := |ps| - 1;
    } else {
      j := LastValueIsLast(ps[..|ps| - 1], k);
    }
  }

  function LastValue<V>(ps: seq<(string, V)>, k: string): Option<V> { Dict.LastValue(ps, k) }

  /** A key no pair carries has no last value. */
  lemma {:induction false} LastValueAbsent<V>(ps: seq<(string, V)>, k: string)
    requires forall i :: 0 <= i < |ps| ==> ps[i].0 != k
    ensures LastValue(ps, k).None?
  {
    if ps != [] {
      LastValueAbsent(ps[..|ps| - 1], k);
    }
  }

  // ---------------------------------------------------------------------------------------------
  // Lookups

  /** `get_object_by_id`: the object stored under the id, or `None`. */
  function ObjectById(e: EventObject, id: string): (r: Option<SceneObject>)
    ensures r.None? <==> id !in Dict.Keys(e.byId)
  {
    Dict.Get(e.byId, id)
  }

  /** In a built index an id finds nothing exactly when no object carries it, and otherwise
      finds the last object that carries it. */
  lemma ObjectByIdLast(e: EventObject, id: string) returns (j: nat)
    requires IdsBuilt(e)
    ensures ObjectById(e, id).None? <==> forall i :: 0 <= i < |e.objects| ==> e.objects[i].objectId != Some(id)
    ensures ObjectById(e, id).Some? ==>
      && j < |e.objects| && e.objects[j] == ObjectById(e, id).value && e.objects[j].objectId == Some(id)
      && forall i :: j < i < |e.objects| ==> e.objects[i].objectId != Some(id)
  {
    var ps := IdPairs(e.objects);
    j := 0;
    if forall i :: 0 <= i < |e.objects| ==> e.objects[i].objectId != Some(id) {
      LastValueAbsent(ps, id);
    } else {
      var w :| 0 <= w < |e.objects| && e.objects[w].objectId == Some(id);
      assert ps[w].0 == id;
      LastPairFound(ps, id, w);
      j := LastValueIsLast(ps, id);
    }
  }

  /** A key some pair carries has a last value. */
  lemma {:induction false} LastPairFound<V>(ps: seq<(string, V)>, k: string, w: nat)
    requires w < |ps| && ps[w].0 == k
    ensures LastValue(ps, k).Some?
  {
    if w < |ps| - 1 && ps[|ps| - 1].0 != k {
      LastPairFound(ps[..|ps| - 1], k, w);
    }
  }

  /** `get_objects_by_type`: the type's list, or an empty list. */
  function ObjectsByType(e: EventObject, t: string): (r: seq<SceneObject>)
    requires TypesBuilt(e)
    ensures forall o :: o in r <==> o in e.objects && o.objectType == Some(t)
    ensures r == OfType(e.objects, t)
  {
    OfTypeExact(e.objects, t);
    Dict.Get(e.byType, t).GetOr([])
  }

  /** The type lists of a built index split its objects: each object is in its own type's
      list, and each list holds only objects of its type. */
  lemma TypesPartition(e: EventObject, i: nat)
    requires TypesBuilt(e) && i < |e.objects|
    ensures Dict.Get(e.byType, e.objects[i].objectType.value).Some?
    ensures e.objects[i] in Dict.Get(e.byType, e.objects[i].objectType.value).value
  {
    var t := e.objects[i].objectType.value;
    OfTypeExact(e.objects, t);
    assert e.objects[i] in OfType(e.objects, t);
  }

  lemma TypeListsHoldTheirType(e: EventObject, t: string, o: SceneObject)
    requires TypesBuilt(e) && Dict.Get(e.byType, t).Some? && o in Dict.Get(e.byType, t).value
    ensures o in e.objects && o.objectType == Some(t)
  {
    OfTypeExact(e.objects, t);
  }

  /** Whether an object's name contains the pattern, ignoring case. */
  predicate NameMatches(o: SceneObject, pattern: string) {
    o.name.Some? && Text.Contains(Text.Lower(o.name.value), Text.Lower(pattern))
  }

  /** The ids of the pairs whose object matches, in the pairs' order. */
  function MatchingIds(d: Dict.Dict<string, SceneObject>, pattern: string): (r: seq<string>)
    ensures |r| <= |d|
    ensures forall k :: k in r <==> exists i :: 0 <= i < |d| && d[i].0 == k && NameMatches(d[i].1, pattern)
  {
    if d == [] then []
    else
      var rest := MatchingIds(d[1..], pattern);
      assert forall i :: 1 <= i < |d| ==> d[i] == d[1..][i - 1];
      (if NameMatches(d[0].1, pattern) then [d[0].0] else []) + rest
  }

  /** The matching runs over the pairs in order: matching a concatenation matches each part and
      keeps the parts in order. */
  lemma {:induction false} MatchingAppend(a: Dict.Dict<string, SceneObject>, b: Dict.Dict<string, SceneObject>, pattern: string)
    ensures MatchingIds(a + b, pattern) == MatchingIds(a, pattern) + MatchingIds(b, pattern)
  {
    if a == [] {
      assert a + b == b;
    } else {
      var h := if NameMatches(a[0].1, pattern) then [a[0].0] else [];
      assert (a + b)[0] == a[0];
      assert (a + b)[1..] == a[1..] + b;
      MatchingAppend(a[1..], b, pattern);
      Seqs.ConcatAssoc(h, MatchingIds(a[1..], pattern), MatchingIds(b, pattern));
    }
  }

  /** `find_object_id_by_name`: the ids, in the order of the id map, whose object's name
      contains the pattern, ignoring case. */
  function FindObjectIdByName(e: EventObject, pattern: string): (r: seq<string>)
    ensures forall k :: k in r <==> exists i :: 0 <= i < |e.byId| && e.byId[i].0 == k && NameMatches(e.byId[i].1, pattern)
    ensures forall i :: 0 <= i <= |e.byId| ==>
              r == MatchingIds(e.byId[..i], pattern) + MatchingIds(e.byId[i..], pattern)
  {
    forall i | 0 <= i <= |e.byId|
      ensures MatchingIds(e.byId, pattern) == MatchingIds(e.byId[..i], pattern) + MatchingIds(e.byId[i..], pattern)
    {
      MatchingAppend(e.byId[..i], e.byId[i..], pattern);
      assert e.byId[..i] + e.byId[i..] == e.byId;
    }
    MatchingIds(e.byId, pattern)
  }

  /** With distinct ids, an id is found exactly when the object stored under it matches. */
  lemma FindByNameExact(e: EventObject, pattern: string, id: string)
    requires Dict.Distinct(Dict.Keys(e.byId))
    ensures id in FindObjectIdByName(e, pattern) <==> ObjectById(e, id).Some? && NameMatches(ObjectById(e, id).value, pattern)
  {
    if id in FindObjectIdByName(e, pattern) {
      var i :| 0 <= i < |e.byId| && e.byId[i].0 == id && NameMatches(e.byId[i].1, pattern);
      Dict.GetAt(e.byId, i);
    } else if ObjectById(e, id).Some? {
      var i := KeyPosition(e.byId, id);
      Dict.GetAt(e.byId, i);
    }
  }

  /** The position of a key in a dictionary that holds it. */
  lemma {:induction false} KeyPosition<V>(d: Dict.Dict<string, V>, k: string) returns (i: nat)
    requires k in Dict.Keys(d)
    ensures i < |d| && d[i].0 == k
  {
    i :| 0 <= i < |d| && Dict.Keys(d)[i] == k;
  }

  /** The pattern's case does not matter. */
  lemma FindIgnoresCase(e: EventObject, pattern: string)
    ensures FindObjectIdByName(e, Text.Lower(pattern)) == FindObjectIdByName(e, pattern)
  {
    Text.LowerIdempotent(pattern);
    MatchingSamePattern(e.byId, Text.Lower(pattern), pattern);
  }

  lemma {:induction false} MatchingSamePattern(d: Dict.Dict<string, SceneObject>, p: string, q: string)
    requires Text.Lower(p) == Text.Lower(q)
    ensures MatchingIds(d, p) == MatchingIds(d, q)
  {
    if d != [] {
      MatchingSamePattern(d[1..], p, q);
    }
  }

  // ---------------------------------------------------------------------------------------------
  // Flag filters

  /** `get_*_objects`: the objects whose flag is set, in input order. */
  function Having(objs: seq<SceneObject>, f: Flag): (r: seq<SceneObject>)
    ensures |r| <= |objs|
    ensures forall o :: o in r <==> o in objs && f in o.flags
  {
    if objs == [] then []
    else
      assert objs == [objs[0]] + objs[1..];
      (if f in objs[0].flags then [objs[0]] else []) + Having(objs[1..], f)
  }

  /** Filtering a concatenation filters each part in turn: the filter keeps input order. */
  lemma {:induction false} HavingAppend(a: seq<SceneObject>, b: seq<SceneObject>, f: Flag)
    ensures Having(a + b, f) == Having(a, f) + Having(b, f)
  {
    if a == [] {
      assert a + b == b;
    } else {
      var x, rest := a[0], a[1..];
      assert a == [x] + rest;
      assert a + b == [x] + (rest + b);
      HavingAppend(rest, b, f);
      HavingCons(x, rest, f);
      HavingCons(x, rest + b, f);
      var h := if f in x.flags then [x] else [];
      Seqs.ConcatAssoc(h, Having(rest, f), Having(b, f));
    }
  }

  lemma HavingCons(x: SceneObject, rest: seq<SceneObject>, f: Flag)
    ensures Having([x] + rest, f) == (if f in x.flags then [x] else []) + Having(rest, f)
  {
    assert ([x] + rest)[1..] == rest;
  }



  /** A filter keeps everything exactly when every object has the flag. */
  lemma {:induction false} HavingAll(objs: seq<SceneObject>, f: Flag)
    ensures Having(objs, f) == objs <==> forall i :: 0 <= i < |objs| ==> f in objs[i].flags
  {
    if objs != [] {
      var x, t := objs[0], objs[1..];
      assert objs == [x] + t;
      HavingCons(x, t, f);
      HavingAll(t, f);
      if f in x.flags {
        assert Having(objs, f) == objs <==> Having(t, f) == t by {
          if Having(objs, f) == objs {
            assert Having(t, f) == Having(objs, f)[1..];
          }
        }
        assert (forall i :: 0 <= i < |objs| ==> f in objs[i].flags)
           <==> (forall i :: 0 <= i < |t| ==> f in t[i].flags) by {
          if forall i :: 0 <= i < |t| ==> f in t[i].flags {
            forall i | 0 <= i < |objs| ensures f in objs[i].flags {
              if i > 0 {
                assert objs[i] == t[i - 1];
              }
            }
          }
          if forall i :: 0 <= i < |objs| ==> f in objs[i].flags {
            forall i | 0 <= i < |t| ensures f in t[i].flags {
              assert t[i] == objs[i + 1];
            }
          }
        }
      } else {
        assert |Having(objs, f)| < |objs|;
      }
    }
  }


  /** Whether reading `visible`, and then `name` for a visible object, raises `KeyError`. */
  predicate VisibleReadFails(o: SceneObject) {
    o.visible.None? || (o.visible == Some(true) && o.name.None?)
  }

  /** The visible objects, in input order; every object must carry `visible`. */
  function VisibleOnly(objs: seq<SceneObject>): (r: seq<SceneObject>)
    requires forall i :: 0 <= i < |objs| ==> objs[i].visible.Some?
    ensures forall o :: o in r <==> o in objs && o.visible == Some(true)
  {
    if objs == [] then []
    else
      assert objs == [objs[0]] + objs[1..];
      (if objs[0].visible == Some(true) then [objs[0]] else []) + VisibleOnly(objs[1..])
  }

  /** `get_visible_objects`: the names and the objects of the visible objects, or `KeyError`. */
  function VisibleObjects(objs: seq<SceneObject>): (r: Result<(seq<string>, seq<SceneObject>), string>)
    ensures r.Err? <==> exists i :: 0 <= i < |objs| && VisibleReadFails(objs[i])
    ensures r.Err? ==> r.error == "KeyError"
    ensures r.Ok? ==>
      && (forall o :: o in r.value.1 <==> o in objs && o.visible == Some(true))
      && |r.value.0| == |r.value.1|
      && forall i :: 0 <= i < |r.value.1| ==> r.value.1[i].name == Some(r.value.0[i])
  {
    if exists i :: 0 <= i < |objs| && VisibleReadFails(objs[i]) then Err("KeyError")
    else
      var shown := VisibleOnly(objs);
      assert forall i :: 0 <= i < |shown| ==> shown[i].name.Some? by {
        forall i | 0 <= i < |shown| ensures shown[i].name.Some? {
          assert shown[i] in objs;
        }
      }
      Ok((seq(|shown|, i requires 0 <= i < |shown| && shown[i].name.Some? => shown[i].name.value), shown))
  }

  // ---------------------------------------------------------------------------------------------
  // Item queries by name

  /** The object stored under a name, or `KeyError`. */
  function Item(e: EventObject, name: string): (r: Result<SceneObject, string>)
    ensures r.Ok? <==> name in Dict.Keys(e.byName)
    ensures r.Err? ==> r.error == "KeyError"
    ensures r.Ok? ==> Dict.Get(e.byName, name) == Some(r.value)
  {
    match Dict.Get(e.byName, name)
    case None => Err("KeyError")
    case Some(o) => Ok(o)
  }

  /** `get_item_mass`. */
  function ItemMass(e: EventObject, name: string): (r: Result<real, string>)
    ensures r.Ok? <==> Item(e, name).Ok? && Item(e, name).value.mass.Some?
    ensures r.Ok? ==> r.value == Item(e, name).value.mass.value
  {
    match Item(e, name)
    case Err(x) => Err(x)
    case Ok(o) => if o.mass.None? then Err("KeyError") else Ok(o.mass.value)
  }

  /** `get_item_position`. */
  function ItemPosition(e: EventObject, name: string): (r: Result<Point, string>)
    ensures r.Ok? <==> Item(e, name).Ok?
    ensures r.Ok? ==> r.value == Item(e, name).value.position
  {
    match Item(e, name)
    case Err(x) => Err(x)
    case Ok(o) => Ok(o.position)
  }

  /** `get_item_orientation`. */
  function ItemOrientation(e: EventObject, name: string): (r: Result<Point, string>)
    ensures r.Ok? <==> Item(e, name).Ok?
    ensures r.Ok? ==> r.value == Item(e, name).value.rotation
  {
    match Item(e, name)
    case Err(x) => Err(x)
    case Ok(o) => Ok(o.rotation)
  }

  /** The box size of an item, when all three sides are given. */
  function ItemSize(e: EventObject, name: string): (r: Result<(real, real, real), string>)
    ensures r.Ok? <==> Item(e, name).Ok? && Item(e, name).value.aabbSize.x.Some?
                       && Item(e, name).value.aabbSize.y.Some? && Item(e, name).value.aabbSize.z.Some?
    ensures r.Ok? ==> r.value == (Item(e, name).value.aabbSize.x.value, Item(e, name).value.aabbSize.y.value,
                                  Item(e, name).value.aabbSize.z.value)
  {
    match Item(e, name)
    case Err(x) => Err(x)
    case Ok(o) =>
      var s := o.aabbSize;
      if s.x.None? || s.y.None? || s.z.None? then Err("KeyError") else Ok((s.x.value, s.y.value, s.z.value))
  }

  /** `get_item_volume`: the box volume rounded to four decimals. */
  function ItemVolume(m: MathLib, e: EventObject, name: string): (r: Result<real, string>)
    requires Lawful(m)
    ensures r.Ok? <==> ItemSize(e, name).Ok?
    ensures r.Ok? ==>
      var s := ItemSize(e, name).value;
      -0.00005 <= r.value - BoxVolume(s.0, s.1, s.2) <= 0.00005
  {
    match ItemSize(e, name)
    case Err(x) => Err(x)
    case Ok(s) => Ok(m.round4(BoxVolume(s.0, s.1, s.2)))
  }

  /** The volume of a box with the given side lengths. */
  function BoxVolume(x: real, y: real, z: real): real {
    x * y * z
  }

  /** The area of the largest face of a box. */
  function LargestFace(x: real, y: real, z: real): (r: real)
    ensures x * y <= r && x * z <= r && y * z <= r
    ensures r == x * y || r == x * z || r == y * z
  {
    Max(Max(x * y, x * z), y * z)
  }

  /** `get_item_surface_area`: the largest face's area, rounded to four decimals; one face,
      not the total surface. */
  function ItemSurfaceArea(m: MathLib, e: EventObject, name: string): (r: Result<real, string>)
    requires Lawful(m)
    ensures r.Ok? <==> ItemSize(e, name).Ok?
    ensures r.Ok? ==>
      var s := ItemSize(e, name).value;
      -0.00005 <= r.value - LargestFace(s.0, s.1, s.2) <= 0.00005
  {
    match ItemSize(e, name)
    case Err(x) => Err(x)
    case Ok(s) => Ok(m.round4(LargestFace(s.0, s.1, s.2)))
  }

  /** For a unit cube the surface query gives one face, a sixth of the total surface, up to
      rounding. */
  lemma UnitCubeOneFace(m: MathLib, e: EventObject, name: string)
    requires Lawful(m) && ItemSize(e, name) == Ok((1.0, 1.0, 1.0))
    ensures ItemSurfaceArea(m, e, name).Ok? && ItemSurfaceArea(m, e, name).value < 1.0001
  {
  }

  /** `get_all_item_position`: name to position, the last object winning a shared name. */
  function AllItemPositions(e: EventObject): (r: Dict.Dict<string, Point>)
    requires NamesBuilt(e)
    ensures forall k :: Dict.Get(r, k) == LastValue(PositionPairs(e.objects), k)
  {
    Dict.FromPairs(PositionPairs(e.objects))
  }

  function PositionPairs(objs: seq<SceneObject>): (r: seq<(string, Point)>)
    requires AllKeyed(objs)
    ensures |r| == |objs| && forall i :: 0 <= i < |objs| ==> r[i] == (objs[i].name.value, objs[i].position)
  {
    seq(|objs|, i requires 0 <= i < |objs| => (objs[i].name.value, objs[i].position))
  }

  /** In a built index the position listed under a name is that of the object the name map
      keeps. */
  lemma PositionsAgreeWithNames(e: EventObject, name: string)
    requires NamesBuilt(e)
    ensures Dict.Get(AllItemPositions(e), name).Some? <==> Item(e, name).Ok?
    ensures Item(e, name).Ok? ==> Dict.Get(AllItemPositions(e), name) == Some(Item(e, name).value.position)
  {
    var ps := PositionPairs(e.objects);
    var ns := NamePairs(e.objects);
    LastValueMap(e.objects, name);
  }

  /** The last name pair and the last position pair for a name come from the same object. */
  lemma {:induction false} LastValueMap(objs: seq<SceneObject>, name: string)
    requires AllKeyed(objs)
    ensures LastValue(PositionPairs(objs), name).Some? <==> LastValue(NamePairs(objs), name).Some?
    ensures LastValue(NamePairs(objs), name).Some? ==>
      LastValue(PositionPairs(objs), name) == Some(LastValue(NamePairs(objs), name).value.position)
  {
    if objs != [] {
      var init := objs[..|objs| - 1];
      LastValueMap(init, name);
      assert PositionPairs(objs)[..|objs| - 1] == PositionPairs(init);
      assert NamePairs(objs)[..|objs| - 1] == NamePairs(init);
    }
  }

  /** `get_object_color` and `get_color_object`: a missing key raises `KeyError`. */
  function ObjectColor(e: EventObject, id: string): (r: Result<Colour, string>)
    ensures r.Ok? <==> id in Dict.Keys(e.objectToColor)
    ensures r.Ok? ==> Dict.Get(e.objectToColor, id) == Some(r.value)
    ensures r.Err? ==> r.error == "KeyError"
  {
    match Dict.Get(e.objectToColor, id)
    case None => Err("KeyError")
    case Some(c) => Ok(c)
  }

  function ColorObject(e: EventObject, c: Colour): (r: Result<string, string>)
    ensures r.Ok? <==> c in Dict.Keys(e.colorToObject)
    ensures r.Ok? ==> Dict.Get(e.colorToObject, c) == Some(r.value)
    ensures r.Err? ==> r.error == "KeyError"
  {
    match Dict.Get(e.colorToObject, c)
    case None => Err("KeyError")
    case Some(id) => Ok(id)
  }

  // ---------------------------------------------------------------------------------------------
  // extract_item

  /** Where the first `]]` starts in `t`, provided no line break comes before it: the lazy
      `.*?` tries to close first and cannot cross a newline. */
  function CloseAt(t: string): (r: Option<nat>)
    ensures r.Some? ==> r.value + 2 <= |t| && t[r.value] == ']' && t[r.value + 1] == ']'
    ensures r.Some? ==> forall i :: 0 <= i < r.value ==> t[i] != '\n' && !(t[i] == ']' && t[i + 1] == ']')
  {
    if |t| >= 2 && t[0] == ']' && t[1] == ']' then Some(0)
    else if |t| == 0 || t[0] == '\n' then None
    else
      match CloseAt(t[1..])
      case None => None
      case Some(j) => Some(j + 1)
  }

  /** `re.findall(r'\[\[(.*?)\]\]', s)`: scanning left to right, each `[[` that can be closed
      on its line yields the text up to the first `]]`, and the scan resumes after that. */
  function Matches(s: string): (r: seq<string>)
    ensures forall m :: m in r ==> forall i :: 0 <= i < |m| ==> m[i] != '\n'
    decreases |s|
  {
    if |s| < 2 then []
    else if s[0] == '[' && s[1] == '[' && CloseAt(s[2..]).Some? then
      var j := CloseAt(s[2..]).value;
      [s[2..2 + j]] + Matches(s[2 + j + 2..])
    else Matches(s[1..])
  }

  /** `extract_item`: the last match; with none, `last_match` is never bound and the function
      raises `UnboundLocalError`. */
  function ExtractItem(response: string): (r: Result<string, string>)
    ensures r.Err? <==> Matches(response) == []
    ensures r.Err? ==> r.error == "UnboundLocalError"
    ensures r.Ok? ==> r.value == Matches(response)[|Matches(response)| - 1]
  {
    var ms := Matches(response);
    if ms == [] then Err("UnboundLocalError") else Ok(ms[|ms| - 1])
  }

  /** Text without brackets or line breaks. */
  predicate Plain(x: string) { forall i :: 0 <= i < |x| ==> x[i] != ']' && x[i] != '[' && x[i] != '\n' }

  /** A plain item closes at the `]]` right after it. */
  lemma {:induction false} CloseAfterPlain(x: string, rest: string)
    requires Plain(x)
    ensures CloseAt(x + "]]" + rest) == Some(|x|)
  {
    if x != [] {
      CloseAfterPlain(x[1..], rest);
      assert (x + "]]" + rest)[1..] == x[1..] + "]]" + rest;
    }
  }

  /** An item in double brackets. */
  function Bracketed(x: string): string { "[[" + x + "]]" }

  /** A bracketed plain item in front of the text is the first match. */
  lemma MatchesWrapped(x: string, rest: string)
    requires Plain(x)
    ensures Matches(Bracketed(x) + rest) == [x] + Matches(rest)
  {
    var s := Bracketed(x) + rest;
    assert s[2..] == x + "]]" + rest;
    CloseAfterPlain(x, rest);
    assert s[2..2 + |x|] == x;
    assert s[2 + |x| + 2..] == rest;
  }

  /** Plain text yields no match. */
  lemma {:induction false} PlainNoMatches(x: string)
    requires Plain(x)
    ensures Matches(x) == []
  {
    if |x| >= 2 {
      PlainNoMatches(x[1..]);
    }
  }

  /** Of two bracketed items the second is extracted, whatever plain text surrounds them. */
  lemma ExtractLastOfTwo(a: string, x: string, b: string, y: string, c: string)
    requires Plain(a) && Plain(x) && Plain(b) && Plain(y) && Plain(c)
    ensures ExtractItem(a + Bracketed(x) + b + Bracketed(y) + c) == Ok(y)
  {
    var first := a + Bracketed(x);
    var second := b + Bracketed(y) + c;
    PlainWrapped(b, y, c);
    PlainNoMatches(c);
    PlainWrapped(a, x, second);
    assert first + b + Bracketed(y) == first + (b + Bracketed(y));
    assert first + b + Bracketed(y) + c == first + second;
  }

  /** Plain text, then a bracketed plain item: the item is the first match. */
  lemma PlainWrapped(a: string, x: string, rest: string)
    requires Plain(a) && Plain(x)
    ensures Matches(a + Bracketed(x) + rest) == [x] + Matches(rest)
  {
    var w := Bracketed(x) + rest;
    assert a + Bracketed(x) + rest == a + w;
    PlainPrefix(a, w);
    MatchesWrapped(x, rest);
  }

  /** Plain text in front of a `[[` adds no match. */
  lemma {:induction false} PlainPrefix(a: string, s: string)
    requires Plain(a) && |s| >= 2 && s[0] == '[' && s[1] == '['
    ensures Matches(a + s) == Matches(s)
  {
    if a != [] {
      assert (a + s)[0] == a[0] && a[0] != '[';
      assert (a + s)[1..] == a[1..] + s;
      assert Matches(a + s) == Matches((a + s)[1..]);
      PlainPrefix(a[1..], s);
    } else {
      assert a + s == s;
    }
  }

  /** Text without a bracketed item raises. */
  lemma NoItemRaises(x: string)
    requires Plain(x)
    ensures ExtractItem(x) == Err("UnboundLocalError")
  {
    PlainNoMatches(x);
  }

  // ---------------------------------------------------------------------------------------------
  // match_object

  /** The argument of `match_object`: the mapping `get_objects` returns, or a bare name map. */
  datatype Mapping =
    | Enhanced(byId: Dict.Dict<string, SceneObject>, byName: Dict.Dict<string, SceneObject>)
    | Plain(items: Dict.Dict<string, SceneObject>)

  const LightSwitchId: string := "LightSwitch_c3c009ea"

  /** The first pair whose name contains "LightSwitch". */
  function FirstLightSwitch(d: Dict.Dict<string, SceneObject>): (r: Option<nat>)
    ensures r.Some? ==> r.value < |d| && Text.Contains(d[r.value].0, "LightSwitch")
    ensures r.Some? ==> forall i :: 0 <= i < r.value ==> !Text.Contains(d[i].0, "LightSwitch")
    ensures r.None? ==> forall i :: 0 <= i < |d| ==> !Text.Contains(d[i].0, "LightSwitch")
  {
    if d == [] then None
    else if Text.Contains(d[0].0, "LightSwitch") then Some(0)
    else
      match FirstLightSwitch(d[1..])
      case None => None
      case Some(i) => Some(i + 1)
  }

  /** `match_object`: the instruction is not read. The fixed light-switch id wins when the id
      map has it; otherwise the first name containing "LightSwitch"; otherwise nothing. */
  function MatchObject(instruction: string, mapping: Mapping): (r: Option<SceneObject>)
    ensures var ids := if mapping.Enhanced? then mapping.byId else mapping.items;
            var names := if mapping.Enhanced? then mapping.byName else mapping.items;
      && (LightSwitchId in Dict.Keys(ids) ==> r == Dict.Get(ids, LightSwitchId))
      && (LightSwitchId !in Dict.Keys(ids) ==>
            (r.None? <==> forall i :: 0 <= i < |names| ==> !Text.Contains(names[i].0, "LightSwitch")))
  {
    var ids := if mapping.Enhanced? then mapping.byId else mapping.items;
    var names := if mapping.Enhanced? then mapping.byName else mapping.items;
    if LightSwitchId in Dict.Keys(ids) then Dict.Get(ids, LightSwitchId)
    else
      match FirstLightSwitch(names)
      case None => None
      case Some(i) => Some(names[i].1)
  }

  /** Without the fixed id the answer is the first light switch by name order. */
  lemma MatchFirstByName(instruction: string, mapping: Mapping, i: nat)
    requires var ids := if mapping.Enhanced? then mapping.byId else mapping.items;
             LightSwitchId !in Dict.Keys(ids)
    requires var names := if mapping.Enhanced? then mapping.byName else mapping.items;
             i < |names| && Text.Contains(names[i].0, "LightSwitch")
             && forall h :: 0 <= h < i ==> !Text.Contains(names[h].0, "LightSwitch")
    ensures var names := if mapping.Enhanced? then mapping.byName else mapping.items;
            MatchObject(instruction, mapping) == Some(names[i].1)
  {
  }

  /** The instruction makes no difference. */
  lemma MatchIgnoresInstruction(a: string, b: string, mapping: Mapping)
    ensures MatchObject(a, mapping) == MatchObject(b, mapping)
  {
  }
}

=== FILE: geometric_analyzer.dfy ===
/** How an object's bounding box decides the way the agent observes it: a shape class, a
    single-view, multi-view or adaptive strategy with a viewing distance, viewing angles and a
    viewpoint count, and the ranking of candidate standing positions around the object. */
module GeometricAnalyzer {
  import opened Wrappers
  import opened RealMath
  import opened Scene
  import opened Ordering

  /** The bounding-box size of an object, each missing component read as 1.0, with its id and type
      (`"unknown"` when absent). */
  datatype Geometry = Geometry(objectId: string, objectType: string, width: real, height: real, depth: real)

  function GeometryOf(obj: SceneObject): (g: Geometry)
    ensures g.width == obj.aabbSize.x.GetOr(1.0)
    ensures g.height == obj.aabbSize.y.GetOr(1.0)
    ensures g.depth == obj.aabbSize.z.GetOr(1.0)
    ensures obj.aabbSize == NoPoint ==> g.width == g.height == g.depth == 1.0
  {
    Geometry(obj.objectId.GetOr("unknown"), obj.objectType.GetOr("unknown"),
             obj.aabbSize.x.GetOr(1.0), obj.aabbSize.y.GetOr(1.0), obj.aabbSize.z.GetOr(1.0))
  }

  function Volume(g: Geometry): real { g.width * g.height * g.depth }

  function SurfaceArea(g: Geometry): real {
    2.0 * (g.width * g.height + g.width * g.depth + g.height * g.depth)
  }

  function MaxDimension(g: Geometry): real { Max(g.width, Max(g.height, g.depth)) }

  function MinDimension(g: Geometry): real { Min(g.width, Min(g.height, g.depth)) }

  /** Longest over shortest side, or 1.0 for a box with a side that is not positive. */
  function AspectRatio(g: Geometry): (r: real)
    ensures r >= 1.0
    ensures MinDimension(g) > 0.0 ==> r * MinDimension(g) == MaxDimension(g)
    ensures MinDimension(g) <= 0.0 ==> r == 1.0
  {
    if MinDimension(g) > 0.0 then
      AtLeastOneRatio(MaxDimension(g), MinDimension(g));
      MaxDimension(g) / MinDimension(g)
    else 1.0
  }

  lemma AtLeastOneRatio(a: real, b: real)
    requires 0.0 < b <= a
    ensures a / b >= 1.0
  {
  }

  datatype Shape = Compact | Elongated | Linear

  function ShapeOf(g: Geometry): (s: Shape)
    ensures s == Compact <==> AspectRatio(g) <= 1.5
    ensures s == Linear <==> AspectRatio(g) > 3.0
  {
    if AspectRatio(g) <= 1.5 then Compact
    else if AspectRatio(g) <= 3.0 then Elongated
    else Linear
  }

  const SmallVolume: real := 0.2
  const SmallSurface: real := 0.5
  const LargeVolume: real := 1.0
  const LargeSurface: real := 1.0
  const VeryLargeVolume: real := 2.0
  const BaseDistanceFactor: real := 1.5
  const MinObservationDistance: real := 0.5
  const MaxObservationDistance: real := 3.0
  const DefaultCoverage: real := 0.85
  const MaxViewpoints: int := 6

  predicate IsSmall(g: Geometry) {
    Volume(g) <= SmallVolume && SurfaceArea(g) <= SmallSurface
  }

  predicate IsLargeComplex(g: Geometry) {
    || Volume(g) > LargeVolume
    || SurfaceArea(g) > LargeSurface
    || MaxDimension(g) > 2.0
    || AspectRatio(g) > 3.0
  }

  datatype StrategyKind = SingleView | MultiView | Adaptive

  datatype ObservationStrategy = ObservationStrategy(
    kind: StrategyKind,
    optimalDistance: real,
    angles: seq<real>,
    viewpointCount: int,
    coverage: real,
    approachDistance: real)

  /** The viewing distance before it is clamped: 1.5 times the larger horizontal side, stretched
      for boxes taller than 1.5 and by 1.3 for linear shapes, shrunk by 0.9 for compact ones. */
  function RawDistance(g: Geometry): real {
    ShapeStretch(HeightStretch(Max(g.width, g.depth) * BaseDistanceFactor, g.height), ShapeOf(g))
  }

  function HeightStretch(base: real, height: real): real {
    if height > 1.5 then base * (1.0 + (height - 1.5) * 0.3) else base
  }

  function ShapeStretch(d: real, s: Shape): real {
    match s
    case Linear => d * 1.3
    case Compact => d * 0.9
    case Elongated => d
  }

  function OptimalDistance(g: Geometry): (d: real)
    ensures MinObservationDistance <= d <= MaxObservationDistance
    ensures MinObservationDistance < d < MaxObservationDistance ==> d == RawDistance(g)
    ensures MinObservationDistance < RawDistance(g) < MaxObservationDistance ==> d == RawDistance(g)
    ensures RawDistance(g) <= MinObservationDistance ==> d == MinObservationDistance
    ensures RawDistance(g) >= MaxObservationDistance ==> d == MaxObservationDistance
  {
    Max(MinObservationDistance, Min(RawDistance(g), MaxObservationDistance))
  }

  lemma MulMonotone(a: real, b: real, c: real)
    requires a <= b && 0.0 <= c
    ensures a * c <= b * c
  {
    assert (b - a) * c >= 0.0;
  }

  /** Among boxes of the same height and shape class, the larger horizontal side is never viewed
      from closer. */
  lemma {:induction false} OptimalDistanceMonotone(g1: Geometry, g2: Geometry)
    requires g1.height == g2.height && ShapeOf(g1) == ShapeOf(g2)
    requires Max(g1.width, g1.depth) <= Max(g2.width, g2.depth)
    ensures RawDistance(g1) <= RawDistance(g2)
    ensures OptimalDistance(g1) <= OptimalDistance(g2)
  {
    var b1 := Max(g1.width, g1.depth) * BaseDistanceFactor;
    var b2 := Max(g2.width, g2.depth) * BaseDistanceFactor;
    MulMonotone(Max(g1.width, g1.depth), Max(g2.width, g2.depth), BaseDistanceFactor);
    HeightStretchMonotone(b1, b2, g1.height);
    var t1 := HeightStretch(b1, g1.height);
    var t2 := HeightStretch(b2, g2.height);
    match ShapeOf(g1)
    case Linear => MulMonotone(t1, t2, 1.3);
    case Compact => MulMonotone(t1, t2, 0.9);
    case Elongated =>
  }

  lemma HeightStretchMonotone(b1: real, b2: real, h: real)
    requires b1 <= b2
    ensures HeightStretch(b1, h) <= HeightStretch(b2, h)
  {
    if h > 1.5 {
      MulMonotone(b1, b2, 1.0 + (h - 1.5) * 0.3);
    }
  }

  /** Viewpoints a volume adds: two above the very large threshold, one above the large one. */
  function VolumeBand(g: Geometry): (b: int)
    ensures b == 2 <==> Volume(g) > VeryLargeVolume
    ensures b == 1 <==> LargeVolume < Volume(g) <= VeryLargeVolume
    ensures b == 0 <==> Volume(g) <= LargeVolume
  {
    if Volume(g) > VeryLargeVolume then 2 else if Volume(g) > LargeVolume then 1 else 0
  }

  /** Viewpoints a stretched shape adds: two above ratio 4.0, one above ratio 2.5. */
  function ShapeBand(g: Geometry): (b: int)
    ensures b == 2 <==> AspectRatio(g) > 4.0
    ensures b == 1 <==> 2.5 < AspectRatio(g) <= 4.0
    ensures b == 0 <==> AspectRatio(g) <= 2.5
  {
    if AspectRatio(g) > 4.0 then 2 else if AspectRatio(g) > 2.5 then 1 else 0
  }

  /** The viewpoint a box taller than 2.0 adds. */
  function HeightBand(g: Geometry): (b: int)
    ensures b == 1 <==> g.height > 2.0
    ensures b == 0 <==> g.height <= 2.0
  {
    if g.height > 2.0 then 1 else 0
  }

  /** Two viewpoints, more for a bigger volume, a more stretched shape or a taller box, at most six. */
  function RequiredViewpoints(g: Geometry): (n: int)
    ensures 2 <= n <= MaxViewpoints
    ensures Volume(g) > VeryLargeVolume ==> n >= 4
    ensures AspectRatio(g) > 4.0 ==> n >= 4
    ensures g.height > 2.0 ==> n >= 3
    ensures Volume(g) <= LargeVolume && AspectRatio(g) <= 2.5 && g.height <= 2.0 ==> n == 2
    ensures var count := 2 + VolumeBand(g) + ShapeBand(g) + HeightBand(g);
      && (count <= MaxViewpoints ==> n == count)
      && (count > MaxViewpoints ==> n == MaxViewpoints)
  {
    var count := 2 + VolumeBand(g) + ShapeBand(g) + HeightBand(g);
    if count <= MaxViewpoints then count else MaxViewpoints
  }

  /** A box that is no larger, no more stretched and no taller than another never needs more
      viewpoints. */
  lemma RequiredViewpointsMonotone(g1: Geometry, g2: Geometry)
    requires Volume(g1) <= Volume(g2) && AspectRatio(g1) <= AspectRatio(g2) && g1.height <= g2.height
    ensures RequiredViewpoints(g1) <= RequiredViewpoints(g2)
  {
  }

  /** The middle bands each add one viewpoint: a volume in (1.0, 2.0], a ratio in (2.5, 4.0] and a
      height above 2.0 give three, four or five viewpoints as they combine. */
  lemma MiddleBandsAddOne(g: Geometry)
    ensures LargeVolume < Volume(g) <= VeryLargeVolume && AspectRatio(g) <= 2.5 && g.height <= 2.0 ==>
              RequiredViewpoints(g) == 3
    ensures Volume(g) <= LargeVolume && 2.5 < AspectRatio(g) <= 4.0 && g.height <= 2.0 ==>
              RequiredViewpoints(g) == 3
    ensures LargeVolume < Volume(g) <= VeryLargeVolume && 2.5 < AspectRatio(g) <= 4.0 && g.height <= 2.0 ==>
              RequiredViewpoints(g) == 4
    ensures LargeVolume < Volume(g) <= VeryLargeVolume && 2.5 < AspectRatio(g) <= 4.0 && g.height > 2.0 ==>
              RequiredViewpoints(g) == 5
  {
  }

  /** Angles in degrees, each in [0, 360), starting at 0 and strictly increasing. */
  predicate ValidAngles(angles: seq<real>) {
    && |angles| > 0
    && angles[0] == 0.0
    && (forall i :: 0 <= i < |angles| ==> 0.0 <= angles[i] < 360.0)
    && (forall i, j :: 0 <= i < j < |angles| ==> angles[i] < angles[j])
  }

  /** The `i`-th of `count` equal steps around the full turn. */
  function EvenAngle(i: nat, count: nat): real
    requires count > 0
  {
    (i as real) * (360.0 / (count as real))
  }

  /** `count` angles a full turn apart divided into equal steps. */
  function EvenAngles(count: nat): (r: seq<real>)
    requires count > 0
    ensures |r| == count
    ensures forall i :: 0 <= i < count ==> r[i] * (count as real) == (i as real) * 360.0
    ensures ValidAngles(r)
  {
    var r := seq(count, i requires 0 <= i < count => EvenAngle(i, count));
    forall i | 0 <= i < count
      ensures r[i] * (count as real) == (i as real) * 360.0
      ensures 0.0 <= r[i] < 360.0
    {
      EvenAngleBounds(i, count);
    }
    forall i, j | 0 <= i < j < count ensures r[i] < r[j] {
      EvenAngleIncreasing(i, j, count);
    }
    r
  }

  lemma MulMonotoneStrict(a: real, b: real, c: real)
    requires a < b && 0.0 < c
    ensures a * c < b * c
  {
    assert (b - a) * c > 0.0;
  }

  lemma EvenAngleIncreasing(i: nat, j: nat, n: nat)
    requires i < j && n > 0
    ensures EvenAngle(i, n) < EvenAngle(j, n)
  {
    MulMonotoneStrict(i as real, j as real, 360.0 / (n as real));
  }

  lemma EvenAngleBounds(i: nat, n: nat)
    requires i < n
    ensures EvenAngle(i, n) * (n as real) == (i as real) * 360.0
    ensures 0.0 <= EvenAngle(i, n) < 360.0
  {
    var step := 360.0 / (n as real);
    DivTimes(360.0, n as real);
    assert step * (n as real) == 360.0;
    MulAssoc(i as real, step, n as real);
    assert (i as real) * step * (n as real) == (i as real) * 360.0;
    MulMonotoneStrict(i as real, n as real, step);
    MulMonotone(0.0, i as real, step);
  }

  lemma DivTimes(a: real, b: real)
    requires b > 0.0
    ensures a / b * b == a && a / b * b == b * (a / b)
  {
  }

  lemma MulAssoc(a: real, b: real, c: real)
    ensures a * b * c == a * (b * c)
  {
  }

  /** The viewing angles of a multi-view strategy: cardinal directions for linear shapes (at most
      four of them), an even division of the full turn otherwise. */
  function ViewingAngles(g: Geometry, count: int): (r: seq<real>)
    ensures ValidAngles(r)
    ensures count <= 1 ==> r == [0.0]
    ensures count > 1 && ShapeOf(g) == Linear ==>
      |r| == (if count >= 4 then 4 else count) && forall i :: 0 <= i < |r| ==> r[i] in {0.0, 90.0, 180.0, 270.0}
    ensures count >= 4 && ShapeOf(g) == Linear ==> r == [0.0, 90.0, 180.0, 270.0]
    ensures count == 3 && ShapeOf(g) == Linear ==> r == [0.0, 90.0, 270.0]
    ensures count == 2 && ShapeOf(g) == Linear ==> r == [0.0, 180.0]
    ensures count > 1 && ShapeOf(g) != Linear ==> r == EvenAngles(count)
    ensures count > 1 ==> |r| <= count
  {
    if count <= 1 then [0.0]
    else if ShapeOf(g) == Linear then
      if count >= 4 then [0.0, 90.0, 180.0, 270.0]
      else if count == 3 then [0.0, 90.0, 270.0]
      else [0.0, 180.0]
    else EvenAngles(count)
  }

  function SingleViewStrategy(g: Geometry): ObservationStrategy {
    var d := OptimalDistance(g);
    ObservationStrategy(SingleView, d, [0.0], 1, 0.95, Max(d * 0.8, MinObservationDistance))
  }

  function MultiViewStrategy(g: Geometry): ObservationStrategy {
    var d := OptimalDistance(g);
    var n := RequiredViewpoints(g);
    ObservationStrategy(MultiView, d, ViewingAngles(g, n), n, DefaultCoverage, Max(d * 1.2, 1.0))
  }

  function AdaptiveStrategy(g: Geometry): ObservationStrategy {
    var d := OptimalDistance(g);
    if AspectRatio(g) > 2.0 then ObservationStrategy(Adaptive, d, [0.0, 90.0, 270.0], 3, 0.80, d * 0.9)
    else ObservationStrategy(Adaptive, d, [0.0, 180.0], 2, 0.80, d * 0.9)
  }

  /** Small boxes are observed once, large or stretched ones from several viewpoints, the rest
      adaptively; every strategy's approach distance is positive. */
  function AnalyzeObservationRequirements(obj: SceneObject): (r: ObservationStrategy)
    ensures var g := GeometryOf(obj);
      && (r.kind == SingleView <==> IsSmall(g))
      && (r.kind == MultiView <==> !IsSmall(g) && IsLargeComplex(g))
      && r.optimalDistance == OptimalDistance(g)
      && ValidAngles(r.angles)
      && 1 <= |r.angles| <= r.viewpointCount
      && r.approachDistance >= 0.45
      && (r.kind == SingleView ==>
            r.viewpointCount == 1 && r.angles == [0.0] && r.coverage == 0.95
            && r.approachDistance == Max(0.8 * r.optimalDistance, MinObservationDistance))
      && (r.kind == MultiView ==>
            2 <= r.viewpointCount <= MaxViewpoints && r.viewpointCount == RequiredViewpoints(g)
            && r.angles == ViewingAngles(g, r.viewpointCount) && r.coverage == DefaultCoverage
            && r.approachDistance == Max(1.2 * r.optimalDistance, 1.0))
      && (r.kind == Adaptive ==>
            (r.viewpointCount == 3 <==> AspectRatio(g) > 2.0)
            && (r.viewpointCount == 2 <==> AspectRatio(g) <= 2.0)
            && r.angles == (if AspectRatio(g) > 2.0 then [0.0, 90.0, 270.0] else [0.0, 180.0])
            && |r.angles| == r.viewpointCount && r.coverage == 0.80
            && r.approachDistance == 0.9 * r.optimalDistance)
  {
    var g := GeometryOf(obj);
    if IsSmall(g) then SingleViewStrategy(g)
    else if IsLargeComplex(g) then MultiViewStrategy(g)
    else AdaptiveStrategy(g)
  }

  /** A multi-view or adaptive strategy with more than one viewpoint: exactly the boxes that are
      not small. */
  function ShouldUseMultiview(obj: SceneObject): (b: bool)
    ensures b <==> !IsSmall(GeometryOf(obj))
  {
    var s := AnalyzeObservationRequirements(obj);
    (s.kind == MultiView || s.kind == Adaptive) && s.viewpointCount > 1
  }

  /** An object with the given box size and nothing else. */
  function BoxObject(w: real, h: real, d: real): SceneObject {
    SceneObject(None, None, None, NoPoint, None, NoPoint, NoPoint, At(w, h, d), [], None, {}, None)
  }

  /** A 2.1 x 0.01 x 0.01 rod is stretched far beyond the linear bound and longer than 2, yet its
      tiny volume and area make it a single-view object. */
  lemma RodIsSingleView()
    ensures AspectRatio(GeometryOf(BoxObject(2.1, 0.01, 0.01))) > 3.0
    ensures MaxDimension(GeometryOf(BoxObject(2.1, 0.01, 0.01))) > 2.0
    ensures AnalyzeObservationRequirements(BoxObject(2.1, 0.01, 0.01)).kind == SingleView
  {
    var g := GeometryOf(BoxObject(2.1, 0.01, 0.01));
    assert MinDimension(g) == 0.01 && MaxDimension(g) == 2.1;
  }

  /** A 0.08 x 0.12 x 0.08 cup is observed once, head on. */
  lemma CupIsSingleView()
    ensures var s := AnalyzeObservationRequirements(BoxObject(0.08, 0.12, 0.08));
      s.kind == SingleView && s.viewpointCount == 1 && s.angles == [0.0] && s.approachDistance == 0.5
  {
    var g := GeometryOf(BoxObject(0.08, 0.12, 0.08));
    assert MinDimension(g) == 0.08 && MaxDimension(g) == 0.12;
    assert AspectRatio(g) == 1.5;
    assert ShapeOf(g) == Compact;
    assert RawDistance(g) == 0.08 * 1.5 * 0.9;
  }

  /** A 2.5 x 0.8 x 1.2 sofa needs five viewpoints but, being linear, receives only four angles. */
  lemma SofaHasFewerAnglesThanViewpoints()
    ensures var s := AnalyzeObservationRequirements(BoxObject(2.5, 0.8, 1.2));
      s.kind == MultiView && s.viewpointCount == 5 && s.angles == [0.0, 90.0, 180.0, 270.0]
  {
    var g := GeometryOf(BoxObject(2.5, 0.8, 1.2));
    assert MinDimension(g) == 0.8 && MaxDimension(g) == 2.5;
    assert AspectRatio(g) == 3.125;
    assert Volume(g) == 2.4;
  }

  /** How close a distance is to the ideal: the ratio when nearer, falling twice as fast beyond it,
      nothing for a non-positive distance. */
  function DistanceScore(actual: real, optimal: real): (s: real)
    requires optimal > 0.0
    ensures 0.0 <= s <= 1.0
    ensures s == 1.0 <==> actual == optimal
    ensures actual <= 0.0 || actual >= 2.0 * optimal ==> s == 0.0
    ensures 0.0 < actual <= optimal ==> s * optimal == actual
    ensures optimal < actual < 2.0 * optimal ==> s == 2.0 - actual / optimal
  {
    if actual <= 0.0 then 0.0
    else
      var ratio := actual / optimal;
      RatioFacts(actual, optimal);
      if ratio <= 1.0 then ratio else Max(0.0, 2.0 - ratio)
  }

  /** A quotient by a positive number compares with `c` as the dividend does with `c` times it. */
  lemma QuotientBelow(actual: real, optimal: real, c: real)
    requires optimal > 0.0
    ensures actual / optimal <= c <==> actual <= c * optimal
  {
    var q := actual / optimal;
    assert q * optimal == actual;
    if q <= c {
      if q < c { MulMonotoneStrict(q, c, optimal); }
    } else {
      MulMonotoneStrict(c, q, optimal);
    }
  }

  lemma QuotientAbove(actual: real, optimal: real, c: real)
    requires optimal > 0.0
    ensures actual / optimal >= c <==> actual >= c * optimal
  {
    var q := actual / optimal;
    assert q * optimal == actual;
    if q >= c {
      if q > c { MulMonotoneStrict(c, q, optimal); }
    } else {
      MulMonotoneStrict(q, c, optimal);
    }
  }

  lemma RatioFacts(actual: real, optimal: real)
    requires optimal > 0.0
    ensures actual / optimal * optimal == actual
    ensures actual / optimal == 1.0 <==> actual == optimal
    ensures actual / optimal <= 1.0 <==> actual <= optimal
    ensures actual / optimal >= 2.0 <==> actual >= 2.0 * optimal
    ensures actual / optimal > 0.0 <==> actual > 0.0
  {
    DivTimes(actual, optimal);
    QuotientBelow(actual, optimal, 1.0);
    QuotientAbove(actual, optimal, 1.0);
    QuotientAbove(actual, optimal, 2.0);
    QuotientBelow(actual, optimal, 0.0);
  }

  /** Inside the accepted band [0.8, 1.5] of the ideal distance a position scores at least 0.5. */
  lemma BandScoresAtLeastHalf(actual: real, optimal: real)
    requires optimal > 0.0 && 0.8 * optimal <= actual <= 1.5 * optimal
    ensures DistanceScore(actual, optimal) >= 0.5
  {
    QuotientAbove(actual, optimal, 0.8);
    QuotientBelow(actual, optimal, 1.5);
  }

  /** A candidate standing position with its ground distance to the object and its score. */
  datatype Ranked = Ranked(position: Point, distance: real, score: real)

  /** The x and z of a position dictionary, when both keys are present. */
  function PlanarXZ(p: Point): Option<(real, real)> {
    if p.x.Some? && p.z.Some? then Some((p.x.value, p.z.value)) else None
  }

  /** The object's position, which defaults to the origin only when the whole dictionary is absent. */
  function ItemXZ(obj: SceneObject): Option<(real, real)> {
    if obj.position == NoPoint then Some((0.0, 0.0)) else PlanarXZ(obj.position)
  }

  predicate AllPlanar(ps: seq<Point>) {
    forall i :: 0 <= i < |ps| ==> PlanarXZ(ps[i]).Some?
  }

  function RankOne(m: MathLib, item: (real, real), p: Point, approach: real): (e: Ranked)
    requires Lawful(m) && PlanarXZ(p).Some? && approach > 0.0
    ensures e.position == p && 0.0 <= e.distance
    ensures e.distance * e.distance == Sq(PlanarXZ(p).value.0 - item.0) + Sq(PlanarXZ(p).value.1 - item.1)
    ensures e.score == DistanceScore(e.distance, approach)
  {
    var xz := PlanarXZ(p).value;
    var dist := Hypot(m, xz.0 - item.0, xz.1 - item.1);
    Ranked(p, dist, DistanceScore(dist, approach))
  }

  function RankAll(m: MathLib, item: (real, real), ps: seq<Point>, approach: real): (r: seq<Ranked>)
    requires Lawful(m) && AllPlanar(ps) && approach > 0.0
    ensures |r| == |ps|
    ensures forall i :: 0 <= i < |ps| ==> r[i] == RankOne(m, item, ps[i], approach)
  {
    seq(|ps|, i requires 0 <= i < |ps| => RankOne(m, item, ps[i], approach))
  }

  predicate InBand(e: Ranked, approach: real) {
    0.8 * approach <= e.distance <= 1.5 * approach
  }

  function InBandOnly(rs: seq<Ranked>, approach: real): (r: seq<Ranked>)
    ensures forall e :: e in r <==> e in rs && InBand(e, approach)
    ensures |r| <= |rs|
  {
    if rs == [] then []
    else if InBand(rs[0], approach) then [rs[0]] + InBandOnly(rs[1..], approach)
    else InBandOnly(rs[1..], approach)
  }

  /** Orders by score, highest first. */
  function ByScore(e: Ranked): Key { DescKey(e.score) }

  /** Candidate positions whose distance lies within [0.8, 1.5] of the approach distance, or all of
      them when none does, ranked by score from best to worst with ties in input order. A position
      dictionary without `x` or `z` (or an object position without them) is a `KeyError`. */
  function PositioningStrategy(m: MathLib, obj: SceneObject, candidates: seq<Point>): (r: Result<seq<Ranked>, string>)
    requires Lawful(m)
    ensures r.Err? <==> |candidates| > 0 && (ItemXZ(obj).None? || !AllPlanar(candidates))
    ensures candidates == [] ==> r == Ok([])
    ensures r.Ok? && candidates != [] ==>
      var approach := AnalyzeObservationRequirements(obj).approachDistance;
      var all := RankAll(m, ItemXZ(obj).value, candidates, approach);
      var pool := if InBandOnly(all, approach) != [] then InBandOnly(all, approach) else all;
      && Sorted(r.value, ByScore)
      && multiset(r.value) == multiset(pool)
      && (forall k :: WithKey(r.value, ByScore, k) == WithKey(pool, ByScore, k))
      && (InBandOnly(all, approach) != [] ==>
            forall e :: e in r.value ==> InBand(e, approach) && e.score >= 0.5)
      && (InBandOnly(all, approach) == [] ==> |r.value| == |candidates|)
  {
    if candidates == [] then Ok([])
    else if ItemXZ(obj).None? || !AllPlanar(candidates) then Err("KeyError")
    else Ok(RankPositions(m, ItemXZ(obj).value, candidates, AnalyzeObservationRequirements(obj).approachDistance))
  }

  /** The ranking of PositioningStrategy for an item at `item` approached from `approach`: the
      in-band candidates, or all of them when none is in band, sorted by score, best first. */
  function RankPositions(m: MathLib, item: (real, real), candidates: seq<Point>, approach: real): (r: seq<Ranked>)
    requires Lawful(m) && AllPlanar(candidates) && approach > 0.0
    ensures var all := RankAll(m, item, candidates, approach);
      var pool := if InBandOnly(all, approach) != [] then InBandOnly(all, approach) else all;
      && Sorted(r, ByScore)
      && multiset(r) == multiset(pool)
      && (forall k :: WithKey(r, ByScore, k) == WithKey(pool, ByScore, k))
      && (InBandOnly(all, approach) != [] ==>
            forall e :: e in r ==> InBand(e, approach) && e.score >= 0.5)
      && (InBandOnly(all, approach) == [] ==> |r| == |candidates|)
  {
    var all := RankAll(m, item, candidates, approach);
    var kept := InBandOnly(all, approach);
    var pool := if kept != [] then kept else all;
    var sorted := SortBy(pool, ByScore);
    assert forall e :: e in sorted ==> e in pool by {
      forall e | e in sorted ensures e in pool {
        assert e in multiset(sorted);
      }
    }
    if kept != [] then
      InBandScoresAtLeastHalf(all, approach);
      sorted
    else sorted
  }

  /** Every ranked entry the band filter keeps scores at least 0.5. */
  lemma InBandScoresAtLeastHalf(rs: seq<Ranked>, approach: real)
    requires approach > 0.0
    requires forall i :: 0 <= i < |rs| ==> rs[i].score == DistanceScore(rs[i].distance, approach)
    ensures forall e :: e in InBandOnly(rs, approach) ==> InBand(e, approach) && e.score >= 0.5
  {
    forall e | e in InBandOnly(rs, approach) ensures InBand(e, approach) && e.score >= 0.5 {
      var i :| 0 <= i < |rs| && rs[i] == e;
      BandScoresAtLeastHalf(e.distance, approach);
    }
  }
}

=== FILE: heuristic_detector.dfy ===
/** The heuristic ambiguity detector: a confidence-band decision over the spatial calculator's best
    match, an ordered chain of fallback selections, and the clarification questions it asks. Its
    gate is a set of regular-expression keyword families of its own, wider than the calculator's
    keyword table. */
module HeuristicDetector {
  import opened Wrappers
  import opened Text
  import opened Scene
  import opened SpatialCalculator

  /** A keyword pattern: `(a|b|..)`, or `(a|..).*?(b|..)` with a gap that holds no newline
      (the `.` of a regular expression does not match a newline). */
  datatype Pattern =
    | AnyOf(words: seq<string>)
    | FollowedBy(first: seq<string>, second: seq<string>)

  /** `s` holds no newline in `[i, j)`. */
  predicate NoNewline(s: string, i: int, j: int) {
    forall k | i <= k < j && 0 <= k < |s| :: s[k] != '\n'
  }

  /** `re.search(p, s)` finds a match. */
  predicate Matches(p: Pattern, s: string) {
    match p
    case AnyOf(ws) => exists w | w in ws :: Contains(s, w)
    case FollowedBy(firsts, seconds) =>
      exists a, i, b, j | a in firsts && 0 <= i <= |s| && b in seconds && 0 <= j <= |s| ::
        OccursAt(s, i, a) && i + |a| <= j && OccursAt(s, j, b) && NoNewline(s, i + |a|, j)
  }

  datatype Family = Directional | ProximityFamily | Landmark | Container

  /** The families in the order the detector lists them. */
  const Families: seq<Family> := [Directional, ProximityFamily, Landmark, Container]

  function FamilyPatterns(f: Family): seq<Pattern> {
    match f
    case Directional => [
      AnyOf(["左", "左边", "left", "左侧"]),
      AnyOf(["右", "右边", "right", "右侧"]),
      AnyOf(["前", "前面", "front", "ahead", "前方"]),
      AnyOf(["后", "后面", "back", "behind", "后方"])]
    case ProximityFamily => [
      AnyOf(["靠近", "附近", "near", "close", "nearby"]),
      AnyOf(["远", "远离", "far", "distant"]),
      AnyOf(["旁边", "beside", "next to"]),
      AnyOf(["之间", "between"])]
    case Landmark => [
      FollowedBy(["窗户", "window"], ["旁", "边", "附近", "near"]),
      FollowedBy(["门", "door"], ["旁", "边", "附近", "near"]),
      FollowedBy(["墙", "wall"], ["旁", "边", "附近", "near"])]
    case Container => [
      FollowedBy(["桌", "table"], ["上", "on"]),
      FollowedBy(["架", "shelf"], ["上", "on", "里", "in"]),
      FollowedBy(["柜", "cabinet"], ["里", "in"]),
      FollowedBy(["抽屉", "drawer"], ["里", "in"])]
  }

  /** A family is present when any of its patterns matches. */
  predicate FamilyHit(f: Family, s: string) {
    exists p | p in FamilyPatterns(f) :: Matches(p, s)
  }

  /** `_extract_spatial_keywords`, reduced to the families it reports: the callers only test the
      result for emptiness and for which families it holds. */
  function SpatialFamilies(instruction: string): (fs: set<Family>)
    ensures forall f :: f in fs <==> FamilyHit(f, Lower(instruction))
  {
    var s := Lower(instruction);
    set f | f in Families && FamilyHit(f, s)
  }

  /** The detector: with or without a spatial calculator. */
  datatype Detector = Detector(calculator: Option<Calculator>)

  ghost predicate DetectorValid(d: Detector) {
    d.calculator.Some? ==> Valid(d.calculator.value)
  }

  /** An `AmbiguityResult`; `alternative_objects` is never set by the detector and is left out. */
  datatype AmbiguityResult = AmbiguityResult(
    hasAmbiguity: bool,
    reason: string,
    selectedObjectId: Option<string>,
    confidence: real,
    clarificationQuestion: Option<string>)

  /** The type name used in questions: the first candidate's type, "object" when missing. */
  function TypeName(cands: seq<SceneObject>): string
    requires |cands| > 0
  {
    cands[0].objectType.GetOr("object")
  }

  predicate StartsWith(s: string, prefix: string) {
    |prefix| <= |s| && s[..|prefix|] == prefix
  }

  lemma StartsWithAppend(a: string, b: string)
    ensures StartsWith(a + b, a)
  {
    assert (a + b)[..|a|] == a;
  }

  /** `_generate_clarification_question`: asks about the first family present in the order
      directional, proximity, landmark, container, and generically otherwise. */
  function SpatialQuestion(cands: seq<SceneObject>, fs: set<Family>): (q: string)
    requires |cands| > 0
    ensures |q| > 0
    ensures StartsWith(q, "I found " + NatToString(|cands|) + " " + TypeName(cands) + "s. Could you ")
    ensures Directional in fs ==> Contains(q, "direction")
    ensures Directional !in fs && ProximityFamily in fs ==> Contains(q, "closer")
    ensures Directional !in fs && ProximityFamily !in fs && Landmark in fs ==> Contains(q, "landmark")
    ensures Directional !in fs && ProximityFamily !in fs && Landmark !in fs && Container in fs ==> Contains(q, "container")
    ensures var head := "I found " + NatToString(|cands|) + " " + TypeName(cands) + "s. Could you ";
      && (Directional in fs ==> q == head + AskDirection)
      && (Directional !in fs && ProximityFamily in fs ==> q == head + AskCloser)
      && (Directional !in fs && ProximityFamily !in fs && Landmark in fs ==> q == head + AskLandmark)
      && (Directional !in fs && ProximityFamily !in fs && Landmark !in fs && Container in fs ==>
            q == head + AskContainer)
      && (Directional !in fs && ProximityFamily !in fs && Landmark !in fs && Container !in fs ==>
            q == head + AskGeneric)
  {
    var head := "I found " + NatToString(|cands|) + " " + TypeName(cands) + "s. Could you ";
    if Directional in fs then Ask(head, "specify which ", "direction", " you mean (left, right, front, or back)?")
    else if ProximityFamily in fs then Ask(head, "specify which one is ", "closer", " to you or a landmark?")
    else if Landmark in fs then Ask(head, "clarify which ", "landmark", " you're referring to?")
    else if Container in fs then Ask(head, "specify which ", "container", " or surface?")
    else Ask(head, "help me ", "identify", " which one you want?")
  }

  /** The second sentences of the clarification questions, one per family and a generic one. */
  const AskDirection := "specify which " + "direction" + " you mean (left, right, front, or back)?"
  const AskCloser := "specify which one is " + "closer" + " to you or a landmark?"
  const AskLandmark := "clarify which " + "landmark" + " you're referring to?"
  const AskContainer := "specify which " + "container" + " or surface?"
  const AskGeneric := "help me " + "identify" + " which one you want?"

  /** A question made of a head and a sentence naming `w`. */
  function Ask(head: string, pre: string, w: string, post: string): (q: string)
    ensures q == head + (pre + w + post)
    ensures StartsWith(q, head) && Contains(q, w)
  {
    StartsWithAppend(head, pre + w + post);
    ContainsMiddle(head + pre, w, post);
    assert head + (pre + w + post) == head + pre + w + post;
    head + (pre + w + post)
  }

  lemma ContainsMiddle(x: string, w: string, y: string)
    ensures Contains(x + w + y, w)
  {
    var s := x + w + y;
    assert s[|x|..|x| + |w|] == w;
    ContainsAt(s, |x|, w);
  }

  function DirectionName(d: Direction): string {
    match d
    case Front => "front"
    case Right => "right"
    case Back => "back"
    case Left => "left"
  }

  /** One location phrase of the simple question: nearby under 2.0 m, farther away otherwise. */
  function Location(rel: SpatialRelation): string {
    (if rel.distanceToAgent < 2.0 then "one nearby (" else "one farther away (")
      + DirectionName(rel.direction) + ")"
  }

  function Locations(rels: seq<(string, SpatialRelation)>): (ls: seq<string>)
    ensures |ls| == |rels|
    ensures forall i :: 0 <= i < |rels| ==> ls[i] == Location(rels[i].1)
  {
    seq(|rels|, i requires 0 <= i < |rels| => Location(rels[i].1))
  }

  /** The simple question lists the candidates by location only with a calculator, at most three
      candidates, and as many relations as candidates (no two sharing an id). */
  predicate ListsLocations(det: Detector, cands: seq<SceneObject>)
    requires DetectorValid(det)
  {
    det.calculator.Some? && |cands| <= 3 && |RelativePositions(det.calculator.value, cands)| == |cands|
  }

  /** A head, the locations joined by " and ", and the closing question. */
  function ListingQuestion(head: string, locations: seq<string>): (q: string)
    ensures q == head + Join(locations, " and ") + ". Which one would you like?"
    ensures StartsWith(q, head)
    ensures forall i :: 0 <= i < |locations| ==> Contains(q, locations[i])
  {
    var listed := Join(locations, " and ");
    var tail := listed + ". Which one would you like?";
    StartsWithAppend(head, tail);
    assert head + tail == head + listed + ". Which one would you like?";
    forall i | 0 <= i < |locations| ensures Contains(head + tail, locations[i]) {
      JoinContains(locations, " and ", i);
      ContainsWithin(head, listed, ". Which one would you like?", locations[i]);
    }
    head + tail
  }

  /** The second sentence of the simple question when it cannot list locations. */
  const AskForDetails := " Could you provide more details about which one you want?"

  /** `_generate_simple_clarification`. */
  function SimpleQuestion(det: Detector, cands: seq<SceneObject>): (q: string)
    requires DetectorValid(det) && |cands| > 0
    ensures |q| > 0
    ensures ListsLocations(det, cands) ==>
              StartsWith(q, "I see " + NatToString(|cands|) + " " + TypeName(cands) + "s: ")
    ensures !ListsLocations(det, cands) ==>
              StartsWith(q, "I found " + NatToString(|cands|) + " " + TypeName(cands) + "s in the scene.")
    ensures ListsLocations(det, cands) ==>
              var locations := Locations(RelativePositions(det.calculator.value, cands));
              && q == "I see " + NatToString(|cands|) + " " + TypeName(cands) + "s: "
                      + Join(locations, " and ") + ". Which one would you like?"
              && forall i :: 0 <= i < |cands| ==> Contains(q, locations[i])
    ensures !ListsLocations(det, cands) ==>
              q == "I found " + NatToString(|cands|) + " " + TypeName(cands) + "s in the scene." + AskForDetails
  {
    var count := NatToString(|cands|);
    if ListsLocations(det, cands) then
      var head := "I see " + count + " " + TypeName(cands) + "s: ";
      ListingQuestion(head, Locations(RelativePositions(det.calculator.value, cands)))
    else
      var head := "I found " + count + " " + TypeName(cands) + "s in the scene.";
      StartsWithAppend(head, AskForDetails);
      head + AskForDetails
  }

  /** When the simple question lists locations, it names each candidate's own location: the
      candidates then have distinct ids, so each one's relation reaches the list. */
  lemma SimpleQuestionNamesEachCandidate(det: Detector, cands: seq<SceneObject>, i: int)
    requires DetectorValid(det) && ListsLocations(det, cands) && 0 <= i < |cands|
    ensures var c := det.calculator.value;
      Contains(SimpleQuestion(det, cands), Location(Relation(c, cands[i], cands)))
  {
    var c := det.calculator.value;
    NoRepeatsKeepsPairs(c, cands);
    assert Locations(RelativePositions(c, cands))[i] == Location(Relation(c, cands[i], cands));
  }

  /** The calculator's best match, when the detector has a calculator. */
  function BestMatch(det: Detector, instruction: string, cands: seq<SceneObject>): (r: (Option<string>, real))
    requires DetectorValid(det) && det.calculator.Some?
    ensures 0.0 <= r.1 <= 1.0
    ensures r.0.Some? ==> exists j :: 0 <= j < |cands| && RelationId(cands[j]) == r.0.value
    ensures |cands| > 0 ==> r.0.Some?
  {
    FindBestSpatialMatch(det.calculator.value, cands, instruction)
  }

  /** The gate passes, a calculator is present, and its best match is above `threshold`. */
  predicate SpatiallyResolved(det: Detector, instruction: string, cands: seq<SceneObject>, threshold: real)
    requires DetectorValid(det)
  {
    det.calculator.Some? && SpatialFamilies(instruction) != {} && BestMatch(det, instruction, cands).1 > threshold
  }

  /** `detect_ambiguity`. */
  function DetectAmbiguity(det: Detector, instruction: string, cands: seq<SceneObject>): (r: AmbiguityResult)
    requires DetectorValid(det)
    ensures |cands| <= 1 ==>
              !r.hasAmbiguity && r.selectedObjectId.None? && r.confidence == 0.0 && r.clarificationQuestion.None?
    ensures r.hasAmbiguity <==> (|cands| > 1 && !SpatiallyResolved(det, instruction, cands, 0.7))
    ensures r.hasAmbiguity ==> r.clarificationQuestion.Some? && |r.clarificationQuestion.value| > 0
    ensures !r.hasAmbiguity && |cands| > 1 ==> r.selectedObjectId.Some? && r.confidence > 0.7
    ensures r.hasAmbiguity && r.selectedObjectId.Some? ==> 0.4 < r.confidence <= 0.7
    ensures r.selectedObjectId.None? ==> r.confidence == 0.0
    ensures r.selectedObjectId.Some? <==> (|cands| > 1 && SpatiallyResolved(det, instruction, cands, 0.4))
    ensures r.selectedObjectId.Some? ==>
              r.selectedObjectId == BestMatch(det, instruction, cands).0 && r.confidence == BestMatch(det, instruction, cands).1
    ensures r.selectedObjectId.Some? ==> exists j :: 0 <= j < |cands| && RelationId(cands[j]) == r.selectedObjectId.value
  {
    if |cands| <= 1 then
      AmbiguityResult(false, "Only one candidate object available", None, 0.0, None)
    else
      AmongSeveral(det, instruction, cands)
  }

  /** `detect_ambiguity` past its single-candidate check: the spatial gate, then the calculator's
      best match, or else the simple question. */
  function AmongSeveral(det: Detector, instruction: string, cands: seq<SceneObject>): (r: AmbiguityResult)
    requires DetectorValid(det) && |cands| > 1
    ensures r.hasAmbiguity <==> !SpatiallyResolved(det, instruction, cands, 0.7)
    ensures r.hasAmbiguity ==> r.clarificationQuestion.Some? && |r.clarificationQuestion.value| > 0
    ensures !r.hasAmbiguity ==> r.clarificationQuestion.None?
    ensures r.selectedObjectId.Some? <==> SpatiallyResolved(det, instruction, cands, 0.4)
    ensures r.selectedObjectId.Some? ==>
              r.selectedObjectId == BestMatch(det, instruction, cands).0 && r.confidence == BestMatch(det, instruction, cands).1
    ensures r.selectedObjectId.None? ==> r.confidence == 0.0
  {
    var fs := SpatialFamilies(instruction);
    if fs != {} then
      var best := if det.calculator.Some? then BestMatch(det, instruction, cands) else (None, 0.0);
      SpatialOutcome(det.calculator.Some?, best, cands, fs)
    else
      AmbiguityResult(true, "Multiple objects of same type, no spatial constraints", None, 0.0,
                      Some(SimpleQuestion(det, cands)))
  }

  /** `detect_ambiguity` once the spatial gate has passed, given whether there is a calculator and
      its best match: without a calculator the question is asked; with one, the match is taken
      above 0.7, offered with the question above 0.4, and dropped otherwise. */
  function SpatialOutcome(hasCalculator: bool, best: (Option<string>, real), cands: seq<SceneObject>, fs: set<Family>)
    : (r: AmbiguityResult)
    requires |cands| > 0 && (hasCalculator ==> best.0.Some?)
    ensures r.hasAmbiguity <==> !(hasCalculator && best.1 > 0.7)
    ensures r.hasAmbiguity ==> r.clarificationQuestion == Some(SpatialQuestion(cands, fs))
    ensures !r.hasAmbiguity ==> r.clarificationQuestion.None?
    ensures r.selectedObjectId.Some? <==> hasCalculator && best.1 > 0.4
    ensures r.selectedObjectId.Some? ==> r.selectedObjectId == best.0 && r.confidence == best.1
    ensures r.selectedObjectId.None? ==> r.confidence == 0.0
  {
    if hasCalculator then
      if best.1 > 0.7 then
        AmbiguityResult(false, "Resolved using spatial constraints", best.0, best.1, None)
      else if best.1 > 0.4 then
        AmbiguityResult(true, "Low confidence in spatial resolution", best.0, best.1, Some(SpatialQuestion(cands, fs)))
      else
        AmbiguityResult(true, "Cannot resolve spatial constraints", None, 0.0, Some(SpatialQuestion(cands, fs)))
    else
      AmbiguityResult(true, "Spatial constraints detected but no spatial calculator available", None, 0.0,
                      Some(SpatialQuestion(cands, fs)))
  }

  /** The candidates that count as visible (a missing flag counts as visible). */
  function VisibleCandidates(cands: seq<SceneObject>): (vs: seq<SceneObject>)
    ensures forall o :: o in vs <==> o in cands && VisibleOrUnknown(o)
    ensures |vs| <= |cands|
    ensures (forall o :: o in cands ==> VisibleOrUnknown(o)) ==> vs == cands
  {
    if |cands| == 0 then []
    else (if VisibleOrUnknown(cands[0]) then [cands[0]] else []) + VisibleCandidates(cands[1..])
  }

  /** The id of the relation closest to the agent, the first of several equally close. */
  function ClosestId(c: Calculator, cands: seq<SceneObject>): (id: string)
    requires Valid(c) && |cands| > 0
    ensures exists i: nat :: FirstNearest(RelativePositions(c, cands), i, false) && RelativePositions(c, cands)[i].0 == id
  {
    var rels := RelativePositions(c, cands);
    var i := Closest(rels);
    assert FirstNearest(rels, i, false);
    rels[i].0
  }

  /** `heuristic_object_selection`: the tiers, tried in order. */
  function HeuristicSelection(det: Detector, instruction: string, cands: seq<SceneObject>): (r: AmbiguityResult)
    requires DetectorValid(det)
    ensures |cands| == 0 ==> !r.hasAmbiguity && r.selectedObjectId.None? && r.confidence == 0.0
    ensures |cands| == 1 ==> !r.hasAmbiguity && r.selectedObjectId == cands[0].objectId && r.confidence == 1.0
    ensures |cands| > 1 && |VisibleCandidates(cands)| == 1 ==>
              (!r.hasAmbiguity && r.confidence == 0.8
               && exists o :: o in cands && VisibleOrUnknown(o) && r.selectedObjectId == o.objectId)
    ensures |cands| > 1 && |VisibleCandidates(cands)| != 1 && SpatiallyResolved(det, instruction, cands, 0.5) ==>
              (!r.hasAmbiguity && r.selectedObjectId == BestMatch(det, instruction, cands).0
               && r.confidence == BestMatch(det, instruction, cands).1)
    ensures r.hasAmbiguity <==>
              (|cands| > 1 && |VisibleCandidates(cands)| != 1 && !SpatiallyResolved(det, instruction, cands, 0.5))
    ensures r.hasAmbiguity && det.calculator.Some? ==>
              r.confidence == 0.4 && r.selectedObjectId == Some(ClosestId(det.calculator.value, cands))
    ensures r.hasAmbiguity && det.calculator.None? ==> r.confidence == 0.3 && r.selectedObjectId == cands[0].objectId
    ensures r.hasAmbiguity ==> r.clarificationQuestion.Some? && |r.clarificationQuestion.value| > 0
    ensures 0.0 <= r.confidence <= 1.0
  {
    if |cands| == 0 then
      AmbiguityResult(false, "No candidate objects", None, 0.0, None)
    else if |cands| == 1 then
      AmbiguityResult(false, "Single candidate object", cands[0].objectId, 1.0, None)
    else
      var visible := VisibleCandidates(cands);
      if |visible| == 1 then
        assert visible[0] in visible;
        AmbiguityResult(false, "Only one visible object", visible[0].objectId, 0.8, None)
      else LaterTiers(det, instruction, cands)
  }

  /** The tiers of `heuristic_object_selection` after the visibility check: the calculator's
      best match above 0.5 when the gate passes, else the closest candidate at 0.4, else the
      first candidate at 0.3, the last two with the simple question. */
  function LaterTiers(det: Detector, instruction: string, cands: seq<SceneObject>): (r: AmbiguityResult)
    requires DetectorValid(det) && |cands| > 1
    ensures SpatiallyResolved(det, instruction, cands, 0.5) ==>
              (!r.hasAmbiguity && r.selectedObjectId == BestMatch(det, instruction, cands).0
               && r.confidence == BestMatch(det, instruction, cands).1)
    ensures r.hasAmbiguity <==> !SpatiallyResolved(det, instruction, cands, 0.5)
    ensures r.hasAmbiguity && det.calculator.Some? ==>
              r.confidence == 0.4 && r.selectedObjectId == Some(ClosestId(det.calculator.value, cands))
    ensures r.hasAmbiguity && det.calculator.None? ==> r.confidence == 0.3 && r.selectedObjectId == cands[0].objectId
    ensures r.hasAmbiguity ==> r.clarificationQuestion == Some(SimpleQuestion(det, cands))
    ensures 0.0 <= r.confidence <= 1.0
  {
    if SpatiallyResolved(det, instruction, cands, 0.5) then
      var best := BestMatch(det, instruction, cands);
      AmbiguityResult(false, "Spatial heuristic selection", best.0, best.1, None)
    else if det.calculator.Some? then
      AmbiguityResult(true, "Multiple candidates, selected closest", Some(ClosestId(det.calculator.value, cands)), 0.4,
                      Some(SimpleQuestion(det, cands)))
    else
      AmbiguityResult(true, "Multiple candidates, using default selection", cands[0].objectId, 0.3,
                      Some(SimpleQuestion(det, cands)))
  }

  /** The gate and the scorer use different vocabularies. An instruction that passes the gate
      but holds none of the calculator's keywords is scored as if it had no constraint: with two
      or more candidates, all visible, `detect_ambiguity` reports an ambiguity yet recommends the
      closest candidate at 0.6, while `heuristic_object_selection` resolves it at 0.6. */
  lemma GateWiderThanScorer(c: Calculator, instruction: string, cands: seq<SceneObject>)
    requires Valid(c)
    requires |cands| > 1 && forall o :: o in cands ==> VisibleOrUnknown(o)
    requires SpatialFamilies(instruction) != {}
    requires ExtractConstraints(instruction) == []
    ensures var r := DetectAmbiguity(Detector(Some(c)), instruction, cands);
      r.hasAmbiguity && r.selectedObjectId.Some? && r.confidence == 0.6
    ensures var r := HeuristicSelection(Detector(Some(c)), instruction, cands);
      !r.hasAmbiguity && r.selectedObjectId.Some? && r.confidence == 0.6
  {
    UnconstrainedScoresClosest(c, instruction, cands);
    GateReportsAmbiguity(c, instruction, cands);
    ScorerResolves(c, instruction, cands);
  }

  lemma GateReportsAmbiguity(c: Calculator, instruction: string, cands: seq<SceneObject>)
    requires Valid(c) && |cands| > 1 && SpatialFamilies(instruction) != {}
    requires BestMatch(Detector(Some(c)), instruction, cands).1 == 0.6
    ensures var r := DetectAmbiguity(Detector(Some(c)), instruction, cands);
      r.hasAmbiguity && r.selectedObjectId.Some? && r.confidence == 0.6
  {
    assert SpatiallyResolved(Detector(Some(c)), instruction, cands, 0.4);
    assert !SpatiallyResolved(Detector(Some(c)), instruction, cands, 0.7);
  }

  lemma ScorerResolves(c: Calculator, instruction: string, cands: seq<SceneObject>)
    requires Valid(c) && |cands| > 1 && SpatialFamilies(instruction) != {}
    requires forall o :: o in cands ==> VisibleOrUnknown(o)
    requires BestMatch(Detector(Some(c)), instruction, cands).1 == 0.6
    ensures var r := HeuristicSelection(Detector(Some(c)), instruction, cands);
      !r.hasAmbiguity && r.selectedObjectId.Some? && r.confidence == 0.6
  {
    assert VisibleCandidates(cands) == cands;
    assert SpatiallyResolved(Detector(Some(c)), instruction, cands, 0.5);
  }

  /** Without constraints, the best match of all-visible candidates is the closest one at 0.6. */
  lemma UnconstrainedScoresClosest(c: Calculator, instruction: string, cands: seq<SceneObject>)
    requires Valid(c)
    requires |cands| > 1 && forall o :: o in cands ==> VisibleOrUnknown(o)
    requires ExtractConstraints(instruction) == []
    ensures BestMatch(Detector(Some(c)), instruction, cands).1 == 0.6
  {
    var rels := RelativePositions(c, cands);
    var ps := RelationPairs(c, cands, cands);
    assert rels[0] in ps;
    var i :| 0 <= i < |ps| && ps[i] == rels[0];
    assert rels[0].1.isVisible;
    assert ClosestPick(rels).1 == 0.6;
  }

  /** "beside" passes the gate, through the proximity family, yet holds none of the calculator's
      keywords. */
  lemma BesideEvadesScorer()
    ensures ProximityFamily in SpatialFamilies("beside")
    ensures ExtractConstraints("beside") == []
  {
    BesidePassesGate();
    BesideHoldsNoKeyword();
  }

  lemma BesidePassesGate()
    ensures ProximityFamily in SpatialFamilies("beside")
  {
    var s := "beside";
    assert Lower(s) == s;
    assert s[0..6] == "beside";
    ContainsAt(s, 0, "beside");
    var p := AnyOf(["旁边", "beside", "next to"]);
    assert "beside" in p.words;
    assert Matches(p, s);
    assert p in FamilyPatterns(ProximityFamily);
  }

  /** A landmark pattern does not reach across a line break: "window near" hits the landmark
      family, while "window" and "near" on two lines do not match its window pattern. */
  lemma LandmarkStopsAtNewline()
    ensures FamilyHit(Landmark, "window near")
    ensures !Matches(FollowedBy(["窗户", "window"], ["旁", "边", "附近", "near"]), "window\nnear")
  {
    WindowNearHits();
    WindowNewlineNearMisses();
  }

  lemma WindowNearHits()
    ensures FamilyHit(Landmark, "window near")
  {
    var s := "window near";
    assert s[0..6] == "window" by { assert s == "window" + " near"; }
    assert s[7..11] == "near" by { assert s == "window " + "near"; }
    assert NoNewline(s, 6, 7);
    var p := FollowedBy(["窗户", "window"], ["旁", "边", "附近", "near"]);
    FollowedByAt(s, p.first, p.second, "window", 0, "near", 7);
    assert p in FamilyPatterns(Landmark);
  }

  lemma FollowedByAt(s: string, firsts: seq<string>, seconds: seq<string>, a: string, i: nat, b: string, j: nat)
    requires a in firsts && b in seconds
    requires OccursAt(s, i, a) && i + |a| <= j && OccursAt(s, j, b) && NoNewline(s, i + |a|, j)
    ensures Matches(FollowedBy(firsts, seconds), s)
  {
  }

  lemma WindowNewlineNearMisses()
    ensures !Matches(FollowedBy(["窗户", "window"], ["旁", "边", "附近", "near"]), "window\nnear")
  {
    var t := "window\nnear";
    forall a, i, b, j | a in ["窗户", "window"] && 0 <= i <= |t| && b in ["旁", "边", "附近", "near"] && 0 <= j <= |t|
      && OccursAt(t, i, a) && i + |a| <= j && OccursAt(t, j, b)
      ensures !NoNewline(t, i + |a|, j)
    {
      WindowThenNear(t, a, i, b, j);
      assert t[6] == '\n';
    }
  }

  lemma WindowThenNear(t: string, a: string, i: int, b: string, j: int)
    requires t == "window\nnear"
    requires a in ["窗户", "window"] && b in ["旁", "边", "附近", "near"]
    requires OccursAt(t, i, a) && i + |a| <= j && OccursAt(t, j, b)
    ensures i + |a| == 6 && j == 7
  {
    ContainsAt(t, i, a);
    ContainsAt(t, j, b);
    NotContainsByChar(t, "窗户", '窗');
    NotContainsByChar(t, "旁", '旁');
    NotContainsByChar(t, "边", '边');
    NotContainsByChar(t, "附近", '附');
    assert a == "window" && b == "near";
    assert t[i..i + 6][0] == 'w' && t[i..i + 6][1] == 'i';
    assert t[j..j + 4][0] == 'n';
  }
}

=== FILE: lin_alg.dfy ===
/** Three-component vectors and 3x3 matrices (NumPy arrays of shape (3,) and (3, 3)).
    A matrix is stored by rows; `VecMat(v, m)` is the row-vector product `v @ m`. */
module LinAlg {

  datatype Vec3 = Vec3(x: real, y: real, z: real)
  datatype Mat3 = Mat3(r0: Vec3, r1: Vec3, r2: Vec3)

  const Zero: Vec3 := Vec3(0.0, 0.0, 0.0)
  const Ones: Vec3 := Vec3(1.0, 1.0, 1.0)
  const Identity: Mat3 := Mat3(Vec3(1.0, 0.0, 0.0), Vec3(0.0, 1.0, 0.0), Vec3(0.0, 0.0, 1.0))

  function Add(a: Vec3, b: Vec3): Vec3 { Vec3(a.x + b.x, a.y + b.y, a.z + b.z) }
  function Sub(a: Vec3, b: Vec3): Vec3 { Vec3(a.x - b.x, a.y - b.y, a.z - b.z) }
  function Neg(a: Vec3): Vec3 { Vec3(-a.x, -a.y, -a.z) }
  function Scale(k: real, a: Vec3): Vec3 { Vec3(k * a.x, k * a.y, k * a.z) }
  /** Element-wise product (`a * b` on arrays). */
  function Mul(a: Vec3, b: Vec3): Vec3 { Vec3(a.x * b.x, a.y * b.y, a.z * b.z) }
  function Dot(a: Vec3, b: Vec3): real { a.x * b.x + a.y * b.y + a.z * b.z }

  function Coord(v: Vec3, i: nat): real
    requires i < 3
  {
    if i == 0 then v.x else if i == 1 then v.y else v.z
  }

  function Row(m: Mat3, i: nat): Vec3
    requires i < 3
  {
    if i == 0 then m.r0 else if i == 1 then m.r1 else m.r2
  }

  /** `m` with row `i` replaced by `v`. */
  function WithRow(m: Mat3, i: nat, v: Vec3): (r: Mat3)
    requires i < 3
    ensures Row(r, i) == v
    ensures forall j :: 0 <= j < 3 && j != i ==> Row(r, j) == Row(m, j)
  {
    if i == 0 then m.(r0 := v) else if i == 1 then m.(r1 := v) else m.(r2 := v)
  }

  function Col(m: Mat3, j: nat): Vec3
    requires j < 3
  {
    Vec3(Coord(m.r0, j), Coord(m.r1, j), Coord(m.r2, j))
  }

  function Transpose(m: Mat3): Mat3 { Mat3(Col(m, 0), Col(m, 1), Col(m, 2)) }

  /** `v @ m`: the combination of the rows of `m` weighted by `v`; coordinate `j` is the dot
      product of `v` with column `j`. */
  function VecMat(v: Vec3, m: Mat3): Vec3 {
    Vec3(Dot(v, Col(m, 0)), Dot(v, Col(m, 1)), Dot(v, Col(m, 2)))
  }

  /** `a @ b`. */
  function MatMul(a: Mat3, b: Mat3): Mat3 {
    Mat3(VecMat(a.r0, b), VecMat(a.r1, b), VecMat(a.r2, b))
  }

  function Det(m: Mat3): real {
    m.r0.x * (m.r1.y * m.r2.z - m.r1.z * m.r2.y)
    - m.r0.y * (m.r1.x * m.r2.z - m.r1.z * m.r2.x)
    + m.r0.z * (m.r1.x * m.r2.y - m.r1.y * m.r2.x)
  }

  /** A rotation or reflection: `m @ m.T == I` and `m.T @ m == I`. */
  predicate Orthonormal(m: Mat3) {
    MatMul(m, Transpose(m)) == Identity && MatMul(Transpose(m), m) == Identity
  }

  /** `(v @ a) . c == v . (a @ c)` with `a @ c` the dot products of the rows of `a` with `c`. */
  lemma Sum3Assoc(v0: real, v1: real, v2: real,
                  a00: real, a01: real, a02: real, a10: real, a11: real, a12: real,
                  a20: real, a21: real, a22: real, c0: real, c1: real, c2: real)
    ensures (v0 * a00 + v1 * a10 + v2 * a20) * c0 + (v0 * a01 + v1 * a11 + v2 * a21) * c1
            + (v0 * a02 + v1 * a12 + v2 * a22) * c2
         == v0 * (a00 * c0 + a01 * c1 + a02 * c2) + v1 * (a10 * c0 + a11 * c1 + a12 * c2)
            + v2 * (a20 * c0 + a21 * c1 + a22 * c2)
  {
  }

  /** The rows of `a` dotted with `c`: the column vector `a @ c`. */
  function MatVec(a: Mat3, c: Vec3): Vec3 { Vec3(Dot(a.r0, c), Dot(a.r1, c), Dot(a.r2, c)) }

  lemma DotVecMat(v: Vec3, a: Mat3, c: Vec3)
    ensures Dot(VecMat(v, a), c) == Dot(v, MatVec(a, c))
  {
    Sum3Assoc(v.x, v.y, v.z, a.r0.x, a.r0.y, a.r0.z, a.r1.x, a.r1.y, a.r1.z, a.r2.x, a.r2.y, a.r2.z, c.x, c.y, c.z);
  }

  /** Column `j` of `a @ b` is `a` applied to column `j` of `b`. */
  lemma ColMatMul(a: Mat3, b: Mat3, j: nat)
    requires j < 3
    ensures Col(MatMul(a, b), j) == MatVec(a, Col(b, j))
  {
  }

  /** Row-vector products compose as the matrix product does: `(v @ a) @ b == v @ (a @ b)`. */
  lemma VecMatAssoc(v: Vec3, a: Mat3, b: Mat3)
    ensures VecMat(VecMat(v, a), b) == VecMat(v, MatMul(a, b))
  {
    ColMatMul(a, b, 0);
    ColMatMul(a, b, 1);
    ColMatMul(a, b, 2);
    DotVecMat(v, a, Col(b, 0));
    DotVecMat(v, a, Col(b, 1));
    DotVecMat(v, a, Col(b, 2));
  }

  lemma ScaleDot(k: real, u: Vec3, c: Vec3)
    ensures Dot(Scale(k, u), c) == k * Dot(u, c)
  {
  }

  lemma AddDot(u: Vec3, v: Vec3, c: Vec3)
    ensures Dot(Add(u, v), c) == Dot(u, c) + Dot(v, c)
  {
  }

  lemma VecMatIdentity(v: Vec3)
    ensures VecMat(v, Identity) == v
  {
  }

  /** Row-vector products are linear. */
  lemma VecMatLinear(u: Vec3, v: Vec3, k: real, m: Mat3)
    ensures VecMat(Add(u, v), m) == Add(VecMat(u, m), VecMat(v, m))
    ensures VecMat(Scale(k, u), m) == Scale(k, VecMat(u, m))
  {
    AddDot(u, v, Col(m, 0));
    AddDot(u, v, Col(m, 1));
    AddDot(u, v, Col(m, 2));
    ScaleDot(k, u, Col(m, 0));
    ScaleDot(k, u, Col(m, 1));
    ScaleDot(k, u, Col(m, 2));
  }

  lemma IdentityProduct()
    ensures MatMul(Identity, Identity) == Identity
  {
    VecMatIdentity(Identity.r0);
    VecMatIdentity(Identity.r1);
    VecMatIdentity(Identity.r2);
  }

  lemma IdentityTranspose()
    ensures Transpose(Identity) == Identity
  {
  }

  /** The identity is a rotation. */
  lemma IdentityOrthonormal()
    ensures Transpose(Identity) == Identity
    ensures Orthonormal(Identity)
  {
    IdentityProduct();
    IdentityTranspose();
    var t := Transpose(Identity);
    assert MatMul(Identity, t) == Identity;
    assert MatMul(t, Identity) == Identity;
  }
}

=== FILE: ordering.dfy ===
/** Python's stable `sorted(xs, key=...)` and first-wins `min(xs, key=...)`, for the keys the source
    uses: a single number or a pair of numbers compared lexicographically (tuples such as `(x, z)`).
    A descending sort (`reverse=True`, which Python keeps stable) is an ascending sort on the
    negated key. */
module Ordering {

  /** A sort key; a one-number key uses `minor == 0.0`. */
  datatype Key = Key(major: real, minor: real)

  /** Lexicographic order on keys, as Python orders tuples. */
  predicate KeyLe(a: Key, b: Key) {
    a.major < b.major || (a.major == b.major && a.minor <= b.minor)
  }

  predicate Sorted<T>(s: seq<T>, key: T -> Key) {
    forall i, j :: 0 <= i < j < |s| ==> KeyLe(key(s[i]), key(s[j]))
  }

  /** The elements of `s` whose key is `k`, in their order in `s`. */
  function WithKey<T>(s: seq<T>, key: T -> Key, k: Key): seq<T> {
    if |s| == 0 then []
    else (if key(s[0]) == k then [s[0]] else []) + WithKey(s[1..], key, k)
  }

  lemma {:induction false} WithKeyAppend<T>(a: seq<T>, b: seq<T>, key: T -> Key, k: Key)
    ensures WithKey(a + b, key, k) == WithKey(a, key, k) + WithKey(b, key, k)
  {
    if |a| > 0 {
      assert (a + b)[1..] == a[1..] + b;
      WithKeyAppend(a[1..], b, key, k);
    } else {
      assert a + b == b;
    }
  }

  lemma WithKeyCons<T>(h: T, t: seq<T>, key: T -> Key, k: Key)
    ensures WithKey([h] + t, key, k) == (if key(h) == k then [h] else []) + WithKey(t, key, k)
  {
    assert ([h] + t)[1..] == t;
  }

  /** A sorted sequence stays sorted behind an element no greater than any of it. */
  lemma SortedCons<T>(h: T, t: seq<T>, key: T -> Key)
    requires Sorted(t, key)
    requires forall j :: 0 <= j < |t| ==> KeyLe(key(h), key(t[j]))
    ensures Sorted([h] + t, key)
  {
    var r := [h] + t;
    forall i, j | 0 <= i < j < |r| ensures KeyLe(key(r[i]), key(r[j])) {
      assert r[j] == t[j - 1];
      if i > 0 { assert r[i] == t[i - 1]; }
    }
  }

  /** Inserts `x` into the sorted `s` in front of every element whose key is not smaller,
      so that `x` precedes the elements it ties with. */
  function Insert<T>(x: T, s: seq<T>, key: T -> Key): (r: seq<T>)
    requires Sorted(s, key)
    ensures Sorted(r, key)
    ensures multiset(r) == multiset(s) + multiset{x}
    ensures forall k :: WithKey(r, key, k) == if key(x) == k then [x] + WithKey(s, key, k) else WithKey(s, key, k)
  {
    if |s| == 0 || KeyLe(key(x), key(s[0])) then
      InsertFront(x, s, key);
      [x] + s
    else
      var rest := Insert(x, s[1..], key);
      InsertBehind(x, s, key, rest);
      [s[0]] + rest
  }

  lemma InsertFront<T>(x: T, s: seq<T>, key: T -> Key)
    requires Sorted(s, key) && (|s| == 0 || KeyLe(key(x), key(s[0])))
    ensures Sorted([x] + s, key)
    ensures multiset([x] + s) == multiset(s) + multiset{x}
    ensures forall k :: WithKey([x] + s, key, k) == if key(x) == k then [x] + WithKey(s, key, k) else WithKey(s, key, k)
  {
    forall j | 0 <= j < |s| ensures KeyLe(key(x), key(s[j])) {
      if j > 0 { assert KeyLe(key(s[0]), key(s[j])); }
    }
    SortedCons(x, s, key);
    forall k ensures WithKey([x] + s, key, k) == if key(x) == k then [x] + WithKey(s, key, k) else WithKey(s, key, k) {
      WithKeyCons(x, s, key, k);
    }
  }

  lemma InsertBehind<T>(x: T, s: seq<T>, key: T -> Key, rest: seq<T>)
    requires |s| > 0 && Sorted(s, key) && !KeyLe(key(x), key(s[0]))
    requires Sorted(rest, key)
    requires multiset(rest) == multiset(s[1..]) + multiset{x}
    requires forall k :: WithKey(rest, key, k) ==
               if key(x) == k then [x] + WithKey(s[1..], key, k) else WithKey(s[1..], key, k)
    ensures Sorted([s[0]] + rest, key)
    ensures multiset([s[0]] + rest) == multiset(s) + multiset{x}
    ensures forall k :: WithKey([s[0]] + rest, key, k) ==
              if key(x) == k then [x] + WithKey(s, key, k) else WithKey(s, key, k)
  {
    assert s == [s[0]] + s[1..];
    HeadBelowInserted(x, s, key, rest);
    SortedCons(s[0], rest, key);
    forall k ensures WithKey([s[0]] + rest, key, k) ==
                     if key(x) == k then [x] + WithKey(s, key, k) else WithKey(s, key, k) {
      BehindWithKey(x, s, key, rest, k);
    }
  }

  lemma BehindWithKey<T>(x: T, s: seq<T>, key: T -> Key, rest: seq<T>, k: Key)
    requires |s| > 0 && key(x) != key(s[0])
    requires WithKey(rest, key, k) == if key(x) == k then [x] + WithKey(s[1..], key, k) else WithKey(s[1..], key, k)
    ensures WithKey([s[0]] + rest, key, k) == if key(x) == k then [x] + WithKey(s, key, k) else WithKey(s, key, k)
  {
    WithKeyCons(s[0], rest, key, k);
    WithKeyCons(s[0], s[1..], key, k);
    assert s == [s[0]] + s[1..];
  }

  /** The head of a sorted sequence is no greater than anything inserted behind it. */
  lemma HeadBelowInserted<T>(x: T, s: seq<T>, key: T -> Key, rest: seq<T>)
    requires |s| > 0 && Sorted(s, key) && !KeyLe(key(x), key(s[0]))
    requires multiset(rest) == multiset(s[1..]) + multiset{x}
    ensures forall j :: 0 <= j < |rest| ==> KeyLe(key(s[0]), key(rest[j]))
  {
    forall j | 0 <= j < |rest| ensures KeyLe(key(s[0]), key(rest[j])) {
      assert rest[j] in multiset(rest);
      if rest[j] != x {
        assert rest[j] in multiset(s[1..]);
        var m :| 0 <= m < |s[1..]| && s[1..][m] == rest[j];
        assert s[m + 1] == rest[j];
      }
    }
  }

  /** Python's `sorted(s, key=key)`: ascending by key, a permutation of `s`, and stable: the elements
      sharing any one key appear in their original order. */
  function SortBy<T>(s: seq<T>, key: T -> Key): (r: seq<T>)
    ensures Sorted(r, key)
    ensures multiset(r) == multiset(s)
    ensures |r| == |s|
    ensures forall k :: WithKey(r, key, k) == WithKey(s, key, k)
  {
    if |s| == 0 then []
    else
      var r := Insert(s[0], SortBy(s[1..], key), key);
      assert s == [s[0]] + s[1..];
      assert multiset(s) == multiset{s[0]} + multiset(s[1..]);
      assert |r| == |multiset(r)|;
      forall k ensures WithKey(r, key, k) == WithKey(s, key, k) {
        WithKeyCons(s[0], s[1..], key, k);
      }
      r
  }

  /** Every element of a sorted sequence's contents keys no higher than its last element. */
  lemma SortedLastIsGreatest<T>(s: seq<T>, key: T -> Key)
    requires |s| > 0 && Sorted(s, key)
    ensures forall o :: o in multiset(s) ==> KeyLe(key(o), key(s[|s| - 1]))
  {
    forall o | o in multiset(s) ensures KeyLe(key(o), key(s[|s| - 1])) {
      var i := IndexOf(s, o);
      if i < |s| - 1 {
        assert KeyLe(key(s[i]), key(s[|s| - 1]));
      }
    }
  }

  /** The position of an element known to be in a sequence. */
  lemma IndexOf<T>(s: seq<T>, o: T) returns (i: nat)
    requires o in multiset(s)
    ensures i < |s| && s[i] == o
  {
    assert o in s;
    i :| i < |s| && s[i] == o;
  }

  /** Index of the first element whose key is least: Python's `min(s, key=key)` keeps the
      earliest of several equal minima. */
  function FirstLeast<T>(s: seq<T>, key: T -> Key): (i: nat)
    requires |s| > 0
    ensures i < |s|
    ensures forall j :: 0 <= j < |s| ==> KeyLe(key(s[i]), key(s[j]))
    ensures forall j :: 0 <= j < i ==> !KeyLe(key(s[j]), key(s[i]))
  {
    if |s| == 1 then 0
    else
      var k := FirstLeast(s[1..], key);
      if KeyLe(key(s[0]), key(s[k + 1])) then 0 else k + 1
  }

  /** The head of a stable sort is the element `min` would pick: the first one with the least key. */
  lemma {:induction false} SortHeadIsFirstLeast<T>(s: seq<T>, key: T -> Key)
    requires |s| > 0
    ensures SortBy(s, key)[0] == s[FirstLeast(s, key)]
  {
    if |s| > 1 {
      SortHeadIsFirstLeast(s[1..], key);
    }
  }

  /** Two keys that compare every pair of elements alike. */
  ghost predicate OrderEquivalent<T(!new)>(k1: T -> Key, k2: T -> Key) {
    forall a, b :: KeyLe(k1(a), k1(b)) <==> KeyLe(k2(a), k2(b))
  }

  lemma {:induction false} InsertCongruent<T(!new)>(x: T, s: seq<T>, k1: T -> Key, k2: T -> Key)
    requires Sorted(s, k1) && Sorted(s, k2) && OrderEquivalent(k1, k2)
    ensures Insert(x, s, k1) == Insert(x, s, k2)
  {
    if |s| > 0 && !KeyLe(k1(x), k1(s[0])) {
      InsertCongruent(x, s[1..], k1, k2);
    }
  }

  /** A stable sort depends only on how its key compares elements, not on the key's values. */
  lemma {:induction false} SortByCongruent<T(!new)>(s: seq<T>, k1: T -> Key, k2: T -> Key)
    requires OrderEquivalent(k1, k2)
    ensures SortBy(s, k1) == SortBy(s, k2)
  {
    if |s| > 0 {
      SortByCongruent(s[1..], k1, k2);
      var t := SortBy(s[1..], k1);
      assert Sorted(t, k2);
      InsertCongruent(s[0], t, k1, k2);
    }
  }

  /** The key of a number, compared on its own. */
  function NumKey(v: real): Key { Key(v, 0.0) }

  /** The key that sorts numbers from the largest down (`reverse=True`). */
  function DescKey(v: real): Key { Key(-v, 0.0) }
}

=== FILE: point_cloud.dfy ===
/** Point clouds from a depth image (`spatial_perception/point_cloud.py`): the valid pixels are
    back-projected through a pinhole camera in row-major order, and each point is re-projected to
    read its colour or its instance id back from an image of the same view. Images are given with
    their shape; the median blur of the preprocessing is kept abstract. */
module PointCloud {
  import opened Wrappers
  import opened RealMath
  import opened LinAlg

  // ---------------------------------------------------------------------------------------------
  // Camera

  /** `CameraIntrinsics`: focal lengths and principal point in pixels, and the image size. */
  datatype Intrinsics = Intrinsics(fx: real, fy: real, cx: real, cy: real, width: int, height: int)

  /** `to_matrix`: the 3 x 3 calibration matrix. */
  function ToMatrix(k: Intrinsics): Mat3 {
    Mat3(Vec3(k.fx, 0.0, k.cx), Vec3(0.0, k.fy, k.cy), Vec3(0.0, 0.0, 1.0))
  }

  /** The calibration matrix maps a camera-frame point to its homogeneous pixel: scaled by the
      focal lengths and shifted by the principal point in proportion to the depth. */
  lemma MatrixProjects(k: Intrinsics, p: Vec3)
    ensures MatVec(ToMatrix(k), p) == Vec3(k.fx * p.x + k.cx * p.z, k.fy * p.y + k.cy * p.z, p.z)
  {
  }

  /** Back-projection divides by both focal lengths. */
  predicate Usable(k: Intrinsics) { k.fx != 0.0 && k.fy != 0.0 }

  const DefaultFov: real := 90.0

  /** `get_ai2thor_default_intrinsics`: square pixels whose focal length puts the image edge at
      half the field of view, and the principal point at the image centre. */
  function DefaultIntrinsics(m: MathLib, width: int, height: int, fov: real): (r: Intrinsics)
    requires m.tanDeg(fov / 2.0) != 0.0
    ensures r.fx == r.fy && r.fx * m.tanDeg(fov / 2.0) == width as real / 2.0
    ensures r.cx == width as real / 2.0 && r.cy == height as real / 2.0
    ensures r.width == width && r.height == height
    ensures Lawful(m) && fov == DefaultFov ==> r.fx == width as real / 2.0
  {
    var f := (width as real / 2.0) / m.tanDeg(fov / 2.0);
    Intrinsics(f, f, width as real / 2.0, height as real / 2.0, width, height)
  }

  /** The intrinsics a call uses: its argument, or the default for the depth image's size. The
      intrinsics given to the constructor play no part. */
  function Chosen(m: MathLib, intr: Option<Intrinsics>, h: nat, w: nat): Intrinsics
    requires Lawful(m)
  {
    if intr.Some? then intr.value else DefaultIntrinsics(m, w, h, DefaultFov)
  }

  // ---------------------------------------------------------------------------------------------
  // Images

  /** A NumPy image of shape (h, w) as its rows. */
  datatype Image<T> = Image(h: nat, w: nat, rows: seq<seq<T>>)

  predicate Shaped<T>(img: Image<T>) {
    |img.rows| == img.h && forall v :: 0 <= v < img.h ==> |img.rows[v]| == img.w
  }

  /** An 8-bit colour. */
  datatype Rgb = Rgb(red: int, green: int, blue: int)

  const Black: Rgb := Rgb(0, 0, 0)

  /** The routines the reconstruction calls: the math library and `cv2.medianBlur(_, 3)`. */
  datatype Sensors = Sensors(math: MathLib, blur: Image<Option<real>> -> Image<Option<real>>)

  /** The math library's laws, and a blur that keeps the image's shape. */
  ghost predicate LawfulSensors(s: Sensors) {
    && Lawful(s.math)
    && forall img: Image<Option<real>> :: Shaped(img) ==>
         Shaped(s.blur(img)) && s.blur(img).h == img.h && s.blur(img).w == img.w
  }

  // ---------------------------------------------------------------------------------------------
  // Preprocessing

  const MaxDepth: real := 20.0

  /** A depth is invalid (NaN, here `None`) at or below zero or beyond 20 metres. */
  function Mark(d: real): Option<real> {
    if d <= 0.0 then None else if d > MaxDepth then None else Some(d)
  }

  function MarkInvalid(raw: Image<real>): (r: Image<Option<real>>)
    requires Shaped(raw)
    ensures Shaped(r) && r.h == raw.h && r.w == raw.w
    ensures forall v, u :: 0 <= v < raw.h && 0 <= u < raw.w ==> r.rows[v][u] == Mark(raw.rows[v][u])
  {
    Image(raw.h, raw.w, seq(raw.h, v requires 0 <= v < raw.h =>
      seq(raw.w, u requires 0 <= u < raw.w => Mark(raw.rows[v][u]))))
  }

  /** Exactly the depths in (0, 20] survive the marking, unchanged. */
  lemma MarkKeepsInRange(d: real)
    ensures Mark(d).Some? <==> 0.0 < d <= MaxDepth
    ensures Mark(d).Some? ==> Mark(d).value == d
  {
  }

  /** `np.any(~np.isnan(depth))`. */
  predicate AnyValid(img: Image<Option<real>>)
    requires Shaped(img)
  {
    exists v, u :: 0 <= v < img.h && 0 <= u < img.w && img.rows[v][u].Some?
  }

  /** `preprocess_depth_image`: invalid depths marked, then the median blur when any depth is
      left. */
  function Preprocess(s: Sensors, raw: Image<real>): (r: Image<Option<real>>)
    requires LawfulSensors(s) && Shaped(raw)
    ensures Shaped(r) && r.h == raw.h && r.w == raw.w
    ensures !AnyValid(MarkInvalid(raw)) ==> r == MarkInvalid(raw)
  {
    var marked := MarkInvalid(raw);
    if AnyValid(marked) then s.blur(marked) else marked
  }

  // ---------------------------------------------------------------------------------------------
  // Back-projection

  /** A valid pixel: column, row and depth. */
  datatype Pixel = Pixel(u: nat, v: nat, depth: real)

  /** `~np.isnan(d) & (d > 0)`. */
  predicate ValidDepth(d: Option<real>) { d.Some? && 0.0 < d.value }

  /** The valid pixels of one row from column `u` on. */
  function RowPixels(row: seq<Option<real>>, v: nat, u: nat): seq<Pixel>
    decreases |row| - u
  {
    if u >= |row| then []
    else (if ValidDepth(row[u]) then [Pixel(u, v, row[u].value)] else []) + RowPixels(row, v, u + 1)
  }

  /** The valid pixels from row `v` on, row after row. */
  function PixelsFrom(img: Image<Option<real>>, v: nat): seq<Pixel>
    requires Shaped(img)
    decreases img.h - v
  {
    if v >= img.h then [] else RowPixels(img.rows[v], v, 0) + PixelsFrom(img, v + 1)
  }

  /** The valid pixels in the order of `depth.flatten()`. */
  function ValidPixels(img: Image<Option<real>>): seq<Pixel>
    requires Shaped(img)
  {
    PixelsFrom(img, 0)
  }

  /** `p` is a valid pixel of the image, with its depth. */
  predicate InImage(img: Image<Option<real>>, p: Pixel)
    requires Shaped(img)
  {
    p.v < img.h && p.u < img.w && ValidDepth(img.rows[p.v][p.u]) && img.rows[p.v][p.u].value == p.depth
  }

  /** Row-major order: an earlier row, or the same row and an earlier column. */
  predicate Before(a: Pixel, b: Pixel) { a.v < b.v || (a.v == b.v && a.u < b.u) }

  predicate Ordered(ps: seq<Pixel>) {
    forall i, j :: 0 <= i < j < |ps| ==> Before(ps[i], ps[j])
  }

  /** A pixel of a row's list lies in that row from column `u` on, is valid, and the list runs
      left to right. */
  lemma {:induction false} RowPixelsFacts(row: seq<Option<real>>, v: nat, u: nat)
    ensures forall p :: p in RowPixels(row, v, u) ==>
      p.v == v && u <= p.u < |row| && ValidDepth(row[p.u]) && row[p.u].value == p.depth
    ensures Ordered(RowPixels(row, v, u))
    decreases |row| - u
  {
    if u < |row| {
      RowPixelsFacts(row, v, u + 1);
      var head: seq<Pixel> := if ValidDepth(row[u]) then [Pixel(u, v, row[u].value)] else [];
      var tail := RowPixels(row, v, u + 1);
      assert RowPixels(row, v, u) == head + tail;
      forall i, j | 0 <= i < j < |head + tail| ensures Before((head + tail)[i], (head + tail)[j]) {
        if i >= |head| {
          assert (head + tail)[i] == tail[i - |head|];
          assert (head + tail)[j] == tail[j - |head|];
        } else {
          assert (head + tail)[j] in tail;
        }
      }
    }
  }

  /** Every valid pixel of a row from column `u` on is listed. */
  lemma {:induction false} RowPixelsComplete(row: seq<Option<real>>, v: nat, u: nat, k: nat)
    requires u <= k < |row| && ValidDepth(row[k])
    ensures Pixel(k, v, row[k].value) in RowPixels(row, v, u)
    decreases |row| - u
  {
    if u < k {
      RowPixelsComplete(row, v, u + 1, k);
    }
  }

  /** A listed pixel from row `v` on is valid and lies in such a row, and the list is in
      row-major order. */
  lemma {:induction false} PixelsFromFacts(img: Image<Option<real>>, v: nat)
    requires Shaped(img)
    ensures forall p :: p in PixelsFrom(img, v) ==> v <= p.v && InImage(img, p)
    ensures Ordered(PixelsFrom(img, v))
    decreases img.h - v
  {
    if v < img.h {
      PixelsFromFacts(img, v + 1);
      RowPixelsFacts(img.rows[v], v, 0);
      var head := RowPixels(img.rows[v], v, 0);
      var tail := PixelsFrom(img, v + 1);
      assert PixelsFrom(img, v) == head + tail;
      forall i, j | 0 <= i < j < |head + tail| ensures Before((head + tail)[i], (head + tail)[j]) {
        if i >= |head| {
          assert (head + tail)[i] == tail[i - |head|];
          assert (head + tail)[j] == tail[j - |head|];
        } else if j >= |head| {
          assert (head + tail)[i] in head;
          assert (head + tail)[j] in tail;
        }
      }
    }
  }

  /** Every valid pixel from row `v` on is listed. */
  lemma {:induction false} PixelsFromComplete(img: Image<Option<real>>, v: nat, p: Pixel)
    requires Shaped(img) && v <= p.v && InImage(img, p)
    ensures p in PixelsFrom(img, v)
    decreases img.h - v
  {
    if v < p.v {
      PixelsFromComplete(img, v + 1, p);
    } else {
      RowPixelsComplete(img.rows[v], v, 0, p.u);
    }
  }

  /** The listed pixels are exactly the valid pixels of the image, in row-major order. */
  lemma ValidPixelsExact(img: Image<Option<real>>)
    requires Shaped(img)
    ensures forall p :: p in ValidPixels(img) <==> InImage(img, p)
    ensures Ordered(ValidPixels(img))
  {
    PixelsFromFacts(img, 0);
    forall p | InImage(img, p) ensures p in ValidPixels(img) {
      PixelsFromComplete(img, 0, p);
    }
  }

  /** The camera-frame point of a pixel, with y turned to point up:
      x = (u - cx) z / fx, y = -(v - cy) z / fy, z = depth. */
  function BackProject(k: Intrinsics, p: Pixel): Vec3
    requires Usable(k)
  {
    Vec3((p.u as real - k.cx) * p.depth / k.fx, -((p.v as real - k.cy) * p.depth / k.fy), p.depth)
  }

  /** With no intrinsics given, an image holding a valid pixel is at least one pixel wide, so
      the default focal length is positive. */
  lemma ChosenUsable(m: MathLib, intr: Option<Intrinsics>, img: Image<Option<real>>)
    requires Lawful(m) && Shaped(img) && (intr.Some? ==> Usable(intr.value))
    ensures ValidPixels(img) != [] ==> Usable(Chosen(m, intr, img.h, img.w))
  {
    if ValidPixels(img) != [] && intr.None? {
      ValidPixelsExact(img);
      assert InImage(img, ValidPixels(img)[0]);
    }
  }

  /** `depth_to_pointcloud`: one point per valid pixel, in row-major order; none when no pixel
      is valid. */
  function DepthToPoints(m: MathLib, img: Image<Option<real>>, intr: Option<Intrinsics>): (r: seq<Vec3>)
    requires Lawful(m) && Shaped(img) && (intr.Some? ==> Usable(intr.value))
    ensures |r| == |ValidPixels(img)|
    ensures r != [] ==> Usable(Chosen(m, intr, img.h, img.w))
    ensures forall i :: 0 <= i < |r| ==> r[i] == BackProject(Chosen(m, intr, img.h, img.w), ValidPixels(img)[i])
  {
    var k := Chosen(m, intr, img.h, img.w);
    var px := ValidPixels(img);
    if px == [] then []
    else
      ChosenUsable(m, intr, img);
      seq(|px|, i requires 0 <= i < |px| => BackProject(k, px[i]))
  }

  // ---------------------------------------------------------------------------------------------
  // Re-projection

  /** `astype(int)`: truncation toward zero. */
  function Trunc(x: real): (r: int)
    ensures 0.0 <= x ==> r as real <= x < r as real + 1.0
    ensures x < 0.0 ==> r as real - 1.0 < x <= r as real
  {
    if 0.0 <= x then x.Floor else -((-x).Floor)
  }

  lemma TruncWhole(n: int)
    ensures Trunc(n as real) == n
  {
  }

  /** A pixel coordinate from a camera-frame coordinate `c` at depth `z`: `c f / z + centre`. */
  function PixelCoord(c: real, f: real, z: real, centre: real): real
    requires z != 0.0
  {
    c * f / z + centre
  }

  /** The pixel a camera-frame point falls on: u = int(x fx / z + cx), v = int(-y fy / z + cy).
      A point at depth zero falls on no pixel. */
  function Reproject(k: Intrinsics, q: Vec3): Option<(int, int)> {
    if q.z == 0.0 then None
    else Some((Trunc(PixelCoord(q.x, k.fx, q.z, k.cx)), Trunc(PixelCoord(-q.y, k.fy, q.z, k.cy))))
  }

  /** Projecting a coordinate back through the same focal length and depth recovers it. */
  lemma PixelCoordBack(a: real, z: real, f: real, centre: real)
    requires z != 0.0 && f != 0.0
    ensures PixelCoord(a * z / f, f, z, centre) == a + centre
  {
    var t := a * z / f;
    assert t * f == a * z;
  }

  /** Re-projecting a back-projected pixel gives the pixel again. */
  lemma ReprojectBackProject(k: Intrinsics, p: Pixel)
    requires Usable(k) && 0.0 < p.depth
    ensures Reproject(k, BackProject(k, p)) == Some((p.u as int, p.v as int))
  {
    var q := BackProject(k, p);
    assert q.x == (p.u as real - k.cx) * p.depth / k.fx && q.z == p.depth;
    assert -q.y == (p.v as real - k.cy) * p.depth / k.fy;
    PixelCoordBack(p.u as real - k.cx, p.depth, k.fx, k.cx);
    PixelCoordBack(p.v as real - k.cy, p.depth, k.fy, k.cy);
    ReprojectWhole(k, q, p.u, p.v);
  }

  lemma ReprojectWhole(k: Intrinsics, q: Vec3, u: int, v: int)
    requires q.z != 0.0
    requires PixelCoord(q.x, k.fx, q.z, k.cx) == u as real && PixelCoord(-q.y, k.fy, q.z, k.cy) == v as real
    ensures Reproject(k, q) == Some((u, v))
  {
    TruncWhole(u);
    TruncWhole(v);
  }

  /** The entry of an image at a pixel, or `zero` off the image. */
  function Lookup<T>(img: Image<T>, at: Option<(int, int)>, zero: T): T
    requires Shaped(img)
  {
    if at.Some? && 0 <= at.value.0 < img.w && 0 <= at.value.1 < img.h then img.rows[at.value.1][at.value.0]
    else zero
  }

  /** Each point of the cloud lies at its pixel's depth and re-projects onto that pixel. */
  lemma PointsReproject(m: MathLib, img: Image<Option<real>>, intr: Option<Intrinsics>)
    requires Lawful(m) && Shaped(img) && (intr.Some? ==> Usable(intr.value))
    ensures var px := ValidPixels(img);
      var r := DepthToPoints(m, img, intr);
      forall i :: 0 <= i < |r| ==>
        r[i].z == px[i].depth && 0.0 < r[i].z
        && Reproject(Chosen(m, intr, img.h, img.w), r[i]) == Some((px[i].u as int, px[i].v as int))
  {
    var px := ValidPixels(img);
    var r := DepthToPoints(m, img, intr);
    var k := Chosen(m, intr, img.h, img.w);
    ValidPixelsExact(img);
    forall i | 0 <= i < |r|
      ensures r[i].z == px[i].depth && 0.0 < r[i].z && Reproject(k, r[i]) == Some((px[i].u as int, px[i].v as int))
    {
      assert px[i] in px;
      ReprojectBackProject(k, px[i]);
    }
  }

  // ---------------------------------------------------------------------------------------------
  // Colours and masks

  /** One row of the coloured cloud: `[x, y, z, r, g, b]`. */
  datatype Colored = Colored(point: Vec3, colour: Rgb)

  /** `attach_colors`: each point keeps its place and gains the colour at the pixel it
      re-projects to, black off the image. The default intrinsics follow the depth image's
      size, the bounds the colour image's. */
  function AttachColors(m: MathLib, points: seq<Vec3>, rgb: Image<Rgb>, h: nat, w: nat, intr: Option<Intrinsics>): (r: seq<Colored>)
    requires Lawful(m) && Shaped(rgb)
    ensures |r| == |points| && forall i :: 0 <= i < |points| ==> r[i].point == points[i]
    ensures forall i :: 0 <= i < |points| ==>
      r[i].colour == Lookup(rgb, Reproject(Chosen(m, intr, h, w), points[i]), Black)
  {
    var k := Chosen(m, intr, h, w);
    seq(|points|, i requires 0 <= i < |points| => Colored(points[i], Lookup(rgb, Reproject(k, points[i]), Black)))
  }

  /** Whether the instance mask holds the target at the pixel a point re-projects to; off the
      image the mask reads as zero. */
  predicate OnTarget(k: Intrinsics, mask: Image<int>, target: int, c: Colored)
    requires Shaped(mask)
  {
    Lookup(mask, Reproject(k, c.point), 0) == target
  }

  /** The points on the target, in their order. */
  function KeepTarget(k: Intrinsics, mask: Image<int>, target: int, cs: seq<Colored>): (r: seq<Colored>)
    requires Shaped(mask)
    ensures |r| <= |cs|
  {
    if cs == [] then []
    else (if OnTarget(k, mask, target, cs[0]) then [cs[0]] else []) + KeepTarget(k, mask, target, cs[1..])
  }

  /** A point is kept exactly when it is one of the input's points on the target. */
  lemma {:induction false} KeepTargetExact(k: Intrinsics, mask: Image<int>, target: int, cs: seq<Colored>)
    requires Shaped(mask)
    ensures forall c :: c in KeepTarget(k, mask, target, cs) <==> c in cs && OnTarget(k, mask, target, c)
  {
    if cs != [] {
      KeepTargetExact(k, mask, target, cs[1..]);
      assert cs == [cs[0]] + cs[1..];
    }
  }

  /** Filtering a concatenation filters each part in turn, so the kept points keep their
      order. */
  lemma {:induction false} KeepTargetAppend(k: Intrinsics, mask: Image<int>, target: int, a: seq<Colored>, b: seq<Colored>)
    requires Shaped(mask)
    ensures KeepTarget(k, mask, target, a + b) == KeepTarget(k, mask, target, a) + KeepTarget(k, mask, target, b)
  {
    if a != [] {
      assert (a + b)[0] == a[0] && (a + b)[1..] == a[1..] + b;
      KeepTargetAppend(k, mask, target, a[1..], b);
    } else {
      assert a + b == b;
    }
  }

  /** With target zero a point off the image is kept. */
  lemma OffImageKeptForZero(k: Intrinsics, mask: Image<int>, c: Colored)
    requires Shaped(mask)
    requires Reproject(k, c.point).None? || Reproject(k, c.point).value.0 < 0
    ensures OnTarget(k, mask, 0, c)
  {
  }

  /** `apply_instance_mask`: the points whose re-projected pixel holds the target instance. */
  function ApplyMask(m: MathLib, cs: seq<Colored>, mask: Image<int>, target: int, h: nat, w: nat, intr: Option<Intrinsics>): (r: seq<Colored>)
    requires Lawful(m) && Shaped(mask)
    ensures |r| <= |cs|
    ensures forall c :: c in r <==> c in cs && OnTarget(Chosen(m, intr, h, w), mask, target, c)
    ensures r == KeepTarget(Chosen(m, intr, h, w), mask, target, cs)
  {
    var k := Chosen(m, intr, h, w);
    KeepTargetExact(k, mask, target, cs);
    KeepTarget(k, mask, target, cs)
  }

  // ---------------------------------------------------------------------------------------------
  // Reconstruction

  /** `PointCloudReconstructor`: the intrinsics it was built with and the depth scale, neither
      of which the reconstruction reads. */
  datatype Reconstructor = Reconstructor(intrinsics: Option<Intrinsics>, depthScale: real)

  function NewReconstructor(intrinsics: Option<Intrinsics>): (r: Reconstructor)
    ensures r.intrinsics == intrinsics && r.depthScale == 1000.0
  {
    Reconstructor(intrinsics, 1000.0)
  }

  /** `reconstruct_pointcloud`: preprocess, back-project, colour, and filter by the instance
      mask only when both a mask and a target are given. */
  function Reconstruct(rec: Reconstructor, s: Sensors, depth: Image<real>, rgb: Image<Rgb>,
                       mask: Option<Image<int>>, target: Option<int>, intr: Option<Intrinsics>): (r: seq<Colored>)
    requires LawfulSensors(s) && Shaped(depth) && Shaped(rgb)
    requires mask.Some? ==> Shaped(mask.value)
    requires intr.Some? ==> Usable(intr.value)
    ensures |r| <= |ValidPixels(Preprocess(s, depth))|
    ensures mask.None? || target.None? ==> |r| == |ValidPixels(Preprocess(s, depth))|
    ensures var processed := Preprocess(s, depth);
      var colored := AttachColors(s.math, DepthToPoints(s.math, processed, intr), rgb, processed.h, processed.w, intr);
      && (mask.None? || target.None? ==> r == colored)
      && (mask.Some? && target.Some? ==>
            && r == KeepTarget(Chosen(s.math, intr, processed.h, processed.w), mask.value, target.value, colored)
            && forall c :: c in r <==> c in colored && OnTarget(Chosen(s.math, intr, processed.h, processed.w), mask.value, target.value, c))
  {
    var processed := Preprocess(s, depth);
    var points := DepthToPoints(s.math, processed, intr);
    if |points| == 0 then []
    else
      var colored := AttachColors(s.math, points, rgb, processed.h, processed.w, intr);
      if mask.Some? && target.Some? then
        ApplyMask(s.math, colored, mask.value, target.value, processed.h, processed.w, intr)
      else colored
  }

  /** A pixel's point re-projects onto the same pixel of a colour image of the same shape. */
  lemma ColourOfPixel(k: Intrinsics, img: Image<Option<real>>, rgb: Image<Rgb>, p: Pixel)
    requires Usable(k) && Shaped(img) && Shaped(rgb) && rgb.h == img.h && rgb.w == img.w
    requires InImage(img, p)
    ensures Lookup(rgb, Reproject(k, BackProject(k, p)), Black) == rgb.rows[p.v][p.u]
  {
    ReprojectBackProject(k, p);
  }

  /** Colouring the cloud of an image with a colour image of its shape gives every valid pixel,
      in row-major order, its own colour. */
  lemma CloudColours(m: MathLib, img: Image<Option<real>>, rgb: Image<Rgb>, intr: Option<Intrinsics>)
    requires Lawful(m) && Shaped(img) && Shaped(rgb) && rgb.h == img.h && rgb.w == img.w
    requires intr.Some? ==> Usable(intr.value)
    ensures var px := ValidPixels(img);
      var r := AttachColors(m, DepthToPoints(m, img, intr), rgb, img.h, img.w, intr);
      var k := Chosen(m, intr, img.h, img.w);
      && |r| == |px|
      && forall i :: 0 <= i < |r| ==>
           InImage(img, px[i]) && Usable(k) && r[i] == Colored(BackProject(k, px[i]), rgb.rows[px[i].v][px[i].u])
  {
    var px := ValidPixels(img);
    var points := DepthToPoints(m, img, intr);
    var r := AttachColors(m, points, rgb, img.h, img.w, intr);
    var k := Chosen(m, intr, img.h, img.w);
    ValidPixelsExact(img);
    forall i | 0 <= i < |r|
      ensures InImage(img, px[i]) && Usable(k) && r[i] == Colored(BackProject(k, px[i]), rgb.rows[px[i].v][px[i].u])
    {
      assert px[i] in px;
      ColourOfPixel(k, img, rgb, px[i]);
    }
  }

  /** Without a mask, with a colour image of the depth image's shape, the cloud is the valid
      pixels of the preprocessed image in row-major order, each back-projected and carrying its
      own pixel's colour. */
  lemma ReconstructColours(rec: Reconstructor, s: Sensors, depth: Image<real>, rgb: Image<Rgb>, intr: Option<Intrinsics>)
    requires LawfulSensors(s) && Shaped(depth) && Shaped(rgb)
    requires rgb.h == depth.h && rgb.w == depth.w
    requires intr.Some? ==> Usable(intr.value)
    ensures var px := ValidPixels(Preprocess(s, depth));
      var r := Reconstruct(rec, s, depth, rgb, None, None, intr);
      var k := Chosen(s.math, intr, depth.h, depth.w);
      && |r| == |px|
      && forall i :: 0 <= i < |r| ==>
           InImage(Preprocess(s, depth), px[i]) && Usable(k)
           && r[i] == Colored(BackProject(k, px[i]), rgb.rows[px[i].v][px[i].u])
  {
    var processed := Preprocess(s, depth);
    CloudColours(s.math, processed, rgb, intr);
  }

  /** A depth image with no depth in (0, 20] gives an empty cloud. */
  lemma NoValidDepthEmpty(rec: Reconstructor, s: Sensors, depth: Image<real>, rgb: Image<Rgb>,
                          mask: Option<Image<int>>, target: Option<int>, intr: Option<Intrinsics>)
    requires LawfulSensors(s) && Shaped(depth) && Shaped(rgb)
    requires mask.Some? ==> Shaped(mask.value)
    requires intr.Some? ==> Usable(intr.value)
    requires forall v, u :: 0 <= v < depth.h && 0 <= u < depth.w ==> !(0.0 < depth.rows[v][u] <= MaxDepth)
    ensures Reconstruct(rec, s, depth, rgb, mask, target, intr) == []
  {
    var marked := MarkInvalid(depth);
    assert !AnyValid(marked);
    NoneValidNoPixels(marked);
  }

  /** An image with no depth left has no valid pixel. */
  lemma NoneValidNoPixels(img: Image<Option<real>>)
    requires Shaped(img) && !AnyValid(img)
    ensures ValidPixels(img) == []
  {
    PixelsFromNone(img, 0);
  }

  lemma {:induction false} PixelsFromNone(img: Image<Option<real>>, v: nat)
    requires Shaped(img) && !AnyValid(img)
    ensures PixelsFrom(img, v) == []
    decreases img.h - v
  {
    if v < img.h {
      RowPixelsNone(img.rows[v], v, 0);
      PixelsFromNone(img, v + 1);
    }
  }

  lemma {:induction false} RowPixelsNone(row: seq<Option<real>>, v: nat, u: nat)
    requires forall k :: 0 <= k < |row| ==> row[k].None?
    ensures RowPixels(row, v, u) == []
    decreases |row| - u
  {
    if u < |row| {
      RowPixelsNone(row, v, u + 1);
    }
  }

  /** The reconstruction reads nothing from the reconstructor: two of them built with different
      intrinsics give the same cloud. */
  lemma ConstructorIntrinsicsIgnored(a: Reconstructor, b: Reconstructor, s: Sensors, depth: Image<real>, rgb: Image<Rgb>,
                                     mask: Option<Image<int>>, target: Option<int>, intr: Option<Intrinsics>)
    requires LawfulSensors(s) && Shaped(depth) && Shaped(rgb)
    requires mask.Some? ==> Shaped(mask.value)
    requires intr.Some? ==> Usable(intr.value)
    ensures Reconstruct(a, s, depth, rgb, mask, target, intr) == Reconstruct(b, s, depth, rgb, mask, target, intr)
  {
  }
}

=== FILE: point_sets.dfy ===
/** Reductions over a table of points that NumPy computes column-wise: the per-axis minimum
    and maximum (`np.min(points, axis=0)`), the extent between them, the sum and the mean. */
module PointSets {
  import opened RealMath
  import opened LinAlg

  /** The least entry: `np.min`. */
  function MinOf(xs: seq<real>): real
    requires |xs| > 0
  {
    if |xs| == 1 then xs[0] else Min(xs[0], MinOf(xs[1..]))
  }

  /** The greatest entry: `np.max`. */
  function MaxOf(xs: seq<real>): real
    requires |xs| > 0
  {
    if |xs| == 1 then xs[0] else Max(xs[0], MaxOf(xs[1..]))
  }

  /** `MinOf` is an entry, and no entry is smaller. */
  lemma {:induction false} MinOfIsLeast(xs: seq<real>)
    requires |xs| > 0
    ensures MinOf(xs) in xs
    ensures forall i :: 0 <= i < |xs| ==> MinOf(xs) <= xs[i]
  {
    if |xs| > 1 {
      MinOfIsLeast(xs[1..]);
      assert forall i :: 1 <= i < |xs| ==> xs[i] == xs[1..][i - 1];
    }
  }

  /** `MaxOf` is an entry, and no entry is greater. */
  lemma {:induction false} MaxOfIsGreatest(xs: seq<real>)
    requires |xs| > 0
    ensures MaxOf(xs) in xs
    ensures forall i :: 0 <= i < |xs| ==> xs[i] <= MaxOf(xs)
  {
    if |xs| > 1 {
      MaxOfIsGreatest(xs[1..]);
      assert forall i :: 1 <= i < |xs| ==> xs[i] == xs[1..][i - 1];
    }
  }

  /** Column `k` of the table. */
  function Column(ps: seq<Vec3>, k: nat): (r: seq<real>)
    requires k < 3
    ensures |r| == |ps| && forall i :: 0 <= i < |ps| ==> r[i] == Coord(ps[i], k)
  {
    seq(|ps|, i requires 0 <= i < |ps| => Coord(ps[i], k))
  }

  /** The corner of the bounding box with the least coordinates. */
  function BoxMin(ps: seq<Vec3>): (r: Vec3)
    requires |ps| > 0
    ensures forall i, k :: 0 <= i < |ps| && 0 <= k < 3 ==> Coord(r, k) <= Coord(ps[i], k)
    ensures forall k :: 0 <= k < 3 ==> Coord(r, k) in Column(ps, k)
  {
    MinOfIsLeast(Column(ps, 0));
    MinOfIsLeast(Column(ps, 1));
    MinOfIsLeast(Column(ps, 2));
    Vec3(MinOf(Column(ps, 0)), MinOf(Column(ps, 1)), MinOf(Column(ps, 2)))
  }

  /** The corner of the bounding box with the greatest coordinates. */
  function BoxMax(ps: seq<Vec3>): (r: Vec3)
    requires |ps| > 0
    ensures forall i, k :: 0 <= i < |ps| && 0 <= k < 3 ==> Coord(ps[i], k) <= Coord(r, k)
    ensures forall k :: 0 <= k < 3 ==> Coord(r, k) in Column(ps, k)
  {
    MaxOfIsGreatest(Column(ps, 0));
    MaxOfIsGreatest(Column(ps, 1));
    MaxOfIsGreatest(Column(ps, 2));
    Vec3(MaxOf(Column(ps, 0)), MaxOf(Column(ps, 1)), MaxOf(Column(ps, 2)))
  }

  /** `bbox_max - bbox_min`: the size of the bounding box along each axis. */
  function Extent(ps: seq<Vec3>): (r: Vec3)
    requires |ps| > 0
    ensures 0.0 <= r.x && 0.0 <= r.y && 0.0 <= r.z
    ensures r.x == BoxMax(ps).x - BoxMin(ps).x && r.y == BoxMax(ps).y - BoxMin(ps).y && r.z == BoxMax(ps).z - BoxMin(ps).z
  {
    assert Coord(BoxMin(ps), 0) <= Coord(ps[0], 0) <= Coord(BoxMax(ps), 0);
    assert Coord(BoxMin(ps), 1) <= Coord(ps[0], 1) <= Coord(BoxMax(ps), 1);
    assert Coord(BoxMin(ps), 2) <= Coord(ps[0], 2) <= Coord(BoxMax(ps), 2);
    Sub(BoxMax(ps), BoxMin(ps))
  }

  function Sum(ps: seq<Vec3>): Vec3 {
    if ps == [] then Zero else Add(ps[0], Sum(ps[1..]))
  }

  /** `np.mean(points, axis=0)`. */
  function Mean(ps: seq<Vec3>): (r: Vec3)
    requires |ps| > 0
    ensures Scale(|ps| as real, r) == Sum(ps)
  {
    var n := |ps| as real;
    var s := Sum(ps);
    assert n * (1.0 / n) == 1.0;
    assert n * ((1.0 / n) * s.x) == s.x;
    assert n * ((1.0 / n) * s.y) == s.y;
    assert n * ((1.0 / n) * s.z) == s.z;
    Scale(1.0 / n, s)
  }

  /** Every point moved by `t`. */
  function Shift(ps: seq<Vec3>, t: Vec3): (r: seq<Vec3>)
    ensures |r| == |ps| && forall i :: 0 <= i < |ps| ==> r[i] == Add(ps[i], t)
  {
    seq(|ps|, i requires 0 <= i < |ps| => Add(ps[i], t))
  }

  /** Every number moved by `c`. */
  function Offset(xs: seq<real>, c: real): (r: seq<real>)
    ensures |r| == |xs| && forall i :: 0 <= i < |xs| ==> r[i] == xs[i] + c
  {
    seq(|xs|, i requires 0 <= i < |xs| => xs[i] + c)
  }

  lemma MinPlus(a: real, b: real, c: real)
    ensures Min(a + c, b + c) == Min(a, b) + c
  {
  }

  lemma MaxPlus(a: real, b: real, c: real)
    ensures Max(a + c, b + c) == Max(a, b) + c
  {
  }

  lemma {:induction false} MinOffset(xs: seq<real>, c: real)
    requires |xs| > 0
    ensures MinOf(Offset(xs, c)) == MinOf(xs) + c
  {
    if |xs| > 1 {
      var o := Offset(xs, c);
      MinOffset(xs[1..], c);
      assert o[1..] == Offset(xs[1..], c);
      assert MinOf(o) == Min(o[0], MinOf(o[1..]));
      assert MinOf(xs) == Min(xs[0], MinOf(xs[1..]));
      MinPlus(xs[0], MinOf(xs[1..]), c);
    }
  }

  lemma {:induction false} MaxOffset(xs: seq<real>, c: real)
    requires |xs| > 0
    ensures MaxOf(Offset(xs, c)) == MaxOf(xs) + c
  {
    if |xs| > 1 {
      var o := Offset(xs, c);
      MaxOffset(xs[1..], c);
      assert o[1..] == Offset(xs[1..], c);
      assert MaxOf(o) == Max(o[0], MaxOf(o[1..]));
      assert MaxOf(xs) == Max(xs[0], MaxOf(xs[1..]));
      MaxPlus(xs[0], MaxOf(xs[1..]), c);
    }
  }

  lemma ColumnShift(ps: seq<Vec3>, t: Vec3, k: nat)
    requires k < 3
    ensures Column(Shift(ps, t), k) == Offset(Column(ps, k), Coord(t, k))
  {
  }

  /** Moving every point by the same vector moves each side of the bounding box with it. */
  lemma AxisShift(ps: seq<Vec3>, t: Vec3, k: nat)
    requires |ps| > 0 && k < 3
    ensures MinOf(Column(Shift(ps, t), k)) == MinOf(Column(ps, k)) + Coord(t, k)
    ensures MaxOf(Column(Shift(ps, t), k)) == MaxOf(Column(ps, k)) + Coord(t, k)
  {
    ColumnShift(ps, t, k);
    MinOffset(Column(ps, k), Coord(t, k));
    MaxOffset(Column(ps, k), Coord(t, k));
  }

  /** Moving every point by the same vector does not change the bounding box's size. */
  lemma ExtentShiftInvariant(ps: seq<Vec3>, t: Vec3)
    requires |ps| > 0
    ensures Extent(Shift(ps, t)) == Extent(ps)
  {
    AxisShift(ps, t, 0);
    AxisShift(ps, t, 1);
    AxisShift(ps, t, 2);
  }

  /** `a <= b` in every coordinate. */
  predicate Below(a: Vec3, b: Vec3) { a.x <= b.x && a.y <= b.y && a.z <= b.z }

  /** Every point lies between the two corners. */
  lemma BoxBounds(pts: seq<Vec3>)
    requires |pts| > 0
    ensures forall j :: 0 <= j < |pts| ==> Below(BoxMin(pts), pts[j]) && Below(pts[j], BoxMax(pts))
  {
    forall j | 0 <= j < |pts| ensures Below(BoxMin(pts), pts[j]) && Below(pts[j], BoxMax(pts)) {
      assert Coord(BoxMin(pts), 0) <= Coord(pts[j], 0) && Coord(BoxMin(pts), 1) <= Coord(pts[j], 1);
      assert Coord(BoxMin(pts), 2) <= Coord(pts[j], 2);
      assert Coord(pts[j], 0) <= Coord(BoxMax(pts), 0) && Coord(pts[j], 1) <= Coord(BoxMax(pts), 1);
      assert Coord(pts[j], 2) <= Coord(BoxMax(pts), 2);
    }
  }
}

=== FILE: pose_estimation.dfy ===
/** Six-degree-of-freedom pose from a point cloud (`spatial_perception/pose_estimation.py`): a
    centre, principal axes from a principal-component analysis with their signs fixed, the
    extent along each axis and a confidence score. The analysis itself and the square root are
    kept abstract. */
module PoseEstimation {
  import opened Wrappers
  import opened RealMath
  import opened LinAlg
  import opened Arrays
  import opened PointSets
  import Ordering
  import SpatialData
  import Text

  /** What `PCA(n_components=3).fit` yields: the components as rows, the explained variances and
      the explained-variance ratios. */
  datatype Pca = Pca(components: Mat3, eigenvalues: Vec3, ratios: Vec3)

  /** The numerical routines the estimator calls: the math library and the analysis. */
  datatype PoseLib = PoseLib(math: MathLib, pca: seq<Vec3> -> Pca)

  /** Explained-variance ratios are shares of the total variance. */
  predicate RatiosValid(r: Vec3) {
    0.0 <= r.x && 0.0 <= r.y && 0.0 <= r.z && r.x + r.y + r.z <= 1.0
  }

  /** The facts proofs rely on: the math library's laws and ratios that are shares. */
  ghost predicate LawfulLib(lib: PoseLib) {
    Lawful(lib.math) && forall ps :: RatiosValid(lib.pca(ps).ratios)
  }

  /** `PoseEstimator(min_points, center_method)`. */
  datatype Estimator = Estimator(minPoints: int, centerMethod: string)

  const DefaultEstimator: Estimator := Estimator(10, "mean")

  const CenterMethods: set<string> := {"mean", "median", "geometric_median"}

  /** Sum of the entries. */
  function Total(xs: seq<real>): real {
    if xs == [] then 0.0 else xs[0] + Total(xs[1..])
  }

  // ---------------------------------------------------------------------------------------------
  // Centre

  /** The middle of a sorted sequence: the middle entry, or the mean of the two middle entries
      when the count is even. */
  function Middle(s: seq<real>): real
    requires |s| > 0
  {
    var h := |s| / 2;
    if |s| % 2 == 1 then s[h] else (s[h - 1] + s[h]) / 2.0
  }

  /** `np.median` of a non-empty column: the middle of the entries in ascending order. */
  function Median(xs: seq<real>): real
    requires |xs| > 0
  {
    Middle(Ordering.SortBy(xs, Ordering.NumKey))
  }

  /** The middle of entries between two bounds is between them. */
  lemma MiddleBounds(s: seq<real>, lo: real, hi: real)
    requires |s| > 0 && forall k :: 0 <= k < |s| ==> lo <= s[k] <= hi
    ensures lo <= Middle(s) <= hi
  {
  }

  /** The median lies between the least and the greatest entry. */
  lemma MedianBounds(xs: seq<real>)
    requires |xs| > 0
    ensures MinOf(xs) <= Median(xs) <= MaxOf(xs)
  {
    var s := Ordering.SortBy(xs, Ordering.NumKey);
    MinOfIsLeast(xs);
    MaxOfIsGreatest(xs);
    forall k | 0 <= k < |s| ensures MinOf(xs) <= s[k] <= MaxOf(xs) {
      assert s[k] in multiset(s);
      assert s[k] in xs;
    }
    MiddleBounds(s, MinOf(xs), MaxOf(xs));
  }

  /** `np.median(points, axis=0)`. */
  function MedianPoint(ps: seq<Vec3>): Vec3
    requires |ps| > 0
  {
    Vec3(Median(Column(ps, 0)), Median(Column(ps, 1)), Median(Column(ps, 2)))
  }

  const Tolerance: real := 0.000001
  const DistanceFloor: real := 0.00000001
  const MaxIterations: nat := 100

  /** Each entry divided by `t`. */
  function Divided(ws: seq<real>, t: real): (r: seq<real>)
    requires t != 0.0
    ensures |r| == |ws| && forall i :: 0 <= i < |ws| ==> r[i] == ws[i] / t
  {
    seq(|ws|, i requires 0 <= i < |ws| => ws[i] / t)
  }

  /** Dividing every entry divides the sum. */
  lemma {:induction false} TotalDivided(ws: seq<real>, t: real)
    requires t != 0.0
    ensures Total(Divided(ws, t)) == Total(ws) / t
  {
    if ws != [] {
      var d := Divided(ws, t);
      assert d[1..] == Divided(ws[1..], t);
      TotalDivided(ws[1..], t);
      assert Total(d) == ws[0] / t + Total(ws[1..]) / t;
      QuotientSum(ws[0], Total(ws[1..]), t);
    }
  }

  lemma QuotientSum(a: real, b: real, t: real)
    requires t != 0.0
    ensures a / t + b / t == (a + b) / t
  {
  }

  /** The sum of positive entries is positive. */
  lemma {:induction false} TotalPositive(ws: seq<real>)
    requires |ws| > 0 && forall i :: 0 <= i < |ws| ==> 0.0 < ws[i]
    ensures 0.0 < Total(ws)
  {
    if |ws| > 1 {
      TotalPositive(ws[1..]);
    }
  }

  /** `1.0 / np.maximum(np.linalg.norm(points - median, axis=1), 1e-8)`. */
  function InverseDistances(m: MathLib, ps: seq<Vec3>, c: Vec3): (r: seq<real>)
    requires Lawful(m)
    ensures |r| == |ps| && forall i :: 0 <= i < |ps| ==> 0.0 < r[i]
  {
    seq(|ps|, i requires 0 <= i < |ps| =>
      var d := Max(SpatialData.Norm(m, Sub(ps[i], c)), DistanceFloor);
      assert 0.0 < 1.0 / d;
      1.0 / d)
  }

  /** The sum of the entries of `xs` weighted by `ws`. */
  function WeightedTotal(xs: seq<real>, ws: seq<real>): real
    requires |xs| == |ws|
  {
    if xs == [] then 0.0 else ws[0] * xs[0] + WeightedTotal(xs[1..], ws[1..])
  }

  /** `np.sum(points * weights.reshape(-1, 1), axis=0)`, column by column. */
  function WeightedSum(ps: seq<Vec3>, ws: seq<real>): Vec3
    requires |ps| == |ws|
  {
    Vec3(WeightedTotal(Column(ps, 0), ws), WeightedTotal(Column(ps, 1), ws), WeightedTotal(Column(ps, 2), ws))
  }

  /** One Weiszfeld update: the average of the points weighted by their inverse distances to the
      current estimate, the weights scaled to sum to one. */
  function WeiszfeldStep(m: MathLib, ps: seq<Vec3>, c: Vec3): Vec3
    requires Lawful(m) && |ps| > 0
  {
    var w := InverseDistances(m, ps, c);
    TotalPositive(w);
    WeightedSum(ps, Divided(w, Total(w)))
  }

  /** Where the iteration stopped and how many updates it made. */
  datatype Run = Run(median: Vec3, steps: nat)

  /** The loop of `_compute_geometric_median` with `fuel` iterations left: an update that moves
      the estimate by less than the tolerance is discarded and ends the loop. */
  function Weiszfeld(m: MathLib, ps: seq<Vec3>, c: Vec3, fuel: nat): (r: Run)
    requires Lawful(m) && |ps| > 0
    ensures r.steps <= fuel
    ensures r.steps < fuel ==>
      SpatialData.Norm(m, Sub(WeiszfeldStep(m, ps, r.median), r.median)) < Tolerance
    decreases fuel
  {
    if fuel == 0 then Run(c, 0)
    else
      var next := WeiszfeldStep(m, ps, c);
      if SpatialData.Norm(m, Sub(next, c)) < Tolerance then Run(c, 0)
      else
        var rest := Weiszfeld(m, ps, next, fuel - 1);
        Run(rest.median, rest.steps + 1)
  }

  /** `_compute_geometric_median`: one point is its own median; otherwise at most 100 updates
      starting from the mean. */
  function GeometricMedian(m: MathLib, ps: seq<Vec3>): (r: Vec3)
    requires Lawful(m) && |ps| > 0
    ensures |ps| == 1 ==> r == ps[0]
  {
    if |ps| == 1 then ps[0] else Weiszfeld(m, ps, Mean(ps), MaxIterations).median
  }

  /** `compute_center`: no points give the origin whatever the method; otherwise the mean, the
      per-axis median or the geometric median, and any other method raises `ValueError`. */
  function ComputeCenter(m: MathLib, how: string, ps: seq<Vec3>): (r: Result<Vec3, string>)
    requires Lawful(m)
    ensures |ps| == 0 ==> r == Ok(Zero)
    ensures r.Err? <==> |ps| > 0 && how !in CenterMethods
    ensures r.Err? ==> r.error == "ValueError"
  {
    if |ps| == 0 then Ok(Zero)
    else if how == "mean" then Ok(Mean(ps))
    else if how == "median" then Ok(MedianPoint(ps))
    else if how == "geometric_median" then Ok(GeometricMedian(m, ps))
    else Err("ValueError")
  }

  /** In the box with corners `lo` and `hi`. */
  predicate InBox(v: Vec3, lo: Vec3, hi: Vec3) { Below(lo, v) && Below(v, hi) }

  /** A sum of points in a box lies in the box scaled by their count. */
  lemma {:induction false} SumBounds(ps: seq<Vec3>, lo: Vec3, hi: Vec3)
    requires forall i :: 0 <= i < |ps| ==> InBox(ps[i], lo, hi)
    ensures InBox(Sum(ps), Scale(|ps| as real, lo), Scale(|ps| as real, hi))
  {
    if ps != [] {
      var k := (|ps| - 1) as real;
      SumBounds(ps[1..], lo, hi);
      PlusOneTimes(k, lo);
      PlusOneTimes(k, hi);
    }
  }

  /** `(k + 1) v` is `v + k v`. */
  lemma PlusOneTimes(k: real, v: Vec3)
    ensures Scale(k + 1.0, v) == Add(v, Scale(k, v))
  {
    assert (k + 1.0) * v.x == v.x + k * v.x;
    assert (k + 1.0) * v.y == v.y + k * v.y;
    assert (k + 1.0) * v.z == v.z + k * v.z;
  }

  /** `n * a <= n * b` with `n` positive gives `a <= b`. */
  lemma CancelPositive(n: real, a: real, b: real)
    requires 0.0 < n && n * a <= n * b
    ensures a <= b
  {
  }

  /** The mean of points in a box lies in the box. */
  lemma MeanInBox(ps: seq<Vec3>, lo: Vec3, hi: Vec3)
    requires |ps| > 0
    requires forall i :: 0 <= i < |ps| ==> InBox(ps[i], lo, hi)
    ensures InBox(Mean(ps), lo, hi)
  {
    SumBounds(ps, lo, hi);
    ScaledInBox(|ps| as real, Mean(ps), Sum(ps), lo, hi);
  }

  /** A point that `n` times over is a sum between `n lo` and `n hi` lies between `lo` and `hi`. */
  lemma ScaledInBox(n: real, c: Vec3, t: Vec3, lo: Vec3, hi: Vec3)
    requires 0.0 < n && Scale(n, c) == t
    requires InBox(t, Scale(n, lo), Scale(n, hi))
    ensures InBox(c, lo, hi)
  {
    MeanCoord(n, lo.x, hi.x, t.x, c.x);
    MeanCoord(n, lo.y, hi.y, t.y, c.y);
    MeanCoord(n, lo.z, hi.z, t.z, c.z);
  }

  /** A sum between `n lo` and `n hi` that is `n c` has `c` between `lo` and `hi`. */
  lemma MeanCoord(n: real, lo: real, hi: real, t: real, c: real)
    requires 0.0 < n && n * lo <= t <= n * hi && t == n * c
    ensures lo <= c <= hi
  {
    CancelPositive(n, lo, c);
    CancelPositive(n, c, hi);
  }

  /** `w * a <= w * b` when `w` is non-negative and `a <= b`. */
  lemma ScaleMonotone(w: real, a: real, b: real)
    requires 0.0 <= w && a <= b
    ensures w * a <= w * b
  {
    assert w * (b - a) >= 0.0;
  }

  /** Raising entries raises their sum under non-negative weights. */
  lemma {:induction false} WeightedTotalMonotone(xs: seq<real>, ys: seq<real>, ws: seq<real>)
    requires |xs| == |ys| == |ws|
    requires forall i :: 0 <= i < |xs| ==> xs[i] <= ys[i] && 0.0 <= ws[i]
    ensures WeightedTotal(xs, ws) <= WeightedTotal(ys, ws)
  {
    if xs != [] {
      assert WeightedTotal(xs[1..], ws[1..]) <= WeightedTotal(ys[1..], ws[1..]) by {
        WeightedTotalMonotone(xs[1..], ys[1..], ws[1..]);
      }
      ScaleMonotone(ws[0], xs[0], ys[0]);
    }
  }

  /** `n` copies of `c`. */
  function Repeat(c: real, n: nat): (r: seq<real>)
    ensures |r| == n && forall i :: 0 <= i < n ==> r[i] == c
  {
    seq(n, _ => c)
  }

  /** Weighting a constant gives the constant times the total weight. */
  lemma {:induction false} WeightedConstant(c: real, ws: seq<real>)
    ensures WeightedTotal(Repeat(c, |ws|), ws) == Total(ws) * c
  {
    if ws != [] {
      assert Repeat(c, |ws|)[1..] == Repeat(c, |ws| - 1);
      WeightedConstant(c, ws[1..]);
      assert (ws[0] + Total(ws[1..])) * c == ws[0] * c + Total(ws[1..]) * c;
    }
  }

  /** Entries between two bounds, weighted by non-negative weights, sum to between the bounds
      scaled by the total weight. */
  lemma WeightedTotalBounds(xs: seq<real>, ws: seq<real>, lo: real, hi: real)
    requires |xs| == |ws|
    requires forall i :: 0 <= i < |xs| ==> lo <= xs[i] <= hi && 0.0 <= ws[i]
    ensures Total(ws) * lo <= WeightedTotal(xs, ws) <= Total(ws) * hi
  {
    WeightedTotalMonotone(Repeat(lo, |ws|), xs, ws);
    WeightedTotalMonotone(xs, Repeat(hi, |ws|), ws);
    WeightedConstant(lo, ws);
    WeightedConstant(hi, ws);
  }

  /** Weights summing to one keep each column's weighted sum between the column's bounds. */
  lemma ColumnAverageBounds(ps: seq<Vec3>, ws: seq<real>, lo: Vec3, hi: Vec3, k: nat)
    requires |ps| == |ws| && k < 3 && Total(ws) == 1.0
    requires forall i :: 0 <= i < |ps| ==> InBox(ps[i], lo, hi) && 0.0 <= ws[i]
    ensures Coord(lo, k) <= WeightedTotal(Column(ps, k), ws) <= Coord(hi, k)
  {
    var col := Column(ps, k);
    forall i | 0 <= i < |col| ensures Coord(lo, k) <= col[i] <= Coord(hi, k) {
      assert InBox(ps[i], lo, hi);
    }
    WeightedTotalBounds(col, ws, Coord(lo, k), Coord(hi, k));
  }

  lemma QuotientPositive(a: real, t: real)
    requires 0.0 < a && 0.0 < t
    ensures 0.0 < a / t
  {
  }

  /** Positive weights divided by their sum are non-negative and sum to one. */
  lemma NormalizedWeights(w: seq<real>)
    requires |w| > 0 && forall i :: 0 <= i < |w| ==> 0.0 < w[i]
    ensures 0.0 < Total(w)
    ensures Total(Divided(w, Total(w))) == 1.0
    ensures forall i :: 0 <= i < |w| ==> 0.0 <= Divided(w, Total(w))[i]
  {
    TotalPositive(w);
    var t := Total(w);
    forall i | 0 <= i < |w| ensures 0.0 <= Divided(w, t)[i] {
      QuotientPositive(w[i], t);
    }
    TotalDivided(w, t);
    DivSelf(t);
  }

  lemma DivSelf(t: real)
    requires 0.0 < t
    ensures t / t == 1.0
  {
  }

  /** Points in a box averaged with non-negative weights summing to one stay in the box. */
  lemma AverageInBox(ps: seq<Vec3>, ws: seq<real>, lo: Vec3, hi: Vec3)
    requires |ps| == |ws| && Total(ws) == 1.0
    requires forall i :: 0 <= i < |ps| ==> InBox(ps[i], lo, hi) && 0.0 <= ws[i]
    ensures InBox(WeightedSum(ps, ws), lo, hi)
  {
    ColumnAverageBounds(ps, ws, lo, hi, 0);
    ColumnAverageBounds(ps, ws, lo, hi, 1);
    ColumnAverageBounds(ps, ws, lo, hi, 2);
  }

  /** A Weiszfeld update stays in any box that holds all the points. */
  lemma StepInBox(m: MathLib, ps: seq<Vec3>, c: Vec3, lo: Vec3, hi: Vec3)
    requires Lawful(m) && |ps| > 0
    requires forall i :: 0 <= i < |ps| ==> InBox(ps[i], lo, hi)
    ensures InBox(WeiszfeldStep(m, ps, c), lo, hi)
  {
    var w := InverseDistances(m, ps, c);
    NormalizedWeights(w);
    AverageInBox(ps, Divided(w, Total(w)), lo, hi);
  }

  /** Every estimate the iteration reaches stays in any box holding the points and the start. */
  lemma {:induction false} WeiszfeldInBox(m: MathLib, ps: seq<Vec3>, c: Vec3, fuel: nat, lo: Vec3, hi: Vec3)
    requires Lawful(m) && |ps| > 0
    requires forall i :: 0 <= i < |ps| ==> InBox(ps[i], lo, hi)
    requires InBox(c, lo, hi)
    ensures InBox(Weiszfeld(m, ps, c, fuel).median, lo, hi)
    decreases fuel
  {
    if fuel > 0 {
      var next := WeiszfeldStep(m, ps, c);
      StepInBox(m, ps, c, lo, hi);
      WeiszfeldInBox(m, ps, next, fuel - 1, lo, hi);
    }
  }

  /** The per-axis median lies in the bounding box. */
  lemma MedianInBox(ps: seq<Vec3>)
    requires |ps| > 0
    ensures InBox(MedianPoint(ps), BoxMin(ps), BoxMax(ps))
  {
    MedianBounds(Column(ps, 0));
    MedianBounds(Column(ps, 1));
    MedianBounds(Column(ps, 2));
  }

  /** The geometric median lies in any box holding the points. */
  lemma GeometricMedianInBox(m: MathLib, ps: seq<Vec3>, lo: Vec3, hi: Vec3)
    requires Lawful(m) && |ps| > 0
    requires forall i :: 0 <= i < |ps| ==> InBox(ps[i], lo, hi)
    ensures InBox(GeometricMedian(m, ps), lo, hi)
  {
    if |ps| > 1 {
      MeanInBox(ps, lo, hi);
      WeiszfeldInBox(m, ps, Mean(ps), MaxIterations, lo, hi);
    }
  }

  /** Each centre method gives a point inside the bounding box of the points. */
  lemma CenterInBox(m: MathLib, how: string, ps: seq<Vec3>)
    requires Lawful(m) && |ps| > 0 && how in CenterMethods
    ensures InBox(ComputeCenter(m, how, ps).value, BoxMin(ps), BoxMax(ps))
  {
    var lo, hi := BoxMin(ps), BoxMax(ps);
    BoxBounds(ps);
    assert forall i :: 0 <= i < |ps| ==> InBox(ps[i], lo, hi);
    if how == "mean" {
      assert ComputeCenter(m, how, ps) == Ok(Mean(ps));
      MeanInBox(ps, lo, hi);
    } else if how == "median" {
      assert ComputeCenter(m, how, ps) == Ok(MedianPoint(ps));
      MedianInBox(ps);
    } else {
      assert ComputeCenter(m, how, ps) == Ok(GeometricMedian(m, ps));
      GeometricMedianInBox(m, ps, lo, hi);
    }
  }

  // ---------------------------------------------------------------------------------------------
  // Principal axes

  /** `compute_pca`: fewer than three points give the identity, unit variances and three equal
      ratios; otherwise the analysis. Either way the ratios are shares of the variance. */
  function ComputePca(lib: PoseLib, ps: seq<Vec3>): (r: Pca)
    ensures |ps| < 3 ==> r.components == Identity && r.ratios.x == r.ratios.y == r.ratios.z
    ensures |ps| < 3 ==> r == Pca(Identity, Ones, Vec3(1.0 / 3.0, 1.0 / 3.0, 1.0 / 3.0))
    ensures |ps| >= 3 ==> r == lib.pca(ps)
    ensures LawfulLib(lib) ==> RatiosValid(r.ratios)
  {
    if |ps| < 3 then Pca(Identity, Ones, Vec3(1.0 / 3.0, 1.0 / 3.0, 1.0 / 3.0)) else lib.pca(ps)
  }

  /** `np.dot(points, axis)`. */
  function Projections(ps: seq<Vec3>, axis: Vec3): (r: seq<real>)
    ensures |r| == |ps| && forall i :: 0 <= i < |ps| ==> r[i] == Dot(ps[i], axis)
  {
    seq(|ps|, i requires 0 <= i < |ps| => Dot(ps[i], axis))
  }

  /** `np.mean(np.dot(points, axis)) < 0`. The mean of no projections is NaN, which compares
      false. */
  predicate MostlyBehind(ps: seq<Vec3>, axis: Vec3) {
    |ps| > 0 && Total(Projections(ps, axis)) / (|ps| as real) < 0.0
  }

  function Negated(xs: seq<real>): (r: seq<real>)
    ensures |r| == |xs| && forall i :: 0 <= i < |xs| ==> r[i] == -xs[i]
  {
    seq(|xs|, i requires 0 <= i < |xs| => -xs[i])
  }

  lemma {:induction false} TotalNegated(xs: seq<real>)
    ensures Total(Negated(xs)) == -Total(xs)
  {
    if xs != [] {
      assert Negated(xs)[1..] == Negated(xs[1..]);
      TotalNegated(xs[1..]);
    }
  }

  lemma QuotientNegated(a: real, n: real)
    requires 0.0 < n
    ensures (-a) / n == -(a / n)
  {
  }

  lemma DotNeg(p: Vec3, a: Vec3)
    ensures Dot(p, Neg(a)) == -Dot(p, a)
  {
  }

  /** Reversing an axis the points mostly lie behind puts them ahead of it. */
  lemma FlipBringsAhead(ps: seq<Vec3>, axis: Vec3)
    ensures MostlyBehind(ps, axis) ==> !MostlyBehind(ps, Neg(axis))
  {
    if |ps| > 0 {
      var n := |ps| as real;
      forall i | 0 <= i < |ps| ensures Dot(ps[i], Neg(axis)) == -Dot(ps[i], axis) {
        DotNeg(ps[i], axis);
      }
      assert Projections(ps, Neg(axis)) == Negated(Projections(ps, axis));
      TotalNegated(Projections(ps, axis));
      QuotientNegated(Total(Projections(ps, axis)), n);
    }
  }

  /** Reversing one row of a matrix reverses the sign of its determinant. */
  lemma DetNegRow(c: Mat3, i: nat)
    requires i < 3
    ensures Det(WithRow(c, i, Neg(Row(c, i)))) == -Det(c)
  {
  }

  /** The first step of `align_principal_axes`: a left-handed basis has its third axis
      reversed. */
  function FixHandedness(c: Mat3): (r: Mat3)
    ensures 0.0 <= Det(r)
    ensures r.r0 == c.r0 && r.r1 == c.r1 && (r.r2 == c.r2 || r.r2 == Neg(c.r2))
  {
    if Det(c) < 0.0 then DetNegRow(c, 2); c.(r2 := Neg(c.r2)) else c
  }

  /** One pass of the loop of `align_principal_axes`: axis `i` is reversed when the points lie
      behind it on average. */
  function AlignRow(c: Mat3, ps: seq<Vec3>, i: nat): Mat3
    requires i < 3
  {
    if MostlyBehind(ps, Row(c, i)) then WithRow(c, i, Neg(Row(c, i))) else c
  }

  /** `align_principal_axes`: the handedness fix, then the three sign flips in order. */
  function AlignPrincipalAxes(c: Mat3, ps: seq<Vec3>): Mat3 {
    AlignRow(AlignRow(AlignRow(FixHandedness(c), ps, 0), ps, 1), ps, 2)
  }

  /** One pass leaves axis `i` reversed or not with the points not behind it, leaves the other
      axes alone, and at most reverses the determinant. */
  lemma AlignRowFacts(c: Mat3, ps: seq<Vec3>, i: nat)
    requires i < 3
    ensures Row(AlignRow(c, ps, i), i) == Row(c, i) || Row(AlignRow(c, ps, i), i) == Neg(Row(c, i))
    ensures !MostlyBehind(ps, Row(AlignRow(c, ps, i), i))
    ensures forall j :: 0 <= j < 3 && j != i ==> Row(AlignRow(c, ps, i), j) == Row(c, j)
    ensures Det(AlignRow(c, ps, i)) == Det(c) || Det(AlignRow(c, ps, i)) == -Det(c)
  {
    FlipBringsAhead(ps, Row(c, i));
    DetNegRow(c, i);
  }

  /** Each aligned axis is the analysis's axis or its reverse, and the points do not lie behind
      it on average; the determinant is that of the handedness fix up to sign. */
  lemma AlignedAxes(c: Mat3, ps: seq<Vec3>)
    ensures forall i :: 0 <= i < 3 ==>
      var r := Row(AlignPrincipalAxes(c, ps), i);
      (r == Row(c, i) || r == Neg(Row(c, i))) && !MostlyBehind(ps, r)
    ensures Det(AlignPrincipalAxes(c, ps)) == Det(FixHandedness(c))
         || Det(AlignPrincipalAxes(c, ps)) == -Det(FixHandedness(c))
  {
    var f := FixHandedness(c);
    var a0 := AlignRow(f, ps, 0);
    var a1 := AlignRow(a0, ps, 1);
    AlignRowFacts(f, ps, 0);
    AlignRowFacts(a0, ps, 1);
    AlignRowFacts(a1, ps, 2);
    assert Neg(Neg(c.r2)) == c.r2;
  }

  /** The handedness fix runs before the flips, so the result can be left-handed: a
      right-handed basis and a single point behind its first axis only, such as the identity
      and the point (-1, 1, 1). */
  lemma AlignCanBeLeftHanded(c: Mat3, p: Vec3)
    requires 0.0 < Det(c)
    requires Dot(p, c.r0) < 0.0 && 0.0 <= Dot(p, c.r1) && 0.0 <= Dot(p, c.r2)
    ensures Det(AlignPrincipalAxes(c, [p])) == -Det(c) < 0.0
  {
    var a0 := WithRow(c, 0, Neg(c.r0));
    assert FixHandedness(c) == c;
    BehindFlipped(c, p, 0);
    AheadKept(a0, p, 1);
    AheadKept(a0, p, 2);
    DetNegRow(c, 0);
  }

  /** An axis a single point is behind is reversed. */
  lemma BehindFlipped(c: Mat3, p: Vec3, i: nat)
    requires i < 3 && Dot(p, Row(c, i)) < 0.0
    ensures AlignRow(c, [p], i) == WithRow(c, i, Neg(Row(c, i)))
  {
    SingleBehind(p, Row(c, i));
  }

  /** An axis a single point is ahead of is kept. */
  lemma AheadKept(c: Mat3, p: Vec3, i: nat)
    requires i < 3 && 0.0 <= Dot(p, Row(c, i))
    ensures AlignRow(c, [p], i) == c
  {
    SingleBehind(p, Row(c, i));
  }

  /** A single point is behind an axis exactly when its projection is negative. */
  lemma SingleBehind(p: Vec3, axis: Vec3)
    ensures MostlyBehind([p], axis) <==> Dot(p, axis) < 0.0
  {
    assert Projections([p], axis) == [Dot(p, axis)];
    assert Total([Dot(p, axis)]) == Dot(p, axis);
  }

  // ---------------------------------------------------------------------------------------------
  // Scale

  const ScaleFloor: real := 0.000001

  /** The spread of the points along an axis, floored. */
  function AxisExtent(ps: seq<Vec3>, axis: Vec3): real
    requires |ps| > 0
  {
    Max(MaxOf(Projections(ps, axis)) - MinOf(Projections(ps, axis)), ScaleFloor)
  }

  /** `estimate_scale`: no points give ones; otherwise each axis's spread of the projections,
      never below the floor. */
  function EstimateScale(ps: seq<Vec3>, axes: Mat3): (r: Vec3)
    ensures |ps| == 0 ==> r == Ones
    ensures ScaleFloor <= r.x && ScaleFloor <= r.y && ScaleFloor <= r.z
  {
    if |ps| == 0 then Ones
    else Vec3(AxisExtent(ps, axes.r0), AxisExtent(ps, axes.r1), AxisExtent(ps, axes.r2))
  }

  /** Along axis `k` every pair of projections is at most the scale apart, and the scale is the
      floor or the distance of some pair: the least such bound. */
  lemma ScaleSpansProjections(ps: seq<Vec3>, axes: Mat3, k: nat)
    requires |ps| > 0 && k < 3
    ensures forall i, j :: 0 <= i < |ps| && 0 <= j < |ps| ==>
      Dot(ps[i], Row(axes, k)) - Dot(ps[j], Row(axes, k)) <= Coord(EstimateScale(ps, axes), k)
    ensures Coord(EstimateScale(ps, axes), k) == ScaleFloor ||
      exists i, j :: 0 <= i < |ps| && 0 <= j < |ps| &&
        Dot(ps[i], Row(axes, k)) - Dot(ps[j], Row(axes, k)) == Coord(EstimateScale(ps, axes), k)
  {
    var pr := Projections(ps, Row(axes, k));
    assert Coord(EstimateScale(ps, axes), k) == AxisExtent(ps, Row(axes, k));
    MinOfIsLeast(pr);
    MaxOfIsGreatest(pr);
    var i :| 0 <= i < |pr| && pr[i] == MaxOf(pr);
    var j :| 0 <= j < |pr| && pr[j] == MinOf(pr);
    assert Dot(ps[i], Row(axes, k)) - Dot(ps[j], Row(axes, k)) == MaxOf(pr) - MinOf(pr);
  }

  /** Moving every point by the same vector moves every projection by the same amount. */
  lemma ProjectionsShift(ps: seq<Vec3>, t: Vec3, axis: Vec3)
    ensures Projections(Shift(ps, t), axis) == Offset(Projections(ps, axis), Dot(t, axis))
  {
    forall i | 0 <= i < |ps| ensures Dot(Add(ps[i], t), axis) == Dot(ps[i], axis) + Dot(t, axis) {
      AddDot(ps[i], t, axis);
    }
  }

  /** The scale does not depend on where the points were centred. */
  lemma ScaleShiftInvariant(ps: seq<Vec3>, t: Vec3, axes: Mat3)
    ensures EstimateScale(Shift(ps, t), axes) == EstimateScale(ps, axes)
  {
    if |ps| > 0 {
      ExtentShift(ps, t, axes.r0);
      ExtentShift(ps, t, axes.r1);
      ExtentShift(ps, t, axes.r2);
    }
  }

  lemma ExtentShift(ps: seq<Vec3>, t: Vec3, axis: Vec3)
    requires |ps| > 0
    ensures AxisExtent(Shift(ps, t), axis) == AxisExtent(ps, axis)
  {
    ProjectionsShift(ps, t, axis);
    MinOffset(Projections(ps, axis), Dot(t, axis));
    MaxOffset(Projections(ps, axis), Dot(t, axis));
  }

  // ---------------------------------------------------------------------------------------------
  // Confidence

  /** The five sub-scores of `validate_pose_estimation`. */
  datatype Scores = Scores(pointSufficiency: real, pcaQuality: real, orthogonality: real,
                           directionClarity: real, numericalStability: real)

  function MatSub(a: Mat3, b: Mat3): Mat3 { Mat3(Sub(a.r0, b.r0), Sub(a.r1, b.r1), Sub(a.r2, b.r2)) }

  /** The sum of the squares. */
  function SumSquares(xs: seq<real>): (r: real)
    ensures 0.0 <= r
  {
    if xs == [] then 0.0 else Sq(xs[0]) + SumSquares(xs[1..])
  }

  /** A sum of squares vanishes exactly when every term does. */
  lemma {:induction false} SumSquaresZero(xs: seq<real>)
    ensures SumSquares(xs) == 0.0 <==> forall i :: 0 <= i < |xs| ==> xs[i] == 0.0
  {
    if xs != [] {
      SumSquaresZero(xs[1..]);
      if xs[0] != 0.0 { SqPositive(xs[0]); }
      assert forall i :: 1 <= i < |xs| ==> xs[i] == xs[1..][i - 1];
    }
  }

  /** `np.linalg.norm(a)`: the Frobenius norm, zero only for the zero matrix. */
  function FrobeniusNorm(m: MathLib, a: Mat3): (r: real)
    requires Lawful(m)
    ensures 0.0 <= r
    ensures r == 0.0 <==> a == Mat3(Zero, Zero, Zero)
  {
    var q := SumSquares(MatArray(a).data);
    SpatialData.RootZero(q, m.sqrt(q));
    SumSquaresZero(MatArray(a).data);
    ZeroEntries(a);
    m.sqrt(q)
  }

  lemma ZeroEntries(a: Mat3)
    ensures (forall i :: 0 <= i < 9 ==> MatArray(a).data[i] == 0.0) <==> a == Mat3(Zero, Zero, Zero)
  {
    var d := MatArray(a).data;
    if forall i :: 0 <= i < 9 ==> d[i] == 0.0 {
      assert d[0] == 0.0 && d[1] == 0.0 && d[2] == 0.0 && d[3] == 0.0 && d[4] == 0.0;
      assert d[5] == 0.0 && d[6] == 0.0 && d[7] == 0.0 && d[8] == 0.0;
    }
  }

  lemma SubIdentityZero(p: Mat3)
    ensures MatSub(p, Identity) == Mat3(Zero, Zero, Zero) <==> p == Identity
  {
  }

  /** `np.linalg.norm(p - np.eye(3))`: how far a product is from the identity. */
  function Deviation(m: MathLib, p: Mat3): (r: real)
    requires Lawful(m)
    ensures 0.0 <= r
    ensures r == 0.0 <==> p == Identity
  {
    SubIdentityZero(p);
    FrobeniusNorm(m, MatSub(p, Identity))
  }

  /** `np.linalg.norm(orientation @ orientation.T - np.eye(3))`. */
  function OrthogonalityError(m: MathLib, o: Mat3): (r: real)
    requires Lawful(m)
    ensures 0.0 <= r
    ensures Orthonormal(o) ==> r == 0.0
  {
    Deviation(m, MatMul(o, Transpose(o)))
  }

  const PositionLimit: real := 100.0
  const RatioEpsilon: real := 0.00000001

  /** How many points there are, against 100. */
  function PointSufficiency(n: nat): (r: real)
    ensures 0.0 <= r <= 1.0
    ensures r == 1.0 <==> 100 <= n
  {
    Min(1.0, n as real / 100.0)
  }

  /** More points never score lower. */
  lemma PointSufficiencyMonotone(n1: nat, n2: nat)
    requires n1 <= n2
    ensures PointSufficiency(n1) <= PointSufficiency(n2)
  {
    assert n1 as real / 100.0 <= n2 as real / 100.0;
  }

  /** One minus ten times the orthogonality error, floored at zero. */
  function Orthogonality(m: MathLib, o: Mat3): (r: real)
    requires Lawful(m)
    ensures 0.0 <= r <= 1.0
    ensures Orthonormal(o) ==> r == 1.0
  {
    Max(0.0, 1.0 - OrthogonalityError(m, o) * 10.0)
  }

  /** The first ratio over the second, against three. */
  function DirectionClarity(ratios: Vec3): (r: real)
    requires 0.0 <= ratios.y
    ensures r <= 1.0
    ensures 3.0 * (ratios.y + RatioEpsilon) <= ratios.x ==> r == 1.0
  {
    var q := ratios.x / (ratios.y + RatioEpsilon) / 3.0;
    if 3.0 * (ratios.y + RatioEpsilon) <= ratios.x then
      ClarityFull(ratios.x, ratios.y + RatioEpsilon);
      Min(1.0, q)
    else Min(1.0, q)
  }

  lemma ClarityFull(a: real, b: real)
    requires 0.0 < b && 3.0 * b <= a
    ensures 1.0 <= a / b / 3.0
  {
    assert a / b >= 3.0;
  }

  /** Full marks for a position within 100 of the origin, half marks otherwise. */
  function Stability(m: MathLib, position: Vec3): (r: real)
    requires Lawful(m)
    ensures r == 1.0 || r == 0.5
    ensures r == 1.0 <==> Dot(position, position) < PositionLimit * PositionLimit
  {
    var d := SpatialData.Norm(m, position);
    BelowIffSquareBelow(d, Dot(position, position), PositionLimit);
    if d < PositionLimit then 1.0 else 0.5
  }

  /** The five sub-scores of a pose. */
  function ScorePose(m: MathLib, position: Vec3, orientation: Mat3, ratios: Vec3, n: nat): Scores
    requires Lawful(m) && 0.0 <= ratios.y
  {
    Scores(PointSufficiency(n), ratios.x + ratios.y, Orthogonality(m, orientation),
           DirectionClarity(ratios), Stability(m, position))
  }

  /** The weighted sum of the sub-scores. */
  function WeightedScore(s: Scores): real {
    0.2 * s.pointSufficiency + 0.3 * s.pcaQuality + 0.2 * s.orthogonality
    + 0.2 * s.directionClarity + 0.1 * s.numericalStability
  }

  /** `validate_pose_estimation`: the weighted score clamped to [0, 1], and the sub-scores. */
  function ValidatePose(m: MathLib, position: Vec3, orientation: Mat3, ratios: Vec3, n: nat): (r: (real, Scores))
    requires Lawful(m) && 0.0 <= ratios.y
    ensures 0.0 <= r.0 <= 1.0
    ensures r.0 == 1.0 <==> 1.0 <= WeightedScore(r.1)
    ensures r.0 == 0.0 <==> WeightedScore(r.1) <= 0.0
    ensures 0.0 <= WeightedScore(r.1) <= 1.0 ==> r.0 == WeightedScore(r.1)
    ensures r.0 == Max(0.0, Min(1.0, WeightedScore(r.1)))
    ensures r.1 == ScorePose(m, position, orientation, ratios, n)
  {
    var s := ScorePose(m, position, orientation, ratios, n);
    (Max(0.0, Min(1.0, WeightedScore(s))), s)
  }

  /** A pose with every sub-score at its best has full confidence: at least 100 points, no
      orthogonality error, two components explaining all variance with the first at least
      three times the second, and a position within 100 of the origin. */
  lemma FullConfidence(m: MathLib, position: Vec3, orientation: Mat3, ratios: Vec3, n: nat)
    requires Lawful(m) && 0.0 <= ratios.y
    requires 100 <= n && Orthogonality(m, orientation) == 1.0
    requires ratios.x + ratios.y == 1.0 && 3.0 * (ratios.y + RatioEpsilon) <= ratios.x
    requires Dot(position, position) < PositionLimit * PositionLimit
    ensures ValidatePose(m, position, orientation, ratios, n).0 == 1.0
  {
    FullScores(m, position, orientation, ratios, n);
    assert WeightedScore(Scores(1.0, 1.0, 1.0, 1.0, 1.0)) == 1.0;
  }

  /** In particular an orthonormal orientation scores full marks for orthogonality. */
  lemma RotationFullConfidence(m: MathLib, position: Vec3, orientation: Mat3, ratios: Vec3, n: nat)
    requires Lawful(m) && 0.0 <= ratios.y
    requires 100 <= n && Orthonormal(orientation)
    requires ratios.x + ratios.y == 1.0 && 3.0 * (ratios.y + RatioEpsilon) <= ratios.x
    requires Dot(position, position) < PositionLimit * PositionLimit
    ensures ValidatePose(m, position, orientation, ratios, n).0 == 1.0
  {
    assert Orthogonality(m, orientation) == 1.0;
    FullConfidence(m, position, orientation, ratios, n);
  }

  lemma FullScores(m: MathLib, position: Vec3, orientation: Mat3, ratios: Vec3, n: nat)
    requires Lawful(m) && 0.0 <= ratios.y
    requires 100 <= n && Orthogonality(m, orientation) == 1.0
    requires ratios.x + ratios.y == 1.0 && 3.0 * (ratios.y + RatioEpsilon) <= ratios.x
    requires Dot(position, position) < PositionLimit * PositionLimit
    ensures ScorePose(m, position, orientation, ratios, n) == Scores(1.0, 1.0, 1.0, 1.0, 1.0)
  {
    assert PointSufficiency(n) == 1.0;
    assert Orthogonality(m, orientation) == 1.0;
    assert DirectionClarity(ratios) == 1.0;
    assert Stability(m, position) == 1.0;
  }

  /** More points never lower the confidence. */
  lemma MorePointsNoLessConfident(m: MathLib, position: Vec3, orientation: Mat3, ratios: Vec3, n1: nat, n2: nat)
    requires Lawful(m) && 0.0 <= ratios.y && n1 <= n2
    ensures ValidatePose(m, position, orientation, ratios, n1).0 <= ValidatePose(m, position, orientation, ratios, n2).0
  {
    PointSufficiencyMonotone(n1, n2);
  }

  // ---------------------------------------------------------------------------------------------
  // The estimate

  /** Why `estimate_6d_pose` fell back to the degenerate pose: a one-dimensional array has no
      second axis (`IndexError`), fewer than three columns (`ValueError`), fewer points than the
      estimator's minimum, or a centre method it does not know (`ValueError`). */
  datatype PoseError =
    | NoColumnAxis
    | TooFewColumns(width: nat)
    | TooFewPoints(count: nat, minPoints: int)
    | UnsupportedCenter(how: string)

  /** `pca_info`: the variances, their ratios and the ratios' total. */
  datatype PcaInfo = PcaInfo(eigenvalues: Vec3, ratios: Vec3, totalRatio: real)

  /** The metadata dictionary; the object type and the adapted method are only added by
      `estimate_pose_for_object_type`. */
  datatype Metadata = Metadata(nPoints: nat, success: bool, error: Option<PoseError>,
                               pca: Option<PcaInfo>, scores: Option<Scores>,
                               objectType: Option<string>, adaptedMethod: Option<string>)

  /** The six results of `estimate_6d_pose`. */
  datatype Pose = Pose(position: Vec3, orientation: Mat3, principalAxes: Mat3, scale: Vec3,
                       confidence: real, meta: Metadata)

  /** The fallback: origin, identity axes, unit scale and no confidence. */
  function Degenerate(n: nat, e: PoseError): (r: Pose)
    ensures !r.meta.success && r.meta.error == Some(e) && r.meta.nPoints == n
  {
    Pose(Zero, Identity, Identity, Ones, 0.0, Metadata(n, false, Some(e), None, None, None, None))
  }

  predicate IsDegenerate(p: Pose) {
    p.position == Zero && p.orientation == Identity && p.principalAxes == Identity
    && p.scale == Ones && p.confidence == 0.0 && !p.meta.success && p.meta.error.Some?
    && p.meta.pca.None? && p.meta.scores.None?
  }

  /** The points moved so that `c` is the origin: `points - position`. */
  function Centred(ps: seq<Vec3>, c: Vec3): seq<Vec3> { Shift(ps, Neg(c)) }

  /** Steps 3 to 7 of `estimate_6d_pose` once the centre is known. */
  function Analyse(lib: PoseLib, ps: seq<Vec3>, position: Vec3): (r: Pose)
    requires LawfulLib(lib)
    ensures r.meta.success && r.meta.error.None? && r.meta.nPoints == |ps| && r.position == position
    ensures r.orientation == Transpose(r.principalAxes)
    ensures ScaleFloor <= r.scale.x && ScaleFloor <= r.scale.y && ScaleFloor <= r.scale.z
    ensures 0.0 <= r.confidence <= 1.0
    ensures r.meta.pca.Some? && RatiosValid(r.meta.pca.value.ratios)
  {
    var centred := Centred(ps, position);
    var pca := ComputePca(lib, centred);
    var axes := AlignPrincipalAxes(pca.components, centred);
    var orientation := Transpose(axes);
    var validation := ValidatePose(lib.math, position, orientation, pca.ratios, |ps|);
    var info := PcaInfo(pca.eigenvalues, pca.ratios, pca.ratios.x + pca.ratios.y + pca.ratios.z);
    Pose(position, orientation, axes, EstimateScale(centred, axes), validation.0,
         Metadata(|ps|, true, None, Some(info), Some(validation.1), None, None))
  }

  /** `estimate_6d_pose` from the point coordinates on: too few points, or a centre method it
      does not know, give the degenerate pose; otherwise the analysis about the centre. */
  function EstimateFromPoints(est: Estimator, lib: PoseLib, ps: seq<Vec3>): (r: Pose)
    requires LawfulLib(lib)
    ensures r.meta.nPoints == |ps|
    ensures r.meta.success <==> est.minPoints <= |ps| && (|ps| == 0 || est.centerMethod in CenterMethods)
    ensures |ps| < est.minPoints ==> IsDegenerate(r) && r.meta.error == Some(TooFewPoints(|ps|, est.minPoints))
    ensures est.minPoints <= |ps| && !r.meta.success ==>
      IsDegenerate(r) && r.meta.error == Some(UnsupportedCenter(est.centerMethod))
  {
    if |ps| < est.minPoints then Degenerate(|ps|, TooFewPoints(|ps|, est.minPoints))
    else match ComputeCenter(lib.math, est.centerMethod, ps)
      case Err(_) => Degenerate(|ps|, UnsupportedCenter(est.centerMethod))
      case Ok(position) => Analyse(lib, ps, position)
  }

  /** A successful estimate: each axis is the analysis's axis of the centred points or its
      reverse, with the points not behind it on average; the scale is the spread of the cloud
      itself along the axes; the position lies in the cloud's bounding box. */
  lemma SuccessfulPose(est: Estimator, lib: PoseLib, ps: seq<Vec3>)
    requires LawfulLib(lib) && EstimateFromPoints(est, lib, ps).meta.success
    ensures var r := EstimateFromPoints(est, lib, ps);
      var centred := Centred(ps, r.position);
      && r.position == ComputeCenter(lib.math, est.centerMethod, ps).value
      && (forall i :: 0 <= i < 3 ==>
            var a := Row(r.principalAxes, i);
            var c := Row(ComputePca(lib, centred).components, i);
            (a == c || a == Neg(c)) && !MostlyBehind(centred, a))
      && r.scale == EstimateScale(ps, r.principalAxes)
      && (|ps| > 0 ==> InBox(r.position, BoxMin(ps), BoxMax(ps)))
  {
    var r := EstimateFromPoints(est, lib, ps);
    var position := ComputeCenter(lib.math, est.centerMethod, ps).value;
    assert r == Analyse(lib, ps, position);
    var centred := Centred(ps, position);
    AlignedAxes(ComputePca(lib, centred).components, centred);
    ScaleShiftInvariant(ps, Neg(position), r.principalAxes);
    if |ps| > 0 { CenterInBox(lib.math, est.centerMethod, ps); }
  }

  /** The rows of a table of `n` rows and `w` columns lie inside its entries. */
  lemma StrideInside(n: nat, w: nat, i: nat)
    requires i < n && 3 <= w
    ensures w * i + 3 <= n * w
  {
    assert w * i + w == w * (i + 1);
    assert w * (i + 1) <= w * n;
  }

  /** `point_cloud[:, :3]`: the first three columns of a table of `n` rows and `w` columns. */
  function LeadingColumns(data: seq<real>, n: nat, w: nat): (r: seq<Vec3>)
    requires 3 <= w && |data| == n * w
    ensures |r| == n
    ensures forall i :: 0 <= i < n ==> w * i + 3 <= |data| && r[i] == Vec3(data[w * i], data[w * i + 1], data[w * i + 2])
  {
    seq(n, i requires 0 <= i < n => StrideInside(n, w, i); Vec3(data[w * i], data[w * i + 1], data[w * i + 2]))
  }

  /** With exactly three columns the leading columns are the rows. */
  lemma ThreeColumnsAreRows(data: seq<real>, n: nat)
    requires |data| == n * 3
    ensures LeadingColumns(data, n, 3) == Rows(data, n)
  {
  }

  /** `estimate_6d_pose`. A zero-dimensional array has no length and raises `TypeError` before
      the guarded part; every other failure gives the degenerate pose with the reason; otherwise
      the estimate from the first three columns. */
  function Estimate6dPose(est: Estimator, lib: PoseLib, cloud: NdArray): (r: Result<Pose, string>)
    requires LawfulLib(lib) && WellFormed(cloud) && |cloud.shape| <= 2
    ensures r.Err? <==> cloud.shape == []
    ensures r.Err? ==> r.error == "TypeError"
    ensures r.Ok? ==> r.value.meta.nPoints == cloud.shape[0]
    ensures r.Ok? ==> (r.value.meta.success <==>
      |cloud.shape| == 2 && 3 <= cloud.shape[1] && est.minPoints <= cloud.shape[0]
      && (cloud.shape[0] == 0 || est.centerMethod in CenterMethods))
    ensures r.Ok? && |cloud.shape| == 1 ==> IsDegenerate(r.value) && r.value.meta.error == Some(NoColumnAxis)
    ensures r.Ok? && |cloud.shape| == 2 && cloud.shape[1] < 3 ==>
      IsDegenerate(r.value) && r.value.meta.error == Some(TooFewColumns(cloud.shape[1]))
  {
    if |cloud.shape| == 0 then Err("TypeError")
    else
      var n := cloud.shape[0];
      if |cloud.shape| == 1 then Ok(Degenerate(n, NoColumnAxis))
      else
        var w := cloud.shape[1];
        if w < 3 then Ok(Degenerate(n, TooFewColumns(w)))
        else
          SizeOfPair(n, w);
          assert cloud.shape == [n, w];
          Ok(EstimateFromPoints(est, lib, LeadingColumns(cloud.data, n, w)))
  }

  /** An N x 3 array built from points is estimated from exactly those points. */
  lemma PointArrayEstimate(est: Estimator, lib: PoseLib, ps: seq<Vec3>)
    requires LawfulLib(lib)
    ensures Estimate6dPose(est, lib, RowsArray(ps)) == Ok(EstimateFromPoints(est, lib, ps))
  {
    var a := RowsArray(ps);
    SizeOfPair(|ps|, 3);
    ThreeColumnsAreRows(a.data, |ps|);
    RowsRoundTrip(ps);
    assert AsRows3(a) == Some(Rows(a.data, |ps|));
  }

  /** With no points no axis is reversed: only the handedness fix applies. */
  lemma EmptyAlign(c: Mat3)
    ensures AlignPrincipalAxes(c, []) == FixHandedness(c)
  {
  }

  // ---------------------------------------------------------------------------------------------
  // Object types

  const MedianTypes: set<string> := {"sofa", "couch"}
  const MeanTypes: set<string> := {"chair", "stool", "table", "desk", "diningtable"}

  /** The centre method `estimate_pose_for_object_type` uses for a type, compared in lower
      case: the geometric median for sofas and couches, the mean for chairs, stools, tables,
      desks and dining tables, the configured method for anything else. */
  function AdaptedMethod(objectType: string, current: string): (r: string)
    ensures Text.Lower(objectType) in MedianTypes ==> r == "geometric_median"
    ensures Text.Lower(objectType) in MeanTypes ==> r == "mean"
    ensures Text.Lower(objectType) !in MedianTypes + MeanTypes ==> r == current
  {
    var t := Text.Lower(objectType);
    if t in MedianTypes then "geometric_median"
    else if t in MeanTypes then "mean"
    else current
  }

  /** `estimate_pose_for_object_type`: the estimate with the method adapted to the type, and
      the type and the method recorded in the metadata. The estimator is a value, so restoring
      its method afterwards is implicit. */
  function EstimatePoseForObjectType(est: Estimator, lib: PoseLib, cloud: NdArray, objectType: string): (r: Result<Pose, string>)
    requires LawfulLib(lib) && WellFormed(cloud) && |cloud.shape| <= 2
    ensures r.Err? <==> cloud.shape == []
    ensures r.Ok? ==>
      var how := AdaptedMethod(objectType, est.centerMethod);
      var base := Estimate6dPose(est.(centerMethod := how), lib, cloud).value;
      && r.value.meta.objectType == Some(objectType) && r.value.meta.adaptedMethod == Some(how)
      && r.value == base.(meta := base.meta.(objectType := Some(objectType), adaptedMethod := Some(how)))
  {
    var how := AdaptedMethod(objectType, est.centerMethod);
    match Estimate6dPose(est.(centerMethod := how), lib, cloud)
    case Err(e) => Err(e)
    case Ok(p) => Ok(p.(meta := p.meta.(objectType := Some(objectType), adaptedMethod := Some(how))))
  }

  /** Types are matched in any case; unknown types keep the configured method. */
  lemma ObjectTypeDispatch(current: string)
    ensures AdaptedMethod("Sofa", current) == "geometric_median"
    ensures AdaptedMethod("COUCH", current) == "geometric_median"
    ensures AdaptedMethod("DiningTable", current) == "mean"
    ensures AdaptedMethod("Bed", current) == current
  {
    assert Text.Lower("Sofa") == "sofa";
    assert Text.Lower("COUCH") == "couch";
    assert Text.Lower("DiningTable") == "diningtable";
    assert Text.Lower("Bed") == "bed";
  }

  /** A known type overrides an unknown configured method: a sofa of enough points succeeds
      whatever the estimator was configured with. */
  lemma KnownTypeSucceeds(est: Estimator, lib: PoseLib, ps: seq<Vec3>, objectType: string)
    requires LawfulLib(lib) && est.minPoints <= |ps|
    requires Text.Lower(objectType) in MedianTypes + MeanTypes
    ensures var r := EstimatePoseForObjectType(est, lib, RowsArray(ps), objectType);
      r.Ok? && r.value.meta.success
  {
    var how := AdaptedMethod(objectType, est.centerMethod);
    assert how in CenterMethods;
    PointArrayEstimate(est.(centerMethod := how), lib, ps);
  }
}

=== FILE: real_math.dfy ===
/** The floating-point library routines the source calls, kept abstract. Floats are modelled as
    reals; each routine is a field of `MathLib` and `Lawful` states the only facts proofs rely on. */
module RealMath {

  /** `math.sqrt`, `math.degrees(math.atan2(y, x))`, sine, cosine and tangent of an angle in degrees,
      and `round(x, 4)`. */
  datatype MathLib = MathLib(
    sqrt: real -> real,
    atan2Deg: (real, real) -> real,
    sinDeg: real -> real,
    cosDeg: real -> real,
    tanDeg: real -> real,
    round4: real -> real)

  ghost predicate Lawful(m: MathLib) {
    && (forall x :: 0.0 <= x ==> 0.0 <= m.sqrt(x) && m.sqrt(x) * m.sqrt(x) == x)
    && (forall y, x :: -180.0 <= m.atan2Deg(y, x) <= 180.0)
    // The four quadrants around the axes: the angle of (y, x) is within 45 degrees of the axis
    // whose coordinate dominates.
    && (forall y, x :: 0.0 < x && -x < y < x ==> -45.0 < m.atan2Deg(y, x) < 45.0)
    && (forall y, x :: 0.0 < y && -y < x < y ==> 45.0 < m.atan2Deg(y, x) < 135.0)
    && (forall y, x :: x < 0.0 && x < y < -x ==> (135.0 < m.atan2Deg(y, x) || m.atan2Deg(y, x) < -135.0))
    && (forall y, x :: y < 0.0 && y < x < -y ==> -135.0 < m.atan2Deg(y, x) < -45.0)
    && (forall t :: m.sinDeg(t) * m.sinDeg(t) + m.cosDeg(t) * m.cosDeg(t) == 1.0)
    && m.sinDeg(0.0) == 0.0 && m.cosDeg(0.0) == 1.0
    && m.tanDeg(45.0) == 1.0
    && (forall x :: -0.00005 <= m.round4(x) - x <= 0.00005)
  }

  function Sq(x: real): real { x * x }

  function Max(a: real, b: real): (r: real)
    ensures r >= a && r >= b && (r == a || r == b)
  {
    if a >= b then a else b
  }

  function Min(a: real, b: real): (r: real)
    ensures r <= a && r <= b && (r == a || r == b)
  {
    if a <= b then a else b
  }

  /** `math.sqrt(a**2 + b**2)`: the Euclidean length of (a, b). */
  function Hypot(m: MathLib, a: real, b: real): (r: real)
    requires Lawful(m)
    ensures 0.0 <= r && r * r == a * a + b * b
  {
    m.sqrt(Sq(a) + Sq(b))
  }

  lemma SquareLess(r: real, t: real)
    requires 0.0 <= r < t
    ensures r * r < t * t
  {
    assert r * (t - r) >= 0.0;
    assert t * (t - r) > 0.0;
    assert r * t - r * r >= 0.0;
    assert t * t - r * t > 0.0;
  }

  /** The square of a non-zero number is positive. */
  lemma SqPositive(a: real)
    requires a != 0.0
    ensures Sq(a) > 0.0
  {
    if a > 0.0 {
      SquareLess(0.0, a);
    } else {
      SquareLess(0.0, -a);
      assert a * a == (-a) * (-a);
    }
  }

  /** A Euclidean length is zero exactly at the origin. */
  lemma HypotZero(m: MathLib, a: real, b: real)
    requires Lawful(m)
    ensures Hypot(m, a, b) == 0.0 <==> a == 0.0 && b == 0.0
  {
    var r := Hypot(m, a, b);
    if a != 0.0 || b != 0.0 {
      if a != 0.0 {
        SqPositive(a);
        if b != 0.0 { SqPositive(b); } else { assert Sq(b) == 0.0; }
      } else {
        SqPositive(b);
        assert Sq(a) == 0.0;
      }
      assert r * r > 0.0;
    } else {
      assert r * r == 0.0;
      if r > 0.0 { SquareLess(0.0, r); }
    }
  }

  /** A non-negative length compares with a threshold as its square does. */
  lemma BelowIffSquareBelow(r: real, q: real, t: real)
    requires 0.0 <= r && r * r == q && 0.0 <= t
    ensures r < t <==> q < t * t
    ensures r <= t <==> q <= t * t
  {
    if r < t {
      SquareLess(r, t);
    } else if r > t {
      SquareLess(t, r);
    }
  }

  /** `angle + 360 if angle < 0 else angle` for an `atan2` angle in degrees. */
  function NormalizeDegrees(a: real): (r: real)
    requires -180.0 <= a <= 180.0
    ensures 0.0 <= r < 360.0
    ensures r == a || r == a + 360.0
  {
    if a < 0.0 then a + 360.0 else a
  }
}

=== FILE: region_utils.dfy ===
/** Named sub-regions of large furniture, placed at fixed fractions of the box
    (`spatial_perception/region_utils.py`). */
module RegionUtils {
  import opened Wrappers
  import opened LinAlg
  import opened BasicSignature
  import Text
  import Dict

  /** `RegionSchema`. */
  datatype RegionSchema = Sofa | Table | Cabinet

  /** A schema given by value, or as a string to be looked up after lower-casing. */
  datatype SchemaArg = Named(name: string) | Member(schema: RegionSchema)

  function SchemaValue(s: RegionSchema): string {
    match s
    case Sofa => "sofa"
    case Table => "table"
    case Cabinet => "cabinet"
  }

  /** `RegionSchema(schema.lower())`: a string that names no schema raises `ValueError`. */
  function ParseSchema(arg: SchemaArg): (r: Result<RegionSchema, string>)
    ensures arg.Member? ==> r == Ok(arg.schema)
    ensures arg.Named? ==> (r.Ok? <==> Text.Lower(arg.name) in {"sofa", "table", "cabinet"})
    ensures arg.Named? && r.Ok? ==> SchemaValue(r.value) == Text.Lower(arg.name)
    ensures r.Err? ==> r.error == "ValueError"
  {
    match arg
    case Member(s) => Ok(s)
    case Named(name) =>
      var key := Text.Lower(name);
      if key == "sofa" then Ok(Sofa)
      else if key == "table" then Ok(Table)
      else if key == "cabinet" then Ok(Cabinet)
      else Err("ValueError")
  }

  /** The offsets of each schema's regions, in the source's table order, as fractions of the
      box size from its centre in the box's own axes. */
  function Offsets(s: RegionSchema): seq<(string, Vec3)> {
    match s
    case Sofa => [("seat", Vec3(0.0, 0.0, 0.0)), ("left_arm", Vec3(-0.4, 0.25, 0.0)),
                  ("right_arm", Vec3(0.4, 0.25, 0.0)), ("back", Vec3(0.0, 0.4, 0.4))]
    case Table => [("top_center", Vec3(0.0, 0.5, 0.0)), ("left_edge", Vec3(-0.45, 0.5, 0.0)),
                   ("right_edge", Vec3(0.45, 0.5, 0.0)), ("front_edge", Vec3(0.0, 0.5, 0.45)),
                   ("back_edge", Vec3(0.0, 0.5, -0.45))]
    case Cabinet => [("top_shelf", Vec3(0.0, 0.4, 0.0)), ("middle_shelf", Vec3(0.0, 0.0, 0.0)),
                     ("bottom_shelf", Vec3(0.0, -0.4, 0.0))]
  }

  /** The region points of a table of offsets, keyed as the table is. */
  function Centers(sig: Signature, offsets: seq<(string, Vec3)>): (r: Dict.Dict<string, Vec3>)
    ensures Dict.Keys(r) == Dict.Keys(offsets)
    ensures forall i :: 0 <= i < |r| ==> r[i].1 == RegionPoint(sig, offsets[i].1)
  {
    if offsets == [] then []
    else [(offsets[0].0, RegionPoint(sig, offsets[0].1))] + Centers(sig, offsets[1..])
  }

  /** `slice_aabb`: the schema's regions, each at its offset from the box centre, or
      `ValueError` for a schema name outside the three. */
  function SliceAabb(sig: Signature, arg: SchemaArg): (r: Result<Dict.Dict<string, Vec3>, string>)
    ensures r.Ok? <==> ParseSchema(arg).Ok?
    ensures r.Err? ==> r.error == "ValueError"
    ensures r.Ok? ==>
      var offsets := Offsets(ParseSchema(arg).value);
      && Dict.Keys(r.value) == Dict.Keys(offsets)
      && forall i :: 0 <= i < |offsets| ==>
           Dict.Get(r.value, offsets[i].0) == Some(RegionPoint(sig, offsets[i].1))
  {
    match ParseSchema(arg)
    case Err(e) => Err(e)
    case Ok(s) =>
      var r := Centers(sig, Offsets(s));
      DistinctKeysLookup(r);
      OffsetKeysDistinct(s);
      Ok(r)
  }

  lemma OffsetKeysDistinct(s: RegionSchema)
    ensures Dict.Distinct(Dict.Keys(Offsets(s)))
  {
  }

  /** In a table whose keys are distinct, each entry is what its key looks up. */
  lemma DistinctKeysLookup<V>(d: Dict.Dict<string, V>)
    ensures Dict.Distinct(Dict.Keys(d)) ==> forall i :: 0 <= i < |d| ==> Dict.Get(d, d[i].0) == Some(d[i].1)
  {
    if Dict.Distinct(Dict.Keys(d)) {
      forall i | 0 <= i < |d| ensures Dict.Get(d, d[i].0) == Some(d[i].1) {
        Dict.GetAt(d, i);
      }
    }
  }

  /** The key sets are exactly these names. */
  lemma SchemaKeys(sig: Signature)
    ensures Dict.Keys(SliceAabb(sig, Member(Sofa)).value) == ["seat", "left_arm", "right_arm", "back"]
    ensures Dict.Keys(SliceAabb(sig, Member(Table)).value)
         == ["top_center", "left_edge", "right_edge", "front_edge", "back_edge"]
    ensures Dict.Keys(SliceAabb(sig, Member(Cabinet)).value) == ["top_shelf", "middle_shelf", "bottom_shelf"]
  {
    OffsetKeys();
  }

  lemma OffsetKeys()
    ensures Dict.Keys(Offsets(Sofa)) == ["seat", "left_arm", "right_arm", "back"]
    ensures Dict.Keys(Offsets(Table)) == ["top_center", "left_edge", "right_edge", "front_edge", "back_edge"]
    ensures Dict.Keys(Offsets(Cabinet)) == ["top_shelf", "middle_shelf", "bottom_shelf"]
  {
    var a := Dict.Keys(Offsets(Sofa));
    assert a[0] == "seat" && a[1] == "left_arm" && a[2] == "right_arm" && a[3] == "back";
    var b := Dict.Keys(Offsets(Table));
    assert b[0] == "top_center" && b[1] == "left_edge" && b[2] == "right_edge";
    assert b[3] == "front_edge" && b[4] == "back_edge";
    var c := Dict.Keys(Offsets(Cabinet));
    assert c[0] == "top_shelf" && c[1] == "middle_shelf" && c[2] == "bottom_shelf";
  }

  /** The seat and the middle shelf sit at the box centre. */
  lemma CentredRegions(sig: Signature)
    ensures Dict.Get(SliceAabb(sig, Member(Sofa)).value, "seat") == Some(sig.center)
    ensures Dict.Get(SliceAabb(sig, Member(Cabinet)).value, "middle_shelf") == Some(sig.center)
  {
    assert RegionPoint(sig, Zero) == sig.center by {
      assert Mul(Zero, sig.size) == Zero;
      assert VecMat(Zero, sig.rotation) == Zero;
    }
    assert Offsets(Sofa)[0] == ("seat", Zero);
    assert Offsets(Cabinet)[1] == ("middle_shelf", Zero);
  }

  /** The midpoint of two region points, in world coordinates. */
  function Midpoint(a: Vec3, b: Vec3): Vec3 { Scale(0.5, Add(a, b)) }

  /** An offset reflected to the other side. */
  function Mirror(v: Vec3): Vec3 { Vec3(-v.x, v.y, v.z) }

  /** A region and its mirror image lie symmetrically about the point between them. */
  lemma MirrorSymmetric(sig: Signature, v: Vec3)
    ensures Midpoint(RegionPoint(sig, v), RegionPoint(sig, Mirror(v))) == RegionPoint(sig, Vec3(0.0, v.y, v.z))
  {
    RegionPointMidpoint(sig, v, Mirror(v));
    assert Scale(0.5, Add(v, Mirror(v))) == Vec3(0.0, v.y, v.z);
  }

  /** Left and right differ only in the sign of the sideways offset, and the table's left and
      right edges lie symmetrically about its top centre. */
  lemma MirroredRegions(sig: Signature)
    ensures Offsets(Sofa)[2].1 == Mirror(Offsets(Sofa)[1].1)
    ensures Offsets(Table)[2].1 == Mirror(Offsets(Table)[1].1)
    ensures Midpoint(RegionPoint(sig, Offsets(Table)[1].1), RegionPoint(sig, Offsets(Table)[2].1))
         == RegionPoint(sig, Offsets(Table)[0].1)
  {
    var left := Offsets(Table)[1].1;
    assert Offsets(Table)[2].1 == Mirror(left);
    MirrorSymmetric(sig, left);
  }

  /** Upper case is accepted: the name is lower-cased before the lookup. */
  lemma UpperCaseSchema()
    ensures ParseSchema(Named("Sofa")) == Ok(Sofa)
    ensures ParseSchema(Named("chair")) == Err("ValueError")
  {
    assert Text.Lower("Sofa") == "sofa";
    assert Text.Lower("chair") == "chair";
  }
}

=== FILE: roc_agent.dfy ===
/** The pure decisions of the base navigation agent: naming duplicate objects, the order in
    which a navigation target is looked up, the dialogue that picks among several objects of a
    type, the navigability rule, and the dispatch of an action string. */
module RocAgent {
  import opened Wrappers
  import opened Text
  import opened RealMath
  import opened Scene
  import opened Ordering
  import Dict
  import VlmResponseParser

  // ---------------------------------------------------------------------------------------------
  // Object indexing

  /** The name `init_object_indexing` gives the `k`-th object of a type: `<Type>_<k>`. */
  function IndexedName(t: string, k: nat): string { t + "_" + NatToString(k) }

  /** The type and the number can be read back from an indexed name. */
  lemma IndexedNameInjective(t1: string, k1: nat, t2: string, k2: nat)
    requires IndexedName(t1, k1) == IndexedName(t2, k2)
    ensures t1 == t2 && k1 == k2
  {
    var s := IndexedName(t1, k1);
    var d1 := NatToString(k1);
    var d2 := NatToString(k2);
    DigitsAfterLastUnderscore(t1, d1, t2, d2);
    DigitsAfterLastUnderscore(t2, d2, t1, d1);
    assert d1 == s[|s| - |d1|..] == d2;
    NatToStringInjective(k1, k2);
    assert t1 == s[..|t1|] == t2;
  }

  lemma IndexedNamesDiffer(t1: string, k1: nat, t2: string, k2: nat)
    requires t1 != t2
    ensures IndexedName(t1, k1) != IndexedName(t2, k2)
  {
    if IndexedName(t1, k1) == IndexedName(t2, k2) {
      IndexedNameInjective(t1, k1, t2, k2);
    }
  }

  /** In `t1 + "_" + d1 == t2 + "_" + d2` with digit strings `d1`, `d2`, the underscore before
      `d2` is not among the digits of `d1`. */
  lemma DigitsAfterLastUnderscore(t1: string, d1: string, t2: string, d2: string)
    requires t1 + "_" + d1 == t2 + "_" + d2
    requires forall i :: 0 <= i < |d1| ==> IsDigit(d1[i])
    ensures |d1| <= |d2|
  {
    var s := t1 + "_" + d1;
    var p := |s| - |d2| - 1;
    assert s[p] == '_';
    assert forall q :: |s| - |d1| <= q < |s| ==> s[q] == d1[q - |t1| - 1];
  }

  /** The names and objects of one type: only a type with more than one object is indexed, in
      the (x, z) order. */
  function TypeEntries(t: string, objs: seq<SceneObject>): (es: seq<(string, SceneObject)>)
    ensures |objs| <= 1 ==> es == []
    ensures |objs| > 1 ==> |es| == |objs|
    ensures |objs| > 1 ==> forall i :: 0 <= i < |objs| ==>
              es[i] == (IndexedName(t, i + 1), VlmResponseParser.SortConsistently(objs)[i])
  {
    if |objs| <= 1 then []
    else
      var sorted := VlmResponseParser.SortConsistently(objs);
      assert |sorted| == |multiset(sorted)| == |objs|;
      seq(|objs|, i requires 0 <= i < |objs| => (IndexedName(t, i + 1), sorted[i]))
  }

  /** Every entry, type by type in the order of the type dictionary. */
  function AllEntries(d: Dict.Dict<string, seq<SceneObject>>): seq<(string, SceneObject)> {
    if |d| == 0 then [] else TypeEntries(d[0].0, d[0].1) + AllEntries(d[1..])
  }

  /** An entry is the `i`-th sorted object of an indexed type, under its name. */
  predicate IsEntry(d: Dict.Dict<string, seq<SceneObject>>, a: int, i: int, p: (string, SceneObject)) {
    0 <= a < |d| && |d[a].1| > 1 && 0 <= i < |d[a].1|
    && p == (IndexedName(d[a].0, i + 1), VlmResponseParser.SortConsistently(d[a].1)[i])
  }

  lemma {:induction false} EntryMember(d: Dict.Dict<string, seq<SceneObject>>, p: (string, SceneObject))
    returns (a: nat, i: nat)
    requires p in AllEntries(d)
    ensures IsEntry(d, a, i, p)
  {
    var head := TypeEntries(d[0].0, d[0].1);
    assert AllEntries(d) == head + AllEntries(d[1..]);
    if p in head {
      var j :| 0 <= j < |head| && head[j] == p;
      a, i := 0, j;
    } else {
      assert p in AllEntries(d[1..]);
      var b, k := EntryMember(d[1..], p);
      assert d[1..][b] == d[b + 1];
      a, i := b + 1, k;
    }
  }

  lemma {:induction false} EntryPresent(d: Dict.Dict<string, seq<SceneObject>>, a: nat, i: nat)
    requires a < |d| && |d[a].1| > 1 && i < |d[a].1|
    ensures (IndexedName(d[a].0, i + 1), VlmResponseParser.SortConsistently(d[a].1)[i]) in AllEntries(d)
  {
    if a == 0 {
      assert TypeEntries(d[0].0, d[0].1)[i] == (IndexedName(d[a].0, i + 1), VlmResponseParser.SortConsistently(d[a].1)[i]);
    } else {
      EntryPresent(d[1..], a - 1, i);
    }
  }

  /** Distinct types give distinct names. */
  lemma {:induction false} EntryKeysDistinct(d: Dict.Dict<string, seq<SceneObject>>)
    requires Dict.Distinct(Dict.Keys(d))
    ensures Dict.Distinct(Dict.Keys(AllEntries(d)))
  {
    if |d| > 0 {
      assert Dict.Keys(d[1..]) == Dict.Keys(d)[1..];
      EntryKeysDistinct(d[1..]);
      var head := TypeEntries(d[0].0, d[0].1);
      var rest := AllEntries(d[1..]);
      HeadKeysDistinct(d[0].0, d[0].1);
      forall p, q | p in head && q in rest ensures p.0 != q.0 {
        HeadRestApart(d, p, q);
      }
      DistinctConcat(head, rest);
    }
  }

  lemma HeadKeysDistinct(t: string, objs: seq<SceneObject>)
    ensures Dict.Distinct(Dict.Keys(TypeEntries(t, objs)))
  {
    var es := TypeEntries(t, objs);
    forall i, j | 0 <= i < j < |es| ensures es[i].0 != es[j].0 {
      if es[i].0 == es[j].0 { IndexedNameInjective(t, i + 1, t, j + 1); }
    }
  }

  lemma HeadRestApart(d: Dict.Dict<string, seq<SceneObject>>, p: (string, SceneObject), q: (string, SceneObject))
    requires Dict.Distinct(Dict.Keys(d)) && |d| > 0
    requires p in TypeEntries(d[0].0, d[0].1) && q in AllEntries(d[1..])
    ensures p.0 != q.0
  {
    var i := HeadEntryIndex(d[0].0, d[0].1, p);
    var b, k := EntryMember(d[1..], q);
    FirstTypeApart(d, b);
    IndexedNamesDiffer(d[0].0, i + 1, d[1..][b].0, k + 1);
  }

  lemma HeadEntryIndex(t: string, objs: seq<SceneObject>, p: (string, SceneObject)) returns (i: nat)
    requires p in TypeEntries(t, objs)
    ensures p.0 == IndexedName(t, i + 1)
  {
    var es := TypeEntries(t, objs);
    var j :| 0 <= j < |es| && es[j] == p;
    i := j;
  }

  lemma FirstTypeApart(d: Dict.Dict<string, seq<SceneObject>>, b: nat)
    requires Dict.Distinct(Dict.Keys(d)) && b + 1 < |d|
    ensures d[0].0 != d[1..][b].0
  {
    var ks := Dict.Keys(d);
    assert ks[0] != ks[b + 1];
  }

  lemma DistinctConcat<V>(xs: seq<(string, V)>, ys: seq<(string, V)>)
    requires Dict.Distinct(Dict.Keys(xs)) && Dict.Distinct(Dict.Keys(ys))
    requires forall p, q :: p in xs && q in ys ==> p.0 != q.0
    ensures Dict.Distinct(Dict.Keys(xs + ys))
  {
    var all := xs + ys;
    forall i, j | 0 <= i < j < |all| ensures all[i].0 != all[j].0 {
      if j < |xs| {
        assert Dict.Keys(xs)[i] != Dict.Keys(xs)[j];
      } else if i >= |xs| {
        assert Dict.Keys(ys)[i - |xs|] != Dict.Keys(ys)[j - |xs|];
      } else {
        assert all[i] in xs && all[j] in ys;
      }
    }
  }

  /** Among pairs with distinct keys, the last value of a pair's key is that pair's value. */
  lemma {:induction false} LastValueOfDistinct<V>(ps: seq<(string, V)>, j: nat)
    requires j < |ps| && Dict.Distinct(Dict.Keys(ps))
    ensures Dict.LastValue(ps, ps[j].0) == Some(ps[j].1)
  {
    if j < |ps| - 1 {
      assert Dict.Keys(ps)[j] != Dict.Keys(ps)[|ps| - 1];
      var init := ps[..|ps| - 1];
      assert Dict.Keys(init) == Dict.Keys(ps)[..|ps| - 1];
      LastValueOfDistinct(init, j);
    }
  }

  /** `init_object_indexing`: `<Type>_<k>` names the `k`-th object, in (x, z) order, of every
      type with more than one object, and nothing else is named. */
  function ObjectIndex(d: Dict.Dict<string, seq<SceneObject>>): (r: Dict.Dict<string, SceneObject>)
    requires Dict.Distinct(Dict.Keys(d))
    ensures forall a, i :: 0 <= a < |d| && |d[a].1| > 1 && 0 <= i < |d[a].1| ==>
              Dict.Get(r, IndexedName(d[a].0, i + 1)) == Some(VlmResponseParser.SortConsistently(d[a].1)[i])
    ensures forall k :: k in Dict.Keys(r) ==>
              exists a, i :: IsEntry(d, a, i, (k, Dict.Get(r, k).value))
  {
    var ps := AllEntries(d);
    var r := Dict.FromPairs(ps);
    EntryKeysDistinct(d);
    forall a, i | 0 <= a < |d| && |d[a].1| > 1 && 0 <= i < |d[a].1|
      ensures Dict.Get(r, IndexedName(d[a].0, i + 1)) == Some(VlmResponseParser.SortConsistently(d[a].1)[i])
    {
      EntryPresent(d, a, i);
      var p := (IndexedName(d[a].0, i + 1), VlmResponseParser.SortConsistently(d[a].1)[i]);
      var j :| 0 <= j < |ps| && ps[j] == p;
      LastValueOfDistinct(ps, j);
    }
    forall k | k in Dict.Keys(r) ensures exists a, i :: IsEntry(d, a, i, (k, Dict.Get(r, k).value)) {
      assert k in Dict.Keys(ps);
      var j := Dict.LastValueWitness(ps, k);
      var a, i := EntryMember(d, ps[j]);
    }
    r
  }

  /** Sorting by `(position['x'], position['z'])` reads both keys of every object it sorts. */
  predicate PositionKeyed(o: SceneObject) { o.position.x.Some? && o.position.z.Some? }

  /** Some object of a type with more than one object lacks its x or z key. */
  predicate IndexingRaises(d: Dict.Dict<string, seq<SceneObject>>) {
    exists a, i :: 0 <= a < |d| && |d[a].1| > 1 && 0 <= i < |d[a].1| && !PositionKeyed(d[a].1[i])
  }

  /** `init_object_indexing` with its failure: the sort of a type with more than one object
      raises `KeyError` when one of them lacks x or z; otherwise the index of `ObjectIndex`. A type
      with one object is never sorted, so its position is never read. */
  function InitObjectIndexing(d: Dict.Dict<string, seq<SceneObject>>): (r: Result<Dict.Dict<string, SceneObject>, string>)
    requires Dict.Distinct(Dict.Keys(d))
    ensures r.Err? <==> exists a, i :: 0 <= a < |d| && |d[a].1| > 1 && 0 <= i < |d[a].1| && !PositionKeyed(d[a].1[i])
    ensures r.Err? ==> r.error == "KeyError"
    ensures r.Ok? ==> forall a, i :: 0 <= a < |d| && |d[a].1| > 1 && 0 <= i < |d[a].1| ==>
              Dict.Get(r.value, IndexedName(d[a].0, i + 1)) == Some(VlmResponseParser.SortConsistently(d[a].1)[i])
    ensures r.Ok? ==> forall k :: k in Dict.Keys(r.value) ==> exists a, i :: IsEntry(d, a, i, (k, Dict.Get(r.value, k).value))
  {
    if IndexingRaises(d) then Err("KeyError") else Ok(ObjectIndex(d))
  }

  /** Objects that are alone of their type may lack a position without the indexing failing. */
  lemma SingletonsNeverRaise(d: Dict.Dict<string, seq<SceneObject>>)
    requires Dict.Distinct(Dict.Keys(d))
    requires forall a :: 0 <= a < |d| ==> |d[a].1| <= 1
    ensures InitObjectIndexing(d) == Ok(ObjectIndex(d))
    ensures forall a, n :: 0 <= a < |d| ==> Dict.Get(ObjectIndex(d), IndexedName(d[a].0, n)).None?
  {
    forall a, n | 0 <= a < |d| ensures Dict.Get(ObjectIndex(d), IndexedName(d[a].0, n)).None? {
      SingletonsUnnamed(d, a, n);
    }
  }

  /** A type with at most one object has no indexed name. */
  lemma SingletonsUnnamed(d: Dict.Dict<string, seq<SceneObject>>, a: nat, n: nat)
    requires Dict.Distinct(Dict.Keys(d)) && a < |d| && |d[a].1| <= 1
    ensures Dict.Get(ObjectIndex(d), IndexedName(d[a].0, n)).None?
  {
    var k := IndexedName(d[a].0, n);
    var r := ObjectIndex(d);
    if k in Dict.Keys(r) {
      var b, i :| IsEntry(d, b, i, (k, Dict.Get(r, k).value));
      EntryNameOfOtherType(d, a, n, b, i);
    }
  }

  /** The name of an entry of another type than the `a`-th is no name of that type. */
  lemma EntryNameOfOtherType(d: Dict.Dict<string, seq<SceneObject>>, a: nat, n: nat, b: int, i: int)
    requires Dict.Distinct(Dict.Keys(d)) && a < |d| && |d[a].1| <= 1
    requires 0 <= b < |d| && |d[b].1| > 1 && 0 <= i
    ensures IndexedName(d[b].0, i + 1) != IndexedName(d[a].0, n)
  {
    var ks := Dict.Keys(d);
    if a < b {
      assert ks[a] != ks[b];
    } else {
      assert ks[b] != ks[a];
    }
    IndexedNamesDiffer(d[b].0, i + 1, d[a].0, n);
  }

  // ---------------------------------------------------------------------------------------------
  // Navigation lookup

  /** Where `navigate` gets its object: an indexed or single object, the dialogue among several,
      an object by target id, nothing (`None, None, None`), or an exception. */
  datatype Lookup =
    | Found(obj: SceneObject)
    | AskUser(objects: seq<SceneObject>)
    | ByTargetId(id: string)
    | NotFound
    | Raises(error: string)

  /** The lookup order of `navigate`: an indexed name; the objects of the type (the dialogue when
      there are several and it is enabled, the first object otherwise); the target ids, the
      second one in the two special tasks once something is held; nothing. */
  function NavigationLookup(indexed: Dict.Dict<string, SceneObject>, typeObjects: Dict.Dict<string, seq<SceneObject>>,
                            targetIds: Dict.Dict<string, seq<string>>, itemtype: string,
                            dialogue: bool, secondTarget: bool): (r: Lookup)
    ensures itemtype in Dict.Keys(indexed) ==> r == Found(Dict.Get(indexed, itemtype).value)
    ensures itemtype !in Dict.Keys(indexed) && itemtype in Dict.Keys(typeObjects) ==>
      var objs := Dict.Get(typeObjects, itemtype).value;
      && (|objs| > 1 && dialogue ==> r == AskUser(objs))
      && (|objs| > 1 && !dialogue ==> r == Found(objs[0]))
      && (|objs| == 1 ==> r == Found(objs[0]))
      && (|objs| == 0 ==> r.Raises?)
      && (|objs| == 0 ==> r == Raises("IndexError"))
    ensures itemtype !in Dict.Keys(indexed) && itemtype !in Dict.Keys(typeObjects) ==>
      (itemtype !in Dict.Keys(targetIds) <==> r == NotFound)
    ensures itemtype !in Dict.Keys(indexed) && itemtype !in Dict.Keys(typeObjects) && itemtype in Dict.Keys(targetIds) ==>
      var ids := Dict.Get(targetIds, itemtype).value;
      var k := if secondTarget then 1 else 0;
      && (k < |ids| ==> r == ByTargetId(ids[k]))
      && (k >= |ids| ==> r == Raises("IndexError"))
    ensures r.ByTargetId? ==>
      var ids := Dict.Get(targetIds, itemtype).value;
      && itemtype !in Dict.Keys(indexed) && itemtype !in Dict.Keys(typeObjects)
      && (if secondTarget then 1 else 0) < |ids| && r.id == ids[if secondTarget then 1 else 0]
  {
    match Dict.Get(indexed, itemtype)
    case Some(o) => Found(o)
    case None =>
      match Dict.Get(typeObjects, itemtype)
      case Some(objs) =>
        if |objs| > 1 && dialogue then AskUser(objs)
        else if |objs| == 1 then Found(objs[0])
        else if |objs| == 0 then Raises("IndexError")
        else Found(objs[0])
      case None =>
        match Dict.Get(targetIds, itemtype)
        case Some(ids) =>
          var k := if secondTarget then 1 else 0;
          if k < |ids| then ByTargetId(ids[k]) else Raises("IndexError")
        case None => NotFound
  }

  /** An indexed name reaches exactly the object it was given to, whatever else is known. */
  lemma IndexedNameNavigates(d: Dict.Dict<string, seq<SceneObject>>, targetIds: Dict.Dict<string, seq<string>>,
                             a: nat, i: nat, dialogue: bool, secondTarget: bool)
    requires Dict.Distinct(Dict.Keys(d)) && a < |d| && |d[a].1| > 1 && i < |d[a].1|
    ensures NavigationLookup(ObjectIndex(d), d, targetIds, IndexedName(d[a].0, i + 1), dialogue, secondTarget)
         == Found(VlmResponseParser.SortConsistently(d[a].1)[i])
  {
  }

  // ---------------------------------------------------------------------------------------------
  // Confidence in a VLM reply

  const ConfidenceMarker: string := "Confidence for task:"
  const DefaultConfidence: int := 25
  const ConfidenceGapThreshold: int := 30

  /** The first occurrence of `needle` at or after `i`. */
  function FindFrom(s: string, needle: string, i: nat): (r: Option<nat>)
    requires i <= |s|
    ensures r.Some? ==> i <= r.value && OccursAt(s, r.value, needle)
    ensures r.Some? ==> forall q :: i <= q < r.value ==> !OccursAt(s, q, needle)
    ensures r.None? ==> forall q :: i <= q ==> !OccursAt(s, q, needle)
    decreases |s| - i
  {
    if OccursAt(s, i, needle) then Some(i)
    else if i == |s| then None
    else FindFrom(s, needle, i + 1)
  }

  /** `s.split(sep)[-1]`: the occurrences are found left to right without overlap, and the text
      after the last one found is the last piece. */
  function LastPiece(s: string, sep: string): (r: string)
    requires |sep| > 0
    ensures |r| <= |s| && r == s[|s| - |r|..]
    decreases |s|
  {
    match FindFrom(s, sep, 0)
    case None => s
    case Some(p) =>
      var rest := s[p + |sep|..];
      var r := LastPiece(rest, sep);
      assert rest[|rest| - |r|..] == s[|s| - |r|..];
      r
  }

  /** The first whitespace-separated word of `s` (`s.split()[0]`), if there is one. */
  function FirstWord(s: string): (r: Option<string>)
    ensures r.Some? ==> |r.value| > 0 && forall i :: 0 <= i < |r.value| ==> !IsSpace(r.value[i])
    ensures r.None? <==> forall i :: 0 <= i < |s| ==> IsSpace(s[i])
  {
    var t := s[LeadingSpace(s)..];
    if |t| == 0 then None else Some(t[..WordLength(t)])
  }

  /** The length of the run of non-whitespace characters `s` starts with. */
  function WordLength(s: string): (n: nat)
    ensures n <= |s|
    ensures forall i :: 0 <= i < n ==> !IsSpace(s[i])
    ensures n < |s| ==> IsSpace(s[n])
    ensures |s| > 0 && !IsSpace(s[0]) ==> n > 0
  {
    if |s| == 0 || IsSpace(s[0]) then 0 else 1 + WordLength(s[1..])
  }

  /** The confidence `analyze_candidates_with_vlm` reads from a reply: the integer that starts
      the text after the last marker, and 25 when there is no marker, no word after it, or a
      word that is not an integer. */
  function ConfidenceOf(reply: string): (c: int)
    ensures !Contains(reply, ConfidenceMarker) ==> c == DefaultConfidence
    ensures Contains(reply, ConfidenceMarker) ==>
      var w := FirstWord(Strip(LastPiece(reply, ConfidenceMarker)));
      && (w.Some? && ParseInt(w.value).Some? ==> c == ParseInt(w.value).value)
      && (w.None? || ParseInt(w.value).None? ==> c == DefaultConfidence)
  {
    if !Contains(reply, ConfidenceMarker) then DefaultConfidence
    else
      match FirstWord(Strip(LastPiece(reply, ConfidenceMarker)))
      case None => DefaultConfidence
      case Some(w) =>
        match ParseInt(w)
        case Some(n) => n
        case None => DefaultConfidence
  }

  /** The marker starts with its only capital C, so two occurrences never overlap and none
      starts in text without a capital C. */
  lemma MarkerCapital()
    ensures ConfidenceMarker[0] == 'C'
    ensures forall k :: 0 < k < |ConfidenceMarker| ==> ConfidenceMarker[k] != 'C'
  {
  }

  /** The last piece after the marker is what follows its last occurrence, when no capital C
      comes after it. */
  lemma {:induction false} LastPieceAfterMarker(a: string, b: string)
    requires 'C' !in b
    ensures LastPiece(a + ConfidenceMarker + b, ConfidenceMarker) == b
    decreases |a|
  {
    var m := ConfidenceMarker;
    var s := a + m + b;
    MarkerCapital();
    assert OccursAt(s, |a|, m) by { assert s[|a|..|a| + |m|] == m; }
    var p := FindFrom(s, m, 0).value;
    assert s[p..p + |m|] == m;
    if p == |a| {
      assert s[p + |m|..] == b;
      NoMarkerWithoutCapital(b);
    } else {
      forall k | p < k < p + |m| ensures s[k] != 'C' {
        assert s[k] == s[p..p + |m|][k - p];
      }
      assert s[|a|] == 'C';
      var a' := a[p + |m|..];
      assert s[p + |m|..] == a' + m + b;
      LastPieceAfterMarker(a', b);
    }
  }

  lemma NoMarkerWithoutCapital(b: string)
    requires 'C' !in b
    ensures FindFrom(b, ConfidenceMarker, 0).None?
  {
    MarkerCapital();
    var m := ConfidenceMarker;
    forall q | 0 <= q ensures !OccursAt(b, q, m) {
      if q + |m| <= |b| {
        assert b[q] in b;
        assert b[q..q + |m|][0] == b[q];
      }
    }
  }

  /** A reply ending in the marker, a space and a number is read as that number. */
  lemma ConfidenceReadsStatedNumber(a: string, n: nat)
    ensures ConfidenceOf(a + ConfidenceMarker + " " + NatToString(n)) == n
  {
    var b := " " + NatToString(n);
    var reply := a + ConfidenceMarker + b;
    assert a + ConfidenceMarker + " " + NatToString(n) == reply;
    BlankNumeralHasNoCapital(n);
    LastPieceAfterMarker(a, b);
    assert OccursAt(reply, |a|, ConfidenceMarker) by {
      assert reply[|a|..|a| + |ConfidenceMarker|] == ConfidenceMarker;
    }
    ContainsAt(reply, |a|, ConfidenceMarker);
    ConfidenceOfLastPiece(reply, n);
  }

  /** The number may follow the marker after any one whitespace character, as `strip()` and
      `split()` skip it: the information separators U+001C to U+001F included. */
  lemma ConfidenceSkipsSeparator(a: string, c: char, n: nat)
    requires IsSpace(c)
    ensures ConfidenceOf(a + ConfidenceMarker + [c] + NatToString(n)) == n
  {
    var b := [c] + NatToString(n);
    var reply := a + ConfidenceMarker + b;
    assert a + ConfidenceMarker + [c] + NatToString(n) == reply;
    SpacedNumeralHasNoCapital(c, n);
    LastPieceAfterMarker(a, b);
    assert OccursAt(reply, |a|, ConfidenceMarker) by {
      assert reply[|a|..|a| + |ConfidenceMarker|] == ConfidenceMarker;
    }
    ContainsAt(reply, |a|, ConfidenceMarker);
    ConfidenceOfSpacedPiece(reply, c, n);
  }

  /** A reply holding the marker whose last piece is one whitespace character and a numeral is
      read as that number. */
  lemma ConfidenceOfSpacedPiece(reply: string, c: char, n: nat)
    requires IsSpace(c) && Contains(reply, ConfidenceMarker)
    requires LastPiece(reply, ConfidenceMarker) == [c] + NatToString(n)
    ensures ConfidenceOf(reply) == n
  {
    NumeralAfterSpace(c, n);
    NumeralIsOneWord(n);
    ParseIntOfNatToString(n);
  }

  lemma SpacedNumeralHasNoCapital(c: char, n: nat)
    requires IsSpace(c)
    ensures 'C' !in [c] + NatToString(n)
  {
    var digits := NatToString(n);
    var b := [c] + digits;
    forall i | 0 <= i < |b| ensures b[i] != 'C' {
      if i > 0 { assert b[i] == digits[i - 1]; }
    }
  }

  /** A reply "Confidence for task:" followed by U+001C and "80" is read as 80. */
  lemma SeparatedConfidence()
    ensures ConfidenceOf("Confidence for task:\U{1C}80") == 80
  {
    assert NatToString(80) == "80";
    assert "" + ConfidenceMarker + ['\U{1C}'] + NatToString(80) == "Confidence for task:\U{1C}80";
    ConfidenceSkipsSeparator("", '\U{1C}', 80);
  }

  lemma BlankNumeralHasNoCapital(n: nat)
    ensures 'C' !in " " + NatToString(n)
  {
    var digits := NatToString(n);
    var b := " " + digits;
    forall i | 0 <= i < |b| ensures b[i] != 'C' {
      if i > 0 { assert b[i] == digits[i - 1]; }
    }
  }

  /** A reply holding the marker whose last piece is a blank and a numeral is read as that number. */
  lemma ConfidenceOfLastPiece(reply: string, n: nat)
    requires Contains(reply, ConfidenceMarker)
    requires LastPiece(reply, ConfidenceMarker) == " " + NatToString(n)
    ensures ConfidenceOf(reply) == n
  {
    NumeralIsPlain(n);
    NumeralIsOneWord(n);
    ParseIntOfNatToString(n);
  }

  lemma NumeralIsOneWord(n: nat)
    ensures FirstWord(NatToString(n)) == Some(NatToString(n))
  {
    var s := NatToString(n);
    assert LeadingSpace(s) == 0;
    assert s[0..] == s;
    DigitsAreOneWord(s);
    assert s[..|s|] == s;
  }

  lemma {:induction false} DigitsAreOneWord(s: string)
    requires forall i :: 0 <= i < |s| ==> IsDigit(s[i])
    ensures WordLength(s) == |s|
  {
    if |s| > 0 {
      DigitsAreOneWord(s[1..]);
    }
  }

  // ---------------------------------------------------------------------------------------------
  // Dialogue

  /** One analysed candidate: the object, its 1-based position among the candidates, and the
      confidence read from the reply about it. */
  datatype Analysis = Analysis(obj: SceneObject, index: nat, confidence: int)

  function ByConfidence(x: Analysis): Key { DescKey(x.confidence as real) }

  /** The analyses of the candidates the agent could go and look at (`reached`), each with the
      confidence of its reply, in candidate order. */
  function Observed(candidates: seq<SceneObject>, reached: seq<bool>, replies: seq<string>, from: nat): (r: seq<Analysis>)
    requires |reached| == |candidates| == |replies| && from <= |candidates|
    ensures forall x :: x in r ==>
              (from < x.index <= |candidates| && reached[x.index - 1]
               && x.obj == candidates[x.index - 1] && x.confidence == ConfidenceOf(replies[x.index - 1]))
    ensures forall i :: from <= i < |candidates| && reached[i] ==> exists x :: x in r && x.index == i + 1
    decreases |candidates| - from
  {
    if from == |candidates| then []
    else
      var rest := Observed(candidates, reached, replies, from + 1);
      if reached[from] then [Analysis(candidates[from], from + 1, ConfidenceOf(replies[from]))] + rest
      else rest
  }

  /** `analyze_candidates_with_vlm`: the analyses by confidence, highest first; equal confidences
      keep candidate order. */
  function AnalyzeCandidates(candidates: seq<SceneObject>, reached: seq<bool>, replies: seq<string>): (r: seq<Analysis>)
    requires |reached| == |candidates| == |replies|
    ensures forall i, j :: 0 <= i < j < |r| ==> r[i].confidence >= r[j].confidence
    ensures multiset(r) == multiset(Observed(candidates, reached, replies, 0))
    ensures forall k :: WithKey(r, ByConfidence, k) == WithKey(Observed(candidates, reached, replies, 0), ByConfidence, k)
  {
    var r := SortBy(Observed(candidates, reached, replies, 0), ByConfidence);
    assert forall i, j :: 0 <= i < j < |r| ==> KeyLe(ByConfidence(r[i]), ByConfidence(r[j]));
    r
  }

  /** The auto-select rule of `request_user_disambiguation`: at least two analyses and a lead of
      more than 30 points. */
  predicate AutoSelects(analyses: seq<Analysis>) {
    |analyses| > 1 && analyses[0].confidence - analyses[1].confidence > ConfidenceGapThreshold
  }

  /** When the sorted analyses auto-select, the top one leads every other by more than 30. */
  lemma AutoSelectedLeadsAll(candidates: seq<SceneObject>, reached: seq<bool>, replies: seq<string>)
    requires |reached| == |candidates| == |replies|
    requires AutoSelects(AnalyzeCandidates(candidates, reached, replies))
    ensures var r := AnalyzeCandidates(candidates, reached, replies);
      forall j :: 1 <= j < |r| ==> r[0].confidence - r[j].confidence > ConfidenceGapThreshold
  {
  }

  /** A reply asking for the recommendation: empty, or `auto`, `recommend`, `best` in any case
      and surrounded by whitespace. */
  predicate AsksRecommendation(response: string) {
    var t := Strip(Lower(response));
    response == "" || t == "auto" || t == "recommend" || t == "best" || t == ""
  }

  /** `parse_user_response`: the recommendation, or the candidate whose 1-based number the
      reply is, in the original candidate order. */
  function ParseUserResponse(response: string, candidates: seq<SceneObject>, analyses: seq<Analysis>): (r: SceneObject)
    requires |analyses| > 0
    ensures AsksRecommendation(response) ==> r == analyses[0].obj
    ensures !AsksRecommendation(response) ==>
      var n := ParseInt(Strip(Lower(response)));
      && (n.Some? && 1 <= n.value <= |candidates| ==> r == candidates[n.value - 1])
      && (!(n.Some? && 1 <= n.value <= |candidates|) ==> r == analyses[0].obj)
  {
    if AsksRecommendation(response) then analyses[0].obj
    else
      var n := ParseInt(Strip(Lower(response)));
      if n.Some? && 1 <= n.value <= |candidates| then candidates[n.value - 1] else analyses[0].obj
  }

  /** A numeral differs from any word that does not start with a digit. */
  lemma NumeralIsNoWord(n: nat, w: string)
    requires |w| > 0 && !IsDigit(w[0])
    ensures NatToString(n) != w
  {
    var s := NatToString(n);
    assert IsDigit(s[0]);
  }

  /** A numeral is no request for the recommendation and reads back as its number. */
  lemma NumeralReply(n: nat)
    ensures !AsksRecommendation(NatToString(n))
    ensures ParseInt(Strip(Lower(NatToString(n)))) == Some(n as int)
  {
    var s := NatToString(n);
    NumeralIsPlain(n);
    NumeralIsNoWord(n, "auto");
    NumeralIsNoWord(n, "recommend");
    NumeralIsNoWord(n, "best");
    ParseIntOfNatToString(n);
  }

  /** Typing the number of a candidate picks that candidate. */
  lemma TypedNumberPicks(candidates: seq<SceneObject>, analyses: seq<Analysis>, n: nat)
    requires |analyses| > 0 && 1 <= n <= |candidates|
    ensures ParseUserResponse(NatToString(n), candidates, analyses) == candidates[n - 1]
  {
    NumeralReply(n);
  }

  /** `request_user_disambiguation`: the top analysis when it auto-selects, the parsed reply
      otherwise; with no analysis at all the message generation raises. */
  function RequestUserDisambiguation(candidates: seq<SceneObject>, analyses: seq<Analysis>, response: string)
    : (r: Result<SceneObject, string>)
    ensures r.Err? <==> analyses == []
    ensures AutoSelects(analyses) ==> r == Ok(analyses[0].obj)
    ensures !AutoSelects(analyses) && analyses != [] ==> r == Ok(ParseUserResponse(response, candidates, analyses))
  {
    if AutoSelects(analyses) then Ok(analyses[0].obj)
    else if analyses == [] then Err("IndexError")
    else Ok(ParseUserResponse(response, candidates, analyses))
  }

  // ---------------------------------------------------------------------------------------------
  // Navigability

  /** The closeness clause: a large enough face or volume close enough, or anything within 1. */
  predicate CloseEnough(v: real, s: real, d: real) {
    (s > 0.5 && d < 10.0) || (s > 0.15 && d < 4.0) || (s > 0.08 && d < 2.5)
    || (v > 0.005 && d < 2.0) || (v > 0.001 && d < 1.5) || d < 1.0
  }

  /** The `elif` chain of `get_navigate_location`. */
  function CloseChain(v: real, s: real, d: real): bool {
    if s > 0.5 && d < 10.0 then true
    else if s > 0.15 && d < 4.0 then true
    else if s > 0.08 && d < 2.5 then true
    else if v > 0.005 && d < 2.0 then true
    else if v > 0.001 && d < 1.5 then true
    else d < 1.0
  }

  /** The navigability of a visible object of volume `v`, largest face `s`, at distance `d`:
      a small object (`v < 0.01`) only when close enough; a larger one when `v / d > 0.02` or
      close enough. */
  function IsNavigable(visible: bool, v: real, s: real, d: real): (b: bool)
    requires d > 0.0
    ensures b <==> visible && ((v >= 0.01 && v / d > 0.02) || CloseEnough(v, s, d))
  {
    if !visible then false
    else if v < 0.01 then CloseChain(v, s, d)
    else if v / d <= 0.02 then CloseChain(v, s, d)
    else true
  }

  lemma DivAntitone(v: real, d1: real, d2: real)
    requires v >= 0.0 && 0.0 < d1 <= d2
    ensures v / d2 <= v / d1
  {
    var q1, q2 := v / d1, v / d2;
    assert q1 * d1 == v && q2 * d2 == v;
    assert q2 >= 0.0;
    assert q2 * (d2 - d1) >= 0.0;
    assert (q1 - q2) * d1 >= 0.0;
  }

  /** Coming closer never makes an object of non-negative volume unreachable. */
  lemma NavigableWhenCloser(visible: bool, v: real, s: real, d1: real, d2: real)
    requires v >= 0.0 && 0.0 < d1 <= d2
    requires IsNavigable(visible, v, s, d2)
    ensures IsNavigable(visible, v, s, d1)
  {
    DivAntitone(v, d1, d2);
  }

  /** An object whose aabb size and the x and z of its aabb centre are present: the keys read
      before the distance is computed. */
  predicate BoxKeyed(o: SceneObject) {
    && o.aabbSize.x.Some? && o.aabbSize.y.Some? && o.aabbSize.z.Some?
    && o.aabbCenter.x.Some? && o.aabbCenter.z.Some?
  }

  /** The largest face of the box: `max(x z, x y, y z)`. */
  function LargestFace(size: Point): (s: real)
    ensures s >= X(size) * Z(size) && s >= X(size) * Y(size) && s >= Y(size) * Z(size)
    ensures s == X(size) * Z(size) || s == X(size) * Y(size) || s == Y(size) * Z(size)
  {
    Max(Max(X(size) * Z(size), X(size) * Y(size)), Y(size) * Z(size))
  }

  /** The navigability `get_navigate_location` records for one object, failing where the loop
      first fails: a `KeyError` for an object without id or type, none for the floor, a
      `KeyError` for a missing size or centre key and then for a missing agent coordinate, a
      `ZeroDivisionError` for an object whose aabb centre is at the agent's ground position
      (`v / d` is computed whatever the guard before it decided), and only then a `KeyError`
      for a missing visibility. */
  function ObjectNavigability(m: MathLib, o: SceneObject, agent: Point): (r: Result<Option<bool>, string>)
    requires Lawful(m)
    ensures o.objectId.None? || o.objectType.None? ==> r == Err("KeyError")
    ensures o.objectId.Some? && o.objectType == Some("Floor") ==> r == Ok(None)
    ensures (o.objectId.Some? && o.objectType.Some? && o.objectType != Some("Floor")
             && (!BoxKeyed(o) || agent.x.None? || agent.z.None?)) ==> r == Err("KeyError")
    ensures o.objectId.Some? && o.objectType.Some? && o.objectType != Some("Floor")
            && BoxKeyed(o) && agent.x.Some? && agent.z.Some? ==>
      && (r == Err("ZeroDivisionError") <==> X(o.aabbCenter) == X(agent) && Z(o.aabbCenter) == Z(agent))
      && (r == Err("KeyError") <==> o.visible.None? && (X(o.aabbCenter) != X(agent) || Z(o.aabbCenter) != Z(agent)))
    ensures r.Ok? && r.value.Some? ==>
      var d := Hypot(m, X(o.aabbCenter) - X(agent), Z(o.aabbCenter) - Z(agent));
      o.visible.Some? && d > 0.0
      && r.value.value == IsNavigable(o.visible.value, X(o.aabbSize) * Y(o.aabbSize) * Z(o.aabbSize),
                                      LargestFace(o.aabbSize), d)
  {
    if o.objectId.None? || o.objectType.None? then Err("KeyError")
    else if o.objectType == Some("Floor") then Ok(None)
    else if !BoxKeyed(o) || agent.x.None? || agent.z.None? then Err("KeyError")
    else
      var dx := X(o.aabbCenter) - X(agent);
      var dz := Z(o.aabbCenter) - Z(agent);
      var d := Hypot(m, dx, dz);
      HypotZero(m, dx, dz);
      if d == 0.0 then Err("ZeroDivisionError")
      else if o.visible.None? then Err("KeyError")
      else
        Ok(Some(IsNavigable(o.visible.value, X(o.aabbSize) * Y(o.aabbSize) * Z(o.aabbSize), LargestFace(o.aabbSize), d)))
  }

  // ---------------------------------------------------------------------------------------------
  // Action dispatch

  /** The keys of `action_space`, in their order. */
  const ActionNames: seq<string> :=
    ["init", "navigate to", "pickup", "put", "put in", "toggle", "open", "close", "observe", "move forward", "end"]

  /** The interaction actions, which need a legal item. */
  predicate IsInteraction(name: string) {
    name == "pickup" || name == "put" || name == "put in" || name == "toggle" || name == "open" || name == "close"
  }

  /** The actions that run at once, without an item. */
  predicate IsImmediate(name: string) { name == "observe" || name == "init" || name == "move forward" }

  /** What `exec` runs: an action without item, a failure for a missing item, a navigation, an
      interaction, or nothing (`False`). */
  datatype Dispatch =
    | Immediate(name: string)
    | MissingItem(name: string)
    | Navigation(item: string)
    | Interaction(name: string, item: string)
    | NoAction

  /** The action name `name` ends the scan of `exec`. */
  predicate Decides(name: string, action: string, item: Option<string>, navigable: seq<string>, legal: seq<string>) {
    Contains(action, name)
    && (IsImmediate(name) || item.None?
        || (name == "navigate to" && item.value in navigable)
        || (IsInteraction(name) && item.value in legal))
  }

  function Run(name: string, item: Option<string>): Dispatch {
    if IsImmediate(name) then Immediate(name)
    else if item.None? then MissingItem(name)
    else if name == "navigate to" then Navigation(item.value)
    else Interaction(name, item.value)
  }

  /** The first name from `i` on that decides. */
  function Scan(names: seq<string>, i: nat, action: string, item: Option<string>, navigable: seq<string>,
                legal: seq<string>): (r: Option<nat>)
    requires i <= |names|
    ensures r.Some? ==> i <= r.value < |names| && Decides(names[r.value], action, item, navigable, legal)
    ensures r.Some? ==> forall j :: i <= j < r.value ==> !Decides(names[j], action, item, navigable, legal)
    ensures r.None? <==> forall j :: i <= j < |names| ==> !Decides(names[j], action, item, navigable, legal)
    decreases |names| - i
  {
    if i == |names| then None
    else if Decides(names[i], action, item, navigable, legal) then Some(i)
    else Scan(names, i + 1, action, item, navigable, legal)
  }

  /** `exec`: counts the step, then runs the first action name contained in `action` that
      decides, scanning in the order of the action space. */
  function Exec(stepCount: nat, action: string, item: Option<string>, navigable: seq<string>, legal: seq<string>)
    : (r: (nat, Dispatch))
    ensures r.0 == stepCount + 1
    ensures r.1.NoAction? <==> forall j :: 0 <= j < |ActionNames| ==> !Decides(ActionNames[j], action, item, navigable, legal)
    ensures r.1.Navigation? ==> item == Some(r.1.item) && r.1.item in navigable && Contains(action, "navigate to")
    ensures r.1.Interaction? ==> item == Some(r.1.item) && r.1.item in legal && IsInteraction(r.1.name)
                                 && Contains(action, r.1.name)
    ensures r.1.Immediate? ==> IsImmediate(r.1.name) && Contains(action, r.1.name)
  {
    match Scan(ActionNames, 0, action, item, navigable, legal)
    case None => (stepCount + 1, NoAction)
    case Some(i) =>
      RunOfDecided(ActionNames[i], action, item, navigable, legal);
      (stepCount + 1, Run(ActionNames[i], item))
  }

  /** What a deciding name runs: a navigation to a navigable item, an interaction with a legal
      item, or an immediate action, each named in `action`. */
  lemma RunOfDecided(name: string, action: string, item: Option<string>, navigable: seq<string>, legal: seq<string>)
    requires Decides(name, action, item, navigable, legal)
    ensures var d := Run(name, item);
            && (d.Navigation? ==> item == Some(d.item) && d.item in navigable && Contains(action, "navigate to"))
            && (d.Interaction? ==> item == Some(d.item) && d.item in legal && IsInteraction(d.name) && Contains(action, d.name))
            && (d.Immediate? ==> IsImmediate(d.name) && Contains(action, d.name))
  {
  }

  /** "put in" is caught by "put", which comes first in the action space. */
  lemma PutInCaughtByPut(stepCount: nat, item: string, navigable: seq<string>, legal: seq<string>)
    requires item in legal
    ensures Exec(stepCount, "put in", Some(item), navigable, legal).1 == Interaction("put", item)
  {
    var a := "put in";
    assert !Contains(a, "init") by {
      forall p | 0 <= p <= |a| - 4 ensures !OccursAt(a, p, "init") {
        assert a[p..p + 4][0] == a[p];
      }
    }
    NotContainsByChar(a, "navigate to", 'g');
    NotContainsByChar(a, "pickup", 'k');
    assert OccursAt(a, 0, "put");
    assert Scan(ActionNames, 3, a, Some(item), navigable, legal) == Some(3);
  }

  /** "end" never succeeds: with an item no name decides, without one it is a missing item. */
  lemma EndNeverRuns(stepCount: nat, item: Option<string>, navigable: seq<string>, legal: seq<string>)
    ensures var r := Exec(stepCount, "end", item, navigable, legal).1;
      r == if item.None? then MissingItem("end") else NoAction
  {
    var a := "end";
    forall j | 0 <= j < |ActionNames| - 1 ensures !Contains(a, ActionNames[j]) {
      var n := ActionNames[j];
      if |n| <= 3 {
        assert n == "put";
        NotContainsByChar(a, n, 'p');
      }
    }
    assert OccursAt(a, 0, "end");
  }
}

=== FILE: scene.dfy ===
/** The simulator's object metadata as the source reads it: a dictionary whose keys may be missing.
    Each optional field is read with the default of the call site (`obj.get(key, default)`). */
module Scene {
  import opened Wrappers

  /** A `{'x': .., 'y': .., 'z': ..}` dictionary; an absent dictionary is `NoPoint`. */
  datatype Point = Point(x: Option<real>, y: Option<real>, z: Option<real>)

  const NoPoint: Point := Point(None, None, None)

  function X(p: Point): real { p.x.GetOr(0.0) }
  function Y(p: Point): real { p.y.GetOr(0.0) }
  function Z(p: Point): real { p.z.GetOr(0.0) }

  /** A point with every coordinate present. */
  function At(x: real, y: real, z: real): Point { Point(Some(x), Some(y), Some(z)) }

  /** The boolean state flags of an object's metadata. */
  datatype Flag =
    | Interactable | Receptacle | Toggleable | Breakable | Toggled | Broken
    | CanFillWithLiquid | FilledWithLiquid | FillLiquid | Dirtyable | Dirty
    | CanBeUsedUp | UsedUp | Cookable | Cooked | HeatSource | ColdSource
    | Sliceable | Openable | Open | Pickupable | PickedUp | Moveable | Moving

  /** One object of the simulator's metadata. `flags` holds the flags whose value is truthy. */
  datatype SceneObject = SceneObject(
    objectId: Option<string>,
    name: Option<string>,
    objectType: Option<string>,
    position: Point,
    visible: Option<bool>,
    rotation: Point,
    aabbCenter: Point,
    aabbSize: Point,
    parentReceptacles: seq<string>,
    distance: Option<real>,
    flags: set<Flag>,
    mass: Option<real>)

  /** An object carrying only an id, a type, a position and a visibility flag. */
  function Simple(id: string, objectType: string, position: Point, visible: bool): SceneObject {
    SceneObject(Some(id), None, Some(objectType), position, Some(visible), NoPoint,
                NoPoint, NoPoint, [], None, {}, None)
  }

  /** Python truthiness of an optional string: present and non-empty. */
  predicate Truthy(s: Option<string>) { s.Some? && s.value != "" }
}

=== FILE: seqs.dfy ===
/** Generic facts about sequences, shared by the modules that build lists piece by piece. */
module Seqs {
  /** Concatenation is associative; stated once so that a proof can regroup a list without
      asking the solver to rediscover it. */
  lemma ConcatAssoc<T>(p: seq<T>, q: seq<T>, r: seq<T>)
    ensures p + (q + r) == (p + q) + r
  {
  }
}

=== FILE: spatial_calculator.dfy ===
/** Spatial relations between the agent and candidate objects, spatial keywords in an instruction,
    and the scoring that picks the candidate an instruction most likely means
    (evaluate/ai2thor_engine/spatial_enhancement/spatial_calculator.py). Distances are measured on
    the ground plane (x, z); `y` never matters. */
module SpatialCalculator {
  import opened Wrappers
  import opened Text
  import opened RealMath
  import opened Scene
  import opened Ordering
  import Dict

  datatype Direction = Front | Right | Back | Left
  datatype Proximity = Near | Medium | Far
  datatype Containment = In | On

  /** What the calculator knows about one candidate. */
  datatype SpatialRelation = SpatialRelation(
    objectId: string,
    distanceToAgent: real,
    direction: Direction,
    angleToAgent: real,
    isVisible: bool,
    landmarks: map<string, Proximity>,
    containers: map<string, Containment>)

  /** A calculator: the math routines and the agent position its scene collaborator reports
      (`{'x': 0, 'y': 0, 'z': 0}` when there is no collaborator). */
  datatype Calculator = Calculator(m: MathLib, agent: Point)

  ghost predicate Valid(c: Calculator) { Lawful(c.m) }

  /** `obj.get('objectId', obj.get('name', 'unknown'))`. */
  function RelationId(o: SceneObject): string {
    o.objectId.GetOr(o.name.GetOr("unknown"))
  }

  /** `obj.get('visible', True)`. */
  predicate VisibleOrUnknown(o: SceneObject) { o.visible.GetOr(true) }

  /** Distance on the ground plane; a missing coordinate reads as 0. */
  function GroundDistance(m: MathLib, p: Point, q: Point): (d: real)
    requires Lawful(m)
    ensures 0.0 <= d
    ensures d * d == Sq(X(p) - X(q)) + Sq(Z(p) - Z(q))
  {
    Hypot(m, X(p) - X(q), Z(p) - Z(q))
  }

  /** The ground distance is symmetric and blind to height. */
  lemma GroundDistanceSymmetric(m: MathLib, p: Point, q: Point, h: Option<real>)
    requires Lawful(m)
    ensures GroundDistance(m, p, q) == GroundDistance(m, q, p)
    ensures GroundDistance(m, p.(y := h), q) == GroundDistance(m, p, q)
  {
    assert Sq(X(p) - X(q)) == Sq(X(q) - X(p));
    assert Sq(Z(p) - Z(q)) == Sq(Z(q) - Z(p));
  }

  /** Bearing of `obj` seen from `agent`, in degrees clockwise from +z, within [0, 360). */
  function AngleTo(m: MathLib, agent: Point, obj: Point): (a: real)
    requires Lawful(m)
    ensures 0.0 <= a < 360.0
    ensures a == m.atan2Deg(X(obj) - X(agent), Z(obj) - Z(agent))
            || a == m.atan2Deg(X(obj) - X(agent), Z(obj) - Z(agent)) + 360.0
  {
    NormalizeDegrees(m.atan2Deg(X(obj) - X(agent), Z(obj) - Z(agent)))
  }

  /** The quarter of the circle a bearing falls in: `k` counts quarter turns from the front
      quarter centred on 0 degrees. */
  function QuarterDirection(k: int): Direction {
    if k % 4 == 0 then Front else if k % 4 == 1 then Right else if k % 4 == 2 then Back else Left
  }

  /** The direction word for a bearing: four 90-degree sectors centred on 0, 90, 180, 270. */
  function Sector(a: real): (d: Direction)
    requires 0.0 <= a < 360.0
    ensures d == QuarterDirection(((a + 45.0) / 90.0).Floor)
  {
    if 315.0 <= a || a < 45.0 then Front
    else if 45.0 <= a < 135.0 then Right
    else if 135.0 <= a < 225.0 then Back
    else Left
  }

  /** The direction word of `obj` seen from `agent`, computed as the source does, from its own
      `atan2`; it names the sector of the reported bearing. */
  function RelativeDirection(m: MathLib, agent: Point, obj: Point): (d: Direction)
    requires Lawful(m)
    ensures d == Sector(AngleTo(m, agent, obj))
  {
    var raw := m.atan2Deg(X(obj) - X(agent), Z(obj) - Z(agent));
    var deg := if raw < 0.0 then raw + 360.0 else raw;
    if 315.0 <= deg || deg < 45.0 then Front
    else if 45.0 <= deg < 135.0 then Right
    else if 135.0 <= deg < 225.0 then Back
    else Left
  }

  /** An object lies in the direction of the ground axis along which it is strictly farthest
      from the agent: ahead along +z, right along +x, behind along -z, left along -x. */
  lemma DirectionFollowsDominantAxis(m: MathLib, agent: Point, obj: Point)
    requires Lawful(m)
    ensures var dx, dz := X(obj) - X(agent), Z(obj) - Z(agent);
            && (0.0 < dz && -dz < dx < dz ==> RelativeDirection(m, agent, obj) == Front)
            && (0.0 < dx && -dx < dz < dx ==> RelativeDirection(m, agent, obj) == Right)
            && (dz < 0.0 && dz < dx < -dz ==> RelativeDirection(m, agent, obj) == Back)
            && (dx < 0.0 && dx < dz < -dx ==> RelativeDirection(m, agent, obj) == Left)
  {
  }

  /** Landmark object types, matched case-sensitively. */
  predicate IsLandmark(o: SceneObject) {
    o.objectType.Some? && o.objectType.value in ["Window", "Door", "DoorFrame", "Wall"]
  }

  /** The key a landmark is reported under: its type in lower case. */
  function LandmarkKey(o: SceneObject): string { Lower(o.objectType.GetOr("")) }

  /** Near below 1.5 m, far beyond 3.0 m, medium in between. */
  function ProximityOf(d: real): (p: Proximity)
    ensures p == Near <==> d < 1.5
    ensures p == Far <==> d > 3.0
  {
    if d < 1.5 then Near else if d > 3.0 then Far else Medium
  }

  /** No later landmark in `all` shares the key of `all[i]`. */
  predicate LastWithKey(all: seq<SceneObject>, i: int)
    requires 0 <= i < |all|
  {
    forall j :: i < j < |all| && IsLandmark(all[j]) ==> LandmarkKey(all[j]) != LandmarkKey(all[i])
  }

  /** Some landmark of `all` is reported under key `k`. */
  ghost predicate HasLandmarkKey(all: seq<SceneObject>, k: string) {
    exists i :: 0 <= i < |all| && IsLandmark(all[i]) && LandmarkKey(all[i]) == k
  }

  /** `r` records, for each landmark key, the proximity of the last landmark with that key. */
  ghost predicate RecordsLastLandmarks(m: MathLib, p: Point, all: seq<SceneObject>, r: map<string, Proximity>)
    requires Lawful(m)
  {
    forall i :: 0 <= i < |all| && IsLandmark(all[i]) && LastWithKey(all, i) ==>
      LandmarkKey(all[i]) in r && r[LandmarkKey(all[i])] == ProximityOf(GroundDistance(m, p, all[i].position))
  }

  /** Relations of the object at `p` to the landmarks among `all` (the object itself included):
      one entry per landmark type present, from the last landmark of that type. */
  function LandmarkRelations(m: MathLib, p: Point, all: seq<SceneObject>): (r: map<string, Proximity>)
    requires Lawful(m)
    ensures forall k :: k in r <==> HasLandmarkKey(all, k)
    ensures RecordsLastLandmarks(m, p, all, r)
  {
    if |all| == 0 then map[]
    else
      var acc := LandmarkRelations(m, p, all[..|all| - 1]);
      var o := all[|all| - 1];
      var r := if IsLandmark(o) then acc[LandmarkKey(o) := ProximityOf(GroundDistance(m, p, o.position))] else acc;
      LandmarkKeysStep(all, acc, r);
      LandmarkValuesStep(m, p, all, acc, r);
      r
  }

  lemma LandmarkKeysStep(all: seq<SceneObject>, acc: map<string, Proximity>, r: map<string, Proximity>)
    requires |all| > 0
    requires forall k :: k in acc <==> HasLandmarkKey(all[..|all| - 1], k)
    requires r.Keys == if IsLandmark(all[|all| - 1]) then acc.Keys + {LandmarkKey(all[|all| - 1])} else acc.Keys
    ensures forall k :: k in r <==> HasLandmarkKey(all, k)
  {
    var init := all[..|all| - 1];
    var n := |all| - 1;
    forall k ensures k in r <==> HasLandmarkKey(all, k) {
      if HasLandmarkKey(init, k) {
        var i :| 0 <= i < |init| && IsLandmark(init[i]) && LandmarkKey(init[i]) == k;
        assert all[i] == init[i];
      }
      if HasLandmarkKey(all, k) {
        var i :| 0 <= i < |all| && IsLandmark(all[i]) && LandmarkKey(all[i]) == k;
        if i < n {
          assert init[i] == all[i];
        }
      }
    }
  }

  lemma LandmarkValuesStep(m: MathLib, p: Point, all: seq<SceneObject>, acc: map<string, Proximity>, r: map<string, Proximity>)
    requires Lawful(m) && |all| > 0
    requires RecordsLastLandmarks(m, p, all[..|all| - 1], acc)
    requires var o := all[|all| - 1];
             r == if IsLandmark(o) then acc[LandmarkKey(o) := ProximityOf(GroundDistance(m, p, o.position))] else acc
    ensures RecordsLastLandmarks(m, p, all, r)
  {
    var init := all[..|all| - 1];
    var n := |all| - 1;
    forall i | 0 <= i < |all| && IsLandmark(all[i]) && LastWithKey(all, i)
      ensures LandmarkKey(all[i]) in r && r[LandmarkKey(all[i])] == ProximityOf(GroundDistance(m, p, all[i].position))
    {
      if i < n {
        assert init[i] == all[i];
        assert LastWithKey(init, i) by {
          forall j | i < j < |init| && IsLandmark(init[j]) ensures LandmarkKey(init[j]) != LandmarkKey(init[i]) {
            assert init[j] == all[j];
          }
        }
        assert LandmarkKey(all[n]) != LandmarkKey(all[i]) || !IsLandmark(all[n]);
      }
    }
  }

  /** What a parent receptacle id says about containment: inside cabinets and drawers, on anything else. */
  function ContainmentOf(receptacle: string): (c: Containment)
    ensures c == In <==> Contains(receptacle, "Cabinet") || Contains(receptacle, "Drawer")
  {
    if Contains(receptacle, "Cabinet") || Contains(receptacle, "Drawer") then In else On
  }

  /** The key of a receptacle id `Type|x|y|z`: its type in lower case. */
  function ReceptacleKey(receptacle: string): string { Lower(BeforeFirst(receptacle, '|')) }

  /** A receptacle id of the form `Type|x|y|z`, the only kind that yields a container relation. */
  predicate Typed(receptacle: string) { '|' in receptacle }

  /** No later receptacle id of `rs` holding a `|` shares the key of `rs[i]`. */
  predicate LastWithReceptacleKey(rs: seq<string>, i: int)
    requires 0 <= i < |rs|
  {
    forall j :: i < j < |rs| && Typed(rs[j]) ==> ReceptacleKey(rs[j]) != ReceptacleKey(rs[i])
  }

  /** Containment in the parent receptacles whose id holds a `|`, the last one per type winning. */
  function ContainerRelations(receptacles: seq<string>): (r: map<string, Containment>)
    ensures forall k :: k in r <==> exists i :: 0 <= i < |receptacles| && Typed(receptacles[i]) && ReceptacleKey(receptacles[i]) == k
    ensures forall i :: 0 <= i < |receptacles| && Typed(receptacles[i])
                        && LastWithReceptacleKey(receptacles, i)
                        ==> r[ReceptacleKey(receptacles[i])] == ContainmentOf(receptacles[i])
  {
    if |receptacles| == 0 then map[]
    else
      var init := receptacles[..|receptacles| - 1];
      var last := receptacles[|receptacles| - 1];
      var acc := ContainerRelations(init);
      var r := if Typed(last) then acc[ReceptacleKey(last) := ContainmentOf(last)] else acc;
      LastPerKeyStep(receptacles, Typed, ReceptacleKey, ContainmentOf, acc, r);
      r
  }

  /** One step of a table that binds `key(x)` to `val(x)` for every selected `x` of `xs` in turn:
      binding the last element, when selected, to the table of the others gives every selected key
      the value of the last element with that key. */
  lemma LastPerKeyStep<V>(xs: seq<string>, sel: string -> bool, key: string -> string, val: string -> V,
                          acc: map<string, V>, r: map<string, V>)
    requires |xs| > 0
    requires var init := xs[..|xs| - 1];
             forall k :: k in acc <==> exists i :: 0 <= i < |init| && sel(init[i]) && key(init[i]) == k
    requires var init := xs[..|xs| - 1];
             forall i :: 0 <= i < |init| && sel(init[i])
                        && (forall j :: i < j < |init| && sel(init[j]) ==> key(init[j]) != key(init[i]))
                        ==> acc[key(init[i])] == val(init[i])
    requires var last := xs[|xs| - 1];
             r == if sel(last) then acc[key(last) := val(last)] else acc
    ensures forall k :: k in r <==> exists i :: 0 <= i < |xs| && sel(xs[i]) && key(xs[i]) == k
    ensures forall i :: 0 <= i < |xs| && sel(xs[i])
                        && (forall j :: i < j < |xs| && sel(xs[j]) ==> key(xs[j]) != key(xs[i]))
                        ==> key(xs[i]) in r && r[key(xs[i])] == val(xs[i])
  {
    var init := xs[..|xs| - 1];
    var n := |xs| - 1;
    forall k ensures k in r <==> exists i :: 0 <= i < |xs| && sel(xs[i]) && key(xs[i]) == k {
      if k in acc {
        var i :| 0 <= i < |init| && sel(init[i]) && key(init[i]) == k;
        assert xs[i] == init[i];
      }
      if exists i :: 0 <= i < |xs| && sel(xs[i]) && key(xs[i]) == k {
        var i :| 0 <= i < |xs| && sel(xs[i]) && key(xs[i]) == k;
        if i < n {
          assert xs[i] == init[i];
        }
      }
    }
    forall i | 0 <= i < |xs| && sel(xs[i]) && (forall j :: i < j < |xs| && sel(xs[j]) ==> key(xs[j]) != key(xs[i]))
      ensures key(xs[i]) in r && r[key(xs[i])] == val(xs[i])
    {
      if i < n {
        assert init[i] == xs[i];
        forall j | i < j < |init| && sel(init[j]) ensures key(init[j]) != key(init[i]) {
          assert init[j] == xs[j];
        }
        assert key(xs[n]) != key(xs[i]) || !sel(xs[n]);
      }
    }
  }

  /** The relation of one candidate; `all` is the whole candidate list. */
  function Relation(c: Calculator, o: SceneObject, all: seq<SceneObject>): (r: SpatialRelation)
    requires Valid(c)
    ensures r.objectId == RelationId(o)
    ensures r.distanceToAgent == GroundDistance(c.m, c.agent, o.position)
    ensures 0.0 <= r.angleToAgent < 360.0
    ensures r.angleToAgent == AngleTo(c.m, c.agent, o.position)
    ensures r.direction == Sector(r.angleToAgent)
    ensures r.isVisible <==> VisibleOrUnknown(o)
    ensures r.landmarks == LandmarkRelations(c.m, o.position, all)
    ensures r.containers == ContainerRelations(o.parentReceptacles)
  {
    SpatialRelation(RelationId(o), GroundDistance(c.m, c.agent, o.position),
                    RelativeDirection(c.m, c.agent, o.position), AngleTo(c.m, c.agent, o.position),
                    VisibleOrUnknown(o), LandmarkRelations(c.m, o.position, all),
                    ContainerRelations(o.parentReceptacles))
  }

  function RelationPairs(c: Calculator, objs: seq<SceneObject>, all: seq<SceneObject>): (ps: seq<(string, SpatialRelation)>)
    requires Valid(c)
    ensures |ps| == |objs|
    ensures forall i :: 0 <= i < |objs| ==> ps[i] == (RelationId(objs[i]), Relation(c, objs[i], all))
  {
    seq(|objs|, i requires 0 <= i < |objs| => (RelationId(objs[i]), Relation(c, objs[i], all)))
  }

  /** `calculate_relative_positions`: a dictionary from relation id to relation, in first-appearance
      order of the ids; a repeated id keeps its first position and the last candidate's relation. */
  function RelativePositions(c: Calculator, cands: seq<SceneObject>): (d: Dict.Dict<string, SpatialRelation>)
    requires Valid(c)
    ensures Dict.Keys(d) == Dict.Dedup(Dict.Keys(RelationPairs(c, cands, cands)))
    ensures forall i :: 0 <= i < |d| ==> d[i] in RelationPairs(c, cands, cands)
    ensures forall k :: Dict.Get(d, k) == Dict.LastValue(RelationPairs(c, cands, cands), k)
    ensures |cands| > 0 ==> |d| > 0
  {
    var ps := RelationPairs(c, cands, cands);
    EntriesComeFromPairs(ps);
    Dict.FromPairs(ps)
  }

  /** A candidate whose id no later candidate repeats has its own relation under that id: for a
      repeated id the last candidate's relation wins. */
  lemma LastCandidateWins(c: Calculator, cands: seq<SceneObject>, i: nat)
    requires Valid(c)
    requires i < |cands| && forall j :: i < j < |cands| ==> RelationId(cands[j]) != RelationId(cands[i])
    ensures Dict.Get(RelativePositions(c, cands), RelationId(cands[i])) == Some(Relation(c, cands[i], cands))
  {
    Dict.LastValueAt(RelationPairs(c, cands, cands), i);
  }

  /** When the dictionary keeps one relation per candidate, no two candidates share an id and the
      dictionary is the candidates' relations in their order. */
  lemma NoRepeatsKeepsPairs(c: Calculator, cands: seq<SceneObject>)
    requires Valid(c) && |RelativePositions(c, cands)| == |cands|
    ensures RelativePositions(c, cands) == RelationPairs(c, cands, cands)
    ensures forall i :: 0 <= i < |cands| ==> RelativePositions(c, cands)[i] == (RelationId(cands[i]), Relation(c, cands[i], cands))
  {
    var ps := RelationPairs(c, cands, cands);
    Dict.DedupKeepsAll(Dict.Keys(ps));
    Dict.FromDistinctPairs(ps);
  }

  /** Every entry of a dictionary built from pairs is one of the pairs. */
  lemma EntriesComeFromPairs(ps: seq<(string, SpatialRelation)>)
    ensures forall e :: e in Dict.FromPairs(ps) ==> e in ps
    ensures forall i :: 0 <= i < |Dict.FromPairs(ps)| ==> Dict.FromPairs(ps)[i] in ps
    ensures |ps| > 0 ==> |Dict.FromPairs(ps)| > 0
  {
    var d := Dict.FromPairs(ps);
    assert |ps| > 0 ==> ps[0].0 in Dict.Keys(ps);
    forall i | 0 <= i < |d| ensures d[i] in ps {
      var k := d[i].0;
      assert k in Dict.Keys(d);
      Dict.GetAt(d, i);
      var j := Dict.LastValueWitness(ps, k);
      assert d[i] == ps[j];
    }
  }

  /** The kinds of spatial constraint an instruction can carry, in the order of the keyword table. */
  datatype ConstraintKind = Toward(direction: Direction) | NearKind | FarKind

  const KindOrder: seq<ConstraintKind> :=
    [Toward(Left), Toward(Right), Toward(Front), Toward(Back), NearKind, FarKind]

  /** Position of a kind in the keyword table. */
  function KindRank(k: ConstraintKind): nat
  {
    match k
    case Toward(Left) => 0
    case Toward(Right) => 1
    case Toward(Front) => 2
    case Toward(Back) => 3
    case NearKind => 4
    case FarKind => 5
  }

  /** The English and Chinese words that signal each kind of constraint. */
  function Keywords(k: ConstraintKind): seq<string> {
    match k
    case Toward(Left) => ["left", "左", "左边", "左侧"]
    case Toward(Right) => ["right", "右", "右边", "右侧"]
    case Toward(Front) => ["front", "ahead", "前", "前面", "前方"]
    case Toward(Back) => ["back", "behind", "后", "后面", "后方"]
    case NearKind => ["near", "close", "nearby", "靠近", "附近", "近"]
    case FarKind => ["far", "distant", "远", "远离", "远的"]
  }

  /** `[kw for kw in keywords if kw in text]`. */
  function MatchedKeywords(keywords: seq<string>, text: string): (r: seq<string>)
    ensures forall w :: w in r <==> w in keywords && Contains(text, w)
    ensures |r| <= |keywords|
    ensures (forall w :: w in keywords ==> !Contains(text, w)) ==> r == []
  {
    if |keywords| == 0 then []
    else (if Contains(text, keywords[0]) then [keywords[0]] else []) + MatchedKeywords(keywords[1..], text)
  }

  /** A constraint found in an instruction and the keywords that signalled it. */
  datatype Constraint = Constraint(kind: ConstraintKind, matched: seq<string>)

  /** The kinds of a list of constraints. */
  function KindsOf(cs: seq<Constraint>): (ks: seq<ConstraintKind>)
    ensures |ks| == |cs| && forall i :: 0 <= i < |cs| ==> ks[i] == cs[i].kind
  {
    seq(|cs|, i requires 0 <= i < |cs| => cs[i].kind)
  }

  predicate RankIncreasing(ks: seq<ConstraintKind>) {
    forall i, j :: 0 <= i < j < |ks| ==> KindRank(ks[i]) < KindRank(ks[j])
  }

  /** The keywords of kind `k` that occur in `text`. */
  function Found(k: ConstraintKind, text: string): seq<string> {
    MatchedKeywords(Keywords(k), text)
  }

  /** The constraints for those of `kinds` for which `found` yields at least one keyword, in that order. */
  function ConstraintsOf(kinds: seq<ConstraintKind>, found: ConstraintKind -> seq<string>): (r: seq<Constraint>)
    ensures |r| <= |kinds|
  {
    if |kinds| == 0 then []
    else
      var ws := found(kinds[0]);
      var rest := ConstraintsOf(kinds[1..], found);
      if |ws| > 0 then [Constraint(kinds[0], ws)] + rest else rest
  }

  /** Every constraint carries its own kind's keywords as `found` yields them, and at least one. */
  predicate AllMatched(cs: seq<Constraint>, found: ConstraintKind -> seq<string>) {
    forall i :: 0 <= i < |cs| ==> cs[i].matched == found(cs[i].kind) && |cs[i].matched| > 0
  }

  lemma {:induction false} ConstraintsOfMatched(kinds: seq<ConstraintKind>, found: ConstraintKind -> seq<string>)
    ensures AllMatched(ConstraintsOf(kinds, found), found)
  {
    if |kinds| > 0 {
      ConstraintsOfMatched(kinds[1..], found);
    }
  }

  /** `ConstraintsOf` keeps exactly the kinds that `found` yields a keyword for. */
  lemma {:induction false} ConstraintsOfKinds(kinds: seq<ConstraintKind>, found: ConstraintKind -> seq<string>)
    ensures var r := ConstraintsOf(kinds, found);
      forall k :: k in KindsOf(r) <==> k in kinds && |found(k)| > 0
  {
    if |kinds| > 0 {
      var rest := ConstraintsOf(kinds[1..], found);
      ConstraintsOfKinds(kinds[1..], found);
      var ws := found(kinds[0]);
      if |ws| > 0 {
        assert KindsOf([Constraint(kinds[0], ws)] + rest) == [kinds[0]] + KindsOf(rest);
      }
      assert kinds == [kinds[0]] + kinds[1..];
    }
  }

  lemma {:induction false} ConstraintsOfWithin(kinds: seq<ConstraintKind>, found: ConstraintKind -> seq<string>)
    ensures forall k :: k in KindsOf(ConstraintsOf(kinds, found)) ==> k in kinds
  {
    if |kinds| > 0 {
      ConstraintsOfWithin(kinds[1..], found);
      var rest := ConstraintsOf(kinds[1..], found);
      var ws := found(kinds[0]);
      if |ws| > 0 {
        assert KindsOf([Constraint(kinds[0], ws)] + rest) == [kinds[0]] + KindsOf(rest);
      }
    }
  }

  lemma {:induction false} ConstraintsOfNone(kinds: seq<ConstraintKind>, found: ConstraintKind -> seq<string>)
    requires forall k :: k in kinds ==> found(k) == []
    ensures ConstraintsOf(kinds, found) == []
  {
    if |kinds| > 0 {
      ConstraintsOfNone(kinds[1..], found);
    }
  }

  /** `ConstraintsOf` keeps the order of `kinds`. */
  lemma {:induction false} ConstraintsOfOrdered(kinds: seq<ConstraintKind>, found: ConstraintKind -> seq<string>)
    requires RankIncreasing(kinds)
    ensures RankIncreasing(KindsOf(ConstraintsOf(kinds, found)))
  {
    if |kinds| > 0 {
      var rest := ConstraintsOf(kinds[1..], found);
      ConstraintsOfOrdered(kinds[1..], found);
      ConstraintsOfWithin(kinds[1..], found);
      var ws := found(kinds[0]);
      if |ws| > 0 {
        var tail := KindsOf(rest);
        var ks := [kinds[0]] + tail;
        assert KindsOf(ConstraintsOf(kinds, found)) == ks;
        forall i, j | 0 <= i < j < |ks| ensures KindRank(ks[i]) < KindRank(ks[j]) {
          if i == 0 {
            assert ks[j] == tail[j - 1] && tail[j - 1] in tail;
            var m :| 0 <= m < |kinds[1..]| && kinds[1..][m] == ks[j];
            assert kinds[m + 1] == ks[j];
          } else {
            assert ks[i] == tail[i - 1] && ks[j] == tail[j - 1];
          }
        }
      }
    }
  }

  /** `extract_spatial_constraints`: every kind with at least one keyword occurring in the
      lower-cased instruction, in table order, with the keywords that occur. */
  function ExtractConstraints(instruction: string): (r: seq<Constraint>)
    ensures forall k :: k in KindsOf(r) <==> exists w :: w in Keywords(k) && Contains(Lower(instruction), w)
    ensures forall i :: 0 <= i < |r| ==> r[i].matched == MatchedKeywords(Keywords(r[i].kind), Lower(instruction))
    ensures RankIncreasing(KindsOf(r))
  {
    var text := Lower(instruction);
    assert RankIncreasing(KindOrder) by {
      forall i, j | 0 <= i < j < |KindOrder| ensures KindRank(KindOrder[i]) < KindRank(KindOrder[j]) {
        KindRankOfOrder(i);
        KindRankOfOrder(j);
      }
    }
    var found := k => Found(k, text);
    ConstraintsOfMatched(KindOrder, found);
    ConstraintsOfKinds(KindOrder, found);
    ConstraintsOfOrdered(KindOrder, found);
    var r := ConstraintsOf(KindOrder, found);
    forall k ensures k in KindOrder { KindRankIndexes(k); }
    forall k ensures |Found(k, text)| > 0 <==> exists w :: w in Keywords(k) && Contains(text, w) {
      var ws := Found(k, text);
      if |ws| > 0 { assert ws[0] in ws; }
    }
    r
  }

  /** An instruction in which no keyword of the table occurs carries no constraint. */
  lemma NoConstraints(instruction: string)
    requires forall k, w :: w in Keywords(k) ==> !Contains(Lower(instruction), w)
    ensures ExtractConstraints(instruction) == []
  {
    var text := Lower(instruction);
    ConstraintsOfNone(KindOrder, k => Found(k, text));
  }

  /** The word "beside" holds none of the keywords. */
  lemma BesideHoldsNoKeyword()
    ensures ExtractConstraints("beside") == []
  {
    var s := "beside";
    assert Lower(s) == s;
    forall k ensures forall w :: w in Keywords(k) ==> !Contains(s, w) {
      BesideMissesKind(k);
    }
    NoConstraints(s);
  }

  lemma BesideMissesKind(k: ConstraintKind)
    ensures forall w :: w in Keywords(k) ==> !Contains("beside", w)
  {
    var s := "beside";
    match k
    case Toward(Left) =>
      NotContainsByChar(s, "left", 'l');
      NotContainsByChar(s, "左", '左');
      NotContainsByChar(s, "左边", '左');
      NotContainsByChar(s, "左侧", '左');
    case Toward(Right) =>
      NotContainsByChar(s, "right", 'r');
      NotContainsByChar(s, "右", '右');
      NotContainsByChar(s, "右边", '右');
      NotContainsByChar(s, "右侧", '右');
    case Toward(Front) =>
      NotContainsByChar(s, "front", 'f');
      NotContainsByChar(s, "ahead", 'a');
      NotContainsByChar(s, "前", '前');
      NotContainsByChar(s, "前面", '前');
      NotContainsByChar(s, "前方", '前');
    case Toward(Back) =>
      NotContainsByChar(s, "back", 'a');
      NotContainsByChar(s, "behind", 'h');
      NotContainsByChar(s, "后", '后');
      NotContainsByChar(s, "后面", '后');
      NotContainsByChar(s, "后方", '后');
    case NearKind =>
      NotContainsByChar(s, "near", 'n');
      NotContainsByChar(s, "close", 'c');
      NotContainsByChar(s, "nearby", 'n');
      NotContainsByChar(s, "靠近", '靠');
      NotContainsByChar(s, "附近", '附');
      NotContainsByChar(s, "近", '近');
    case FarKind =>
      NotContainsByChar(s, "far", 'f');
      NotContainsByChar(s, "distant", 't');
      NotContainsByChar(s, "远", '远');
      NotContainsByChar(s, "远离", '远');
      NotContainsByChar(s, "远的", '远');
  }

  /** `KindRank` is the position of a kind in `KindOrder`. */
  lemma KindRankIndexes(k: ConstraintKind)
    ensures KindRank(k) < |KindOrder| && KindOrder[KindRank(k)] == k
  {
  }

  lemma KindRankOfOrder(i: nat)
    requires i < |KindOrder|
    ensures KindRank(KindOrder[i]) == i
  {
  }

  /** How well one relation meets one constraint: a direction is met or not; "near" is fully met
      under 1.5 m and half met under 3.0 m; "far" is fully met beyond 3.0 m and half met beyond 1.5 m. */
  function KindScore(rel: SpatialRelation, k: ConstraintKind): (v: real)
    ensures v == 0.0 || v == 0.5 || v == 1.0
    ensures k.Toward? ==> (v == 1.0 <==> rel.direction == k.direction) && v != 0.5
    ensures k == NearKind ==> (v == 1.0 <==> rel.distanceToAgent < 1.5) && (v == 0.0 <==> rel.distanceToAgent >= 3.0)
    ensures k == FarKind ==> (v == 1.0 <==> rel.distanceToAgent > 3.0) && (v == 0.0 <==> rel.distanceToAgent <= 1.5)
  {
    match k
    case Toward(d) => if rel.direction == d then 1.0 else 0.0
    case NearKind =>
      if rel.distanceToAgent < 1.5 then 1.0 else if rel.distanceToAgent < 3.0 then 0.5 else 0.0
    case FarKind =>
      if rel.distanceToAgent > 3.0 then 1.0 else if rel.distanceToAgent > 1.5 then 0.5 else 0.0
  }

  /** Being closer never lowers the "near" score and never raises the "far" score. */
  lemma DistanceScoresMonotone(a: SpatialRelation, b: SpatialRelation)
    requires a.distanceToAgent <= b.distanceToAgent
    ensures KindScore(a, NearKind) >= KindScore(b, NearKind)
    ensures KindScore(a, FarKind) <= KindScore(b, FarKind)
  {
  }

  /** The sum of the per-constraint scores. */
  function SumScores(rel: SpatialRelation, cs: seq<Constraint>): (t: real)
    ensures 0.0 <= t <= |cs| as real
  {
    if |cs| == 0 then 0.0 else KindScore(rel, cs[0].kind) + SumScores(rel, cs[1..])
  }

  function VisibilityBonus(rel: SpatialRelation): real { if rel.isVisible then 0.1 else 0.0 }

  /** `score_spatial_match`: 0.5 without constraints, otherwise the mean per-constraint score with a
      0.1 visibility bonus added to the sum before dividing, capped at 1.0. */
  function ScoreMatch(rel: SpatialRelation, cs: seq<Constraint>): (r: real)
    ensures 0.0 <= r <= 1.0
    ensures |cs| == 0 ==> r == 0.5
  {
    if |cs| == 0 then 0.5
    else
      var n := |cs| as real;
      var t := SumScores(rel, cs) + VisibilityBonus(rel);
      assert 0.0 <= t / n by { DivNonNeg(t, n); }
      Min(t / n, 1.0)
  }

  lemma DivNonNeg(t: real, n: real)
    requires 0.0 <= t && 0.0 < n
    ensures 0.0 <= t / n
  {
  }

  /** A candidate that fully meets every constraint scores 1.0, visible or not. */
  lemma {:induction false} ScoreFullMatch(rel: SpatialRelation, cs: seq<Constraint>)
    requires |cs| > 0
    requires forall i :: 0 <= i < |cs| ==> KindScore(rel, cs[i].kind) == 1.0
    ensures ScoreMatch(rel, cs) == 1.0
  {
    SumAllOnes(rel, cs);
  }

  lemma {:induction false} SumAllOnes(rel: SpatialRelation, cs: seq<Constraint>)
    requires forall i :: 0 <= i < |cs| ==> KindScore(rel, cs[i].kind) == 1.0
    ensures SumScores(rel, cs) == |cs| as real
  {
    if |cs| > 0 {
      SumAllOnes(rel, cs[1..]);
    }
  }

  /** Meeting each constraint at least as well, with the same visibility, never scores lower. */
  lemma {:induction false} ScoreMonotone(a: SpatialRelation, b: SpatialRelation, cs: seq<Constraint>)
    requires a.isVisible == b.isVisible
    requires forall i :: 0 <= i < |cs| ==> KindScore(a, cs[i].kind) <= KindScore(b, cs[i].kind)
    ensures ScoreMatch(a, cs) <= ScoreMatch(b, cs)
  {
    if |cs| > 0 {
      SumMonotone(a, b, cs);
      var n := |cs| as real;
      DivMonotone(SumScores(a, cs) + VisibilityBonus(a), SumScores(b, cs) + VisibilityBonus(b), n);
    }
  }

  lemma {:induction false} SumMonotone(a: SpatialRelation, b: SpatialRelation, cs: seq<Constraint>)
    requires forall i :: 0 <= i < |cs| ==> KindScore(a, cs[i].kind) <= KindScore(b, cs[i].kind)
    ensures SumScores(a, cs) <= SumScores(b, cs)
  {
    if |cs| > 0 {
      SumMonotone(a, b, cs[1..]);
    }
  }

  lemma DivMonotone(x: real, y: real, n: real)
    requires x <= y && 0.0 < n
    ensures x / n <= y / n
  {
    assert y / n - x / n == (y - x) / n;
    DivNonNeg(y - x, n);
  }

  lemma {:induction false} SumAllZeros(rel: SpatialRelation, cs: seq<Constraint>)
    requires forall i :: 0 <= i < |cs| ==> KindScore(rel, cs[i].kind) == 0.0
    ensures SumScores(rel, cs) == 0.0
  {
    if |cs| > 0 {
      SumAllZeros(rel, cs[1..]);
    }
  }

  /** A scored candidate of `find_best_spatial_match`. */
  datatype Scored = Scored(id: string, score: real, rel: SpatialRelation)

  /** The confidence reported for the chosen candidate: its score, plus a further 0.1 (capped
      at 1.0) when it is visible. */
  function Confidence(s: Scored): real {
    if s.rel.isVisible then Min(s.score + 0.1, 1.0) else s.score
  }

  /** The visibility bonus is counted twice: a visible candidate meeting none of `n` constraints
      scores 0.1/n and is reported at 0.1/n + 0.1, so 0.2 under a single constraint. */
  lemma {:induction false} VisibilityCountedTwice(id: string, rel: SpatialRelation, cs: seq<Constraint>)
    requires rel.isVisible && |cs| > 0
    requires forall i :: 0 <= i < |cs| ==> KindScore(rel, cs[i].kind) == 0.0
    ensures ScoreMatch(rel, cs) == 0.1 / |cs| as real
    ensures Confidence(Scored(id, ScoreMatch(rel, cs), rel)) == 0.1 / |cs| as real + 0.1
    ensures |cs| == 1 ==> Confidence(Scored(id, ScoreMatch(rel, cs), rel)) == 0.2
  {
    SumAllZeros(rel, cs);
    var n := |cs| as real;
    assert 0.1 / n <= 0.1 by { assert 0.1 / n * n == 0.1; }
  }

  function ScoreKey(s: Scored): Key { DescKey(s.score) }

  function DistanceKey(e: (string, SpatialRelation)): Key { NumKey(e.1.distanceToAgent) }

  /** `i` indexes the first of the largest values of `xs`. */
  predicate IsFirstMax(xs: seq<real>, i: int) {
    && 0 <= i < |xs|
    && (forall j :: 0 <= j < |xs| ==> xs[j] <= xs[i])
    && (forall j :: 0 <= j < i ==> xs[j] < xs[i])
  }

  /** The score of every relation under the constraints. */
  function Scores(rels: Dict.Dict<string, SpatialRelation>, cs: seq<Constraint>): (xs: seq<real>)
    ensures |xs| == |rels| && forall i :: 0 <= i < |rels| ==> xs[i] == ScoreMatch(rels[i].1, cs)
  {
    seq(|rels|, i requires 0 <= i < |rels| => ScoreMatch(rels[i].1, cs))
  }

  /** The highest-scoring relation under the constraints, the first of several equal ones, with its
      confidence; computed as the source does, by a stable sort on the score, highest first. */
  function BestScored(rels: Dict.Dict<string, SpatialRelation>, cs: seq<Constraint>): (r: (string, real))
    requires |rels| > 0
    ensures exists i :: IsFirstMax(Scores(rels, cs), i) && r.0 == rels[i].0
              && r.1 == Confidence(Scored(rels[i].0, Scores(rels, cs)[i], rels[i].1))
    ensures 0.0 <= r.1 <= 1.0
  {
    var scored := ScoreAll(rels, cs);
    var best := SortBy(scored, ScoreKey)[0];
    BestScoredIndex(rels, cs);
    var i := FirstLeast(scored, ScoreKey);
    assert IsFirstMax(Scores(rels, cs), i);
    (best.id, Confidence(best))
  }

  /** The head of the sorted scored list is the first best-scoring relation. */
  lemma BestScoredIndex(rels: Dict.Dict<string, SpatialRelation>, cs: seq<Constraint>)
    requires |rels| > 0
    ensures var i := FirstLeast(ScoreAll(rels, cs), ScoreKey);
      IsFirstMax(Scores(rels, cs), i) && SortBy(ScoreAll(rels, cs), ScoreKey)[0] == ScoreAll(rels, cs)[i]
  {
    var scored := ScoreAll(rels, cs);
    var xs := Scores(rels, cs);
    SortedScoresHead(scored);
    var i := FirstLeast(scored, ScoreKey);
    assert forall j :: 0 <= j < |rels| ==> scored[j].score == xs[j];
  }

  function ScoreAll(rels: Dict.Dict<string, SpatialRelation>, cs: seq<Constraint>): (scored: seq<Scored>)
    ensures |scored| == |rels|
    ensures forall i :: 0 <= i < |rels| ==> scored[i] == Scored(rels[i].0, ScoreMatch(rels[i].1, cs), rels[i].1)
  {
    seq(|rels|, i requires 0 <= i < |rels| => Scored(rels[i].0, ScoreMatch(rels[i].1, cs), rels[i].1))
  }

  /** The head of the scores sorted highest first is the first of the highest scores. */
  lemma SortedScoresHead(scored: seq<Scored>)
    requires |scored| > 0
    ensures var i := FirstLeast(scored, ScoreKey);
      && SortBy(scored, ScoreKey)[0] == scored[i]
      && (forall j :: 0 <= j < |scored| ==> scored[j].score <= scored[i].score)
      && (forall j :: 0 <= j < i ==> scored[j].score < scored[i].score)
  {
    SortHeadIsFirstLeast(scored, ScoreKey);
    var i := FirstLeast(scored, ScoreKey);
    forall j | 0 <= j < |scored| ensures scored[j].score <= scored[i].score {
      assert KeyLe(ScoreKey(scored[i]), ScoreKey(scored[j]));
    }
    forall j | 0 <= j < i ensures scored[j].score < scored[i].score {
      assert !KeyLe(ScoreKey(scored[j]), ScoreKey(scored[i]));
    }
  }

  /** The relation `min(..., key=distance)` picks: the closest, the first of several equally close. */
  function Closest(es: seq<(string, SpatialRelation)>): (i: nat)
    requires |es| > 0
    ensures i < |es|
    ensures forall j :: 0 <= j < |es| ==> es[i].1.distanceToAgent <= es[j].1.distanceToAgent
    ensures forall j :: 0 <= j < i ==> es[j].1.distanceToAgent > es[i].1.distanceToAgent
  {
    FirstLeast(es, DistanceKey)
  }

  /** The visible relations, in their order. */
  function VisibleEntries(es: seq<(string, SpatialRelation)>): (r: seq<(string, SpatialRelation)>)
    ensures |r| <= |es|
    ensures forall e :: e in r <==> e in es && e.1.isVisible
  {
    if |es| == 0 then [] else (if es[0].1.isVisible then [es[0]] else []) + VisibleEntries(es[1..])
  }

  /** Filtering a concatenation filters each part in turn, so the filter keeps the order. */
  lemma {:induction false} VisibleEntriesAppend(a: seq<(string, SpatialRelation)>, b: seq<(string, SpatialRelation)>)
    ensures VisibleEntries(a + b) == VisibleEntries(a) + VisibleEntries(b)
  {
    if |a| == 0 {
      assert a + b == b;
    } else {
      assert (a + b)[0] == a[0];
      assert (a + b)[1..] == a[1..] + b;
      VisibleEntriesAppend(a[1..], b);
    }
  }

  /** Where the `k`-th visible relation sits among all of them: every visible relation before it
      is one of the first `k` visible ones. */
  function VisiblePos(es: seq<(string, SpatialRelation)>, k: nat): (i: nat)
    requires k < |VisibleEntries(es)|
    ensures i < |es| && es[i] == VisibleEntries(es)[k]
    ensures forall j :: 0 <= j < i && es[j].1.isVisible ==> es[j] in VisibleEntries(es)[..k]
  {
    if es[0].1.isVisible && k == 0 then 0
    else
      var k' := if es[0].1.isVisible then k - 1 else k;
      var p := VisiblePos(es[1..], k');
      VisiblePosStep(es, k, k', p);
      p + 1
  }

  lemma VisiblePosStep(es: seq<(string, SpatialRelation)>, k: nat, k': nat, p: nat)
    requires |es| > 0 && k < |VisibleEntries(es)| && !(es[0].1.isVisible && k == 0)
    requires k' == if es[0].1.isVisible then k - 1 else k
    requires k' < |VisibleEntries(es[1..])|
    requires p < |es[1..]| && es[1..][p] == VisibleEntries(es[1..])[k']
    requires forall j :: 0 <= j < p && es[1..][j].1.isVisible ==> es[1..][j] in VisibleEntries(es[1..])[..k']
    ensures p + 1 < |es| && es[p + 1] == VisibleEntries(es)[k]
    ensures forall j :: 0 <= j < p + 1 && es[j].1.isVisible ==> es[j] in VisibleEntries(es)[..k]
  {
    var vs := VisibleEntries(es);
    var rest := VisibleEntries(es[1..]);
    assert es[p + 1] == es[1..][p];
    if es[0].1.isVisible {
      assert vs == [es[0]] + rest;
      VisibleBefore(es, vs, rest, k, k', p, 1);
    } else {
      assert vs == rest;
      VisibleBefore(es, vs, rest, k, k', p, 0);
    }
  }

  lemma VisibleBefore(es: seq<(string, SpatialRelation)>, vs: seq<(string, SpatialRelation)>,
                      rest: seq<(string, SpatialRelation)>, k: nat, k': nat, p: nat, lead: nat)
    requires |es| > 0 && k < |vs| && k' < |rest| && p < |es| - 1 && k == k' + lead
    requires lead == 1 ==> es[0].1.isVisible && vs == [es[0]] + rest
    requires lead == 0 ==> !es[0].1.isVisible && vs == rest
    requires lead <= 1
    requires forall j :: 0 <= j < p && es[1..][j].1.isVisible ==> es[1..][j] in rest[..k']
    ensures forall j :: 0 <= j < p + 1 && es[j].1.isVisible ==> es[j] in vs[..k]
  {
    forall j | 0 <= j < p + 1 && es[j].1.isVisible ensures es[j] in vs[..k] {
      if j == 0 {
        assert vs[0] == es[0];
      } else {
        assert es[j] == es[1..][j - 1];
        var m :| 0 <= m < k' && rest[m] == es[j];
        assert vs[m + lead] == rest[m];
      }
    }
  }

  /** Relation `i` is the first of the nearest among the relations, or among the visible ones
      when `visibleOnly` holds: what `min(..., key=distance)` picks. */
  predicate FirstNearest(es: seq<(string, SpatialRelation)>, i: nat, visibleOnly: bool) {
    && i < |es| && (visibleOnly ==> es[i].1.isVisible)
    && (forall j :: 0 <= j < |es| && (visibleOnly ==> es[j].1.isVisible) ==>
          es[i].1.distanceToAgent <= es[j].1.distanceToAgent)
    && (forall j :: 0 <= j < i && (visibleOnly ==> es[j].1.isVisible) ==>
          es[j].1.distanceToAgent > es[i].1.distanceToAgent)
  }

  /** The pick without constraints: the first of the nearest visible relations at 0.6 when one is
      visible, else the first of the nearest relations at 0.3. */
  function ClosestPick(rels: seq<(string, SpatialRelation)>): (r: (string, real))
    requires |rels| > 0
    ensures r.1 == 0.6 || r.1 == 0.3
    ensures r.1 == 0.6 <==> exists e :: e in rels && e.1.isVisible
    ensures exists i: nat :: FirstNearest(rels, i, r.1 == 0.6) && rels[i].0 == r.0
  {
    var vis := VisibleEntries(rels);
    if |vis| > 0 then
      var k := Closest(vis);
      var i := VisiblePos(rels, k);
      assert forall j :: 0 <= j < i && rels[j].1.isVisible ==>
        rels[j].1.distanceToAgent > rels[i].1.distanceToAgent by {
        forall j | 0 <= j < i && rels[j].1.isVisible
          ensures rels[j].1.distanceToAgent > rels[i].1.distanceToAgent
        {
          var m :| 0 <= m < k && vis[..k][m] == rels[j];
        }
      }
      assert forall j :: 0 <= j < |rels| && rels[j].1.isVisible ==>
        rels[i].1.distanceToAgent <= rels[j].1.distanceToAgent by {
        forall j | 0 <= j < |rels| && rels[j].1.isVisible
          ensures rels[i].1.distanceToAgent <= rels[j].1.distanceToAgent
        {
          assert rels[j] in vis;
          var m :| 0 <= m < |vis| && vis[m] == rels[j];
        }
      }
      assert FirstNearest(rels, i, true);
      (vis[k].0, 0.6)
    else
      var i := Closest(rels);
      assert vis == [];
      assert FirstNearest(rels, i, false);
      (rels[i].0, 0.3)
  }

  /** `find_best_spatial_match`: no candidate gives no id and 0.0. Without constraints, the
      closest visible relation at 0.6, or the closest of all at 0.3 when none is visible. With
      constraints, the first best-scoring relation at its confidence. */
  function FindBestSpatialMatch(c: Calculator, cands: seq<SceneObject>, instruction: string): (r: (Option<string>, real))
    requires Valid(c)
    ensures r.0.None? <==> |cands| == 0
    ensures r.0.None? ==> r.1 == 0.0
    ensures r.0.Some? ==> exists j :: 0 <= j < |cands| && RelationId(cands[j]) == r.0.value
    ensures 0.0 <= r.1 <= 1.0
    ensures |cands| > 0 && ExtractConstraints(instruction) == [] ==>
              (r.0.value, r.1) == ClosestPick(RelativePositions(c, cands))
    ensures |cands| > 0 && ExtractConstraints(instruction) != [] ==>
              var rels := RelativePositions(c, cands);
              var xs := Scores(rels, ExtractConstraints(instruction));
              exists i :: IsFirstMax(xs, i) && r.0 == Some(rels[i].0)
                && r.1 == Confidence(Scored(rels[i].0, xs[i], rels[i].1))
  {
    if |cands| == 0 then (None, 0.0)
    else
      var cs := ExtractConstraints(instruction);
      var rels := RelativePositions(c, cands);
      var b := PickFrom(rels, cs);
      RelationIdsAreCandidateIds(c, cands, b.0);
      (Some(b.0), b.1)
  }

  /** The choice among the relations: the closest without constraints, the best scoring with. */
  function PickFrom(rels: Dict.Dict<string, SpatialRelation>, cs: seq<Constraint>): (r: (string, real))
    requires |rels| > 0
    ensures r.0 in Dict.Keys(rels)
    ensures 0.0 <= r.1 <= 1.0
    ensures cs == [] ==> r == ClosestPick(rels)
    ensures cs != [] ==> exists i :: (IsFirstMax(Scores(rels, cs), i) && r.0 == rels[i].0
              && r.1 == Confidence(Scored(rels[i].0, Scores(rels, cs)[i], rels[i].1)))
  {
    var b := if cs == [] then ClosestPick(rels) else BestScored(rels, cs);
    assert b.0 in Dict.Keys(rels) by {
      var e :| e in rels && e.0 == b.0;
    }
    b
  }

  lemma RelationIdsAreCandidateIds(c: Calculator, cands: seq<SceneObject>, k: string)
    requires Valid(c)
    requires k in Dict.Keys(RelativePositions(c, cands))
    ensures exists j :: 0 <= j < |cands| && RelationId(cands[j]) == k
  {
    var ps := RelationPairs(c, cands, cands);
    assert k in Dict.Keys(ps);
    var j :| 0 <= j < |ps| && Dict.Keys(ps)[j] == k;
    assert ps[j].0 == RelationId(cands[j]);
  }
}

=== FILE: text.dfy ===
/** Character and string helpers standing in for the Python `str` methods the source uses:
    `lower`, `strip`, `in` (substring test), `split`, `join`, `str(int)` and `int(str)`.
    Character classes are the ASCII ones. */
module Text {
  import opened Wrappers

  predicate IsUpper(c: char) { 'A' <= c <= 'Z' }
  predicate IsDigit(c: char) { '0' <= c <= '9' }
  predicate IsLetter(c: char) { 'a' <= c <= 'z' || 'A' <= c <= 'Z' }

  /** A regular-expression word character (`\w`). */
  predicate IsWordChar(c: char) { IsLetter(c) || IsDigit(c) || c == '_' }

  /** A regular-expression whitespace character (`\s`), also what `str.strip()`, `str.split()` and
      `int()` skip: the ASCII characters `str.isspace()` accepts, which include the four information
      separators U+001C to U+001F. */
  predicate IsSpace(c: char) {
    c == ' ' || c == '\t' || c == '\n' || c == '\r' || c == '\U{B}' || c == '\U{C}'
    || c == '\U{1C}' || c == '\U{1D}' || c == '\U{1E}' || c == '\U{1F}'
  }

  function LowerChar(c: char): (r: char)
    ensures !IsUpper(r)
    ensures !IsUpper(c) ==> r == c
    ensures IsDigit(r) <==> IsDigit(c)
    ensures IsSpace(r) <==> IsSpace(c)
    ensures IsWordChar(r) <==> IsWordChar(c)
  {
    if IsUpper(c) then (c as int - 'A' as int + 'a' as int) as char else c
  }

  /** `s.lower()`: every character lower-cased in place. */
  function Lower(s: string): (r: string)
    ensures |r| == |s|
    ensures forall i :: 0 <= i < |s| ==> r[i] == LowerChar(s[i])
  {
    seq(|s|, i requires 0 <= i < |s| => LowerChar(s[i]))
  }

  lemma LowerIdempotent(s: string)
    ensures Lower(Lower(s)) == Lower(s)
  {
  }

  /** `needle` occurs in `s` starting at index `p`. */
  predicate OccursAt(s: string, p: int, needle: string) {
    0 <= p && p + |needle| <= |s| && s[p..p + |needle|] == needle
  }

  /** Python's `needle in s`. */
  predicate Contains(s: string, needle: string) {
    exists p | 0 <= p <= |s| - |needle| :: OccursAt(s, p, needle)
  }

  /** A needle holding a character that `s` lacks does not occur in `s`. */
  lemma NotContainsByChar(s: string, needle: string, c: char)
    requires c in needle && c !in s
    ensures !Contains(s, needle)
  {
    var i :| 0 <= i < |needle| && needle[i] == c;
    forall p | 0 <= p <= |s| - |needle| ensures !OccursAt(s, p, needle) {
      assert s[p..p + |needle|][i] == s[p + i];
      assert s[p + i] in s;
    }
  }

  /** A needle found at a position is contained. */
  lemma ContainsAt(s: string, p: int, needle: string)
    requires OccursAt(s, p, needle)
    ensures Contains(s, needle)
  {
  }

  /** Number of leading whitespace characters of `s`. */
  function LeadingSpace(s: string): (n: nat)
    ensures n <= |s|
    ensures forall i :: 0 <= i < n ==> IsSpace(s[i])
    ensures n < |s| ==> !IsSpace(s[n])
  {
    if |s| == 0 || !IsSpace(s[0]) then 0 else 1 + LeadingSpace(s[1..])
  }

  /** Number of trailing whitespace characters of `s`. */
  function TrailingSpace(s: string): (n: nat)
    ensures n <= |s|
    ensures forall i :: |s| - n <= i < |s| ==> IsSpace(s[i])
    ensures n < |s| ==> !IsSpace(s[|s| - n - 1])
  {
    if |s| == 0 || !IsSpace(s[|s| - 1]) then 0 else 1 + TrailingSpace(s[..|s| - 1])
  }

  /** `s.strip()`: the longest slice of `s` that neither starts nor ends with whitespace;
      everything cut away is whitespace. */
  function Strip(s: string): (r: string)
    ensures exists i, j :: 0 <= i <= j <= |s| && r == s[i..j]
                           && (forall k :: 0 <= k < i ==> IsSpace(s[k]))
                           && (forall k :: j <= k < |s| ==> IsSpace(s[k]))
    ensures |r| > 0 ==> !IsSpace(r[0]) && !IsSpace(r[|r| - 1])
  {
    var i := LeadingSpace(s);
    var rest := s[i..];
    var t := TrailingSpace(rest);
    assert rest[..|rest| - t] == s[i..|s| - t];
    s[i..|s| - t]
  }

  /** `s.split(sep)[0]` for a one-character separator: the text before the first `sep`. */
  function BeforeFirst(s: string, sep: char): (r: string)
    ensures |r| <= |s| && r == s[..|r|]
    ensures sep !in r
    ensures |r| < |s| ==> s[|r|] == sep
  {
    if |s| == 0 || s[0] == sep then [] else [s[0]] + BeforeFirst(s[1..], sep)
  }

  /** `sep.join(parts)`. */
  function Join(parts: seq<string>, sep: string): string {
    if |parts| == 0 then []
    else if |parts| == 1 then parts[0]
    else parts[0] + sep + Join(parts[1..], sep)
  }

  /** Text found in a string is found in any string that holds it. */
  lemma ContainsWithin(a: string, s: string, b: string, needle: string)
    requires Contains(s, needle)
    ensures Contains(a + s + b, needle)
  {
    var p :| 0 <= p <= |s| - |needle| && OccursAt(s, p, needle);
    var t := a + s + b;
    assert t[|a| + p..|a| + p + |needle|] == s[p..p + |needle|];
    ContainsAt(t, |a| + p, needle);
  }

  /** Every part of a join occurs in it. */
  lemma {:induction false} JoinContains(parts: seq<string>, sep: string, i: int)
    requires 0 <= i < |parts|
    ensures Contains(Join(parts, sep), parts[i])
  {
    var x := parts[0];
    assert x[0..|x|] == x;
    ContainsAt(x, 0, x);
    if |parts| > 1 {
      var rest := Join(parts[1..], sep);
      if i == 0 {
        ContainsWithin([], x, sep + rest, x);
        assert [] + x + (sep + rest) == x + sep + rest;
      } else {
        JoinContains(parts[1..], sep, i - 1);
        ContainsWithin(x + sep, rest, [], parts[i]);
        assert x + sep + rest + [] == x + sep + rest;
      }
    }
  }

  function DigitChar(d: nat): (c: char)
    requires d < 10
    ensures IsDigit(c)
  {
    ('0' as int + d) as char
  }

  function DigitValue(c: char): (d: nat)
    requires IsDigit(c)
    ensures d < 10 && DigitChar(d) == c
  {
    c as int - '0' as int
  }

  /** `str(n)` for a natural number: its decimal digits, most significant first. */
  function NatToString(n: nat): (r: string)
    ensures |r| > 0
    ensures forall i :: 0 <= i < |r| ==> IsDigit(r[i])
    decreases n
  {
    if n < 10 then [DigitChar(n)] else NatToString(n / 10) + [DigitChar(n % 10)]
  }

  /** The value of a non-empty string of decimal digits. */
  function DigitsValue(s: string): nat
    requires forall i :: 0 <= i < |s| ==> IsDigit(s[i])
  {
    if |s| == 0 then 0 else 10 * DigitsValue(s[..|s| - 1]) + DigitValue(s[|s| - 1])
  }

  /** Reading back the digits `str` writes gives the number: `int(str(n)) == n`. */
  lemma {:induction false} DigitsValueOfNatToString(n: nat)
    ensures DigitsValue(NatToString(n)) == n
    decreases n
  {
    var s := NatToString(n);
    if n >= 10 {
      DigitsValueOfNatToString(n / 10);
      assert s[..|s| - 1] == NatToString(n / 10);
    }
  }

  /** Different numbers are written differently. */
  lemma NatToStringInjective(a: nat, b: nat)
    requires NatToString(a) == NatToString(b)
    ensures a == b
  {
    DigitsValueOfNatToString(a);
    DigitsValueOfNatToString(b);
  }

  /** A run of digits in which single underscores may separate digits, as `int()` accepts. */
  predicate IsDigitRun(s: string) {
    |s| > 0 && IsDigit(s[0]) && IsDigit(s[|s| - 1])
    && (forall i :: 0 <= i < |s| ==> IsDigit(s[i]) || s[i] == '_')
    && (forall i :: 0 <= i < |s| - 1 ==> !(s[i] == '_' && s[i + 1] == '_'))
  }

  /** The digits of a digit run with its underscores dropped. */
  function DropUnderscores(s: string): (r: string)
    requires forall i :: 0 <= i < |s| ==> IsDigit(s[i]) || s[i] == '_'
    ensures forall i :: 0 <= i < |r| ==> IsDigit(r[i])
  {
    if |s| == 0 then [] else (if s[0] == '_' then [] else [s[0]]) + DropUnderscores(s[1..])
  }

  /** Python's `int(s)` on base-10 text: surrounding whitespace, an optional sign, then a digit run;
      anything else is a `ValueError`, modelled as `None`. */
  function ParseInt(s: string): (r: Option<int>)
    ensures r.Some? ==> |Strip(s)| > 0
  {
    var t := Strip(s);
    if |t| > 0 && (t[0] == '+' || t[0] == '-') then
      if IsDigitRun(t[1..]) then
        var v: int := DigitsValue(DropUnderscores(t[1..]));
        Some(if t[0] == '-' then -v else v)
      else None
    else if IsDigitRun(t) then Some(DigitsValue(DropUnderscores(t)))
    else None
  }

  /** `int` reads back what `str` writes: `int(str(n)) == n`. */
  lemma ParseIntOfNatToString(n: nat)
    ensures ParseInt(NatToString(n)) == Some(n)
  {
    var s := NatToString(n);
    assert !IsSpace(s[0]) && !IsSpace(s[|s| - 1]);
    assert LeadingSpace(s) == 0;
    assert TrailingSpace(s[0..]) == 0 by { assert s[0..] == s; }
    assert Strip(s) == s;
    assert s[0] != '+' && s[0] != '-';
    assert IsDigitRun(s);
    DropUnderscoresOfDigits(s);
    DigitsValueOfNatToString(n);
  }

  lemma {:induction false} DropUnderscoresOfDigits(s: string)
    requires forall i :: 0 <= i < |s| ==> IsDigit(s[i])
    ensures DropUnderscores(s) == s
  {
    if |s| > 0 {
      DropUnderscoresOfDigits(s[1..]);
    }
  }

  /** A decimal numeral is its own lower case and its own strip, also after a leading blank. */
  lemma NumeralIsPlain(n: nat)
    ensures Lower(NatToString(n)) == NatToString(n)
    ensures Strip(NatToString(n)) == NatToString(n)
    ensures Strip(" " + NatToString(n)) == NatToString(n)
  {
    var s := NatToString(n);
    assert !IsSpace(s[0]) && !IsSpace(s[|s| - 1]);
    LowerOfLowerCase(s);
    StripUnpadded(s);
    StripAfterBlank(s);
  }

  /** Lower-casing leaves a string without capitals as it is. */
  lemma LowerOfLowerCase(s: string)
    requires forall i :: 0 <= i < |s| ==> !IsUpper(s[i])
    ensures Lower(s) == s
  {
  }

  /** A string that neither starts nor ends with whitespace is its own strip. */
  lemma StripUnpadded(s: string)
    requires |s| > 0 ==> !IsSpace(s[0]) && !IsSpace(s[|s| - 1])
    ensures Strip(s) == s
  {
    assert LeadingSpace(s) == 0;
    assert s[0..] == s;
    assert TrailingSpace(s) == 0;
  }

  /** One blank in front of such a string is stripped away. */
  lemma StripAfterBlank(s: string)
    requires |s| > 0 && !IsSpace(s[0]) && !IsSpace(s[|s| - 1])
    ensures Strip(" " + s) == s
  {
    StripAfterSpace(' ', s);
  }

  /** So is any one whitespace character, the information separators U+001C to U+001F included. */
  lemma StripAfterSpace(c: char, s: string)
    requires IsSpace(c) && |s| > 0 && !IsSpace(s[0]) && !IsSpace(s[|s| - 1])
    ensures Strip([c] + s) == s
  {
    var b := [c] + s;
    assert b[1..] == s;
    assert LeadingSpace(s) == 0;
    assert LeadingSpace(b) == 1;
    assert TrailingSpace(s) == 0;
    assert b[1..|b|] == s;
  }

  /** A numeral after one whitespace character strips to the numeral. */
  lemma NumeralAfterSpace(c: char, n: nat)
    requires IsSpace(c)
    ensures Strip([c] + NatToString(n)) == NatToString(n)
  {
    var s := NatToString(n);
    assert !IsSpace(s[0]) && !IsSpace(s[|s| - 1]);
    StripAfterSpace(c, s);
  }

  /** `"\x1c80".strip()` is `"80"`. */
  lemma SeparatorStripped()
    ensures Strip("\U{1C}80") == "80"
  {
    StripAfterSpace('\U{1C}', "80");
    assert "\U{1C}80" == ['\U{1C}'] + "80";
  }

  /** `int("\x1c80")` is 80. */
  lemma SeparatorParsed()
    ensures ParseInt("\U{1C}80") == Some(80)
  {
    SeparatorStripped();
    StripUnpadded("80");
    EightyParsed();
    ParseIntReadsStripped("\U{1C}80", "80");
  }

  lemma EightyParsed()
    ensures ParseInt("80") == Some(80)
  {
    assert NatToString(80) == "80";
    ParseIntOfNatToString(80);
  }

  /** `int` looks at its argument only after stripping it. */
  lemma ParseIntReadsStripped(s: string, t: string)
    requires Strip(s) == Strip(t)
    ensures ParseInt(s) == ParseInt(t)
  {
  }
}

=== FILE: vlm_parser.dfy ===
/** The numbered-reference pattern `(\w+)(\d+)` and its action-prefixed variant, read as Python's
    backtracking regular-expression search, and the leftmost match they find. */
module NumberedPattern {
  import opened Wrappers
  import opened Text

  /** A regex hit: where the search matched, the text of group 1 and the value of group 2. */
  datatype Capture = Capture(start: nat, typeName: string, number: nat)

  /** End of the run of word characters that starts at `q`. */
  function RunEnd(s: string, q: nat): (e: nat)
    requires q <= |s|
    ensures q <= e <= |s|
    ensures forall i :: q <= i < e ==> IsWordChar(s[i])
    ensures e == |s| || !IsWordChar(s[e])
    decreases |s| - q
  {
    if q == |s| || !IsWordChar(s[q]) then q else RunEnd(s, q + 1)
  }

  /** The largest index in [lo, hi) holding a digit. */
  function LastDigit(s: string, lo: nat, hi: nat): (r: Option<nat>)
    requires hi <= |s|
    ensures r.Some? ==> lo <= r.value < hi && IsDigit(s[r.value])
    ensures r.Some? ==> forall i :: r.value < i < hi ==> !IsDigit(s[i])
    ensures r.None? ==> forall i :: lo <= i < hi ==> !IsDigit(s[i])
    decreases hi
  {
    if hi <= lo then None
    else if IsDigit(s[hi - 1]) then Some(hi - 1)
    else LastDigit(s, lo, hi - 1)
  }

  /** `(\w+)(\d+)` can match s[q..j] with group 2 starting at `k`. */
  predicate GroupsAt(s: string, q: nat, k: nat, j: nat) {
    && q < k < j <= |s|
    && (forall i :: q <= i < k ==> IsWordChar(s[i]))
    && (forall i :: k <= i < j ==> IsDigit(s[i]))
  }

  /** The groups of `(\w+)(\d+)` anchored at `q`: greedy `\w+` gives back characters until a digit
      follows, so group 2 is the last digit of the word run and group 1 everything before it. */
  function WordDigitAt(s: string, q: nat): (r: Option<(string, nat)>)
    requires q <= |s|
    ensures r.Some? ==> q + |r.value.0| < |s|
    ensures r.Some? ==> var k := q + |r.value.0|;
      && GroupsAt(s, q, k, k + 1) && r.value.0 == s[q..k] && r.value.1 == DigitValue(s[k])
  {
    var e := RunEnd(s, q);
    match LastDigit(s, q + 1, e)
    case None => None
    case Some(k) => Some((s[q..k], DigitValue(s[k])))
  }

  /** Whatever split of the text at `q` the pattern could use, the regex engine finds one and takes
      the split with the longest group 1 and, for it, a group 2 of exactly one digit. */
  lemma WordDigitAtGreedy(s: string, q: nat, k: nat, j: nat)
    requires q <= |s| && GroupsAt(s, q, k, j)
    ensures WordDigitAt(s, q).Some?
    ensures var k0 := q + |WordDigitAt(s, q).value.0|; k <= k0 && (k == k0 ==> j == k0 + 1)
  {
    var e := RunEnd(s, q);
    assert IsWordChar(s[j - 1]);
    assert j <= e by {
      assert forall i :: q <= i < j ==> IsWordChar(s[i]);
    }
    assert IsDigit(s[k]) && q + 1 <= k < e;
    var k0 := LastDigit(s, q + 1, e).value;
    assert WordDigitAt(s, q) == Some((s[q..k0], DigitValue(s[k0])));
  }

  /** Leftmost search for `(\w+)(\d+)`, from position `p` on. */
  function SearchNumber(s: string, p: nat): (r: Option<Capture>)
    requires p <= |s|
    ensures r.Some? ==> (p <= r.value.start <= |s|
      && WordDigitAt(s, r.value.start) == Some((r.value.typeName, r.value.number))
      && forall q :: p <= q < r.value.start ==> WordDigitAt(s, q).None?)
    ensures r.None? ==> forall q :: p <= q <= |s| ==> WordDigitAt(s, q).None?
    decreases |s| - p
  {
    match WordDigitAt(s, p)
    case Some(g) => Some(Capture(p, g.0, g.1))
    case None => if p == |s| then None else SearchNumber(s, p + 1)
  }

  /** `number_pattern.search(s)`. */
  function NumberSearch(s: string): Option<Capture> { SearchNumber(s, 0) }

  /** Index after the whitespace run starting at `p` (`\s*`). */
  function SkipSpace(s: string, p: nat): (r: nat)
    requires p <= |s|
    ensures p <= r <= |s|
    ensures forall i :: p <= i < r ==> IsSpace(s[i])
    ensures r == |s| || !IsSpace(s[r])
  {
    p + LeadingSpace(s[p..])
  }

  /** The optional verb phrases of the action pattern, in the order the alternation tries them. */
  const ActionPrefixes: seq<string> := ["navigate to", "pick up", "go to", "get", "take"]

  /** `(?:A|B|..)?\s*(\w+)(\d+)` anchored at `p`: each alternative that occurs at `p` is tried in turn,
      the empty one last. The result records where group 1 starts. */
  function ActionFrom(s: string, p: nat, prefixes: seq<string>): (r: Option<(nat, (string, nat))>)
    requires p <= |s|
    ensures r.Some? ==> p <= r.value.0 <= |s| && WordDigitAt(s, r.value.0) == Some(r.value.1)
    ensures WordDigitAt(s, SkipSpace(s, p)).Some? ==> r.Some?
  {
    if prefixes == [] then
      var q := SkipSpace(s, p);
      if WordDigitAt(s, q).Some? then Some((q, WordDigitAt(s, q).value)) else None
    else if OccursAt(s, p, prefixes[0]) && WordDigitAt(s, SkipSpace(s, p + |prefixes[0]|)).Some? then
      var q := SkipSpace(s, p + |prefixes[0]|);
      Some((q, WordDigitAt(s, q).value))
    else ActionFrom(s, p, prefixes[1..])
  }

  /** Leftmost search for the prefixed pattern, from position `p` on. */
  function SearchAction(s: string, p: nat, prefixes: seq<string>): (r: Option<Capture>)
    requires p <= |s|
    ensures r.Some? ==> (p <= r.value.start <= |s|
      && ActionFrom(s, r.value.start, prefixes).Some?
      && ActionFrom(s, r.value.start, prefixes).value.1 == (r.value.typeName, r.value.number)
      && forall q :: p <= q < r.value.start ==> ActionFrom(s, q, prefixes).None?)
    ensures r.None? ==> forall q :: p <= q <= |s| ==> ActionFrom(s, q, prefixes).None?
    decreases |s| - p
  {
    match ActionFrom(s, p, prefixes)
    case Some(g) => Some(Capture(p, g.1.0, g.1.1))
    case None => if p == |s| then None else SearchAction(s, p + 1, prefixes)
  }

  /** `action_pattern.search(s)`. */
  function ActionSearch(s: string): Option<Capture> { SearchAction(s, 0, ActionPrefixes) }

  /** The verb phrase is optional, so the action pattern finds a match exactly when the bare
      pattern does. */
  lemma ActionMatchesIffNumberMatches(s: string)
    ensures ActionSearch(s).Some? <==> NumberSearch(s).Some?
  {
    PrefixedMatchesIffNumberMatches(s, ActionPrefixes);
  }

  lemma PrefixedMatchesIffNumberMatches(s: string, prefixes: seq<string>)
    ensures SearchAction(s, 0, prefixes).Some? <==> NumberSearch(s).Some?
  {
    if NumberSearch(s).Some? {
      var q := NumberSearch(s).value.start;
      var k := q + |NumberSearch(s).value.typeName|;
      assert GroupsAt(s, q, k, k + 1);
      assert !IsSpace(s[q]);
      assert SkipSpace(s, q) == q;
      assert ActionFrom(s, q, prefixes).Some?;
    }
    if SearchAction(s, 0, prefixes).Some? {
      var p := SearchAction(s, 0, prefixes).value.start;
      var q := ActionFrom(s, p, prefixes).value.0;
      assert WordDigitAt(s, q).Some?;
    }
  }

  /** Group 2 is a single digit: "vase12" reads as the type "vase1" numbered 2. */
  lemma TwoDigitNumberSplits()
    ensures NumberSearch("vase1" + "2") == Some(Capture(0, "vase1", 2))
  {
    var s := "vase1" + "2";
    assert GroupsAt(s, 0, 5, 6) by {
      assert forall i :: 0 <= i < 5 ==> s[i] == "vase1"[i];
    }
    WordDigitAtGreedy(s, 0, 5, 6);
    var k0 := |WordDigitAt(s, 0).value.0|;
    assert k0 == 5;
    assert s[0..5] == "vase1";
  }
}

/** Turning a numbered reference in a model's reply ("navigate to vase2") into one of the candidate
    objects, and the sorting strategies used when no such reference resolves. */
module VlmResponseParser {
  import opened Wrappers
  import opened Text
  import opened RealMath
  import opened Scene
  import opened Ordering
  import opened NumberedPattern

  /** The canonical order: by x, then by z, each missing coordinate read as 0. */
  function XZKey(o: SceneObject): Key { Key(X(o.position), Z(o.position)) }

  /** `sort_objects_consistently`. */
  function SortConsistently(objects: seq<SceneObject>): (r: seq<SceneObject>)
    ensures Sorted(r, XZKey)
    ensures multiset(r) == multiset(objects)
    ensures forall k :: WithKey(r, XZKey, k) == WithKey(objects, XZKey, k)
  {
    SortBy(objects, XZKey)
  }

  function TypeText(o: SceneObject): string { Lower(o.objectType.GetOr("")) }

  /** Candidates whose lower-cased type contains the captured type name, in candidate order. */
  function SameType(candidates: seq<SceneObject>, typeName: string): (r: seq<SceneObject>)
    ensures forall o :: o in r <==> o in candidates && Contains(TypeText(o), typeName)
    ensures |r| <= |candidates|
  {
    if candidates == [] then []
    else (if Contains(TypeText(candidates[0]), typeName) then [candidates[0]] else [])
         + SameType(candidates[1..], typeName)
  }

  /** What one pattern's hit yields: an object, too few objects of the type (try the next pattern),
      or an `IndexError` (number 0 with nothing of the type). */
  datatype Pick = Chosen(obj: SceneObject) | TooFew | IndexError

  /** Number `n` picks the `n`-th object of the type in the canonical order; 0 passes the count
      check and Python's index -1 picks the last one. */
  function PickNumbered(c: Capture, candidates: seq<SceneObject>): (r: Pick)
    ensures var same := SameType(candidates, c.typeName);
      && (r.TooFew? <==> |same| < c.number)
      && (r.IndexError? <==> c.number == 0 && same == [])
      && (r.Chosen? ==> r.obj in candidates && Contains(TypeText(r.obj), c.typeName))
      && (r.Chosen? && c.number >= 1 ==> r.obj == SortConsistently(same)[c.number - 1])
      && (r.Chosen? && c.number == 0 ==>
            r.obj == SortConsistently(same)[|same| - 1]
            && forall o :: o in same ==> KeyLe(XZKey(o), XZKey(r.obj)))
  {
    var same := SameType(candidates, c.typeName);
    if |same| < c.number then TooFew
    else
      var sorted := SortConsistently(same);
      assert |sorted| == |same| by {
        assert |multiset(sorted)| == |multiset(same)|;
      }
      if c.number >= 1 then
        assert sorted[c.number - 1] in multiset(same);
        Chosen(sorted[c.number - 1])
      else if same == [] then IndexError
      else
        var last := sorted[|sorted| - 1];
        assert last in multiset(same);
        SortedLastIsGreatest(sorted, XZKey);
        Chosen(last)
  }

  /** `parse_numbered_response`: the reply stripped and lower-cased, the action pattern tried first,
      then the bare pattern; `Err` is the `IndexError` of number 0 with no object of the type. */
  function ParseNumbered(reply: string, candidates: seq<SceneObject>): (r: Result<Option<SceneObject>, string>)
    ensures var text := Lower(Strip(reply));
      && (NumberSearch(text).None? ==> r == Ok(None))
      && (r.Ok? && r.value.Some? ==> r.value.value in candidates)
      && (ActionSearch(text).Some? && PickNumbered(ActionSearch(text).value, candidates).Chosen? ==>
            r == Ok(Some(PickNumbered(ActionSearch(text).value, candidates).obj)))
      && (ActionSearch(text).Some? && PickNumbered(ActionSearch(text).value, candidates).IndexError? ==>
            r == Err("IndexError"))
      && ((ActionSearch(text).None? || PickNumbered(ActionSearch(text).value, candidates).TooFew?)
          && NumberSearch(text).Some? ==>
            var second := PickNumbered(NumberSearch(text).value, candidates);
            && (second.Chosen? ==> r == Ok(Some(second.obj)))
            && (second.IndexError? ==> r == Err("IndexError"))
            && (second.TooFew? ==> r == Ok(None)))
      && (r.Err? <==>
            || (ActionSearch(text).Some? && PickNumbered(ActionSearch(text).value, candidates).IndexError?)
            || ((ActionSearch(text).None? || PickNumbered(ActionSearch(text).value, candidates).TooFew?)
                && NumberSearch(text).Some? && PickNumbered(NumberSearch(text).value, candidates).IndexError?))
      && (r.Err? ==>
            || (ActionSearch(text).Some? && ActionSearch(text).value.number == 0)
            || (NumberSearch(text).Some? && NumberSearch(text).value.number == 0))
  {
    var text := Lower(Strip(reply));
    ActionMatchesIffNumberMatches(text);
    var first := if ActionSearch(text).Some? then PickNumbered(ActionSearch(text).value, candidates) else TooFew;
    match first
    case Chosen(o) => Ok(Some(o))
    case IndexError => Err("IndexError")
    case TooFew =>
      var second := if NumberSearch(text).Some? then PickNumbered(NumberSearch(text).value, candidates) else TooFew;
      match second
      case Chosen(o) => Ok(Some(o))
      case IndexError => Err("IndexError")
      case TooFew => Ok(None)
  }

  /** `contains_numbered_reference`. */
  predicate ContainsNumberedReference(reply: string) { NumberSearch(Lower(reply)).Some? }

  /** `extract_object_info`: group 1 and the digit of group 2. */
  function ExtractObjectInfo(reply: string): (r: Option<(string, nat)>)
    ensures r.Some? <==> ContainsNumberedReference(reply)
    ensures r.Some? ==> (r.value.1 < 10 && |r.value.0| > 0
      && forall i :: 0 <= i < |r.value.0| ==> IsWordChar(r.value.0[i]))
    ensures r.Some? ==> r.value == (NumberSearch(Lower(reply)).value.typeName, NumberSearch(Lower(reply)).value.number)
    ensures r.Some? ==> exists p | 0 <= p <= |Lower(reply)| ::
      && WordDigitAt(Lower(reply), p) == r
      && forall q | 0 <= q < p :: WordDigitAt(Lower(reply), q).None?
  {
    match NumberSearch(Lower(reply))
    case None => None
    case Some(c) =>
      var s := Lower(reply);
      var k := c.start + |c.typeName|;
      assert GroupsAt(s, c.start, k, k + 1);
      assert forall i :: 0 <= i < |c.typeName| ==> c.typeName[i] == s[c.start + i];
      Some((c.typeName, c.number))
  }

  // ---------------------------------------------------------------------------------------------
  // SmartObjectSorting

  datatype SortStrategy = LeftToRight | DistanceBased | VisibilityBased | DefaultOrder

  function StrategyName(s: SortStrategy): string {
    match s
    case LeftToRight => "spatial_left_to_right"
    case DistanceBased => "distance_based"
    case VisibilityBased => "visibility_based"
    case DefaultOrder => "default"
  }

  predicate AnyIn(text: string, words: seq<string>) {
    exists w :: w in words && Contains(text, w)
  }

  const SideWords: seq<string> := ["left", "right", "beside", "next"]
  const NearWords: seq<string> := ["near", "close", "closest"]
  const SeeWords: seq<string> := ["visible", "see", "look"]

  /** `get_optimal_sorting_strategy`: the first word group found in the lower-cased instruction. */
  function OptimalSortingStrategy(instruction: string): (r: SortStrategy)
    ensures var t := Lower(instruction);
      && (r == LeftToRight <==> AnyIn(t, SideWords))
      && (r == DistanceBased <==> !AnyIn(t, SideWords) && AnyIn(t, NearWords))
      && (r == VisibilityBased <==> !AnyIn(t, SideWords) && !AnyIn(t, NearWords) && AnyIn(t, SeeWords))
      && (r == DefaultOrder <==> !AnyIn(t, SideWords) && !AnyIn(t, NearWords) && !AnyIn(t, SeeWords))
  {
    var t := Lower(instruction);
    if AnyIn(t, SideWords) then LeftToRight
    else if AnyIn(t, NearWords) then DistanceBased
    else if AnyIn(t, SeeWords) then VisibilityBased
    else DefaultOrder
  }

  /** A non-empty agent-position dictionary: x and z, and the yaw under `rotation.y`. */
  datatype AgentPose = AgentPose(position: Point, rotationY: Option<real>)

  /** The object's offset along the agent's sideways axis, `dx cos(yaw) + dz sin(yaw)`. */
  function RelativeX(m: MathLib, o: SceneObject, agent: AgentPose): real {
    var yaw := agent.rotationY.GetOr(0.0);
    (X(o.position) - X(agent.position)) * m.cosDeg(yaw) + (Z(o.position) - Z(agent.position)) * m.sinDeg(yaw)
  }

  function WorldXKey(o: SceneObject): Key { NumKey(X(o.position)) }

  function LeftToRightKey(m: MathLib, agent: Option<AgentPose>): SceneObject -> Key {
    if agent.Some? then (o: SceneObject) => NumKey(RelativeX(m, o, agent.value)) else WorldXKey
  }

  /** `sort_by_left_to_right`: by sideways offset from the agent when there is one, by world x
      otherwise; stable. */
  function SortLeftToRight(m: MathLib, objects: seq<SceneObject>, agent: Option<AgentPose>): (r: seq<SceneObject>)
    ensures Sorted(r, LeftToRightKey(m, agent))
    ensures multiset(r) == multiset(objects)
    ensures forall k :: WithKey(r, LeftToRightKey(m, agent), k) == WithKey(objects, LeftToRightKey(m, agent), k)
    ensures agent.None? ==> forall i, j :: 0 <= i < j < |r| ==> X(r[i].position) <= X(r[j].position)
  {
    SortBy(objects, LeftToRightKey(m, agent))
  }

  /** An agent facing yaw 0 orders objects exactly as world x does, wherever it stands. */
  lemma FacingNorthIsWorldOrder(m: MathLib, objects: seq<SceneObject>, agent: AgentPose)
    requires Lawful(m) && agent.rotationY.GetOr(0.0) == 0.0
    ensures SortLeftToRight(m, objects, Some(agent)) == SortLeftToRight(m, objects, None)
  {
    var k1 := LeftToRightKey(m, Some(agent));
    forall o ensures k1(o) == NumKey(X(o.position) - X(agent.position)) {
      assert m.cosDeg(0.0) == 1.0 && m.sinDeg(0.0) == 0.0;
    }
    SortByCongruent(objects, k1, WorldXKey);
  }

  /** `calculate_distance` between the object's and the agent's positions, over x and z. */
  function AgentDistance(m: MathLib, o: SceneObject, agent: AgentPose): real {
    m.sqrt(Sq(X(o.position) - X(agent.position)) + Sq(Z(o.position) - Z(agent.position)))
  }

  function DistanceKey(m: MathLib, agent: AgentPose): SceneObject -> Key {
    (o: SceneObject) => NumKey(AgentDistance(m, o, agent))
  }

  /** `sort_by_distance`: nearest to the agent first, ground distance over x and z; stable. */
  function SortByDistance(m: MathLib, objects: seq<SceneObject>, agent: AgentPose): (r: seq<SceneObject>)
    ensures multiset(r) == multiset(objects)
    ensures forall i, j :: 0 <= i < j < |r| ==> AgentDistance(m, r[i], agent) <= AgentDistance(m, r[j], agent)
    ensures forall k :: WithKey(r, DistanceKey(m, agent), k) == WithKey(objects, DistanceKey(m, agent), k)
  {
    var r := SortBy(objects, DistanceKey(m, agent));
    assert forall i, j :: 0 <= i < j < |r| ==> KeyLe(DistanceKey(m, agent)(r[i]), DistanceKey(m, agent)(r[j]));
    r
  }

  predicate SeenFlag(o: SceneObject) { o.visible.GetOr(false) }

  /** `(not visible, x)`, a missing flag counting as not visible. */
  function VisibilityKey(o: SceneObject): Key {
    Key(if SeenFlag(o) then 0.0 else 1.0, X(o.position))
  }

  /** `sort_by_visibility`: visible objects first, each group by ascending x; stable. */
  function SortByVisibility(objects: seq<SceneObject>): (r: seq<SceneObject>)
    ensures multiset(r) == multiset(objects)
    ensures forall i, j :: 0 <= i < j < |r| && SeenFlag(r[j]) ==> SeenFlag(r[i])
    ensures forall i, j :: 0 <= i < j < |r| && SeenFlag(r[i]) == SeenFlag(r[j]) ==>
      X(r[i].position) <= X(r[j].position)
    ensures forall k :: WithKey(r, VisibilityKey, k) == WithKey(objects, VisibilityKey, k)
  {
    var r := SortBy(objects, VisibilityKey);
    assert forall i, j :: 0 <= i < j < |r| ==> KeyLe(VisibilityKey(r[i]), VisibilityKey(r[j]));
    r
  }

  // ---------------------------------------------------------------------------------------------
  // EnhancedAmbiguityResolver

  /** The result dictionary of the resolver, without its free-text reasoning. */
  datatype Resolution = Resolution(selectedId: Option<string>, selected: Option<SceneObject>,
                                   confidence: real, how: string)

  /** The key of the sort the fallback runs for a strategy. */
  function FallbackKey(m: MathLib, strategy: SortStrategy, agent: Option<AgentPose>): SceneObject -> Key {
    if strategy == DistanceBased && agent.Some? then DistanceKey(m, agent.value)
    else if strategy == VisibilityBased then VisibilityKey
    else LeftToRightKey(m, agent)
  }

  /** `fallback_to_spatial_reasoning`: nothing to choose from fails; otherwise the head of the
      strategy's sort, which is the first candidate with the least key, at 0.6. */
  function FallbackToSpatial(m: MathLib, instruction: string, candidates: seq<SceneObject>,
                             agent: Option<AgentPose>): (r: Resolution)
    requires Lawful(m)
    ensures candidates == [] ==> r == Resolution(None, None, 0.0, "fallback_failed")
    ensures candidates != [] ==>
      var strategy := OptimalSortingStrategy(instruction);
      var o := candidates[FirstLeast(candidates, FallbackKey(m, strategy, agent))];
      && r.selected == Some(o) && r.selectedId == o.objectId && r.confidence == 0.6
      && r.how == "spatial_fallback_" + StrategyName(strategy)
  {
    if candidates == [] then Resolution(None, None, 0.0, "fallback_failed")
    else
      var strategy := OptimalSortingStrategy(instruction);
      var sorted :=
        if strategy == DistanceBased && agent.Some? then SortByDistance(m, candidates, agent.value)
        else if strategy == VisibilityBased then SortByVisibility(candidates)
        else SortLeftToRight(m, candidates, agent);
      SortHeadIsFirstLeast(candidates, FallbackKey(m, strategy, agent));
      var o := sorted[0];
      Resolution(o.objectId, Some(o), 0.6, "spatial_fallback_" + StrategyName(strategy))
  }

  /** Without an agent position a "near" instruction is still tagged `distance_based`, although
      the candidates were ordered left to right by world x. */
  lemma DistanceTagWithoutAgent(m: MathLib, instruction: string, candidates: seq<SceneObject>)
    requires Lawful(m) && candidates != [] && OptimalSortingStrategy(instruction) == DistanceBased
    ensures var r := FallbackToSpatial(m, instruction, candidates, None);
      && r.how == "spatial_fallback_distance_based"
      && r.selected == Some(candidates[FirstLeast(candidates, WorldXKey)])
  {
    FallbackWithKey(m, instruction, candidates, None, WorldXKey);
  }

  /** The fallback's pick and tag, once its sort key is known. */
  lemma FallbackWithKey(m: MathLib, instruction: string, candidates: seq<SceneObject>,
                        agent: Option<AgentPose>, key: SceneObject -> Key)
    requires Lawful(m) && candidates != []
    requires FallbackKey(m, OptimalSortingStrategy(instruction), agent) == key
    ensures var r := FallbackToSpatial(m, instruction, candidates, agent);
      && r.how == "spatial_fallback_" + StrategyName(OptimalSortingStrategy(instruction))
      && r.selected == Some(candidates[FirstLeast(candidates, key)])
  {
  }

  /** Under the visibility strategy the fallback picks a visible candidate whenever there is one. */
  lemma VisibilityFallbackPicksVisible(m: MathLib, instruction: string, candidates: seq<SceneObject>,
                                       agent: Option<AgentPose>, i: nat)
    requires Lawful(m) && OptimalSortingStrategy(instruction) == VisibilityBased
    requires i < |candidates| && SeenFlag(candidates[i])
    ensures SeenFlag(FallbackToSpatial(m, instruction, candidates, agent).selected.value)
  {
    var j := FirstLeast(candidates, VisibilityKey);
    assert KeyLe(VisibilityKey(candidates[j]), VisibilityKey(candidates[i]));
  }

  /** `resolve_object_reference`: a numbered reference that picks a candidate wins at 0.8; every
      other reply falls back to spatial sorting. `Err` is the parser's `IndexError`. */
  function ResolveObjectReference(m: MathLib, instruction: string, candidates: seq<SceneObject>,
                                  reply: string, agent: Option<AgentPose>): (r: Result<Resolution, string>)
    requires Lawful(m)
    ensures r.Err? <==> ContainsNumberedReference(reply) && ParseNumbered(reply, candidates).Err?
    ensures r.Ok? && r.value.confidence == 0.8 <==>
      ContainsNumberedReference(reply) && ParseNumbered(reply, candidates).Ok?
      && ParseNumbered(reply, candidates).value.Some?
    ensures r.Ok? && r.value.confidence == 0.8 ==>
      r.value.how == "vlm_numbered_response" && r.value.selected == ParseNumbered(reply, candidates).value
      && r.value.selected.value in candidates
    ensures r.Ok? && r.value.confidence != 0.8 ==> r.value == FallbackToSpatial(m, instruction, candidates, agent)
    ensures r.Ok? && r.value.selected.Some? ==> r.value.selected.value in candidates
  {
    var parsed := if ContainsNumberedReference(reply) then ParseNumbered(reply, candidates) else Ok(None);
    match parsed
    case Err(e) => Err(e)
    case Ok(Some(o)) => Ok(Resolution(o.objectId, Some(o), 0.8, "vlm_numbered_response"))
    case Ok(None) =>
      var f := FallbackToSpatial(m, instruction, candidates, agent);
      assert f.selected.Some? ==> f.selected.value in candidates;
      Ok(f)
  }

  /** The resolver looks at the agent only through the spatial fallback. */
  lemma ResolveSeesAgentThroughFallback(m: MathLib, instruction: string, candidates: seq<SceneObject>, reply: string,
                                        a1: Option<AgentPose>, a2: Option<AgentPose>)
    requires Lawful(m)
    requires FallbackToSpatial(m, instruction, candidates, a1) == FallbackToSpatial(m, instruction, candidates, a2)
    ensures ResolveObjectReference(m, instruction, candidates, reply, a1)
         == ResolveObjectReference(m, instruction, candidates, reply, a2)
  {
  }

  /** A pose without heading faces north, so unless distance decides the fallback picks the same
      candidate as without any pose. */
  lemma FallbackIgnoresHeadinglessPose(m: MathLib, instruction: string, candidates: seq<SceneObject>, position: Point)
    requires Lawful(m) && OptimalSortingStrategy(instruction) != DistanceBased
    ensures FallbackToSpatial(m, instruction, candidates, Some(AgentPose(position, None)))
         == FallbackToSpatial(m, instruction, candidates, None)
  {
    if candidates != [] {
      var agent := AgentPose(position, None);
      var strategy := OptimalSortingStrategy(instruction);
      if strategy != VisibilityBased {
        var k1 := FallbackKey(m, strategy, Some(agent));
        var k2 := FallbackKey(m, strategy, None);
        FacingNorthIsWorldOrder(m, candidates, agent);
        SortHeadIsFirstLeast(candidates, k1);
        SortHeadIsFirstLeast(candidates, k2);
        assert candidates[FirstLeast(candidates, k1)] == candidates[FirstLeast(candidates, k2)];
      }
    }
  }
}

=== FILE: wrappers.dfy ===
/** Failure-compatible wrappers shared by every module of the model: optional values
    (Python's `None` / dictionary `.get`) and results that carry a raised exception as a value. */
module Wrappers {

  /** An optional value; `None` stands for Python's `None` or a missing dictionary key. */
  datatype Option<+T> = None | Some(value: T) {

    /** The value, or `default` when absent (Python's `d.get(key, default)`). */
    function GetOr(default: T): T {
      match this
      case Some(v) => v
      case None => default
    }
  }

  /** A computation that either returns a value or raises the error `error`. */
  datatype Result<+T, +E> = Ok(value: T) | Err(error: E)
}
